=== FILE: README.md ===
# MoscowProm import/export core in Dafny

This project models the spreadsheet import and export engine of MoscowProm, a
registry of Moscow industrial organizations, together with the small pieces of
pure logic around it. Every operation is a pure function over immutable
datatypes. The store of organizations is a map from INN to an organization
record, and that record holds sequences of metric, tax, asset, product and
meta records. A workbook is a sequence of rows of cells.

The modules follow the program's structure:

- `PyText`, `PyNum`, `Calendar`, `PyValues`, `PyErrors`, `Cells` and `Wrappers`
  model the Python behaviour the core relies on:
  - `str.strip`, `lower` and `in`;
  - `float()`, `int()` and `repr` for floats;
  - `datetime.strptime`/`strftime` for the three date layouts;
  - truthiness;
  - exception messages;
  - the spreadsheet cell.
- `Schema` holds the database records of `app/db/models.py`: column widths,
  nullability and ownership of child records. The four boolean flags are
  plain fields: every modelled creation sets them, so their `False` defaults
  are never observed.
- `Coerce`, `ColumnMap`, `YearSeries` and `ImportV2` model the positional
  importer `process_excel_file` of `app/services/excel_processor_v2.py`:
  - the `safe_*` coercions;
  - the fixed column table, where metric family k of year y sits in column
    47 + 7k + (y − 2017) and tax family k in column 103 + 8k + (y − 2017);
  - the upsert keyed on INN;
  - the delete-and-reinsert of year series;
  - the conditional replacement of assets, products and meta;
  - the per-row exception boundary and the counters.
- `Exporter` models `export_organizations_to_excel`. It proves that every
  metric, tax, investment and export value lands in the column the positional
  importer reads it from and reads back as exported. It also proves that the
  product and meta blocks do not line up with the importer's.
- `LegacyCoerce`, `RowDict` and `LegacyImport` model the older header-driven
  importer `app/services/excel_processor.py`:
  - `dict(zip(headers, row))`;
  - alias chains;
  - the narrower persistence rules;
  - append-only children;
  - missing-data tallies;
  - error classification and the summary.
- `Validation` models the INN validator and the field bounds of the Pydantic
  schemas.
- `Analytics` models three handlers of `app/routers/organization_analytics.py`:
  the full edit, the FNS field diff and the financial-statements year split.
- `Fns` models the FNS registry response normaliser and the empty-result rule.
- `Upload` models the extension check and the error-message classifier of the
  upload endpoint.
- `Rewrite`, `EmojiCleanup`, `TemplateUpdate`, `ColorVars` and `StyleCleanup`
  model the four template-rewriting scripts. Each `re.sub` is modelled as a
  leftmost, non-overlapping scan with a matcher written for its fixed pattern.

Four behaviours of the program that are easy to miss:

- **Integer coercion.** `safe_int` and `parse_int` have no width check: an
  employee count of 2147483648 is read as is, and only the database column
  would refuse it. `Schema.IsInt32` states the storage bound, and no coercion
  enforces it.
- **Non-numeric text.** Both importers turn a non-numeric cell into None,
  silently.
- **Zero values.** The exporter writes a zero value as an empty cell, as it
  does an absent one, because it tests truthiness.
- **Failed rows.** The legacy importer counts a failed row in `rows_skipped`.

## Model

| member | source | states |
|---|---|---|
| Coerce.SafeStr | app/services/excel_processor_v2.py:46-53 | a present result is never the empty string and never longer than `max_len` |
| Coerce.SafeStrNoneIff | app/services/excel_processor_v2.py:46-53 | the result is None exactly for None, "" and whitespace-only text |
| Coerce.SafeStrPrefix | app/services/excel_processor_v2.py:50-53 | the result is a prefix of the stripped text, and the whole stripped text when it fits |
| Coerce.SafeStrIdempotent | app/services/excel_processor_v2.py:46-53 | applying `safe_str` without truncation to its own result changes nothing |
| Coerce.SafeStrTruncationKeepsSpace | app/services/excel_processor_v2.py:50-52 | truncation happens after stripping, so text without edge whitespace cut just after a space (e.g. "ab c" to 3) keeps that space at its end |
| Coerce.SafeFloat | app/services/excel_processor_v2.py:56-65 | blanks, whitespace and dates give None; numbers pass through; bools read as 0/1 |
| Coerce.SafeFloatReadsRepr | app/services/excel_processor_v2.py:56-65 | reading back the text a float prints as gives the same float |
| Coerce.SafeFloatOfText | app/services/excel_processor_v2.py:60-63 | non-blank text is parsed by Python's `float()` rules; unparsable text gives None |
| Coerce.SafeIntAsWritten | app/services/excel_processor_v2.py:68-77 | `int(float(v))` raises OverflowError exactly when the float is infinite |
| Coerce.SafeIntRaisesOnInfinity | app/services/excel_processor_v2.py:74-77 | the cell text "inf" makes the code as written raise, while the corrected coercion gives None |
| Coerce.SafeInt | app/services/excel_processor_v2.py:68-77 | a value exactly for finite floats, truncated toward zero, with no width bound |
| Coerce.SafeIntAgrees | app/services/excel_processor_v2.py:68-77 | the corrected coercion agrees with the code on every input that does not raise |
| Coerce.SafeBool | app/services/excel_processor_v2.py:80-86 | a bool passes through; text is true iff its lower-cased stripped form is a listed word; any other type is False |
| Coerce.SafeBoolWords | app/services/excel_processor_v2.py:80-86 | "Да" is true, "Нет" false, and the numbers 1 and 1.0 are false |
| Coerce.SafeDate | app/services/excel_processor_v2.py:89-105 | dates pass through, blanks give None, and any other result comes from one of the three layouts |
| Coerce.SafeDateAnyLayout | app/services/excel_processor_v2.py:97-103 | text in any one of the three layouts is read by that layout |
| Calendar.FormatsExclusive | app/services/excel_processor_v2.py:98-102 | no text parses under two of the layouts, so the order of attempts never changes the result |
| Calendar.FormatDayMonthYearRoundTrip | app/services/excel_exporter.py:227 | a date written as `%d.%m.%Y` parses back to the same day |
| Cells.CellAt | app/services/excel_processor_v2.py:256-276 | a column past the end of the row reads as empty, any other column as its cell |
| Cells.PyStrEmptyIffBlank | app/services/excel_processor_v2.py:48-53 | `str(value)` is empty only for the empty string |
| ColumnMap.PositionAtColumn | app/services/excel_processor_v2.py:286-304 | decoding the column of any metric, tax, investment or export position gives that position back |
| ColumnMap.ColumnsDistinct | app/services/excel_processor_v2.py:4-25 | distinct positions occupy distinct columns |
| ColumnMap.FirstYearColumns | app/services/excel_processor_v2.py:297-299 | revenue 2017 is column 47, total staff 2017 column 61, Moscow salary 2023 column 102, excise 2024 column 166 |
| ColumnMap.TaxPositionAt | app/services/excel_processor_v2.py:388-395 | decoding column 103 + 8k + (y − 2017) gives back tax family k of year y |
| ColumnMap.NumericPositionsAt | app/services/excel_exporter.py:269-333 | the exporter's walk over families and years visits each position exactly at its column |
| ImportV2.At | app/services/excel_processor_v2.py:297-304 | indexing past the row's end raises IndexError |
| ImportV2.ReadCells | app/services/excel_processor_v2.py:297-304 | a group of cells is read iff every column exists |
| ImportV2.ReadMetricYear | app/services/excel_processor_v2.py:297-342 | a metric year is read iff the row reaches its last family's column, and it carries its own year |
| ImportV2.ReadTaxYear | app/services/excel_processor_v2.py:388-395 | a tax year is read iff the row reaches column 159 + year index |
| ImportV2.Investment | app/services/excel_processor_v2.py:306-319 | investments exist only for 2021–2023 |
| ImportV2.ExportVolume | app/services/excel_processor_v2.py:321-342 | export volume exists only for 2019–2023 |
| ImportV2.MetricYearStoredIff | app/services/excel_processor_v2.py:344-374 | a metric year is stored iff at least one of its values is truthy |
| ImportV2.RowMetricsAreRead | app/services/excel_processor_v2.py:344-374 | every stored metric record is a read year with a truthy value |
| ImportV2.TaxYearStoredIff | app/services/excel_processor_v2.py:397-423 | a tax year is stored iff at least one of its values is truthy |
| ImportV2.FirstYearMetricCells | app/services/excel_processor_v2.py:297-299 | revenue 645670 in column 47 and 223 staff in column 61 become the stored 2017 record |
| ImportV2.NewOrganization | app/services/excel_processor_v2.py:171-277 | a new organization needs the row to hold more than 44 cells, takes the INN and the name cut to 500, and has no children |
| ImportV2.ReplaceBlocks | app/services/excel_processor_v2.py:425-584 | assets, products and meta are each replaced by one record only when the row is long enough and a key column is truthy; otherwise they stay |
| ImportV2.WriteChildrenResult | app/services/excel_processor_v2.py:285-584 | after a child write the series equal the row's kept years; a row too short for the taxes keeps its metrics and loses its taxes |
| ImportV2.AddMetricsResult | app/services/excel_processor_v2.py:286-374 | metric years are appended until the first year whose cells are missing |
| ImportV2.AddTaxesResult | app/services/excel_processor_v2.py:377-423 | tax years are appended until the first year whose cells are missing |
| YearSeries.AddYearsUpTo | app/services/excel_processor_v2.py:286-374 | the year loop keeps what it added before the IndexError that stops it |
| YearSeries.KeptMembers | app/services/excel_processor_v2.py:344-358 | a filtered series holds exactly the kept records of the input |
| ImportV2.RowInn | app/services/excel_processor_v2.py:144-148 | a row has an INN iff column 1 exists and is non-blank |
| ImportV2.StepWithoutInn | app/services/excel_processor_v2.py:144-148 | a row without an INN changes nothing and is only counted as skipped |
| ImportV2.StepKnown | app/services/excel_processor_v2.py:150-169 | an existing organization keeps its descriptive fields |
| ImportV2.UpdateReplacesSeries | app/services/excel_processor_v2.py:163-169 | for an existing INN, both year series are replaced by the row's |
| ImportV2.ShortRowLosesTaxes | app/services/excel_processor_v2.py:163-169 | a row too short for the tax block deletes the taxes and fails without rolling back |
| ImportV2.StepUnknown | app/services/excel_processor_v2.py:171-283 | a new INN either raises and leaves the store alone, or files one organization under that INN |
| ImportV2.CreateStores | app/services/excel_processor_v2.py:171-283 | a created organization is the decoded fixed columns plus the row's kept years |
| ImportV2.StepStore | app/services/excel_processor_v2.py:139-615 | a row changes at most the organization of its own INN and never a descriptive field of an existing one |
| ImportV2.Fail | app/services/excel_processor_v2.py:605-615 | a failed row adds one error and changes no other counter |
| ImportV2.Complete | app/services/excel_processor_v2.py:586-598 | a completed row is counted once; while fewer than 50 details are held it appends one naming the organization's INN, its name or "Без названия", and the flag |
| ImportV2.Record | app/services/excel_processor_v2.py:139-615 | each row lands in exactly one of processed, skipped or failed; new + updated grow by at most one |
| ImportV2.ProcessRowsStore | app/services/excel_processor_v2.py:136-615 | the whole run keeps every existing organization and its descriptive fields |
| ImportV2.ProcessFile | app/services/excel_processor_v2.py:126-639 | processed + skipped + errors equal the row count; organizations = new + updated ≥ processed; the error details are the first 20 errors in row order |
| ImportV2.ProcessRowDetail | app/services/excel_processor_v2.py:586-596 | a completed row, while fewer than 50 details are held, adds the entry of its own INN, flagged new exactly when the INN was not stored |
| PyNum.ParsePyFloat | app/services/excel_processor_v2.py:62-65 | Python's `float()` on text, including "inf" and "nan" |
| Schema.TextWidth | app/db/models.py:14-63 | every text column is bounded between 12 and 1000 characters, except the two Text columns |
| LegacyCoerce.ParseFloat | app/services/excel_processor.py:21-28 | blanks give None and numbers pass through |
| LegacyCoerce.ParseFloatAgrees | app/services/excel_processor.py:21-28 | `parse_float` behaves exactly as the newer `safe_float` |
| LegacyCoerce.ParseFloatIdempotent | app/services/excel_processor.py:21-28 | parsing an already parsed value changes nothing |
| LegacyCoerce.ParseIntAsWritten | app/services/excel_processor.py:31-38 | `int(float(v))` raises OverflowError exactly when the float is infinite |
| LegacyCoerce.ParseIntRaisesOnInfinity | app/services/excel_processor.py:35-38 | "inf" raises in the code as written and gives None once corrected |
| LegacyCoerce.ParseInt | app/services/excel_processor.py:31-38 | a value exactly for finite floats, truncated toward zero |
| LegacyCoerce.ParseIntAgrees | app/services/excel_processor.py:31-38 | `parse_int` behaves exactly as `safe_int`, as written and corrected |
| LegacyCoerce.ParseBool | app/services/excel_processor.py:41-47 | text is true only if its lower-cased form, unstripped, is a listed word |
| LegacyCoerce.ParseBoolImpliesSafeBool | app/services/excel_processor.py:41-47 | whatever `parse_bool` accepts, `safe_bool` accepts too |
| LegacyCoerce.ParseBoolDoesNotStrip | app/services/excel_processor.py:45-46 | " да" is false for `parse_bool` and true for `safe_bool` |
| LegacyCoerce.ParseDate | app/services/excel_processor.py:50-59 | only the `%Y-%m-%d` layout is accepted |
| LegacyCoerce.ParseDateNarrower | app/services/excel_processor.py:50-59 | every date `parse_date` reads, `safe_date` reads the same way |
| LegacyCoerce.ParseDateRejectsDayFirst | app/services/excel_processor.py:57 | an exported `%d.%m.%Y` date is refused by `parse_date` and read by `safe_date` |
| RowDict.GetDictOf | app/services/excel_processor.py:106 | looking up a header gives the cell under its last occurrence among the zipped columns |
| RowDict.LaterDuplicateWins | app/services/excel_processor.py:106 | with a duplicated header, the later column wins |
| RowDict.BoolEqualsOne | app/services/excel_processor.py:106 | as dict keys, True, 1 and 1.0 are the same key, and "1" is a different one |
| RowDict.EmptyKeysMembers | app/services/excel_processor.py:183-191 | the empty-field list names exactly the keys whose value is None or whitespace-only text |
| RowDict.OrAssociative | app/services/excel_processor.py:213-218 | a chain of `or`s picks the first truthy operand however it is grouped |
| LegacyImport.ViewReadsLastColumn | app/services/excel_processor.py:106 | every field is read from the last column carrying its header |
| LegacyImport.RowInn | app/services/excel_processor.py:108-116 | a row has an INN iff the cell is truthy and not blank once stripped |
| LegacyImport.StepSkipsBlankInn | app/services/excel_processor.py:108-116 | a row without an INN changes nothing and only bumps `rows_skipped` |
| LegacyImport.NewOrganization | app/services/excel_processor.py:126-181 | a name that is not text raises TypeError; otherwise the name is cut to 500 and only present text fields are stored |
| LegacyImport.AliasChains | app/services/excel_processor.py:213-218 | an alias chain reads the first truthy variant, and a later alias only when all earlier ones are falsy |
| LegacyImport.ReadMetrics | app/services/excel_processor.py:202-225 | investments are read only from 2021 and export volume only from 2019 |
| LegacyImport.MetricYearStoredIff | app/services/excel_processor.py:227-230 | a metric year is added iff revenue, profit or total staff is truthy |
| LegacyImport.MetricRecordsRead | app/services/excel_processor.py:202-230 | every added metric record is the reading of one of the eight years |
| LegacyImport.NoMetricsIff | app/services/excel_processor.py:232-233 | no metric year is added iff no year passes the rule |
| LegacyImport.TaxYearStoredIff | app/services/excel_processor.py:251-253 | a tax year is added iff the total, profit or property tax is truthy |
| LegacyImport.NoTaxesIff | app/services/excel_processor.py:255-256 | no tax year is added iff no year passes the rule |
| LegacyImport.KeptRulesNarrower | app/services/excel_processor.py:228 | every year the legacy rules keep, the positional importer keeps as well |
| LegacyImport.NarrowerRulesDropYears | app/services/excel_processor.py:228 | a year with only Moscow staff or only land tax is dropped by the legacy rules and kept by the newer ones |
| LegacyImport.KeptAssetsHaveCadastre | app/services/excel_processor.py:276-279 | an added asset record carries a cadastral number |
| LegacyImport.AttachYears | app/services/excel_processor.py:202-310 | children are appended next to the old ones, never replacing them |
| LegacyImport.CountMissing | app/services/excel_processor.py:193-200 | each missing-data counter grows by one exactly when its family is missing from the row |
| LegacyImport.Kind | app/services/excel_processor.py:341-380 | errors are classified by ordered substring checks |
| LegacyImport.Description | app/services/excel_processor.py:341-380 | an unclassified error is described by at most the first 150 characters of its message |
| LegacyImport.ErrorLine | app/services/excel_processor.py:382-383 | an error line reads "type \| name (ИНН: inn) \| Строка Excel: row \| description", with the sheet row written out between the two fixed parts |
| LegacyImport.Fail | app/services/excel_processor.py:332-388 | a failed row bumps `rows_skipped` and appends its error, and nothing else changes |
| LegacyImport.Finish | app/services/excel_processor.py:312-325 | a finished row updates the missing-data tallies; when its name is text or absent it is processed and adds one detail for its INN carrying the flag the step passes |
| LegacyImport.StepFlagsCounts | app/services/excel_processor.py:312-325 | as written, a row's detail says new exactly when the batch, counting the row, has created more organizations than it updated |
| LegacyImport.UpdateAfterTwoCreations | app/services/excel_processor.py:103-325 | rows creating A, creating B and updating A: the third detail is flagged new by the running-count rule and not new by the per-row rule |
| LegacyImport.StepFlagsNew | app/services/excel_processor.py:119-125 | by the per-row rule, a row's detail says new exactly when its INN was not stored before |
| LegacyImport.StepStore | app/services/excel_processor.py:118-181 | a row only adds children and can add only the organization of its own INN |
| LegacyImport.ProcessRowsStore | app/services/excel_processor.py:103-388 | the run never deletes or rewrites anything already stored |
| LegacyImport.Summarize | app/services/excel_processor.py:401-411 | only the first 10 error lines and the first 50 details are returned |
| LegacyImport.ProcessFile | app/services/excel_processor.py:62-411 | processed + skipped equal the row count; processed ≤ organizations ≤ processed + errors; no missing-data counter exceeds the organization count |
| Exporter.HeaderRow | app/services/excel_exporter.py:26-185 | the header has 209 columns |
| Exporter.HeaderLayout | app/services/excel_exporter.py:76-128 | the header names each numeric position at the column the importer reads it from |
| Exporter.ExportRowWidth | app/services/excel_exporter.py:219-394 | every data row is as wide as the header, whatever children the organization has, and starts with its 1-based position |
| Exporter.ExportRows | app/services/excel_exporter.py:204-396 | rows follow input order, numbered from 1 |
| Exporter.ExportSheet | app/services/excel_exporter.py:187-396 | the sheet is the header followed by one row per organization |
| Exporter.ExportRowNumeric | app/services/excel_exporter.py:269-348 | each metric, tax, investment and export value lands in its position's column |
| Exporter.YearIndexKeys | app/services/excel_exporter.py:206-212 | the year index holds exactly the years of the records |
| Exporter.YearIndexLastWins | app/services/excel_exporter.py:206-212 | when several records share a year, the last one is exported |
| Exporter.FloatOrEmptyReadBack | app/services/excel_exporter.py:272 | a missing or zero value is written as "" and reads back as None |
| Exporter.ExportedMetricYear | app/services/excel_exporter.py:269-300 | the importer reads each exported metric year back as exported |
| Exporter.ExportedTaxYear | app/services/excel_exporter.py:302-333 | the importer reads each exported tax year back as exported |
| Exporter.GuardedReadBack | app/services/excel_exporter.py:335-348 | investments and export volume read back only in the years they exist |
| Exporter.FixedCells | app/services/excel_exporter.py:219-266 | the descriptive block is 47 cells and starts with the row number |
| Exporter.AssetCells | app/services/excel_exporter.py:350-365 | the asset block is 13 cells, also for an organization without assets |
| Exporter.ProductCells | app/services/excel_exporter.py:367-381 | the product block is 12 cells, also for an organization without products |
| Exporter.AdditionalCells | app/services/excel_exporter.py:383-394 | the additional block is 9 cells |
| Exporter.ProductNameNotReadBack | app/services/excel_exporter.py:367-381 | column 188 is always "", so the importer reads no product name, and the name sits in the importer's product-types column |
| Exporter.IndustryPairReadBack | app/services/excel_exporter.py:386 | column 201 holds "spark / directory", and the importer reads a record with neither industry back as "/" |
| Analytics.OptFloat | app/routers/organization_analytics.py:284-288 | a falsy value, including 0, is stored as None; anything else is `float()` of it |
| Analytics.OptInt | app/routers/organization_analytics.py:294-298 | a falsy value is stored as None; anything else is `int()` of it |
| Analytics.MetricOf | app/routers/organization_analytics.py:279-335 | a metric row carries the entry's year and None exactly for its falsy fields |
| Analytics.RowsAreSelected | app/routers/organization_analytics.py:279-335 | a family's new rows are the builds of exactly the entries that pass its filter, in order |
| Analytics.TaxesOf | app/routers/organization_analytics.py:342-387 | a tax row carries the entry's year and None exactly for its falsy fields |
| Analytics.Values | app/routers/organization_analytics.py:395-431 | an asset or product row is built iff every column converts |
| Analytics.Family | app/routers/organization_analytics.py:274-340 | a family whose key is absent keeps its rows |
| Analytics.Assign | app/routers/organization_analytics.py:269-272 | only existing attributes are assigned, and a repeated key's last value wins |
| Analytics.MetaEdit | app/routers/organization_analytics.py:467-488 | an existing meta record is updated in place, otherwise exactly one is created |
| Analytics.NewMeta | app/routers/organization_analytics.py:480-487 | a created meta record takes each of its columns from the payload |
| Analytics.FullEditReplaces | app/routers/organization_analytics.py:269-488 | families whose key is absent from the payload are untouched |
| Analytics.FullEditMetrics | app/routers/organization_analytics.py:274-335 | a present metrics key replaces the rows by the entries with a truthy year |
| Analytics.UpdateFull | app/routers/organization_analytics.py:257-510 | an unknown id gives 404; any exception gives 500 and leaves the store unchanged |
| Analytics.SyncReportsChanges | app/routers/organization_analytics.py:569-579 | `updated_fields` lists exactly the mapped fields whose FNS value is truthy and differs, in mapping order |
| Analytics.SyncValues | app/routers/organization_analytics.py:569-579 | a changed field takes the FNS value and every other field keeps its own |
| Analytics.SyncUntouched | app/routers/organization_analytics.py:569-579 | fields outside the mapping are never changed |
| Analytics.SyncIdempotent | app/routers/organization_analytics.py:569-579 | with the store holding each value as given, a second sync with the same data reports no changes |
| Analytics.FieldMappingDistinct | app/routers/organization_analytics.py:558-567 | no field is the target of two mapping entries |
| Analytics.Precheck | app/routers/organization_analytics.py:526-541 | the FNS refresh proceeds iff the organization has an INN and the service is enabled with a key |
| Analytics.Refresh | app/routers/organization_analytics.py:556-579 | the refresh reports exactly the changed fields and keeps the attribute set |
| Analytics.UpdateFromFns | app/routers/organization_analytics.py:517-609 | a successful refresh writes the synced fields and the time, and reports the changed ones |
| Analytics.Refreshed | app/routers/organization_analytics.py:556-598 | the success response lists the changed fields |
| Analytics.Scaled | app/routers/organization_analytics.py:686 | a present figure is scaled by 1000, and None stays None |
| Analytics.ZeroRevenueKept | app/routers/organization_analytics.py:685-698 | a zero revenue is written as 0 by the FNS import but would be dropped as falsy by the full edit |
| Analytics.FirstWithYear | app/routers/organization_analytics.py:672-679 | an existing year is found at its first row |
| Analytics.Overwrite | app/routers/organization_analytics.py:684-689 | revenue and profit are overwritten only by present values, and nothing else changes |
| Analytics.ParsedYearsMembers | app/routers/organization_analytics.py:666-670 | a year is handled iff some key parses to it as an integer; other keys are ignored |
| Analytics.Step | app/routers/organization_analytics.py:666-702 | each year lands in `updated_years` if it existed before the import and in `imported_years` otherwise |
| Analytics.SplitCounts | app/routers/organization_analytics.py:666-702 | the two lists together hold every parsed year once |
| Analytics.SplitExisting | app/routers/organization_analytics.py:672-702 | updated years existed before the import and imported years did not |
| Analytics.SplitTotals | app/routers/organization_analytics.py:663-702 | imported and updated years together are a permutation of the parsed years |
| Analytics.SplitOrigin | app/routers/organization_analytics.py:672-702 | an imported year was absent and an updated year present before the import |
| Analytics.ImportReply | app/routers/organization_analytics.py:711-720 | both year lists are returned sorted, with `total_years` their combined length |
| Analytics.ImportReport | app/routers/organization_analytics.py:711-720 | `total_years` equals the number of parsed years |
| Analytics.Sort | app/routers/organization_analytics.py:716-717 | `sorted` returns an ordered permutation |
| Analytics.FinancialsPrecheck | app/routers/organization_analytics.py:622-646 | an INN that is not 10 characters is refused with 400 before the service is asked |
| Analytics.ImportFinancialsAsWritten | app/routers/organization_analytics.py:655 | the handler as written never changes the store |
| Analytics.ImportFinancialsAlwaysFails | app/routers/organization_analytics.py:648-655 | with a 10-character INN and the service enabled, the handler as written always ends in 500 |
| Analytics.ImportFinancials | app/routers/organization_analytics.py:613-735 | the corrected handler either refuses and changes nothing, or stores the split and reports it |
| Analytics.ImportStatements | app/routers/organization_analytics.py:657-735 | no statements gives 404; otherwise the split's rows are stored and the years reported |
| Fns.Section | app/services/fns_api.py:77-89 | the section is chosen in the order ЮЛ, ИП, НР |
| Fns.NoSectionIsLegalEntity | app/services/fns_api.py:88-89 | with no section, the type is ЮЛ and the whole payload is used |
| Fns.FullNameOf | app/services/fns_api.py:104 | the joined surname, name and patronymic carry no edge whitespace |
| Fns.PartsKept | app/services/fns_api.py:123-126 | no parts iff no truthy component; every part is the text of a truthy component, and every truthy component's text is a part |
| Fns.PartsPositions | app/services/fns_api.py:123-126 | there are as many parts as truthy components, and the component with n truthy components before it is part n: the parts follow the key order |
| Fns.AddressOf | app/services/fns_api.py:121-127 | an address without components is empty |
| Fns.AddressSkipsMissing | app/services/fns_api.py:123-127 | missing components are skipped, with ", " between the rest |
| Fns.Normalize | app/services/fns_api.py:67-143 | normalising fails with AttributeError exactly when the section or the ИП name is not a dict |
| Fns.EntrepreneurNames | app/services/fns_api.py:101-107 | for an ИП the full name is "ИП " + name and the head is the name |
| Fns.EntrepreneurWithoutName | app/services/fns_api.py:103-106 | an ИП without a name gets "" and "ИП " |
| Fns.LegalEntityNames | app/services/fns_api.py:108-118 | short and full names fall back on each other, and the head is set only from nested dicts |
| Fns.StatusDefault | app/services/fns_api.py:130-131 | an empty status becomes "Действующее" |
| Fns.Fallbacks | app/services/fns_api.py:94 | ОГРН falls back to ОГРНИП and ДатаРег to ДатаОГРН |
| Fns.AsDict | app/services/fns_api.py:92-141 | the normalised record is rendered as a dict of at least the nine fields every response carries |
| Fns.OrganizationByInn | app/services/fns_api.py:31-65 | a result exists only for a dict response with truthy `items` |
| Fns.NoItemsNothingFound | app/services/fns_api.py:47-49 | a missing or empty `items` gives None |
| Fns.FoundIsFirstItem | app/services/fns_api.py:51-58 | the result is the normalised first item |
| Validation.Length | app/api/schemas.py:11-18 | a length violation is reported iff the length is out of bounds |
| Validation.ValidateInn | app/api/schemas.py:20-28 | an INN is accepted iff it is all digits of length 10 or 12, and is then returned unchanged |
| Validation.InnAccepted | app/api/schemas.py:12-28 | the INN field passes iff it is present, all digits, and 10 or 12 long |
| Validation.ElevenDigitsRejected | app/api/schemas.py:26-27 | 11 digits pass the length bound and fail the validator |
| Validation.LetterRejected | app/api/schemas.py:24-25 | a non-digit is reported as such, whatever the length |
| Validation.CreateAcceptedIff | app/api/schemas.py:8-34 | a creation passes iff every bound and the INN rule hold |
| Validation.AcceptedFitsColumns | app/api/schemas.py:11-12 | an accepted name and INN fit their database columns |
| Validation.UpdateAcceptedIff | app/api/schemas.py:37-46 | every update field is optional and bounded only when present |
| Validation.Amount | app/api/schemas.py:65-70 | an amount passes iff it is absent or not negative |
| Validation.YearErrors | app/api/schemas.py:64 | a year passes iff it lies in 2000–2100 |
| Validation.MetricsAcceptedIff | app/api/schemas.py:61-70 | a metrics payload passes iff its year and every amount are within bounds |
| Validation.AmountEdges | app/api/schemas.py:65 | infinity passes, NaN and −1 fail, and 0 passes |
| Upload.Classify | app/routers/upload.py:39-56 | the first matching rule decides the message, and the fallback quotes at most 200 characters |
| Upload.ClassifyCases | app/routers/upload.py:42-53 | a rule message comes out iff some rule matches |
| Upload.FallbackIsNoRuleText | app/routers/upload.py:52-53 | the fallback can never be mistaken for a rule message |
| Upload.DuplicateBeforeNotNull | app/routers/upload.py:46-49 | a duplicate key is reported before a missing field |
| Upload.ForeignKeyIgnoresCase | app/routers/upload.py:44 | the foreign-key rule matches whatever the letter case |
| Upload.UploadFile | app/routers/upload.py:21-56 | a bad extension gives 400; a processing failure gives 500 with the classified message |
| Upload.RejectedBeforeProcessing | app/routers/upload.py:22-23 | a rejected file's response does not depend on processing |
| Upload.ExtensionCase | app/routers/upload.py:22 | the extension check is case-sensitive |
| EmojiCleanup.RemoveRange | remove_all_emoji.py:64-65 | removing a range leaves no character of it |
| EmojiCleanup.RemoveRangesIsWithout | remove_all_emoji.py:63-65 | removing the ranges one by one is deleting every character in any of them |
| EmojiCleanup.CollapseNoDoubleSpace | remove_all_emoji.py:68 | after collapsing there are no two spaces in a row |
| EmojiCleanup.CollapseOnlySpaces | remove_all_emoji.py:68 | collapsing removes only spaces, so tabs and newlines are kept |
| EmojiCleanup.DropOnlySpaces | remove_all_emoji.py:71 | dropping spaces before "</" removes only spaces |
| EmojiCleanup.DropGuarantees | remove_all_emoji.py:68-71 | no space is left before "</", and no double space is created |
| EmojiCleanup.CleanUpGuarantees | remove_all_emoji.py:63-73 | the clean-up leaves no emoji, no double space and no space before "</" |
| EmojiCleanup.RemoveAllEmojiGuarantees | remove_all_emoji.py:57-73 | the whole function keeps exactly the non-space characters outside the ranges, after the replacements |
| EmojiCleanup.ReplaceEachMisses | remove_all_emoji.py:60-61 | a character in no replacement key is kept |
| EmojiCleanup.ReplacedCross | remove_all_emoji.py:39 | '✕' becomes '×' |
| EmojiCleanup.CrossClasses | remove_all_emoji.py:14-17 | '✕' lies in a removed range and '×' does not |
| EmojiCleanup.ReplacementsBeforeRanges | remove_all_emoji.py:59-65 | a replacement happens before range removal, so '✕' survives as '×' |
| EmojiCleanup.ProcessTemplate | remove_all_emoji.py:75-97 | a template is written only when its content changes |
| TemplateUpdate.DeleteKeysUnchangedIff | update_templates.py:40-41 | deleting the keys changes the text iff one occurs in it |
| TemplateUpdate.KeysShape | update_templates.py:9-24 | every key is an emoji followed by a space |
| TemplateUpdate.EmojiWithoutSpaceKept | update_templates.py:39-41 | an emoji not followed by a space is left alone |
| TemplateUpdate.PlainTextHoldsNoKey | update_templates.py:9-24 | text without emoji is left alone |
| TemplateUpdate.InsertLinkNamesStylesheet | update_templates.py:43-48 | the stylesheet is linked afterwards iff it was linked already or the page has both "<head>" and "</title>" |
| TemplateUpdate.InsertLinkIdempotent | update_templates.py:43-48 | a second link pass adds nothing |
| TemplateUpdate.UpdateTemplate | update_templates.py:32-55 | a template is written only when its content changes |
| TemplateUpdate.UpdateLinksOnce | update_templates.py:32-55 | once a template is updated, another link pass leaves it as it is |
| TemplateUpdate.StylesLeftAlone | update_templates.py:26-30 | the style patterns are never applied, so a page without emoji or a title is not rewritten |
| ColorVars.DeclarationEnd | replace_colors.py:27-32 | a match is the property, a colon, whitespace and the colour, with ASCII and basic Cyrillic case ignored |
| ColorVars.FirstDeclaration | replace_colors.py:28 | the replacement keeps the property as written and adds ": " and the variable |
| ColorVars.ReplaceColorsNeedsColon | replace_colors.py:23-33 | a text without a colon is left alone |
| ColorVars.NoColonNoChange | replace_colors.py:23-33 | no map entry changes a text without a colon |
| ColorVars.DeclarationIgnoresWhatFollows | replace_colors.py:27-32 | whatever text follows a matched declaration, it still matches and ends right after the colour |
| ColorVars.LongerColourKeepsTail | replace_colors.py:27-32 | '#333' also rewrites the start of '#333333', leaving "333" behind |
| ColorVars.BorderShorthandKept | replace_colors.py:28 | a `border` shorthand is not one of the four properties and keeps its colour |
| ColorVars.UpperCaseDeclarationMatches | replace_colors.py:27-31 | property and colour match whatever their case |
| ColorVars.ProcessTemplate | replace_colors.py:35-53 | a template is written only when its content changes |
| StyleCleanup.RadiusRemoved | clean_styles.py:10 | a border-radius declaration is removed with the whitespace around it and an optional newline |
| StyleCleanup.EmptyRadiusKept | clean_styles.py:10 | a border-radius with no value is kept |
| StyleCleanup.GradientMatches | clean_styles.py:13-17 | a gradient background ends at the first ')' and an optional ';' |
| StyleCleanup.GradientReplaced | clean_styles.py:13-17 | a gradient background becomes 'background: var(--accent-dark);' |
| StyleCleanup.UnclosedGradientKept | clean_styles.py:13-17 | a gradient without a ')' is kept |
| StyleCleanup.TranslateRemoved | clean_styles.py:20 | a `transform: translateY…` declaration is removed |
| StyleCleanup.ShadowNormalised | clean_styles.py:23-27 | a shadow '0 Npx Mpx …;' becomes the fixed shadow |
| StyleCleanup.BareShadowKept | clean_styles.py:23-27 | a shadow with nothing after its two lengths is kept |
| StyleCleanup.CleanStylesNeedsKeys | clean_styles.py:7-29 | a text holding none of the four keywords is left alone |
| StyleCleanup.MatchersKeyed | clean_styles.py:7-29 | each pattern matches only where its keyword occurs |
| StyleCleanup.CleanTemplate | clean_styles.py:31-58 | index.html is skipped, and other templates are written only when changed |

## Left out

- Database sessions are not modelled: flushing, commits (including the commit every 100 rows), rollbacks and constraint failures. The store is a map that changes as soon as a row is applied. The positional importer never rolls back inside a row, and the model does not invent a rollback.
- Database-side failures are not modelled: NOT NULL on the name, column widths and 32-bit integers. `Schema.IsInt32` states the 32-bit bound and `Schema.Storable` the bounds of an organization's own columns and of the integers of its metric and tax records; the widths of the child tables' text columns are not stated, and nothing checks any of these bounds against the store. A poisoned session and the final failed commit are not modelled.
- Workbook loading, cell styling, column widths and the in-memory file of the exporter are left out: they are library I/O and presentation. Rows are sequences of cells.
- Logging and `print` are left out in every file. So is the count of changed characters that `remove_all_emoji.py` prints.
- HTTP and file I/O become parameters: the FNS response body, the configuration, the clock, the uploaded file's processing result and the template text. The FNS HTTP client, its singleton and `close`, and the file discovery, reading and writing of the four scripts are left out.
- The HTML page handlers of `app/routers/organization_analytics.py` (lines 25-250), its trend percentages, and the routers for listings, dashboards and CRUD are left out: they are request plumbing and rendering.
- `app/schemas.py` is a verbatim copy of `app/api/schemas.py`, and both share one model.
- `str()` of a float is modelled for exact decimals only. Binary rounding and the shortest-repr search are not modelled, and float arithmetic is modelled on exact decimals.
- `float()` on text does not model underscores between digits, non-ASCII digits or surrounding Unicode whitespace beyond Python's `str.isspace` list.
- `lower()` is modelled for ASCII and basic Cyrillic letters only. `\d` and `isdigit()` are modelled as ASCII digits.
- `hasattr(org, key)` is modelled as the key being an attribute of the organization record.
- Exception messages are simplified to the parts the classifiers read.
- Validation.ValidateInn: `str.isdigit` also accepts non-ASCII digits such as '²'; the model accepts ASCII digits only.
- StyleCleanup.ShadowNormalised: the lemma is stated through the helper `LengthAt` for `\s+\d+px`, not through a character-level description of the pattern.
- ColorVars.ReplaceColors and StyleCleanup.CleanStyles have no contract of their own. Their properties are stated on the matchers and on `Rewrite.Sub` through the lemmas listed above.
- Analytics.ImportFinancials: the FNS statements are a parameter, because the service method the handler calls does not exist (see Findings). The split is modelled as if the call returned them.
- ImportV2.ReadMetricYear: reads both staff columns with the corrected `Coerce.SafeInt` (see Findings). The program's `safe_int` raises OverflowError on an "inf" cell after the row was counted as new or updated, the organization flushed and, for a stored INN, its old metrics and taxes deleted; the row then ends as an error with its earlier years kept. The model reads such a cell as None and completes the row.
- ImportV2.MetricYearStoredIff: holds of the corrected staff reading; for a row with an "inf" staff cell the program raises mid-row instead (see `ImportV2.ReadMetricYear` above).
- ImportV2.AddMetricsResult: holds of the corrected staff reading; for a row with an "inf" staff cell the program raises mid-row instead (see `ImportV2.ReadMetricYear` above).
- ImportV2.WriteChildrenResult: holds of the corrected staff reading; for a row with an "inf" staff cell the program raises mid-row instead (see `ImportV2.ReadMetricYear` above).
- ImportV2.UpdateReplacesSeries: holds of the corrected staff reading; for a row with an "inf" staff cell the program raises mid-row instead (see `ImportV2.ReadMetricYear` above).
- ImportV2.CreateStores: holds of the corrected staff reading; for a row with an "inf" staff cell the program raises mid-row instead (see `ImportV2.ReadMetricYear` above).
- ImportV2.ProcessFile: holds of the corrected staff reading; for a row with an "inf" staff cell the program raises mid-row instead (see `ImportV2.ReadMetricYear` above).
- LegacyImport.ReadMetrics: reads the staff columns with the corrected `LegacyCoerce.ParseInt` (see Findings). The program's `parse_int` raises on an "inf" cell after the organization was counted, the contacts and coordinates tallies bumped and the earlier metric years added; no taxes, assets, products or detail follow and the row becomes an error line. The model reads such a cell as None and completes the row.
- LegacyImport.MetricYearStoredIff: holds of the corrected staff reading; for a row with an "inf" staff cell the program raises mid-row instead (see `LegacyImport.ReadMetrics` above).
- LegacyImport.NoMetricsIff: holds of the corrected staff reading; for a row with an "inf" staff cell the program raises mid-row instead (see `LegacyImport.ReadMetrics` above).
- LegacyImport.ProcessFile: holds of the corrected staff reading; for a row with an "inf" staff cell the program raises mid-row instead (see `LegacyImport.ReadMetrics` above).
- Analytics.SyncIdempotent: column types are not modelled. The store keeps the registration date as the string FNS sends, while the program's DateTime column reloads it as a datetime after the commit, so the program reports `registration_date` as changed on every later refresh.
- ColorVars.DeclarationEnd: case is folded through `Rewrite.LowerChar`, which covers ASCII and basic Cyrillic. `re.IGNORECASE` also matches 'K' (U+212A) with 'k' and 'ı' or 'İ' with 'i', so a property spelled with those is rewritten by the program and not by the model.
- Deleting an organization with its children (app/db/models.py:69-73) is not modelled: no modelled operation deletes an organization.
- PyNum.ParsePyFloat: the range of a double is not modelled. Python's `float()` turns text beyond it into infinity ("1e400") and text smaller than half the smallest subnormal into zero ("1e-400"); the model keeps the exact decimal. So a revenue of "1e-400" is truthy in the model and falsy in the program.
- Coerce.SafeFloat: an int cell is converted exactly. The program's `float(n)` raises OverflowError for a magnitude of at least 2^1024 − 2^970, which the `except (ValueError, TypeError)` does not catch, and rounds above 2^53.
- Coerce.SafeInt: an int cell is returned unchanged. The program's `int(float(n))` raises OverflowError past the double range and rounds n above 2^53.
- LegacyCoerce.ParseFloat: the same gap as `Coerce.SafeFloat` for int cells past the double range or above 2^53.
- LegacyCoerce.ParseInt: the same gap as `Coerce.SafeInt` for int cells past the double range or above 2^53.
- Analytics.OptFloat: a JSON integer is converted exactly. The program's `float()` raises OverflowError past the double range, answered with 500, and rounds above 2^53.
- Coerce.SafeIntAsWritten: raises only for text that parses to infinity. The program also raises OverflowError for text whose float overflows, such as "1e400", and for an int cell of magnitude at least 2^1024 − 2^970, for which the model answers the exact integer; above 2^53 the program's `int(float(n))` rounds to a double, where the model keeps n.
- LegacyCoerce.ParseIntAsWritten: the same gap as `Coerce.SafeIntAsWritten`: "1e400" and an int cell past the double range raise in the program and are read as integers by the model, and an int above 2^53 is rounded by the program only.

## Findings

| source | as written | input that shows it | evidently intended | confidence | as-written member | corrected member |
|---|---|---|---|---|---|---|
| app/services/excel_processor_v2.py:68-77 | `int(float(v))` catches only ValueError and TypeError | cell text "inf" in a staff column (in the program also any text whose float overflows, such as "1e400"): `int(float(v))` raises OverflowError mid-row, after the row was counted and, for a stored INN, its old metrics and taxes deleted; the row ends as an error with its earlier years kept | None, as for any other value that is not a number | not executed | Coerce.SafeIntRaisesOnInfinity | Coerce.SafeInt |
| app/services/excel_processor.py:31-38 | the same `int(float(v))` with the same two exceptions | cell text "inf" in a staff column (in the program also any text whose float overflows, such as "1e400"): the row raises after being counted and after its earlier metric years were added | None | not executed | LegacyCoerce.ParseIntRaisesOnInfinity | LegacyCoerce.ParseInt |
| app/services/excel_processor.py:322 | `is_new` is `org.id and organizations_new > organizations_updated`, a comparison of running totals | rows creating A, creating B, then updating A: the update is flagged new (two creations against one update) | whether this row created the organization | not executed | LegacyImport.UpdateAfterTwoCreations | LegacyImport.StepFlagsNew |
| app/routers/organization_analytics.py:655 | calls `fns_service.get_financial_statements`, which the FNS service does not define | any organization with a 10-character INN while the service is enabled: AttributeError, answered with 500 | fetch the statements and split them into imported and updated years | not executed | Analytics.ImportFinancialsAlwaysFails | Analytics.ImportFinancials |

=== FILE: analytics.dfy ===
/**
 * The organization analytics endpoints that change data: the full edit
 * (`update_organization_full`), the refresh from the tax registry
 * (`update_organization_from_fns`) and the import of yearly revenue and
 * profit (`import_financials_from_fns`).
 *
 * The database is a map from organization id to the organization's state.
 * A handler either commits all its changes or, when anything raises inside
 * its `try`, rolls back and leaves the state as it was. Answers are a JSON
 * body with status 200 or an `HTTPException` with its status and detail.
 */
module Analytics {
  import opened Wrappers
  import opened PyErrors
  import opened PyText
  import opened PyNum
  import opened Calendar
  import opened PyValues
  import Schema
  import Fns

  /** An organization's columns by attribute name, and its child rows as the database holds them. */
  datatype OrgState = OrgState(
    attrs: map<string, Value>,
    metrics: seq<Schema.Metrics>,
    taxes: seq<Schema.Taxes>,
    assets: seq<seq<Value>>,
    products: seq<seq<Value>>,
    meta: seq<map<string, Value>>)

  type Store = map<int, OrgState>

  datatype Response =
    | Done(content: Object)
    | Refused(status: nat, detail: string)

  /** `getattr(org, k)` for a column; a missing column reads as `None`. */
  function Attr(attrs: map<string, Value>, k: string): Value {
    if k in attrs then attrs[k] else Null
  }

  /** The INN as its `String(12)` column hands it back: text, with NULL read as "". */
  function Inn(o: OrgState): string {
    match Attr(o.attrs, "inn")
    case Str(s) => s
    case _ => ""
  }

  /** Calling `.get` or `.items` on a value: only a dict has them. */
  function AsObject(v: Value): (r: Result<Object, Exception>)
    ensures r.Ok? <==> v.Dict?
    ensures r.Err? ==> r.error.AttributeError?
  {
    if v.Dict? then Ok(v.entries) else Err(AttributeError("object has no attribute 'get'"))
  }

  /** `for x in v`: a list gives its items, a string its characters, a dict its keys. */
  function Iterate(v: Value): (r: Result<seq<Value>, Exception>)
    ensures r.Ok? <==> v.List? || v.Str? || v.Dict?
    ensures v.List? ==> r == Ok(v.items)
    ensures r.Ok? && !v.List? ==> forall x :: x in r.value ==> x.Str?
  {
    match v
    case List(xs) => Ok(xs)
    case Str(s) => Ok(seq(|s|, i requires 0 <= i < |s| => Str([s[i]])))
    case Dict(es) => Ok(seq(|es|, i requires 0 <= i < |es| => Str(es[i].0)))
    case _ => Err(TypeError("object is not iterable"))
  }

  // ---------------------------------------------------------------- full edit

  /** `float(d[k]) if d.get(k) else None`: a falsy value, 0 included, is stored as NULL. */
  function OptFloat(d: Object, k: string): (r: Result<Option<PyFloat>, Exception>)
    ensures r == Ok(None) <==> !Truthy(Get(d, k))
    ensures r.Ok? && r.value.Some? ==> FloatOf(Get(d, k)) == Ok(r.value.value)
    ensures r.Err? ==> FloatOf(Get(d, k)) == Err(r.error)
  {
    var v := Get(d, k);
    if !Truthy(v) then Ok(None)
    else
      var x :- FloatOf(v);
      Ok(Some(x))
  }

  /** `int(d[k]) if d.get(k) else None` */
  function OptInt(d: Object, k: string): (r: Result<Option<int>, Exception>)
    ensures r == Ok(None) <==> !Truthy(Get(d, k))
    ensures r.Ok? && r.value.Some? ==> IntOf(Get(d, k)) == Ok(r.value.value)
    ensures r.Err? ==> IntOf(Get(d, k)) == Err(r.error)
  {
    var v := Get(d, k);
    if !Truthy(v) then Ok(None)
    else
      var n :- IntOf(v);
      Ok(Some(n))
  }

  /** A metrics or taxes entry is stored only when its year is truthy. */
  predicate HasYear(d: Object) {
    Truthy(Get(d, "year"))
  }

  /** Assets and products entries are stored unconditionally. */
  predicate Always(d: Object) {
    true
  }

  /** The metrics row built from one entry; the keyword arguments are converted, and may raise, in order. */
  function MetricOf(d: Object): (r: Result<Schema.Metrics, Exception>)
    ensures r.Ok? ==> IntOf(Get(d, "year")) == Ok(r.value.year)
    ensures r.Ok? ==> (r.value.revenue.None? <==> !Truthy(Get(d, "revenue")))
    ensures r.Ok? ==> (r.value.totalEmployees.None? <==> !Truthy(Get(d, "total_employees")))
    ensures r.Ok? ==> (r.value.exportVolume.None? <==> !Truthy(Get(d, "export_volume")))
  {
    var year :- IntOf(Get(d, "year"));
    var revenue :- OptFloat(d, "revenue");
    var profit :- OptFloat(d, "profit");
    var totalEmployees :- OptInt(d, "total_employees");
    var moscowEmployees :- OptInt(d, "moscow_employees");
    var totalFot :- OptFloat(d, "total_fot");
    var moscowFot :- OptFloat(d, "moscow_fot");
    var avgSalaryTotal :- OptFloat(d, "avg_salary_total");
    var avgSalaryMoscow :- OptFloat(d, "avg_salary_moscow");
    var investments :- OptFloat(d, "investments");
    var exportVolume :- OptFloat(d, "export_volume");
    Ok(Schema.Metrics(year, revenue, profit, totalEmployees, moscowEmployees, totalFot, moscowFot,
      avgSalaryTotal, avgSalaryMoscow, investments, exportVolume))
  }

  /** The taxes row built from one entry. */
  function TaxesOf(d: Object): (r: Result<Schema.Taxes, Exception>)
    ensures r.Ok? ==> IntOf(Get(d, "year")) == Ok(r.value.year)
    ensures r.Ok? ==> (r.value.totalTaxesMoscow.None? <==> !Truthy(Get(d, "total_taxes_moscow")))
    ensures r.Ok? ==> (r.value.excise.None? <==> !Truthy(Get(d, "excise")))
  {
    var year :- IntOf(Get(d, "year"));
    var total :- OptFloat(d, "total_taxes_moscow");
    var profit :- OptFloat(d, "profit_tax");
    var property :- OptFloat(d, "property_tax");
    var land :- OptFloat(d, "land_tax");
    var ndfl :- OptFloat(d, "ndfl");
    var transport :- OptFloat(d, "transport_tax");
    var other :- OptFloat(d, "other_taxes");
    var excise :- OptFloat(d, "excise");
    Ok(Schema.Taxes(year, total, profit, property, land, ndfl, transport, other, excise))
  }

  /** How a column of an assets or products row is filled from its entry. */
  datatype Column =
    | Copied(name: string, default: Value)   // `d.get(name, default)`, stored as given
    | Floated(name: string)                  // `float(d[name]) if d.get(name) else None`

  const AssetColumns: seq<Column> := [
    Copied("cadastral_number_land", Null), Floated("land_area"), Copied("land_usage", Null),
    Copied("land_ownership_type", Null), Copied("land_owner", Null), Copied("cadastral_number_building", Null),
    Floated("building_area"), Copied("building_usage", Null), Copied("building_type", Null),
    Copied("building_purpose", Null), Copied("building_ownership_type", Null), Copied("building_owner", Null),
    Floated("production_area"), Copied("property_summary", Null)]

  const ProductColumns: seq<Column> := [
    Copied("product_name", Null), Copied("standardized_product", Null), Copied("okpd2_codes", Null),
    Copied("product_types", Null), Copied("product_catalog", Null), Copied("has_government_orders", Flag(false)),
    Floated("capacity_usage"), Copied("has_export", Flag(false)), Floated("export_volume_last_year"),
    Copied("export_countries", Null), Copied("tnved_code", Null)]

  function ColumnValue(c: Column, d: Object): (r: Result<Value, Exception>)
    ensures c.Copied? ==> r == Ok(GetOr(d, c.name, c.default))
    ensures c.Floated? && r.Ok? ==> (r.value == Null <==> !Truthy(Get(d, c.name)))
    ensures c.Floated? && r.Ok? && r.value != Null ==> r.value.Real? && FloatOf(Get(d, c.name)) == Ok(r.value.x)
  {
    match c
    case Copied(k, default) => Ok(GetOr(d, k, default))
    case Floated(k) =>
      var x :- OptFloat(d, k);
      Ok(if x.Some? then Real(x.value) else Null)
  }

  /** A row's values in column order; the first column that raises decides the error. */
  function Values(cols: seq<Column>, d: Object): (r: Result<seq<Value>, Exception>)
    ensures r.Ok? <==> forall i :: 0 <= i < |cols| ==> ColumnValue(cols[i], d).Ok?
    ensures r.Ok? ==> |r.value| == |cols| && forall i :: 0 <= i < |cols| ==> ColumnValue(cols[i], d) == Ok(r.value[i])
  {
    if |cols| == 0 then Ok([])
    else
      var v :- ColumnValue(cols[0], d);
      var rest :- Values(cols[1..], d);
      assert forall i :: 1 <= i < |cols| ==> cols[i] == cols[1..][i - 1];
      Ok([v] + rest)
  }

  function AssetOf(d: Object): Result<seq<Value>, Exception> {
    Values(AssetColumns, d)
  }

  function ProductOf(d: Object): Result<seq<Value>, Exception> {
    Values(ProductColumns, d)
  }

  /**
   * The rows one family's list produces: each item must be a dict (`.get`
   * raises otherwise), `keep` says whether it yields a row and `build` makes
   * the row, in item order.
   */
  function Rows<T>(items: seq<Value>, keep: Object -> bool, build: Object -> Result<T, Exception>): (r: Result<seq<T>, Exception>)
    ensures r.Ok? ==> |r.value| <= |items|
  {
    if |items| == 0 then Ok([])
    else
      var d :- AsObject(items[0]);
      var head :- if keep(d) then (var x :- build(d); Ok([x])) else Ok([]);
      var tail :- Rows(items[1..], keep, build);
      Ok(head + tail)
  }

  /** The entries `keep` selects, in order, from a list of dicts. */
  function Selected(items: seq<Value>, keep: Object -> bool): (r: seq<Object>)
    requires forall i :: 0 <= i < |items| ==> items[i].Dict?
    ensures |r| <= |items|
  {
    if |items| == 0 then []
    else (if keep(items[0].entries) then [items[0].entries] else []) + Selected(items[1..], keep)
  }

  /** Every entry builds without raising. */
  predicate AllBuild<T>(s: seq<Object>, build: Object -> Result<T, Exception>) {
    forall j :: 0 <= j < |s| ==> build(s[j]).Ok?
  }

  /**
   * A family is rebuilt exactly when every item is a dict and every selected
   * entry builds; the rows are then the selected entries' rows, in order.
   */
  lemma {:induction false} RowsAreSelected<T>(items: seq<Value>, keep: Object -> bool, build: Object -> Result<T, Exception>)
    ensures Rows(items, keep, build).Ok? ==> forall i :: 0 <= i < |items| ==> items[i].Dict?
    ensures Rows(items, keep, build).Ok? ==>
      var s := Selected(items, keep);
      var rows := Rows(items, keep, build).value;
      |rows| == |s| && forall j :: 0 <= j < |s| ==> build(s[j]) == Ok(rows[j])
    ensures (forall i :: 0 <= i < |items| ==> items[i].Dict?) ==>
      (Rows(items, keep, build).Ok? <==> AllBuild(Selected(items, keep), build))
    decreases |items|
  {
    if |items| > 0 {
      RowsAreSelected(items[1..], keep, build);
      if Rows(items, keep, build).Ok? {
        assert forall i :: 1 <= i < |items| ==> items[i] == items[1..][i - 1];
      }
      if forall i :: 0 <= i < |items| ==> items[i].Dict? {
        assert forall i :: 0 <= i < |items[1..]| ==> items[1..][i] == items[i + 1];
        assert forall i :: 0 <= i < |items[1..]| ==> items[1..][i].Dict?;
        var s := Selected(items, keep);
        var t := Selected(items[1..], keep);
        if keep(items[0].entries) {
          assert s == [items[0].entries] + t;
          assert forall j :: 1 <= j < |s| ==> s[j] == t[j - 1];
          assert Rows(items, keep, build).Ok? == (build(items[0].entries).Ok? && Rows(items[1..], keep, build).Ok?);
          assert (forall j :: 0 <= j < |s| ==> build(s[j]).Ok?) ==> forall j :: 0 <= j < |t| ==> build(t[j]).Ok? by {
            assert forall j :: 0 <= j < |t| ==> t[j] == s[j + 1];
          }
          assert s[0] == items[0].entries;
          if build(items[0].entries).Ok? && forall j :: 0 <= j < |t| ==> build(t[j]).Ok? {
            forall j | 0 <= j < |s| ensures build(s[j]).Ok? {
              if j > 0 {
                assert s[j] == t[j - 1];
              }
            }
          }
          if forall j :: 0 <= j < |s| ==> build(s[j]).Ok? {
            assert build(s[0]).Ok?;
          }
          assert Rows(items, keep, build).Ok? <==> forall j :: 0 <= j < |s| ==> build(s[j]).Ok?;
        } else {
          assert s == t;
          assert Rows(items, keep, build).Ok? == Rows(items[1..], keep, build).Ok?;
          assert Rows(items, keep, build).Ok? <==> forall j :: 0 <= j < |s| ==> build(s[j]).Ok?;
        }
      }
    }
  }

  /** A family's new rows when its key is in the body; the current rows otherwise. */
  function Family<T>(d: Object, key: string, current: seq<T>, keep: Object -> bool, build: Object -> Result<T, Exception>): (r: Result<seq<T>, Exception>)
    ensures !Has(d, key) ==> r == Ok(current)
  {
    if !Has(d, key) then Ok(current)
    else
      var items :- Iterate(Get(d, key));
      Rows(items, keep, build)
  }

  /** The value of the last entry with key `k`. */
  function LastValue(es: Object, k: string): (r: Option<Value>)
    ensures r.Some? ==> exists i :: 0 <= i < |es| && es[i] == (k, r.value)
    ensures r.None? ==> forall i :: 0 <= i < |es| ==> es[i].0 != k
  {
    if |es| == 0 then None
    else if es[|es| - 1].0 == k then Some(es[|es| - 1].1)
    else LastValue(es[..|es| - 1], k)
  }

  lemma {:induction false} LastValueTail(es: Object, k: string)
    requires |es| > 0
    ensures LastValue(es, k) ==
      if LastValue(es[1..], k).Some? then LastValue(es[1..], k)
      else if es[0].0 == k then Some(es[0].1) else None
    decreases |es|
  {
    if |es| > 1 && es[|es| - 1].0 != k {
      assert es[..|es| - 1][1..] == es[1..][..|es[1..]| - 1];
      LastValueTail(es[..|es| - 1], k);
    }
  }

  /**
   * `for k, v in es: if hasattr(o, k): setattr(o, k, v)`: only attributes the
   * object has are assigned, each to the value of its last entry.
   */
  function Assign(attrs: map<string, Value>, es: Object): (r: map<string, Value>)
    ensures r.Keys == attrs.Keys
    ensures forall k :: k in r ==> r[k] == if LastValue(es, k).Some? then LastValue(es, k).value else attrs[k]
    decreases |es|
  {
    if |es| == 0 then attrs
    else
      var next := if es[0].0 in attrs then attrs[es[0].0 := es[0].1] else attrs;
      forall k | k in attrs {
        LastValueTail(es, k);
      }
      Assign(next, es[1..])
  }

  const MetaColumns: set<string> :=
    {"industry_spark", "industry_directory", "presentation_links", "registry_development", "other_notes"}

  /** A new meta row: its five columns, each from `d.get`. */
  function NewMeta(d: Object): (r: map<string, Value>)
    ensures r.Keys == MetaColumns
    ensures forall k :: k in r ==> r[k] == Get(d, k)
  {
    map k | k in MetaColumns :: Get(d, k)
  }

  /** The first meta row is updated in place from the body's meta dict; without one a row is created. */
  function MetaEdit(meta: seq<map<string, Value>>, v: Value): (r: Result<seq<map<string, Value>>, Exception>)
    ensures r.Ok? <==> v.Dict?
    ensures r.Ok? ==> |r.value| == if |meta| > 0 then |meta| else 1
    ensures r.Ok? && |meta| > 0 ==> r.value[1..] == meta[1..] && r.value[0].Keys == meta[0].Keys
  {
    var d :- AsObject(v);
    if |meta| > 0 then Ok([Assign(meta[0], d)] + meta[1..]) else Ok([NewMeta(d)])
  }

  /** The body of a request: `None` when it is not JSON, which `request.json()` reports by raising. */
  function Body(body: Option<Value>): (r: Result<Object, Exception>)
    ensures r.Ok? <==> body.Some? && body.value.Dict?
  {
    var data :- if body.Some? then Ok(body.value) else Err(ValueError("Expecting value"));
    AsObject(data)
  }

  /** The organization after a full edit, or the exception that interrupts it. */
  function FullEdit(o: OrgState, body: Option<Value>): (r: Result<OrgState, Exception>)
    ensures r.Ok? ==> Body(body).Ok?
  {
    var d :- Body(body);
    var general :- AsObject(GetOr(d, "general", Dict([])));
    var metrics :- Family(d, "metrics", o.metrics, HasYear, MetricOf);
    var taxes :- Family(d, "taxes", o.taxes, HasYear, TaxesOf);
    var assets :- Family(d, "assets", o.assets, Always, AssetOf);
    var products :- Family(d, "products", o.products, Always, ProductOf);
    var meta :- if Has(d, "meta") then MetaEdit(o.meta, Get(d, "meta")) else Ok(o.meta);
    Ok(OrgState(Assign(o.attrs, general), metrics, taxes, assets, products, meta))
  }

  /**
   * A family is replaced wholesale when its key is in the body and left
   * untouched otherwise; the general fields only reach existing attributes.
   */
  lemma FullEditReplaces(o: OrgState, body: Option<Value>)
    requires FullEdit(o, body).Ok?
    ensures var d := Body(body).value;
      var r := FullEdit(o, body).value;
      (!Has(d, "metrics") ==> r.metrics == o.metrics)
      && (!Has(d, "taxes") ==> r.taxes == o.taxes)
      && (!Has(d, "assets") ==> r.assets == o.assets)
      && (!Has(d, "products") ==> r.products == o.products)
      && (!Has(d, "meta") ==> r.meta == o.meta)
      && r.attrs.Keys == o.attrs.Keys
  {
  }

  /**
   * A metrics list present in the body becomes the metrics: one row per entry
   * with a truthy year, in order, whatever rows there were before.
   */
  lemma FullEditMetrics(o: OrgState, d: Object, items: seq<Value>)
    requires FullEdit(o, Some(Dict(d))).Ok?
    requires Has(d, "metrics") && Get(d, "metrics") == List(items)
    ensures forall i :: 0 <= i < |items| ==> items[i].Dict?
    ensures var rows := FullEdit(o, Some(Dict(d))).value.metrics;
      var s := Selected(items, HasYear);
      |rows| == |s| && forall j :: 0 <= j < |s| ==> HasYear(s[j]) && MetricOf(s[j]) == Ok(rows[j])
  {
    RowsAreSelected(items, HasYear, MetricOf);
    SelectedKept(items, HasYear);
  }

  lemma {:induction false} SelectedKept(items: seq<Value>, keep: Object -> bool)
    requires forall i :: 0 <= i < |items| ==> items[i].Dict?
    ensures forall j :: 0 <= j < |Selected(items, keep)| ==> keep(Selected(items, keep)[j])
    decreases |items|
  {
    if |items| > 0 {
      SelectedKept(items[1..], keep);
    }
  }

  /** `update_organization_full`: 404 for an unknown id; any exception rolls back and answers 500 with its text. */
  function UpdateFull(store: Store, id: int, body: Option<Value>): (r: (Store, Response))
    ensures id !in store ==> r == (store, Refused(404, "Organization not found"))
    ensures r.1.Refused? ==> r.0 == store
    ensures id in store ==> (r.1.Refused? <==> FullEdit(store[id], body).Err?)
    ensures id in store && r.1.Refused? ==> r.1 == Refused(500, FullEdit(store[id], body).error.Message())
    ensures r.1.Done? ==> r.0 == store[id := FullEdit(store[id], body).value]
  {
    if id !in store then (store, Refused(404, "Organization not found"))
    else
      match FullEdit(store[id], body)
      case Ok(o) =>
        (store[id := o], Done([("status", Str("success")), ("message", Str("Все данные организации успешно обновлены")),
                              ("organization_id", Whole(id))]))
      case Err(e) => (store, Refused(500, e.Message()))
  }

  // ------------------------------------------------------ refresh from the registry

  /** Organization attribute and registry field, in the order the handler compares them. */
  const FieldMapping: seq<(string, string)> := [
    ("name", "name"), ("full_name", "full_name"), ("legal_address", "legal_address"),
    ("status_final", "status"), ("main_okved", "main_okved"), ("main_okved_name", "main_okved_name"),
    ("head_name", "head_name"), ("registration_date", "registration_date")]

  /** Whether one mapping entry changes the organization: the registry value is present and truthy, and differs. */
  predicate Changes(attrs: map<string, Value>, fns: Object, m: (string, string)) {
    Has(fns, m.1) && Truthy(Get(fns, m.1)) && m.0 in attrs && !Equal(attrs[m.0], Get(fns, m.1))
  }

  /** The attributes after the comparison loop, and the names of those it changed, in loop order. */
  function Sync(attrs: map<string, Value>, fns: Object, mapping: seq<(string, string)>): (r: (map<string, Value>, seq<string>))
    ensures r.0.Keys == attrs.Keys
    ensures |r.1| <= |mapping|
    decreases |mapping|
  {
    if |mapping| == 0 then (attrs, [])
    else
      var m := mapping[0];
      var changed := Changes(attrs, fns, m);
      var next := if changed then attrs[m.0 := Get(fns, m.1)] else attrs;
      var rest := Sync(next, fns, mapping[1..]);
      (rest.0, (if changed then [m.0] else []) + rest.1)
  }

  /** Mapping entries naming distinct attributes. */
  predicate DistinctTargets(mapping: seq<(string, string)>) {
    forall i, j :: 0 <= i < j < |mapping| ==> mapping[i].0 != mapping[j].0
  }

  /** The entries that change the organization as it was before the loop, in mapping order. */
  function ChangedFields(attrs: map<string, Value>, fns: Object, mapping: seq<(string, string)>): (r: seq<string>)
    ensures |r| <= |mapping|
  {
    if |mapping| == 0 then []
    else (if Changes(attrs, fns, mapping[0]) then [mapping[0].0] else []) + ChangedFields(attrs, fns, mapping[1..])
  }

  /** Assigning an attribute no later entry names does not change what those entries decide. */
  lemma {:induction false} ChangedFieldsIgnore(attrs: map<string, Value>, fns: Object, mapping: seq<(string, string)>, k: string, v: Value)
    requires k in attrs
    requires forall i :: 0 <= i < |mapping| ==> mapping[i].0 != k
    ensures ChangedFields(attrs[k := v], fns, mapping) == ChangedFields(attrs, fns, mapping)
    decreases |mapping|
  {
    if |mapping| > 0 {
      ChangedFieldsIgnore(attrs, fns, mapping[1..], k, v);
    }
  }

  /**
   * With distinct attribute names, the fields reported as updated are
   * exactly the mapped fields whose registry value is present, truthy and
   * different from the value before the refresh, in mapping order.
   */
  lemma {:induction false} SyncReportsChanges(attrs: map<string, Value>, fns: Object, mapping: seq<(string, string)>)
    requires DistinctTargets(mapping)
    ensures Sync(attrs, fns, mapping).1 == ChangedFields(attrs, fns, mapping)
    decreases |mapping|
  {
    if |mapping| > 0 {
      var m := mapping[0];
      var rest := mapping[1..];
      assert DistinctTargets(rest);
      if Changes(attrs, fns, m) {
        SyncReportsChanges(attrs[m.0 := Get(fns, m.1)], fns, rest);
        ChangedFieldsIgnore(attrs, fns, rest, m.0, Get(fns, m.1));
      } else {
        SyncReportsChanges(attrs, fns, rest);
      }
    }
  }

  /** After the refresh every changed field holds the registry's value; the others are as they were. */
  lemma {:induction false} SyncValues(attrs: map<string, Value>, fns: Object, mapping: seq<(string, string)>, k: string)
    requires DistinctTargets(mapping) && k in attrs
    ensures var r := Sync(attrs, fns, mapping).0;
      (exists i :: 0 <= i < |mapping| && mapping[i].0 == k && Changes(attrs, fns, mapping[i]) && r[k] == Get(fns, mapping[i].1))
      || ((forall i :: 0 <= i < |mapping| && mapping[i].0 == k ==> !Changes(attrs, fns, mapping[i])) && r[k] == attrs[k])
    decreases |mapping|
  {
    if |mapping| > 0 {
      var m := mapping[0];
      var rest := mapping[1..];
      assert DistinctTargets(rest);
      var next := if Changes(attrs, fns, m) then attrs[m.0 := Get(fns, m.1)] else attrs;
      SyncValues(next, fns, rest, k);
      assert forall i :: 1 <= i < |mapping| ==> mapping[i] == rest[i - 1];
      if m.0 == k {
        assert forall i :: 0 <= i < |rest| ==> rest[i].0 != k;
        SyncUntouched(next, fns, rest, k);
      } else {
        forall i | 0 <= i < |rest| && rest[i].0 == k
          ensures Changes(next, fns, rest[i]) == Changes(attrs, fns, rest[i])
        {
        }
      }
    }
  }

  /** An attribute no entry names keeps its value. */
  lemma {:induction false} SyncUntouched(attrs: map<string, Value>, fns: Object, mapping: seq<(string, string)>, k: string)
    requires k in attrs && forall i :: 0 <= i < |mapping| ==> mapping[i].0 != k
    ensures Sync(attrs, fns, mapping).0[k] == attrs[k]
    decreases |mapping|
  {
    if |mapping| > 0 {
      var m := mapping[0];
      var next := if Changes(attrs, fns, m) then attrs[m.0 := Get(fns, m.1)] else attrs;
      SyncUntouched(next, fns, mapping[1..], k);
    }
  }

  /** No float NaN among the registry's values (a NaN never equals itself, so it is assigned on every refresh). */
  predicate NoNaN(fns: Object, mapping: seq<(string, string)>) {
    forall i :: 0 <= i < |mapping| ==> Get(fns, mapping[i].1) != Real(NaN)
  }

  /** A second refresh with the same registry answer changes nothing. */
  lemma {:induction false} SyncIdempotent(attrs: map<string, Value>, fns: Object, mapping: seq<(string, string)>)
    requires DistinctTargets(mapping) && NoNaN(fns, mapping)
    ensures Sync(Sync(attrs, fns, mapping).0, fns, mapping).1 == []
  {
    var r := Sync(attrs, fns, mapping).0;
    SyncReportsChanges(r, fns, mapping);
    forall i | 0 <= i < |mapping|
      ensures !Changes(r, fns, mapping[i])
    {
      var k := mapping[i].0;
      if k in attrs && Has(fns, mapping[i].1) && Truthy(Get(fns, mapping[i].1)) {
        SyncValues(attrs, fns, mapping, k);
        var v := Get(fns, mapping[i].1);
        assert r[k] == v || !Changes(attrs, fns, mapping[i]);
      }
    }
    NoChangesNoFields(r, fns, mapping);
  }

  lemma {:induction false} NoChangesNoFields(attrs: map<string, Value>, fns: Object, mapping: seq<(string, string)>)
    requires forall i :: 0 <= i < |mapping| ==> !Changes(attrs, fns, mapping[i])
    ensures ChangedFields(attrs, fns, mapping) == []
    decreases |mapping|
  {
    if |mapping| > 0 {
      NoChangesNoFields(attrs, fns, mapping[1..]);
    }
  }

  /** The handler's mapping names each attribute once. */
  lemma FieldMappingDistinct()
    ensures DistinctTargets(FieldMapping)
  {
  }

  /** The registry service settings: whether it is enabled, and the API key (`None` when not configured). */
  datatype FnsConfig = FnsConfig(enabled: bool, apiKey: Option<string>)

  /** The checks both registry handlers make before calling the service, in order. */
  function Precheck(o: OrgState, config: FnsConfig): (r: Option<Response>)
    ensures r.Some? ==> r.value.Refused?
    ensures r.None? <==> Inn(o) != "" && config.enabled && config.apiKey.Some? && config.apiKey.value != ""
  {
    if Inn(o) == "" then Some(Refused(400, "Organization has no INN"))
    else if !config.enabled then Some(Refused(503, "FNS API is disabled"))
    else if config.apiKey.None? || config.apiKey.value == "" then Some(Refused(503, "FNS API key not configured"))
    else None
  }

  /**
   * The comparison loop with the handler's mapping: the fields it reports are
   * exactly those whose registry value is present, truthy and different.
   */
  function Refresh(attrs: map<string, Value>, fns: Object): (r: (map<string, Value>, seq<string>))
    ensures r.0.Keys == attrs.Keys
    ensures r.1 == ChangedFields(attrs, fns, FieldMapping)
  {
    FieldMappingDistinct();
    SyncReportsChanges(attrs, fns, FieldMapping);
    Sync(attrs, fns, FieldMapping)
  }

  /**
   * `update_organization_from_fns`: `body` is the registry's answer for the
   * organization's INN (`None` when the request failed), `now` the clock.
   */
  function UpdateFromFns(store: Store, id: int, config: FnsConfig, body: Option<Value>, now: PyDateTime): (r: (Store, Response))
    ensures id !in store ==> r == (store, Refused(404, "Organization not found"))
    ensures r.1.Refused? ==> r.0 == store
    ensures id in store && r.1.Done? ==>
      Precheck(store[id], config).None? && Fns.OrganizationByInn(body).Some?
      && r.0.Keys == store.Keys
      && r.0[id].attrs == Refresh(store[id].attrs, Fns.OrganizationByInn(body).value).0["updated_at" := When(now)]
      && |r.1.content| == 5
      && r.1.content[3] == ("updated_fields", List(Names(ChangedFields(store[id].attrs, Fns.OrganizationByInn(body).value, FieldMapping))))
  {
    if id !in store then (store, Refused(404, "Organization not found"))
    else
      var o := store[id];
      match Precheck(o, config)
      case Some(refusal) => (store, refusal)
      case None =>
        match Fns.OrganizationByInn(body)
        case None => (store, Refused(404, "Organization not found in FNS database"))
        case Some(fns) => Refreshed(store, id, fns, now)
  }

  /** The organization refreshed from the registry's normalised dict, and the report of what changed. */
  function Refreshed(store: Store, id: int, fns: Object, now: PyDateTime): (r: (Store, Response))
    requires id in store
    ensures r.1.Done? && r.0.Keys == store.Keys
    ensures r.0[id].attrs == Refresh(store[id].attrs, fns).0["updated_at" := When(now)]
    ensures |r.1.content| == 5
    ensures r.1.content[3] == ("updated_fields", List(Names(ChangedFields(store[id].attrs, fns, FieldMapping))))
  {
    var o := store[id];
    var refreshed := Refresh(o.attrs, fns);
    (store[id := o.(attrs := refreshed.0["updated_at" := When(now)])],
     Done([("status", Str("success")),
           ("message", Str("Данные обновлены из ФНС. Обновлено полей: " + NatToString(|refreshed.1|))),
           ("organization_id", Whole(id)),
           ("updated_fields", List(Names(refreshed.1))),
           ("inn", Attr(o.attrs, "inn"))]))
  }

  /** A list of names as JSON strings. */
  function Names(ns: seq<string>): (r: seq<Value>)
    ensures |r| == |ns| && forall i :: 0 <= i < |ns| ==> r[i] == Str(ns[i])
  {
    seq(|ns|, i requires 0 <= i < |ns| => Str(ns[i]))
  }

  // ------------------------------------------------------------ financials

  /** `sorted()` on integers: ascending. */
  predicate Sorted(s: seq<int>) {
    forall i, j :: 0 <= i < j < |s| ==> s[i] <= s[j]
  }

  function InsertSorted(x: int, s: seq<int>): (r: seq<int>)
    requires Sorted(s)
    ensures Sorted(r) && multiset(r) == multiset(s) + multiset{x}
    ensures |r| == |s| + 1 && r[0] == if |s| == 0 || x <= s[0] then x else s[0]
  {
    if |s| == 0 then [x]
    else if x <= s[0] then [x] + s
    else
      assert s == [s[0]] + s[1..];
      var t := InsertSorted(x, s[1..]);
      assert s[0] <= t[0];
      [s[0]] + t
  }

  function Sort(s: seq<int>): (r: seq<int>)
    ensures Sorted(r) && multiset(r) == multiset(s)
  {
    if |s| == 0 then []
    else
      assert s == [s[0]] + s[1..];
      InsertSorted(s[0], Sort(s[1..]))
  }

  /** `float(v) * 1000` unless `v` is `None`: zero is kept, not dropped. */
  function Scaled(v: Value): (r: Result<Option<PyFloat>, Exception>)
    ensures r == Ok(None) <==> v == Null
    ensures r.Ok? && r.value.Some? ==> FloatOf(v).Ok? && r.value.value == Thousandfold(FloatOf(v).value)
  {
    if v == Null then Ok(None)
    else
      var x :- FloatOf(v);
      Ok(Some(Thousandfold(x)))
  }

  /** A zero in a statement is stored as zero, where the full edit would have stored NULL. */
  lemma ZeroRevenueKept()
    ensures Scaled(Whole(0)) == Ok(Some(Finite(Decimal(0, 0))))
    ensures OptFloat([("revenue", Whole(0))], "revenue") == Ok(None)
  {
  }

  /** The first of the first `n` rows with year `y`: the rows the query sees, since new rows are not flushed. */
  function FirstWithYear(ms: seq<Schema.Metrics>, n: nat, y: int): (r: Option<nat>)
    requires n <= |ms|
    ensures r.Some? ==> r.value < n && ms[r.value].year == y
    ensures r.None? ==> forall i :: 0 <= i < n ==> ms[i].year != y
  {
    if n == 0 then None
    else match FirstWithYear(ms, n - 1, y)
      case Some(i) => Some(i)
      case None => if ms[n - 1].year == y then Some(n - 1) else None
  }

  /** An existing row takes each of the two amounts only when the statement has it. */
  function Overwrite(m: Schema.Metrics, revenue: Option<PyFloat>, profit: Option<PyFloat>): (r: Schema.Metrics)
    ensures r.year == m.year
    ensures r.revenue == if revenue.Some? then revenue else m.revenue
    ensures r.profit == if profit.Some? then profit else m.profit
    ensures r.(revenue := m.revenue, profit := m.profit) == m
  {
    m.(revenue := if revenue.Some? then revenue else m.revenue, profit := if profit.Some? then profit else m.profit)
  }

  /** The state of the import loop: the rows, and the years imported and updated so far, in loop order. */
  datatype Split = Split(metrics: seq<Schema.Metrics>, imported: seq<int>, updated: seq<int>)

  /** The years the loop handles: the keys that parse as integers, in order. */
  function ParsedYears(items: Object): (r: seq<int>)
    ensures |r| <= |items|
  {
    if |items| == 0 then []
    else (match ParseInt(items[0].0) case Some(y) => [y] case None => []) + ParsedYears(items[1..])
  }

  /** A year is handled exactly when some key parses to it; other keys are ignored. */
  lemma {:induction false} ParsedYearsMembers(items: Object, y: int)
    ensures y in ParsedYears(items) <==> exists i :: 0 <= i < |items| && ParseInt(items[i].0) == Some(y)
    decreases |items|
  {
    if |items| > 0 {
      ParsedYearsMembers(items[1..], y);
      assert forall i :: 1 <= i < |items| ==> items[1..][i - 1] == items[i];
      if y in ParsedYears(items[1..]) {
        var i :| 0 <= i < |items[1..]| && ParseInt(items[1..][i].0) == Some(y);
        assert ParseInt(items[i + 1].0) == Some(y);
      }
    }
  }

  /** Whether one of the first `n` rows holds year `y`. */
  predicate Existing(ms: seq<Schema.Metrics>, n: nat, y: int)
    requires n <= |ms|
  {
    exists i :: 0 <= i < n && ms[i].year == y
  }

  /**
   * One year of the loop: a year some row held before the import updates
   * that row and is reported as updated; any other year adds a row and is
   * reported as imported. The rows already there keep their years.
   */
  function Step(acc: Split, n: nat, year: int, figures: Value): (r: Result<Split, Exception>)
    requires n <= |acc.metrics|
    ensures r.Ok? ==> |r.value.metrics| == |acc.metrics| + |r.value.imported| - |acc.imported|
    ensures r.Ok? && Existing(acc.metrics, n, year) ==> r.value.imported == acc.imported && r.value.updated == acc.updated + [year]
    ensures r.Ok? && !Existing(acc.metrics, n, year) ==> r.value.imported == acc.imported + [year] && r.value.updated == acc.updated
    ensures r.Ok? ==> forall i :: 0 <= i < n ==> r.value.metrics[i].year == acc.metrics[i].year
    ensures r.Ok? ==> forall y :: Existing(r.value.metrics, n, y) <==> Existing(acc.metrics, n, y)
  {
    var data :- AsObject(figures);
    var revenue :- Scaled(Get(data, "2110"));
    var profit :- Scaled(Get(data, "2400"));
    match FirstWithYear(acc.metrics, n, year)
    case Some(i) =>
      var ms := acc.metrics[i := Overwrite(acc.metrics[i], revenue, profit)];
      ExistingSameYears(acc.metrics, ms, n);
      Ok(Split(ms, acc.imported, acc.updated + [year]))
    case None =>
      var row := Schema.Metrics(year, revenue, profit, None, None, None, None, None, None, None, None);
      ExistingSameYears(acc.metrics, acc.metrics + [row], n);
      Ok(Split(acc.metrics + [row], acc.imported + [year], acc.updated))
  }

  lemma ExistingSameYears(a: seq<Schema.Metrics>, b: seq<Schema.Metrics>, n: nat)
    requires n <= |a| && n <= |b|
    requires forall i :: 0 <= i < n ==> a[i].year == b[i].year
    ensures forall y :: Existing(a, n, y) <==> Existing(b, n, y)
  {
    forall y ensures Existing(a, n, y) <==> Existing(b, n, y) {
      if Existing(a, n, y) {
        var i :| 0 <= i < n && a[i].year == y;
        assert b[i].year == y;
      }
      if Existing(b, n, y) {
        var i :| 0 <= i < n && b[i].year == y;
        assert a[i].year == y;
      }
    }
  }

  /** The import loop over the statements' `(year, figures)` items; a key that is not an integer is skipped. */
  function SplitYears(acc: Split, n: nat, items: Object): (r: Result<Split, Exception>)
    requires n <= |acc.metrics|
    ensures r.Ok? ==> n <= |r.value.metrics|
    decreases |items|
  {
    if |items| == 0 then Ok(acc)
    else
      match ParseInt(items[0].0)
      case None => SplitYears(acc, n, items[1..])
      case Some(year) =>
        var next :- Step(acc, n, year, items[0].1);
        SplitYears(next, n, items[1..])
  }

  /** The whole loop, starting from the organization's rows with nothing reported. */
  function Import(ms: seq<Schema.Metrics>, statements: Object): Result<Split, Exception> {
    SplitYears(Split(ms, [], []), |ms|, statements)
  }

  /** Every parsed year is reported exactly once, in one of the two lists. */
  lemma {:induction false} SplitCounts(acc: Split, n: nat, items: Object)
    requires n <= |acc.metrics| && SplitYears(acc, n, items).Ok?
    ensures var r := SplitYears(acc, n, items).value;
      multiset(r.imported) + multiset(r.updated) == multiset(acc.imported) + multiset(acc.updated) + multiset(ParsedYears(items))
      && |r.imported| + |r.updated| == |acc.imported| + |acc.updated| + |ParsedYears(items)|
      && |r.metrics| == |acc.metrics| + |r.imported| - |acc.imported|
    decreases |items|
  {
    if |items| > 0 {
      match ParseInt(items[0].0)
      case None =>
        assert ParsedYears(items) == ParsedYears(items[1..]);
        SplitCounts(acc, n, items[1..]);
      case Some(year) =>
        var next := Step(acc, n, year, items[0].1).value;
        assert SplitYears(acc, n, items) == SplitYears(next, n, items[1..]);
        StepCounts(acc, n, year, items[0].1);
        SplitCounts(next, n, items[1..]);
        assert ParsedYears(items) == [year] + ParsedYears(items[1..]);
    }
  }

  /** One step extends the two lists by its year, in the list that matches the rows there before. */
  lemma StepExisting(acc: Split, n: nat, year: int, figures: Value)
    requires n <= |acc.metrics| && Step(acc, n, year, figures).Ok?
    ensures var r := Step(acc, n, year, figures).value;
      acc.imported <= r.imported && acc.updated <= r.updated
      && (forall i :: 0 <= i < n ==> r.metrics[i].year == acc.metrics[i].year)
      && (forall j :: |acc.updated| <= j < |r.updated| ==> Existing(acc.metrics, n, r.updated[j]))
      && (forall j :: |acc.imported| <= j < |r.imported| ==> !Existing(acc.metrics, n, r.imported[j]))
      && (forall y :: Existing(r.metrics, n, y) <==> Existing(acc.metrics, n, y))
  {
  }

  /** One step reports its year once, in one of the two lists. */
  lemma StepCounts(acc: Split, n: nat, year: int, figures: Value)
    requires n <= |acc.metrics| && Step(acc, n, year, figures).Ok?
    ensures var r := Step(acc, n, year, figures).value;
      multiset(r.imported) + multiset(r.updated) == multiset(acc.imported) + multiset(acc.updated) + multiset([year])
      && |r.imported| + |r.updated| == |acc.imported| + |acc.updated| + 1
  {
  }

  /**
   * A year is reported as updated exactly when one of the rows there before
   * the import held it, and as imported otherwise; those rows keep their years.
   */
  lemma {:induction false} SplitExisting(acc: Split, n: nat, items: Object)
    requires n <= |acc.metrics| && SplitYears(acc, n, items).Ok?
    ensures var r := SplitYears(acc, n, items).value;
      acc.imported <= r.imported && acc.updated <= r.updated
      && (forall i :: 0 <= i < n ==> r.metrics[i].year == acc.metrics[i].year)
      && (forall j :: |acc.updated| <= j < |r.updated| ==> Existing(acc.metrics, n, r.updated[j]))
      && (forall j :: |acc.imported| <= j < |r.imported| ==> !Existing(acc.metrics, n, r.imported[j]))
    decreases |items|
  {
    if |items| > 0 {
      match ParseInt(items[0].0)
      case None =>
        SplitExisting(acc, n, items[1..]);
      case Some(year) =>
        var next := Step(acc, n, year, items[0].1).value;
        assert SplitYears(acc, n, items) == SplitYears(next, n, items[1..]);
        StepExisting(acc, n, year, items[0].1);
        SplitExisting(next, n, items[1..]);
        var r := SplitYears(next, n, items[1..]).value;
        forall j | |acc.updated| <= j < |r.updated| ensures Existing(acc.metrics, n, r.updated[j]) {
          if j < |next.updated| {
            assert r.updated[j] == next.updated[j];
          } else {
            assert Existing(next.metrics, n, r.updated[j]);
          }
        }
        forall j | |acc.imported| <= j < |r.imported| ensures !Existing(acc.metrics, n, r.imported[j]) {
          if j < |next.imported| {
            assert r.imported[j] == next.imported[j];
          } else {
            assert !Existing(next.metrics, n, r.imported[j]);
          }
        }
    }
  }

  /** The checks the import makes before calling the service: an INN, of ten characters, and the service settings. */
  function FinancialsPrecheck(o: OrgState, config: FnsConfig): (r: Option<Response>)
    ensures r.Some? ==> r.value.Refused?
    ensures Inn(o) != "" && |Inn(o)| != 10 ==> r == Some(Refused(400, EntitiesOnly))
    ensures r.None? <==> |Inn(o)| == 10 && Precheck(o, config).None?
  {
    if Inn(o) == "" then Some(Refused(400, "Organization has no INN"))
    else if |Inn(o)| != 10 then Some(Refused(400, EntitiesOnly))
    else Precheck(o, config)
  }

  const EntitiesOnly := "Financial statements are only available for legal entities (ЮЛ)"

  /** The handler as written: the service has no `get_financial_statements`, so every call that passes the checks fails. */
  function ImportFinancialsAsWritten(store: Store, id: int, config: FnsConfig): (r: (Store, Response))
    ensures r.0 == store
  {
    if id !in store then (store, Refused(404, "Organization not found"))
    else
      match FinancialsPrecheck(store[id], config)
      case Some(refusal) => (store, refusal)
      case None => (store, Refused(500, "Failed to import financials from FNS: " + MissingMethod.Message()))
  }

  const MissingMethod := AttributeError("'FNSAPIService' object has no attribute 'get_financial_statements'")

  /** A ten-digit INN with the service enabled still ends in a 500, and nothing is imported. */
  lemma ImportFinancialsAlwaysFails(store: Store, id: int, config: FnsConfig)
    requires id in store && |Inn(store[id])| == 10
    requires config.enabled && config.apiKey.Some? && config.apiKey.value != ""
    ensures ImportFinancialsAsWritten(store, id, config).1.Refused?
    ensures ImportFinancialsAsWritten(store, id, config).1.status == 500
  {
  }

  /**
   * The handler as intended: `statements` is what the service answers for
   * the INN (`None` when it finds nothing), a dict from year to figures.
   */
  function ImportFinancials(store: Store, id: int, config: FnsConfig, statements: Option<Object>): (r: (Store, Response))
    ensures id !in store ==> r == (store, Refused(404, "Organization not found"))
    ensures r.1.Refused? ==> r.0 == store
    ensures id in store && FinancialsPrecheck(store[id], config).Some? ==> r == (store, FinancialsPrecheck(store[id], config).value)
    ensures r.1.Done? ==> id in store && FinancialsPrecheck(store[id], config).None? && r.0.Keys == store.Keys
    ensures r.1.Done? ==>
      statements.Some? && Import(store[id].metrics, statements.value).Ok?
      && r.0[id] == store[id].(metrics := Import(store[id].metrics, statements.value).value.metrics)
      && r.1.content == ImportReply(id, Inn(store[id]), Import(store[id].metrics, statements.value).value)
  {
    if id !in store then (store, Refused(404, "Organization not found"))
    else
      match FinancialsPrecheck(store[id], config)
      case Some(refusal) => (store, refusal)
      case None => ImportStatements(store, id, statements)
  }

  /** The import once the checks pass: nothing found is a 404, an exception in the loop a 500 that rolls back. */
  function ImportStatements(store: Store, id: int, statements: Option<Object>): (r: (Store, Response))
    requires id in store
    ensures r.1.Refused? ==> r.0 == store
    ensures statements.None? || |statements.value| == 0 ==> r.1 == Refused(404, "Financial statements not found in FNS database")
    ensures r.1.Done? ==> r.0.Keys == store.Keys
    ensures r.1.Done? ==>
      statements.Some? && Import(store[id].metrics, statements.value).Ok?
      && r.0[id] == store[id].(metrics := Import(store[id].metrics, statements.value).value.metrics)
      && r.1.content == ImportReply(id, Inn(store[id]), Import(store[id].metrics, statements.value).value)
  {
    var o := store[id];
    if statements.None? || |statements.value| == 0 then (store, Refused(404, "Financial statements not found in FNS database"))
    else
      match Import(o.metrics, statements.value)
      case Err(e) => (store, Refused(500, "Failed to import financials from FNS: " + e.Message()))
      case Ok(s) => (store[id := o.(metrics := s.metrics)], Done(ImportReply(id, Inn(o), s)))
  }

  /** The answer to a successful import. */
  function ImportReply(id: int, inn: string, s: Split): (c: Object)
    ensures |c| == 7
    ensures c[3] == ("imported_years", List(Wholes(Sort(s.imported))))
    ensures c[4] == ("updated_years", List(Wholes(Sort(s.updated))))
    ensures c[5] == ("total_years", Whole(|s.imported| + |s.updated|))
  {
    [("status", Str("success")),
     ("message", Str("Бухгалтерская отчётность импортирована из ФНС")),
     ("organization_id", Whole(id)),
     ("imported_years", List(Wholes(Sort(s.imported)))),
     ("updated_years", List(Wholes(Sort(s.updated)))),
     ("total_years", Whole(|s.imported| + |s.updated|)),
     ("inn", Str(inn))]
  }

  function Wholes(ns: seq<int>): (r: seq<Value>)
    ensures |r| == |ns| && forall i :: 0 <= i < |ns| ==> r[i] == Whole(ns[i])
  {
    seq(|ns|, i requires 0 <= i < |ns| => Whole(ns[i]))
  }

  /** Over a whole import, every parsed year is reported exactly once, in one of the two lists. */
  lemma SplitTotals(ms: seq<Schema.Metrics>, statements: Object)
    requires Import(ms, statements).Ok?
    ensures var s := Import(ms, statements).value;
      multiset(s.imported) + multiset(s.updated) == multiset(ParsedYears(statements))
      && |s.imported| + |s.updated| == |ParsedYears(statements)|
  {
    SplitCounts(Split(ms, [], []), |ms|, statements);
  }

  /** Over a whole import, a year is reported as updated exactly when a row held it before the import. */
  lemma SplitOrigin(ms: seq<Schema.Metrics>, statements: Object)
    requires Import(ms, statements).Ok?
    ensures var s := Import(ms, statements).value;
      (forall j :: 0 <= j < |s.updated| ==> Existing(ms, |ms|, s.updated[j]))
      && (forall j :: 0 <= j < |s.imported| ==> !Existing(ms, |ms|, s.imported[j]))
  {
    SplitExisting(Split(ms, [], []), |ms|, statements);
  }

  /**
   * The answer to a successful import lists the imported and the updated
   * years, each sorted, which together are the parsed years; the total is
   * their number.
   */
  lemma ImportReport(ms: seq<Schema.Metrics>, id: int, inn: string, statements: Object)
    requires Import(ms, statements).Ok?
    ensures ImportReply(id, inn, Import(ms, statements).value)[5]
      == ("total_years", Whole(|ParsedYears(statements)|))
  {
    var s := Import(ms, statements).value;
    SplitTotals(ms, statements);
    assert |s.imported| + |s.updated| == |ParsedYears(statements)|;
    assert ImportReply(id, inn, s)[5] == ("total_years", Whole(|s.imported| + |s.updated|));
  }
}

=== FILE: calendar.dfy ===
/**
 * Python's `datetime` as far as the importers and the exporter use it:
 * proleptic Gregorian dates, `datetime.strptime` for the three day-month-year
 * layouts the importer tries, `strftime('%d.%m.%Y')` and `str(datetime)`.
 */
module Calendar {
  import opened Wrappers
  import opened PyText

  /** A naive `datetime` (microseconds are never produced by the code modelled). */
  datatype DateTime = DateTime(year: int, month: int, day: int, hour: int, minute: int, second: int)

  predicate IsLeap(y: int) {
    y % 4 == 0 && (y % 100 != 0 || y % 400 == 0)
  }

  function DaysInMonth(y: int, m: int): (r: int)
    requires 1 <= m <= 12
    ensures 28 <= r <= 31
    ensures m == 2 ==> (r == 29 <==> IsLeap(y))
  {
    if m == 2 then (if IsLeap(y) then 29 else 28)
    else if m == 4 || m == 6 || m == 9 || m == 11 then 30
    else 31
  }

  /** The dates `datetime(y, m, d)` accepts without raising `ValueError`. */
  predicate ValidDate(y: int, m: int, d: int) {
    1 <= y <= 9999 && 1 <= m <= 12 && 1 <= d <= DaysInMonth(y, m)
  }

  predicate Valid(t: DateTime) {
    ValidDate(t.year, t.month, t.day)
    && 0 <= t.hour < 24 && 0 <= t.minute < 60 && 0 <= t.second < 60
  }

  /** The values a `datetime` object can hold. */
  type PyDateTime = t: DateTime | Valid(t) witness DateTime(1, 1, 1, 0, 0, 0)

  function Midnight(y: int, m: int, d: int): (r: DateTime)
    ensures r.year == y && r.month == m && r.day == d
    ensures r.hour == 0 && r.minute == 0 && r.second == 0
  {
    DateTime(y, m, d, 0, 0, 0)
  }

  function Digit(c: char): (r: nat)
    requires IsAsciiDigit(c)
    ensures r < 10 && DigitChar(r) == c
  {
    c as int - '0' as int
  }

  /** Two ASCII digits, zero padded: `'%02d' % n`. */
  function Pad2(n: int): (r: string)
    requires 0 <= n < 100
    ensures |r| == 2 && IsAsciiDigit(r[0]) && IsAsciiDigit(r[1])
    ensures 10 * Digit(r[0]) + Digit(r[1]) == n
  {
    [DigitChar(n / 10), DigitChar(n % 10)]
  }

  /** Four ASCII digits, zero padded: `'%04d' % n`. */
  function Pad4(n: int): (r: string)
    requires 0 <= n < 10000
    ensures |r| == 4 && AllDigits(r) && DigitsValue(r) == n
  {
    var q1, q2, q3 := n / 10, n / 100, n / 1000;
    assert n == 10 * q1 + n % 10 && q1 == 10 * q2 + q1 % 10 && q2 == 10 * q3 + q2 % 10;
    var r := [DigitChar(q3), DigitChar(q2 % 10), DigitChar(q1 % 10), DigitChar(n % 10)];
    FourDigitsValue(r);
    r
  }

  lemma FourDigitsValue(s: string)
    requires |s| == 4 && AllDigits(s)
    ensures DigitsValue(s) == 1000 * Digit(s[0]) + 100 * Digit(s[1]) + 10 * Digit(s[2]) + Digit(s[3])
  {
    assert s[..3][..2] == s[..2] && s[..2][..1] == s[..1] && s[..1][..0] == [];
    assert DigitsValue(s[..1]) == Digit(s[0]);
    assert DigitsValue(s[..2]) == 10 * Digit(s[0]) + Digit(s[1]);
    assert DigitsValue(s[..3]) == 100 * Digit(s[0]) + 10 * Digit(s[1]) + Digit(s[2]);
  }

  /**
   * The text `%d` matches in `strptime`: `3[01]|[12]\d|0[1-9]|[1-9]| [1-9]`,
   * read as the day it names. The two-character alternatives are the two-digit
   * numbers 01 to 31.
   */
  function DayField(s: string): (r: Option<int>)
    ensures r.Some? ==> 1 <= r.value <= 31
    ensures r.Some? ==> forall i :: 0 <= i < |s| ==> IsAsciiDigit(s[i]) || s[i] == ' '
  {
    if |s| == 1 && '1' <= s[0] <= '9' then Some(Digit(s[0]))
    else if |s| == 2 && s[0] == ' ' && '1' <= s[1] <= '9' then Some(Digit(s[1]))
    else if |s| == 2 && IsAsciiDigit(s[0]) && IsAsciiDigit(s[1])
      && 1 <= 10 * Digit(s[0]) + Digit(s[1]) <= 31
    then Some(10 * Digit(s[0]) + Digit(s[1]))
    else None
  }

  /** The text `%m` matches: `1[0-2]|0[1-9]|[1-9]`, read as the month it names. */
  function MonthField(s: string): (r: Option<int>)
    ensures r.Some? ==> 1 <= r.value <= 12
    ensures r.Some? ==> AllDigits(s)
  {
    if |s| == 1 && '1' <= s[0] <= '9' then Some(Digit(s[0]))
    else if |s| == 2 && IsAsciiDigit(s[0]) && IsAsciiDigit(s[1])
      && 1 <= 10 * Digit(s[0]) + Digit(s[1]) <= 12
    then Some(10 * Digit(s[0]) + Digit(s[1]))
    else None
  }

  /** The text `%Y` matches: exactly four digits. */
  function YearField(s: string): (r: Option<int>)
    ensures r.Some? ==> 0 <= r.value < 10000 && AllDigits(s)
  {
    if |s| == 4 && AllDigits(s) then
      FourDigitsValue(s);
      Some(DigitsValue(s))
    else None
  }

  /** The three layouts `safe_date` tries, in its order. */
  datatype DateFormat = DayDotMonthDotYear | YearDashMonthDashDay | DaySlashMonthSlashYear

  function Separator(f: DateFormat): char {
    match f
    case DayDotMonthDotYear => '.'
    case YearDashMonthDashDay => '-'
    case DaySlashMonthSlashYear => '/'
  }

  /**
   * The three fields between two occurrences of `c`. No field text can contain
   * a separator, so cutting at the first two separators is what the format's
   * regular expression does.
   */
  function SplitFields(s: string, c: char): (r: Option<(string, string, string)>)
    ensures r.Some? ==> s == r.value.0 + [c] + r.value.1 + [c] + r.value.2
  {
    match FirstIndex(s, {c})
    case None => None
    case Some(i) =>
      var rest := s[i + 1..];
      match FirstIndex(rest, {c})
      case None => None
      case Some(j) =>
        assert rest == rest[..j] + [c] + rest[j + 1..];
        assert s == s[..i] + [c] + rest;
        Some((s[..i], rest[..j], rest[j + 1..]))
  }

  /**
   * `datetime.strptime(s, fmt)`: the fields must spell the whole text (anything
   * left over is "unconverted data"), and the date they name must exist.
   */
  function Strptime(s: string, f: DateFormat): (r: Option<DateTime>)
    ensures r.Some? ==> Valid(r.value) && r.value == Midnight(r.value.year, r.value.month, r.value.day)
  {
    match SplitFields(s, Separator(f))
    case None => None
    case Some(fields) =>
      var yearText := if f.YearDashMonthDashDay? then fields.0 else fields.2;
      var dayText := if f.YearDashMonthDashDay? then fields.2 else fields.0;
      match (YearField(yearText), MonthField(fields.1), DayField(dayText))
      case (Some(y), Some(m), Some(d)) =>
        if ValidDate(y, m, d) then Some(Midnight(y, m, d)) else None
      case _ => None
  }

  /** `t.strftime('%d.%m.%Y')`: how the exporter writes a date. */
  function FormatDayMonthYear(t: DateTime): (r: string)
    requires Valid(t)
    ensures |r| == 10 && r[2] == '.' && r[5] == '.'
    ensures IsAsciiDigit(r[0]) && IsAsciiDigit(r[9])
  {
    Pad2(t.day) + "." + Pad2(t.month) + "." + Pad4(t.year)
  }

  /** `str(t)`: `YYYY-MM-DD HH:MM:SS`. */
  function DateTimeStr(t: DateTime): (r: string)
    requires Valid(t)
    ensures |r| == 19 && r[4] == '-' && r[7] == '-' && r[10] == ' ' && r[13] == ':' && r[16] == ':'
  {
    Pad4(t.year) + "-" + Pad2(t.month) + "-" + Pad2(t.day) + " "
    + Pad2(t.hour) + ":" + Pad2(t.minute) + ":" + Pad2(t.second)
  }

  lemma Pad2Field(n: int)
    requires 1 <= n <= 31
    ensures DayField(Pad2(n)) == Some(n)
    ensures n <= 12 ==> MonthField(Pad2(n)) == Some(n)
  {
  }

  lemma Pad4Field(n: int)
    requires 0 <= n < 10000
    ensures YearField(Pad4(n)) == Some(n)
  {
  }

  lemma SplitThree(a: string, b: string, d: string, c: char)
    requires c !in a && c !in b
    ensures SplitFields(a + [c] + b + [c] + d, c) == Some((a, b, d))
  {
    var s := a + [c] + b + [c] + d;
    var rest := b + [c] + d;
    assert s == a + [c] + rest;
    FirstIndexAfter(a, c, rest, {c});
    assert s[|a| + 1..] == rest;
    FirstIndexAfter(b, c, d, {c});
    assert rest[..|b|] == b && rest[|b| + 1..] == d;
    assert s[..|a|] == a;
  }

  /** What the exporter writes for a date, the importer reads back as that day at midnight. */
  lemma FormatDayMonthYearRoundTrip(t: DateTime)
    requires Valid(t)
    ensures Strptime(FormatDayMonthYear(t), DayDotMonthDotYear) == Some(Midnight(t.year, t.month, t.day))
  {
    var dd, mm, yy := Pad2(t.day), Pad2(t.month), Pad4(t.year);
    SplitThree(dd, mm, yy, '.');
    Pad2Field(t.day);
    Pad2Field(t.month);
    Pad4Field(t.year);
  }

  /** The characters a successful parse can have seen: digits, spaces and the format's separator. */
  lemma StrptimeCharacters(s: string, f: DateFormat, i: int)
    requires Strptime(s, f).Some? && 0 <= i < |s|
    ensures IsAsciiDigit(s[i]) || s[i] == ' ' || s[i] == Separator(f)
  {
    var fields := SplitFields(s, Separator(f)).value;
    var a, b, d := fields.0, fields.1, fields.2;
    var c := Separator(f);
    assert s == a + [c] + b + [c] + d;
    if i < |a| {
      assert s[i] == a[i];
    } else if i == |a| {
    } else if i < |a| + 1 + |b| {
      assert s[i] == b[i - |a| - 1];
    } else if i == |a| + 1 + |b| {
    } else {
      assert s[i] == d[i - |a| - 2 - |b|];
    }
  }

  /**
   * At most one of the three layouts accepts a given text, so the order in which
   * `safe_date` tries them never changes its answer.
   */
  lemma FormatsExclusive(s: string, f: DateFormat, g: DateFormat)
    requires f != g && Strptime(s, f).Some?
    ensures Strptime(s, g) == None
  {
    forall i | 0 <= i < |s|
      ensures s[i] !in {Separator(g)}
    {
      StrptimeCharacters(s, f, i);
    }
    FirstIndexOfAbsent(s, {Separator(g)});
  }
}

=== FILE: cells.dfy ===
/**
 * A spreadsheet cell as openpyxl hands it to the importers (`values_only`
 * rows): `None`, text, an int, a float, a bool or a datetime.
 */
module Cells {
  import opened PyText
  import opened PyNum
  import opened Calendar

  datatype Cell =
    | Empty
    | Text(s: string)
    | Int(n: int)
    | Float(x: PyFloat)
    | Bool(b: bool)
    | Date(t: PyDateTime)

  /** A row of cells; openpyxl pads every row to the width of the sheet. */
  type Row = seq<Cell>

  /** Python truthiness of the cell's value. */
  predicate Truthy(c: Cell) {
    match c
    case Empty => false
    case Text(s) => |s| > 0
    case Int(i) => i != 0
    case Float(x) => !(x.Finite? && x.value.mant == 0)
    case Bool(b) => b
    case Date(_) => true
  }

  /** `value is None or value == ""`: the guard every `safe_*` helper starts with. */
  predicate IsBlank(c: Cell) {
    c == Empty || c == Text("")
  }

  /** `str(value)` for a cell that is not `None`. */
  function PyStr(c: Cell): (r: string)
    requires c != Empty
    ensures c.Text? ==> r == c.s
    ensures c.Bool? ==> r == (if c.b then "True" else "False")
  {
    match c
    case Text(s) => s
    case Int(i) => IntToString(i)
    case Float(x) => PyFloatRepr(x)
    case Bool(b) => if b then "True" else "False"
    case Date(t) => DateTimeStr(t)
  }

  /** Only blank cells have an empty `str`; every other value prints something. */
  lemma PyStrEmptyIffBlank(c: Cell)
    requires c != Empty
    ensures PyStr(c) == "" <==> IsBlank(c)
  {
  }

  /** `row[i] if len(row) > i else None`: the guard the importers put on optional columns. */
  function CellAt(row: Row, i: nat): (r: Cell)
    ensures i >= |row| ==> r == Empty
    ensures i < |row| ==> r == row[i]
  {
    if i < |row| then row[i] else Empty
  }
}

=== FILE: coerce.dfy ===
/**
 * The forgiving cell conversions of the newer importer (`safe_str`,
 * `safe_float`, `safe_int`, `safe_bool`, `safe_date`): each turns a cell into
 * an optional typed value and never reports a malformed cell, with the one
 * exception recorded for `SafeIntAsWritten`.
 */
module Coerce {
  import opened Wrappers
  import opened PyErrors
  import opened PyText
  import opened PyNum
  import opened Calendar
  import opened Cells

  /** `safe_str(value, max_len)`; a `maxLen` of 0 means no limit, as the falsy `max_len` does. */
  function SafeStr(c: Cell, maxLen: nat): (r: Option<string>)
    ensures r.Some? ==> |r.value| > 0
    ensures r.Some? && maxLen > 0 ==> |r.value| <= maxLen
  {
    if IsBlank(c) then None
    else
      var u := Cut(Strip(PyStr(c)), maxLen);
      if u == "" then None else Some(u)
  }

  /** `safe_str` gives `None` exactly for `None`, `""` and values that print as whitespace only. */
  lemma SafeStrNoneIff(c: Cell, maxLen: nat)
    ensures SafeStr(c, maxLen).None? <==> IsBlank(c) || AllSpace(PyStr(c))
  {
    if !IsBlank(c) {
      StripEmptyIffAllSpace(PyStr(c));
    }
  }

  /** The result is a prefix of the stripped text, and all of it when within the limit. */
  lemma SafeStrPrefix(c: Cell, maxLen: nat)
    requires SafeStr(c, maxLen).Some?
    ensures StartsWith(Strip(PyStr(c)), SafeStr(c, maxLen).value)
    ensures maxLen == 0 || |Strip(PyStr(c))| <= maxLen ==> SafeStr(c, maxLen).value == Strip(PyStr(c))
  {
    var t := Strip(PyStr(c));
    assert SafeStr(c, maxLen).value == Cut(t, maxLen);
    CutIsPrefix(t, maxLen);
  }

  /** `t[:maxLen]` when a limit is set and exceeded. */
  function Cut(t: string, maxLen: nat): string {
    if maxLen > 0 && |t| > maxLen then t[..maxLen] else t
  }

  lemma CutIsPrefix(t: string, maxLen: nat)
    ensures StartsWith(t, Cut(t, maxLen))
    ensures maxLen == 0 || |t| <= maxLen ==> Cut(t, maxLen) == t
  {
  }

  /** `safe_str` of text that has something besides whitespace: the stripped text, cut to the limit. */
  lemma SafeStrOfText(s: string, maxLen: nat, t: string)
    requires t == Strip(s) && |t| > 0
    ensures SafeStr(Text(s), maxLen) == Some(Cut(t, maxLen))
  {
    assert |Cut(t, maxLen)| > 0;
  }

  /** Applying `safe_str` to its own (untruncated) result changes nothing. */
  lemma SafeStrIdempotent(c: Cell)
    requires SafeStr(c, 0).Some?
    ensures SafeStr(Text(SafeStr(c, 0).value), 0) == SafeStr(c, 0)
  {
    var t := SafeStr(c, 0).value;
    assert t == Strip(PyStr(c));
    StrippedIsFixed(PyStr(c), t);
  }

  /** A non-empty stripped text is its own `safe_str`. */
  lemma StrippedIsFixed(s: string, t: string)
    requires t == Strip(s) && |t| > 0
    ensures SafeStr(Text(t), 0) == Some(t)
  {
    StripNoEdgeSpace(t);
    SafeStrOfText(t, 0, t);
  }

  /**
   * Truncating after stripping can leave whitespace at the end of the result:
   * text without edge whitespace, cut where a space is the last kept character.
   */
  lemma SafeStrTruncationKeepsSpace(t: string, maxLen: nat)
    requires 0 < maxLen < |t| && !IsSpace(t[0]) && !IsSpace(t[|t| - 1]) && IsSpace(t[maxLen - 1])
    ensures SafeStr(Text(t), maxLen) == Some(t[..maxLen])
    ensures IsSpace(SafeStr(Text(t), maxLen).value[maxLen - 1])
  {
    StripNoEdgeSpace(t);
    SafeStrOfText(t, maxLen, t);
  }

  /** `safe_float(value)` */
  function SafeFloat(c: Cell): (r: Option<PyFloat>)
    ensures IsBlank(c) || c.Date? ==> r.None?
    ensures c.Text? && AllSpace(c.s) ==> r.None?
    ensures c.Float? ==> r == Some(c.x)
    ensures c.Int? ==> r == Some(Finite(FromInt(c.n)))
    ensures c.Bool? ==> r == Some(Finite(FromInt(if c.b then 1 else 0)))
  {
    match c
    case Empty => None
    case Text(s) =>
      StripEmptyIffAllSpace(s);
      if s == "" || Strip(s) == "" then None else ParsePyFloat(s)
    case Int(n) => Some(Finite(FromInt(n)))
    case Float(x) => Some(x)
    case Bool(b) => Some(Finite(FromInt(if b then 1 else 0)))
    case Date(_) => None
  }

  /** Text a float's `repr` produces converts back to that float. */
  lemma SafeFloatReadsRepr(x: PyFloat)
    ensures SafeFloat(Text(PyFloatRepr(x))) == Some(Canon(x))
  {
    PyFloatReprRoundTrip(x);
    SafeFloatOfText(PyFloatRepr(x));
  }

  /** Text with something besides whitespace converts as `float()` reads it. */
  lemma SafeFloatOfText(s: string)
    requires !AllSpace(s)
    ensures SafeFloat(Text(s)) == ParsePyFloat(s)
  {
    StripEmptyIffAllSpace(s);
  }

  /**
   * `safe_int(value)` as written: `int(float(value))` with `ValueError` and
   * `TypeError` turned into `None`. An infinite float (the text "inf", say)
   * makes `int()` raise `OverflowError`, which escapes.
   */
  function SafeIntAsWritten(c: Cell): (r: Result<Option<int>, Exception>)
    ensures r.Err? <==> SafeFloat(c).Some? && SafeFloat(c).value.Infinity?
    ensures r.Err? ==> r.error.OverflowError?
  {
    match SafeFloat(c)
    case None => Ok(None)
    case Some(x) =>
      match FloatToInt(x)
      case Ok(i) => Ok(Some(i))
      case Err(e) => if e.OverflowError? then Err(e) else Ok(None)
  }

  /** A cell holding the text "inf" makes `safe_int` raise instead of answering `None`. */
  lemma SafeIntRaisesOnInfinity(t: string)
    requires t == "inf"
    ensures SafeIntAsWritten(Text(t)).Err?
    ensures SafeInt(Text(t)) == None
  {
    SpecialRepr(t, false, t);
    SafeFloatOfText(t);
  }

  /**
   * `safe_int(value)` as its docstring promises: a whole number when the cell
   * holds a finite number, `None` for everything else, infinities included.
   */
  function SafeInt(c: Cell): (r: Option<int>)
    ensures r.Some? <==> SafeFloat(c).Some? && SafeFloat(c).value.Finite?
    ensures r.Some? ==> r.value == Trunc(SafeFloat(c).value.value)
  {
    match SafeFloat(c)
    case Some(Finite(d)) => Some(Trunc(d))
    case _ => None
  }

  /** Wherever the code as written answers, it answers what `SafeInt` does. */
  lemma SafeIntAgrees(c: Cell)
    ensures SafeIntAsWritten(c).Ok? ==> SafeIntAsWritten(c).value == SafeInt(c)
    ensures SafeIntAsWritten(c).Err? ==> SafeInt(c) == None
  {
  }

  /** An int cell converts to itself; the double range and the rounding above 2^53 are not modelled. */
  lemma SafeIntOfInt(n: int)
    ensures SafeInt(Int(n)) == Some(n)
  {
    TruncFromInt(n);
  }

  /** The words `safe_bool` reads as true, after lower-casing and stripping. */
  const TrueWords: set<string> := {"да", "yes", "true", "1", "+"}

  /** `safe_bool(value)`: a bool as is, text by the true-word list, anything else `False`. */
  function SafeBool(c: Cell): (r: bool)
    ensures c.Bool? ==> r == c.b
    ensures !c.Bool? && !c.Text? ==> !r
    ensures c.Text? ==> (r <==> Strip(Lower(c.s)) in TrueWords)
  {
    match c
    case Bool(b) => b
    case Text(s) => Strip(Lower(s)) in TrueWords
    case _ => false
  }

  lemma SafeBoolText(s: string, word: string)
    requires |word| > 0 && !IsSpace(word[0]) && !IsSpace(word[|word| - 1])
    requires Lower(s) == word
    ensures SafeBool(Text(s)) <==> word in TrueWords
  {
    StripNoEdgeSpace(word);
  }

  /** The exporter's yes/no words read back as the flags they stand for; numbers are not flags. */
  lemma SafeBoolWords(yes: string, no: string)
    requires yes == "Да" && no == "Нет"
    ensures SafeBool(Text(yes)) && !SafeBool(Text(no))
    ensures !SafeBool(Int(1)) && !SafeBool(Float(Finite(Decimal(1, 0))))
  {
    var y, n := Lower(yes), Lower(no);
    assert y[0] == 'д' && y[1] == 'а';
    assert y == "да";
    SafeBoolText(yes, y);
    assert n[0] == 'н' && n[1] == 'е' && n[2] == 'т';
    assert n == "нет";
    SafeBoolText(no, n);
  }

  /**
   * `safe_date(value)`: a datetime as is; otherwise `str(value).strip()` read
   * with the first of the three layouts that accepts it.
   */
  function SafeDate(c: Cell): (r: Option<PyDateTime>)
    ensures c.Date? ==> r == Some(c.t)
    ensures IsBlank(c) ==> r.None?
    ensures r.Some? && !c.Date? ==> exists f :: Strptime(Strip(PyStr(c)), f) == Some(r.value)
  {
    if IsBlank(c) then None
    else if c.Date? then Some(c.t)
    else
      var s := Strip(PyStr(c));
      match Strptime(s, DayDotMonthDotYear)
      case Some(t) => Some(t)
      case None =>
        match Strptime(s, YearDashMonthDashDay)
        case Some(t) => Some(t)
        case None => Strptime(s, DaySlashMonthSlashYear)
  }

  /** Whichever layout accepts the text, `safe_date` returns that layout's reading. */
  lemma SafeDateAnyLayout(c: Cell, f: DateFormat)
    requires !IsBlank(c) && !c.Date?
    requires Strptime(Strip(PyStr(c)), f).Some?
    ensures SafeDate(c) == Strptime(Strip(PyStr(c)), f)
  {
    var s := Strip(PyStr(c));
    if f != DayDotMonthDotYear {
      FormatsExclusive(s, f, DayDotMonthDotYear);
    }
    if f != YearDashMonthDashDay {
      FormatsExclusive(s, f, YearDashMonthDashDay);
    }
  }

  /** A date the exporter writes as text is read back as that day at midnight. */
  lemma SafeDateReadsExport(t: PyDateTime)
    ensures SafeDate(Text(FormatDayMonthYear(t))) == Some(Midnight(t.year, t.month, t.day))
  {
    var s := FormatDayMonthYear(t);
    StripNoEdgeSpace(s);
    FormatDayMonthYearRoundTrip(t);
  }
}

=== FILE: colors.dfy ===
/**
 * The colour clean-up of the templates: a declaration of one of four
 * properties whose value is one of twelve hard-coded colours gets the
 * matching CSS variable instead. Property and colour are matched without
 * regard to letter case, the property is kept as written, and nothing
 * bounds the colour on the right.
 */
module ColorVars {
  import opened Wrappers
  import opened PyText
  import opened Rewrite

  /** The alternatives of the property group, in the pattern's order. */
  const Properties: seq<string> := ["color", "background", "border-color", "fill"]

  /** The colours and their variables, applied in this order. */
  const ColorMap: seq<(string, string)> := [
    ("#667eea", "var(--accent-dark)"), ("#764ba2", "var(--accent-dark)"),
    ("#f8f9fa", "var(--accent-light)"), ("#e9ecef", "var(--border-color)"),
    ("#dee2e6", "var(--border-color)"), ("#495057", "var(--text-secondary)"),
    ("#6c757d", "var(--text-secondary)"), ("#333", "var(--text-primary)"),
    ("#666", "var(--text-secondary)"), ("white", "var(--card-bg)"),
    ("#fff", "var(--card-bg)"), ("#000", "var(--text-primary)")]

  /**
   * Where a declaration of `prop` with the colour `lit` that starts at `i`
   * ends: the property, a colon, any whitespace, then the colour.
   */
  function DeclarationEnd(s: string, i: nat, prop: string, lit: string): (r: Option<nat>)
    ensures r.Some? ==> i + |prop| + 1 + |lit| <= r.value <= |s|
    ensures r.Some? ==> OccursAtIgnoringCase(s, prop, i) && s[i + |prop|] == ':'
    ensures r.Some? ==> (OccursAtIgnoringCase(s, lit, r.value - |lit|)
                         && AllSpace(s[i + |prop| + 1..r.value - |lit|]))
  {
    if OccursAtIgnoringCase(s, prop, i) && i + |prop| < |s| && s[i + |prop|] == ':' then
      var j := SkipSpace(s, i + |prop| + 1);
      if OccursAtIgnoringCase(s, lit, j) then Some(j + |lit|) else None
    else None
  }

  /** `m` ends the declaration of `prop` at `i` and replaces it by the property as written, `: ` and the variable. */
  predicate Rewrites(s: string, i: nat, prop: string, lit: string, name: string, m: (nat, string)) {
    DeclarationEnd(s, i, prop, lit) == Some(m.0) && i + |prop| <= |s| && m.1 == s[i..i + |prop|] + ": " + name
  }

  /** The first alternative whose declaration matches at `i`, and the text that replaces it. */
  function FirstDeclaration(s: string, i: nat, props: seq<string>, lit: string, name: string): (r: Option<(nat, string)>)
    ensures r.Some? ==> exists k :: 0 <= k < |props| && Rewrites(s, i, props[k], lit, name, r.value)
    ensures r.None? <==> forall k :: 0 <= k < |props| ==> DeclarationEnd(s, i, props[k], lit).None?
    decreases |props|
  {
    if |props| == 0 then None
    else
      match DeclarationEnd(s, i, props[0], lit)
      case Some(e) =>
        var r := (e, s[i..i + |props[0]|] + ": " + name);
        assert Rewrites(s, i, props[0], lit, name, r);
        Some(r)
      case None =>
        var r := FirstDeclaration(s, i, props[1..], lit, name);
        assert forall k :: 1 <= k < |props| ==> props[1..][k - 1] == props[k];
        assert r.Some? ==> exists k :: 0 <= k < |props| && Rewrites(s, i, props[k], lit, name, r.value);
        r
  }

  /** The pattern for one map entry; the replacement keeps the property as written. */
  function EntryMatcher(lit: string, name: string): Matcher {
    (s: string, i: nat) => FirstDeclaration(s, i, Properties, lit, name)
  }

  /** One `re.sub` of the map. */
  function Recolor(s: string, entry: (string, string)): string {
    Sub(EntryMatcher(entry.0, entry.1), s)
  }

  /** Every entry of `entries` in turn. */
  function RecolorAll(s: string, entries: seq<(string, string)>): string
    decreases |entries|
  {
    if |entries| == 0 then s else RecolorAll(Recolor(s, entries[0]), entries[1..])
  }

  /** `replace_colors` */
  function ReplaceColors(content: string): string {
    RecolorAll(content, ColorMap)
  }

  /** A match needs a colon: a text without one is left alone by every entry. */
  lemma {:induction false} NoColonNoChange(s: string, entries: seq<(string, string)>)
    requires forall k :: 0 <= k < |s| ==> s[k] != ':'
    ensures RecolorAll(s, entries) == s
    decreases |entries|
  {
    if |entries| > 0 {
      var m := EntryMatcher(entries[0].0, entries[0].1);
      forall k | 0 <= k < |s| ensures !MatchesAt(m, s, k) {
        assert forall p :: 0 <= p < |Properties| ==> DeclarationEnd(s, k, Properties[p], entries[0].0).None?;
      }
      SubNoMatch(m, s);
      NoColonNoChange(s, entries[1..]);
    }
  }

  /** The whole clean-up leaves a text without a colon as it is. */
  lemma ReplaceColorsNeedsColon(content: string)
    requires forall k :: 0 <= k < |content| ==> content[k] != ':'
    ensures ReplaceColors(content) == content
  {
    NoColonNoChange(content, ColorMap);
  }

  /** A position whose letter starts none of the properties starts no declaration. */
  lemma NoPropertyStartsAt(s: string, i: nat, lit: string, name: string)
    requires i < |s| && LowerChar(s[i]) != 'c' && LowerChar(s[i]) != 'b' && LowerChar(s[i]) != 'f'
    ensures !MatchesAt(EntryMatcher(lit, name), s, i)
  {
    forall p | 0 <= p < |Properties| ensures DeclarationEnd(s, i, Properties[p], lit).None? {
      var prop := Properties[p];
      assert prop[0] == 'c' || prop[0] == 'b' || prop[0] == 'f';
      assert LowerChar(s[i + 0]) != LowerChar(prop[0]);
    }
  }

  /** The declaration at the start of `COLOR:#333333` ends after the first `#333`. */
  lemma UpperCaseDeclarationMatches()
    ensures EntryMatcher("#333", "var(--text-primary)")("COLOR:#333333", 0) == Some((10, "COLOR" + ": " + "var(--text-primary)"))
  {
    var s := "COLOR:#333333";
    assert OccursAtIgnoringCase(s, "color", 0);
    assert SkipSpace(s, 6) == 6;
    assert OccursAtIgnoringCase(s, "#333", 6);
    assert DeclarationEnd(s, 0, Properties[0], "#333") == Some(10);
    assert s[0..5] == "COLOR";
  }

  /**
   * The property keeps its spelling, the colour is found whatever its case,
   * and nothing bounds it on the right: `#333` also rewrites the start of
   * `#333333`.
   */
  lemma LongerColourKeepsTail()
    ensures Recolor("COLOR:#333333", ("#333", "var(--text-primary)")) == "COLOR" + ": " + "var(--text-primary)" + "333"
  {
    var s := "COLOR:#333333";
    var m := EntryMatcher("#333", "var(--text-primary)");
    UpperCaseDeclarationMatches();
    SubTakes(m, s, 0);
    forall j | 10 <= j < 13 ensures !MatchesAt(m, s, j) {
      NoPropertyStartsAt(s, j, "#333", "var(--text-primary)");
    }
    SubSkips(m, s, 10, 13);
    assert SubFrom(m, s, 13) == "";
    assert s[10..13] == "333";
  }

  /**
   * Nothing bounds the colour on the right: whatever text follows a matched
   * declaration, it still matches and ends right after the colour.
   */
  lemma DeclarationIgnoresWhatFollows(s: string, tail: string, i: nat, prop: string, lit: string)
    requires |lit| > 0 && DeclarationEnd(s, i, prop, lit).Some?
    ensures DeclarationEnd(s + tail, i, prop, lit) == DeclarationEnd(s, i, prop, lit)
  {
    var u := s + tail;
    assert forall k :: 0 <= k < |s| ==> u[k] == s[k];
    var j := i + |prop| + 1;
    var e, e2 := SkipSpace(s, j), SkipSpace(u, j);
    assert e < |s|;
    assert e2 == e;
  }

  /** Only the four properties are rewritten: a `border` shorthand keeps its colour. */
  lemma BorderShorthandKept()
    ensures Recolor("border: #333", ("#333", "var(--text-primary)")) == "border: #333"
  {
    var s := "border: #333";
    var m := EntryMatcher("#333", "var(--text-primary)");
    forall j | 1 <= j < |s| ensures !MatchesAt(m, s, j) {
      NoPropertyStartsAt(s, j, "#333", "var(--text-primary)");
    }
    assert !MatchesAt(m, s, 0) by {
      assert LowerChar(s[0 + 0]) != LowerChar("color"[0]);
      assert LowerChar(s[0 + 1]) != LowerChar("background"[1]);
      assert LowerChar(s[0 + 6]) != LowerChar("border-color"[6]);
      assert LowerChar(s[0 + 0]) != LowerChar("fill"[0]);
      assert forall p :: 0 <= p < |Properties| ==> DeclarationEnd(s, 0, Properties[p], "#333").None?;
    }
    SubNoMatch(m, s);
  }

  /** `process_template`: the new text when it differs from the old one, nothing to write otherwise. */
  function ProcessTemplate(content: string): (r: Option<string>)
    ensures r.Some? <==> ReplaceColors(content) != content
    ensures r.Some? ==> r.value == ReplaceColors(content)
  {
    var recolored := ReplaceColors(content);
    if recolored != content then Some(recolored) else None
  }
}

=== FILE: columns.dfy ===
/**
 * The fixed positional layout of the organization sheet shared by the newer
 * importer and the exporter: eight metric families of seven years from column
 * 47, eight tax families of eight years from column 103, three investment
 * years from 167 and five export years from 170 (0-based column numbers).
 */
module ColumnMap {
  import opened Wrappers

  const FirstYear := 2017
  const LastMetricYear := 2023
  const LastTaxYear := 2024
  const MetricBase := 47
  const TaxBase := 103
  const InvestmentBase := 167
  const ExportBase := 170
  const FirstInvestmentYear := 2021
  const FirstExportYear := 2019

  /** The metric families, in column order. */
  datatype MetricFamily =
    | Revenue | Profit | TotalEmployees | MoscowEmployees
    | TotalFot | MoscowFot | AvgSalaryTotal | AvgSalaryMoscow

  /** The tax families, in column order. */
  datatype TaxFamily =
    | TotalTaxes | ProfitTax | PropertyTax | LandTax
    | Ndfl | TransportTax | OtherTaxes | Excise

  function MetricOrdinal(k: MetricFamily): (r: nat)
    ensures r < 8
  {
    match k
    case Revenue => 0
    case Profit => 1
    case TotalEmployees => 2
    case MoscowEmployees => 3
    case TotalFot => 4
    case MoscowFot => 5
    case AvgSalaryTotal => 6
    case AvgSalaryMoscow => 7
  }

  function MetricFamilyAt(i: nat): (r: MetricFamily)
    requires i < 8
    ensures MetricOrdinal(r) == i
  {
    [Revenue, Profit, TotalEmployees, MoscowEmployees, TotalFot, MoscowFot, AvgSalaryTotal, AvgSalaryMoscow][i]
  }

  function TaxOrdinal(k: TaxFamily): (r: nat)
    ensures r < 8
  {
    match k
    case TotalTaxes => 0
    case ProfitTax => 1
    case PropertyTax => 2
    case LandTax => 3
    case Ndfl => 4
    case TransportTax => 5
    case OtherTaxes => 6
    case Excise => 7
  }

  function TaxFamilyAt(i: nat): (r: TaxFamily)
    requires i < 8
    ensures TaxOrdinal(r) == i
  {
    [TotalTaxes, ProfitTax, PropertyTax, LandTax, Ndfl, TransportTax, OtherTaxes, Excise][i]
  }

  /** A cell of the numeric block: which family and which year it holds. */
  datatype Position =
    | MetricCell(metric: MetricFamily, year: int)
    | TaxCell(tax: TaxFamily, year: int)
    | InvestmentCell(year: int)
    | ExportCell(year: int)

  /** The years each kind of cell exists for. */
  predicate ValidPosition(p: Position) {
    match p
    case MetricCell(_, y) => FirstYear <= y <= LastMetricYear
    case TaxCell(_, y) => FirstYear <= y <= LastTaxYear
    case InvestmentCell(y) => FirstInvestmentYear <= y <= LastMetricYear
    case ExportCell(y) => FirstExportYear <= y <= LastMetricYear
  }

  /** The 0-based column of a numeric cell. */
  function Column(p: Position): (c: nat)
    requires ValidPosition(p)
    ensures p.MetricCell? ==> MetricBase <= c < TaxBase
    ensures p.TaxCell? ==> TaxBase <= c < InvestmentBase
    ensures p.InvestmentCell? ==> InvestmentBase <= c < ExportBase
    ensures p.ExportCell? ==> ExportBase <= c < 175
  {
    match p
    case MetricCell(k, y) => MetricBase + 7 * MetricOrdinal(k) + (y - FirstYear)
    case TaxCell(k, y) => TaxBase + 8 * TaxOrdinal(k) + (y - FirstYear)
    case InvestmentCell(y) => InvestmentBase + (y - FirstInvestmentYear)
    case ExportCell(y) => ExportBase + (y - FirstExportYear)
  }

  function MetricColumn(k: MetricFamily, y: int): (c: nat)
    requires FirstYear <= y <= LastMetricYear
    ensures MetricBase <= c < TaxBase
  {
    Column(MetricCell(k, y))
  }

  function TaxColumn(k: TaxFamily, y: int): (c: nat)
    requires FirstYear <= y <= LastTaxYear
    ensures TaxBase <= c < InvestmentBase
  {
    Column(TaxCell(k, y))
  }

  /** Which numeric cell a column holds, if any: the inverse of `Column`. */
  function PositionAt(c: nat): (r: Option<Position>)
    ensures r.Some? <==> MetricBase <= c < 175
    ensures r.Some? ==> ValidPosition(r.value)
  {
    if c < MetricBase then None
    else if c < TaxBase then
      var i: nat := c - MetricBase;
      Some(MetricCell(MetricFamilyAt(i / 7), FirstYear + i % 7))
    else if c < InvestmentBase then
      var i: nat := c - TaxBase;
      Some(TaxCell(TaxFamilyAt(i / 8), FirstYear + i % 8))
    else if c < ExportBase then Some(InvestmentCell(FirstInvestmentYear + (c - InvestmentBase)))
    else if c < 175 then Some(ExportCell(FirstExportYear + (c - ExportBase)))
    else None
  }

  lemma DivMod7(i: nat, q: nat, r: nat)
    requires r < 7 && i == 7 * q + r
    ensures i / 7 == q && i % 7 == r
  {
  }

  lemma DivMod8(i: nat, q: nat, r: nat)
    requires r < 8 && i == 8 * q + r
    ensures i / 8 == q && i % 8 == r
  {
  }

  /** Every numeric cell is found again at its column. */
  lemma PositionAtColumn(p: Position)
    requires ValidPosition(p)
    ensures PositionAt(Column(p)) == Some(p)
  {
    match p
    case MetricCell(k, y) => MetricPositionAt(k, y);
    case TaxCell(k, y) => TaxPositionAt(k, y);
    case InvestmentCell(_) =>
    case ExportCell(_) =>
  }

  lemma MetricPositionAt(k: MetricFamily, y: int)
    requires FirstYear <= y <= LastMetricYear
    ensures PositionAt(Column(MetricCell(k, y))) == Some(MetricCell(k, y))
  {
    var i: nat := Column(MetricCell(k, y)) - MetricBase;
    DivMod7(i, MetricOrdinal(k), y - FirstYear);
    MetricOrdinalInjective(k, MetricFamilyAt(MetricOrdinal(k)));
  }

  lemma TaxPositionAt(k: TaxFamily, y: int)
    requires FirstYear <= y <= LastTaxYear
    ensures PositionAt(Column(TaxCell(k, y))) == Some(TaxCell(k, y))
  {
    var i: nat := Column(TaxCell(k, y)) - TaxBase;
    DivMod8(i, TaxOrdinal(k), y - FirstYear);
    TaxOrdinalInjective(k, TaxFamilyAt(TaxOrdinal(k)));
  }

  /** Every column of the numeric block holds the cell `PositionAt` names. */
  lemma ColumnOfPositionAt(c: nat)
    requires PositionAt(c).Some?
    ensures Column(PositionAt(c).value) == c
  {
  }

  lemma MetricOrdinalInjective(a: MetricFamily, b: MetricFamily)
    requires MetricOrdinal(a) == MetricOrdinal(b)
    ensures a == b
  {
  }

  lemma TaxOrdinalInjective(a: TaxFamily, b: TaxFamily)
    requires TaxOrdinal(a) == TaxOrdinal(b)
    ensures a == b
  {
  }

  /** No two numeric cells share a column. */
  lemma ColumnsDistinct(p: Position, q: Position)
    requires ValidPosition(p) && ValidPosition(q) && p != q
    ensures Column(p) != Column(q)
  {
    PositionAtColumn(p);
    PositionAtColumn(q);
  }

  /** The 2017 revenue and total head count of an organization sit in columns 47 and 61. */
  lemma FirstYearColumns()
    ensures MetricColumn(Revenue, 2017) == 47 && MetricColumn(TotalEmployees, 2017) == 61
    ensures MetricColumn(AvgSalaryMoscow, 2023) == 102 && TaxColumn(Excise, 2024) == 166
  {
  }

  /** The last family of each block ends a year's reads: column 96 + i for metrics, 159 + i for taxes. */
  lemma LastFamilyColumns(i: nat)
    ensures i < 7 ==> MetricColumn(AvgSalaryMoscow, FirstYear + i) == 96 + i
    ensures i < 8 ==> TaxColumn(Excise, FirstYear + i) == 159 + i
  {
  }

  /**
   * The exporter's nested loop over the metric families and, inside it, the
   * years 2017 to 2023: the `i`-th cell it writes is family `i / 7`, year
   * `2017 + i % 7`.
   */
  function MetricPositions(): (r: seq<Position>)
    ensures |r| == 56
    ensures forall i :: 0 <= i < 56 ==> r[i] == MetricCell(MetricFamilyAt(i / 7), FirstYear + i % 7)
  {
    seq(56, i requires 0 <= i < 56 => MetricCell(MetricFamilyAt(i / 7), FirstYear + i % 7))
  }

  /** The same loop over the tax families and the years 2017 to 2024. */
  function TaxPositions(): (r: seq<Position>)
    ensures |r| == 64
    ensures forall i :: 0 <= i < 64 ==> r[i] == TaxCell(TaxFamilyAt(i / 8), FirstYear + i % 8)
  {
    seq(64, i requires 0 <= i < 64 => TaxCell(TaxFamilyAt(i / 8), FirstYear + i % 8))
  }

  lemma MetricRunAt(k: MetricFamily, y: int)
    requires FirstYear <= y <= LastMetricYear
    ensures MetricPositions()[7 * MetricOrdinal(k) + (y - FirstYear)] == MetricCell(k, y)
  {
    DivMod7(7 * MetricOrdinal(k) + (y - FirstYear), MetricOrdinal(k), y - FirstYear);
    MetricOrdinalInjective(MetricFamilyAt(MetricOrdinal(k)), k);
  }

  lemma TaxRunAt(k: TaxFamily, y: int)
    requires FirstYear <= y <= LastTaxYear
    ensures TaxPositions()[8 * TaxOrdinal(k) + (y - FirstYear)] == TaxCell(k, y)
  {
    DivMod8(8 * TaxOrdinal(k) + (y - FirstYear), TaxOrdinal(k), y - FirstYear);
    TaxOrdinalInjective(TaxFamilyAt(TaxOrdinal(k)), k);
  }

  /** Every numeric position in the order the exporter writes them. */
  function NumericPositions(): (r: seq<Position>)
    ensures |r| == 128
  {
    MetricPositions() + TaxPositions()
    + [InvestmentCell(2021), InvestmentCell(2022), InvestmentCell(2023)]
    + [ExportCell(2019), ExportCell(2020), ExportCell(2021), ExportCell(2022), ExportCell(2023)]
  }

  /** Indexing four concatenated blocks. */
  lemma FourBlocksAt<T>(a: seq<T>, b: seq<T>, c: seq<T>, d: seq<T>, i: nat)
    requires i < |a| + |b| + |c| + |d|
    ensures (a + b + c + d)[i] ==
      if i < |a| then a[i]
      else if i < |a| + |b| then b[i - |a|]
      else if i < |a| + |b| + |c| then c[i - |a| - |b|]
      else d[i - |a| - |b| - |c|]
  {
  }

  /** The exporter's order puts every numeric cell at the column the importer reads it from. */
  lemma NumericPositionsAt(p: Position)
    requires ValidPosition(p)
    ensures NumericPositions()[Column(p) - MetricBase] == p
  {
    var ms, ts := MetricPositions(), TaxPositions();
    var invs := [InvestmentCell(2021), InvestmentCell(2022), InvestmentCell(2023)];
    var exps := [ExportCell(2019), ExportCell(2020), ExportCell(2021), ExportCell(2022), ExportCell(2023)];
    assert NumericPositions() == ms + ts + invs + exps;
    FourBlocksAt(ms, ts, invs, exps, Column(p) - MetricBase);
    match p
    case MetricCell(k, y) => MetricRunAt(k, y);
    case TaxCell(k, y) => TaxRunAt(k, y);
    case InvestmentCell(y) =>
    case ExportCell(y) =>
  }
}

=== FILE: emoji.dfy ===
/**
 * The emoji clean-up applied to the HTML templates: a table of literal
 * replacements, then the removal of every character in eight code-point
 * ranges, then two space clean-ups (runs of spaces become one space, and
 * spaces before a closing tag go). A template is written back only when
 * the text changed.
 */
module EmojiCleanup {
  import opened Wrappers
  import opened PyText

  /**
   * The literal replacements, in the table's order; three keys carry a
   * variation selector. Most pictographs are deleted; four marks become
   * plain glyphs.
   */
  const SpecificEmoji: seq<(string, string)> := Pictographs + Marks + Office + Plus + People

  const Pictographs: seq<(string, string)> := [
    ("\U{1F4CA}", ""), ("\U{1F4E4}", ""), ("\U{1F4CB}", ""), ("\U{1F3E0}", ""), ("\U{270F}\U{FE0F}", ""),
    ("\U{1F3ED}", ""), ("\U{2705}", ""), ("\U{274C}", ""), ("\U{1F4C1}", ""), ("\U{1F4BC}", ""),
    ("\U{1F4C8}", ""), ("\U{1F4B0}", ""), ("\U{1F465}", ""), ("\U{1F31F}", ""), ("\U{1F50D}", ""),
    ("\U{1F4CD}", ""), ("\U{1F5FA}\U{FE0F}", "")]

  /** The close cross and the two triangles. */
  const Marks: seq<(string, string)> := [("\U{2715}", "\U{00D7}"), ("\U{25BC}", "\U{25BE}"), ("\U{25B2}", "\U{25B4}")]

  const Office: seq<(string, string)> := [
    ("\U{1F4ED}", ""), ("\U{1F5D1}\U{FE0F}", ""), ("\U{1F3E2}", ""), ("\U{1F4E6}", ""), ("\U{1F4DE}", ""),
    ("\U{1F4BE}", "")]

  const Plus: seq<(string, string)> := [("\U{2795}", "+")]

  const People: seq<(string, string)> := [
    ("\U{1F464}", ""), ("\U{1F4DD}", ""), ("\U{1F4B5}", ""), ("\U{1F3C6}", ""), ("\U{1F4C5}", ""),
    ("\U{1F30D}", "")]

  /** An inclusive range of code points. */
  datatype Range = Range(lo: char, hi: char)

  /** The eight character classes, in the order they are removed. */
  const EmojiRanges: seq<Range> := [
    Range('\U{1F300}', '\U{1F9FF}'), Range('\U{1F600}', '\U{1F64F}'), Range('\U{1F680}', '\U{1F6FF}'),
    Range('\U{1F1E0}', '\U{1F1FF}'), Range('\U{2600}', '\U{27BF}'), Range('\U{1F900}', '\U{1F9FF}'),
    Range('\U{1FA00}', '\U{1FA6F}'), Range('\U{2700}', '\U{27BF}')]

  predicate InRange(c: char, g: Range) {
    g.lo <= c <= g.hi
  }

  predicate InAny(c: char, gs: seq<Range>) {
    exists k :: 0 <= k < |gs| && InRange(c, gs[k])
  }

  /** `s.replace(old, new)` for each table entry in turn; a key must not be empty. */
  function ReplaceEach(s: string, table: seq<(string, string)>): string
    requires forall k :: 0 <= k < |table| ==> |table[k].0| > 0
    decreases |table|
  {
    if |table| == 0 then s
    else ReplaceEach(ReplaceAll(s, table[0].0, table[0].1), table[1..])
  }

  /** `re.sub('[lo-hi]', '', s)` */
  function RemoveRange(s: string, g: Range): (r: string)
    ensures forall i :: 0 <= i < |r| ==> !InRange(r[i], g) && r[i] in s
  {
    if |s| == 0 then ""
    else (if InRange(s[0], g) then "" else [s[0]]) + RemoveRange(s[1..], g)
  }

  /** The classes removed one after another. */
  function RemoveRanges(s: string, gs: seq<Range>): (r: string)
    ensures forall i :: 0 <= i < |r| ==> !InAny(r[i], gs) && r[i] in s
    decreases |gs|
  {
    if |gs| == 0 then s
    else
      var r := RemoveRanges(RemoveRange(s, gs[0]), gs[1..]);
      assert forall i :: 0 <= i < |r| ==> !InRange(r[i], gs[0]) && !InAny(r[i], gs[1..]);
      forall c | InAny(c, gs) ensures InRange(c, gs[0]) || InAny(c, gs[1..]) {
        var k :| 0 <= k < |gs| && InRange(c, gs[k]);
        if k > 0 {
          assert gs[1..][k - 1] == gs[k];
        }
      }
      r
  }

  /** The characters of `s` in no class of `gs`, in order: what removing the classes should leave. */
  function Without(s: string, gs: seq<Range>): (r: string)
    ensures |r| <= |s|
  {
    if |s| == 0 then ""
    else (if InAny(s[0], gs) then "" else [s[0]]) + Without(s[1..], gs)
  }

  lemma {:induction false} WithoutAfterRange(s: string, g: Range, gs: seq<Range>)
    ensures Without(RemoveRange(s, g), gs) == Without(s, [g] + gs)
    decreases |s|
  {
    if |s| > 0 {
      WithoutAfterRange(s[1..], g, gs);
      var c := s[0];
      assert InAny(c, [g] + gs) <==> InRange(c, g) || InAny(c, gs) by {
        if InAny(c, gs) {
          var k :| 0 <= k < |gs| && InRange(c, gs[k]);
          assert ([g] + gs)[k + 1] == gs[k];
        }
        if InRange(c, g) {
          assert ([g] + gs)[0] == g;
        }
        if InAny(c, [g] + gs) {
          var k :| 0 <= k < |[g] + gs| && InRange(c, ([g] + gs)[k]);
          assert k > 0 ==> ([g] + gs)[k] == gs[k - 1];
        }
      }
      if !InRange(c, g) {
        assert RemoveRange(s, g) == [c] + RemoveRange(s[1..], g);
        assert ([c] + RemoveRange(s[1..], g))[1..] == RemoveRange(s[1..], g);
      } else {
        assert RemoveRange(s, g) == RemoveRange(s[1..], g);
        assert Without(s, [g] + gs) == Without(s[1..], [g] + gs);
      }
    }
  }

  lemma {:induction false} WithoutNothing(s: string)
    ensures Without(s, []) == s
    decreases |s|
  {
    if |s| > 0 {
      WithoutNothing(s[1..]);
      assert s == [s[0]] + s[1..];
    }
  }

  /** Removing the classes one by one leaves exactly the characters in none of them, in order. */
  lemma {:induction false} RemoveRangesIsWithout(s: string, gs: seq<Range>)
    ensures RemoveRanges(s, gs) == Without(s, gs)
    decreases |gs|
  {
    if |gs| == 0 {
      WithoutNothing(s);
    } else {
      RemoveRangesIsWithout(RemoveRange(s, gs[0]), gs[1..]);
      WithoutAfterRange(s, gs[0], gs[1..]);
      assert [gs[0]] + gs[1..] == gs;
    }
  }

  /** The number of spaces `s` starts with. */
  function SpaceRun(s: string): (k: nat)
    ensures k <= |s| && forall i :: 0 <= i < k ==> s[i] == ' '
    ensures k < |s| ==> s[k] != ' '
  {
    if |s| == 0 || s[0] != ' ' then 0 else 1 + SpaceRun(s[1..])
  }

  /** `re.sub('  +', ' ', s)`: every run of spaces becomes one space. */
  function CollapseSpaces(s: string): (r: string)
    ensures |r| == 0 <==> |s| == 0
    ensures |s| > 0 ==> r[0] == s[0]
    ensures forall i :: 0 <= i < |r| ==> r[i] in s
    decreases |s|
  {
    if |s| == 0 then ""
    else if s[0] == ' ' then
      var k := SpaceRun(s);
      " " + CollapseSpaces(s[k..])
    else [s[0]] + CollapseSpaces(s[1..])
  }

  /** No two spaces in a row. */
  predicate NoDoubleSpace(s: string) {
    forall i :: 0 <= i < |s| - 1 ==> !(s[i] == ' ' && s[i + 1] == ' ')
  }

  /** After the collapse no two spaces are adjacent. */
  lemma {:induction false} CollapseNoDoubleSpace(s: string)
    ensures NoDoubleSpace(CollapseSpaces(s))
    decreases |s|
  {
    if |s| > 0 {
      if s[0] == ' ' {
        var k := SpaceRun(s);
        CollapseNoDoubleSpace(s[k..]);
        var t := CollapseSpaces(s[k..]);
        assert |t| > 0 ==> t[0] != ' ';
        assert forall i :: 1 <= i < |t| + 1 ==> (" " + t)[i] == t[i - 1];
      } else {
        CollapseNoDoubleSpace(s[1..]);
        var t := CollapseSpaces(s[1..]);
        assert forall i :: 1 <= i < |t| + 1 ==> ([s[0]] + t)[i] == t[i - 1];
      }
    }
  }

  /** `re.sub(' +</', '</', s)`: a run of spaces right before a closing tag goes. */
  function DropBeforeClose(s: string): (r: string)
    ensures forall i :: 0 <= i < |r| ==> r[i] in s
    ensures |r| == 0 <==> |s| == 0
    ensures |s| > 0 && s[0] != ' ' ==> r[0] == s[0]
    ensures |s| > 0 && s[0] == ' ' ==> r[0] == ' ' || r[0] == '<'
    decreases |s|
  {
    if |s| == 0 then ""
    else if s[0] == ' ' then
      var k := SpaceRun(s);
      if StartsWith(s[k..], "</") then DropBeforeClose(s[k..])
      else s[..k] + DropBeforeClose(s[k..])
    else [s[0]] + DropBeforeClose(s[1..])
  }

  /** No space right before `</`. */
  predicate NoSpaceBeforeClose(s: string) {
    forall i :: 0 <= i < |s| - 2 ==> !(s[i] == ' ' && s[i + 1] == '<' && s[i + 2] == '/')
  }

  /** For an input not starting with a space, the result starts with `</` exactly when the input does. */
  lemma DropKeepsCloseStart(s: string)
    requires |s| == 0 || s[0] != ' '
    ensures StartsWith(DropBeforeClose(s), "</") <==> StartsWith(s, "</")
  {
    if |s| > 0 {
      var t := DropBeforeClose(s[1..]);
      var r := DropBeforeClose(s);
      assert r == [s[0]] + t;
      StartsCloseIff(r);
      StartsCloseIff(s);
      assert |t| > 0 ==> (t[0] == '/' <==> s[1] == '/');
    }
  }

  lemma StartsCloseIff(x: string)
    ensures StartsWith(x, "</") <==> |x| > 1 && x[0] == '<' && x[1] == '/'
  {
    if |x| > 1 {
      assert x[..2] == [x[0], x[1]];
    }
  }

  /** With no double spaces in the input, the output has no space before `</` and still no double spaces. */
  lemma {:induction false} DropGuarantees(s: string)
    requires NoDoubleSpace(s)
    ensures NoSpaceBeforeClose(DropBeforeClose(s)) && NoDoubleSpace(DropBeforeClose(s))
    decreases |s|
  {
    if |s| > 0 {
      var rest := s[1..];
      NoDoubleSpaceTail(s);
      DropGuarantees(rest);
      var t := DropBeforeClose(rest);
      if s[0] == ' ' {
        assert SpaceRun(s) == 1 by {
          assert |s| > 1 ==> !(s[0] == ' ' && s[1] == ' ');
        }
        if !StartsWith(rest, "</") {
          assert s[..1] == " ";
          DropKeepsCloseStart(rest);
          assert DropBeforeClose(s) == [' '] + t;
          PrependKeeps(' ', t);
        }
      } else {
        assert DropBeforeClose(s) == [s[0]] + t;
        PrependKeeps(s[0], t);
      }
    }
  }

  lemma NoDoubleSpaceTail(s: string)
    requires |s| > 0 && NoDoubleSpace(s)
    ensures NoDoubleSpace(s[1..])
  {
    var rest := s[1..];
    forall i | 0 <= i < |rest| - 1 ensures !(rest[i] == ' ' && rest[i + 1] == ' ') {
      assert rest[i] == s[i + 1] && rest[i + 1] == s[i + 2];
    }
  }

  /** A character put in front keeps both properties unless it is a space before a space or before `</`. */
  lemma PrependKeeps(c: char, t: string)
    requires NoSpaceBeforeClose(t) && NoDoubleSpace(t)
    requires c == ' ' ==> (|t| == 0 || t[0] != ' ') && !StartsWith(t, "</")
    ensures NoSpaceBeforeClose([c] + t) && NoDoubleSpace([c] + t)
  {
    var r := [c] + t;
    assert forall i :: 1 <= i < |r| ==> r[i] == t[i - 1];
    if |t| > 1 {
      assert t[..2] == [t[0], t[1]];
    }
  }

  /** The characters other than the space, in order. */
  function Unspaced(s: string): (r: string)
    ensures |r| <= |s|
  {
    if |s| == 0 then "" else (if s[0] == ' ' then "" else [s[0]]) + Unspaced(s[1..])
  }

  lemma {:induction false} UnspacedAppend(a: string, b: string)
    ensures Unspaced(a + b) == Unspaced(a) + Unspaced(b)
    decreases |a|
  {
    if |a| > 0 {
      assert (a + b)[1..] == a[1..] + b;
      UnspacedAppend(a[1..], b);
    } else {
      assert a + b == b;
    }
  }

  lemma {:induction false} UnspacedRun(s: string, k: nat)
    requires k <= |s| && forall i :: 0 <= i < k ==> s[i] == ' '
    ensures Unspaced(s) == Unspaced(s[k..])
    decreases k
  {
    if k > 0 {
      UnspacedRun(s[1..], k - 1);
      assert s[1..][k - 1..] == s[k..];
    }
  }

  /** The collapse touches only spaces: tabs, newlines and every other character stay, in order. */
  lemma {:induction false} CollapseOnlySpaces(s: string)
    ensures Unspaced(CollapseSpaces(s)) == Unspaced(s)
    decreases |s|
  {
    if |s| > 0 {
      if s[0] == ' ' {
        var k := SpaceRun(s);
        CollapseOnlySpaces(s[k..]);
        UnspacedAppend(" ", CollapseSpaces(s[k..]));
        UnspacedRun(s, k);
      } else {
        CollapseOnlySpaces(s[1..]);
        UnspacedAppend([s[0]], CollapseSpaces(s[1..]));
      }
    }
  }

  /** Dropping spaces before closing tags touches only spaces. */
  lemma {:induction false} DropOnlySpaces(s: string)
    ensures Unspaced(DropBeforeClose(s)) == Unspaced(s)
    decreases |s|
  {
    if |s| > 0 {
      if s[0] == ' ' {
        var k := SpaceRun(s);
        DropOnlySpaces(s[k..]);
        UnspacedRun(s, k);
        if !StartsWith(s[k..], "</") {
          UnspacedAppend(s[..k], DropBeforeClose(s[k..]));
          UnspacedRun(s[..k], k);
        }
      } else {
        DropOnlySpaces(s[1..]);
        UnspacedAppend([s[0]], DropBeforeClose(s[1..]));
      }
    }
  }

  /** The range removal and the two space clean-ups, applied after the literal replacements. */
  function CleanUp(a: string, gs: seq<Range>): string {
    DropBeforeClose(CollapseSpaces(RemoveRanges(a, gs)))
  }

  /** The template text after the literal replacements. */
  function Replaced(content: string): string {
    ReplaceEach(content, SpecificEmoji)
  }

  /** `remove_all_emoji` */
  function RemoveAllEmoji(content: string): string {
    CleanUp(Replaced(content), EmojiRanges)
  }

  /**
   * After the clean-up no character of the classes is left, no two spaces
   * are adjacent, no space precedes `</`, and the space clean-up has changed
   * nothing but spaces.
   */
  lemma CleanUpGuarantees(a: string, gs: seq<Range>)
    ensures forall i :: 0 <= i < |CleanUp(a, gs)| ==> !InAny(CleanUp(a, gs)[i], gs)
    ensures NoDoubleSpace(CleanUp(a, gs)) && NoSpaceBeforeClose(CleanUp(a, gs))
    ensures Unspaced(CleanUp(a, gs)) == Unspaced(Without(a, gs))
  {
    var r := RemoveRanges(a, gs);
    var b := CollapseSpaces(r);
    CollapseNoDoubleSpace(r);
    DropGuarantees(b);
    CollapseOnlySpaces(r);
    DropOnlySpaces(b);
    RemoveRangesIsWithout(a, gs);
    forall i | 0 <= i < |DropBeforeClose(b)| ensures !InAny(DropBeforeClose(b)[i], gs) {
      var c := DropBeforeClose(b)[i];
      assert c in b;
      assert c in r;
    }
  }

  /** The guarantees of the clean-up for the template text after the literal replacements. */
  lemma RemoveAllEmojiGuarantees(content: string)
    ensures forall i :: 0 <= i < |RemoveAllEmoji(content)| ==> !InAny(RemoveAllEmoji(content)[i], EmojiRanges)
    ensures NoDoubleSpace(RemoveAllEmoji(content)) && NoSpaceBeforeClose(RemoveAllEmoji(content))
    ensures Unspaced(RemoveAllEmoji(content)) == Unspaced(Without(Replaced(content), EmojiRanges))
  {
    CleanUpGuarantees(Replaced(content), EmojiRanges);
  }

  lemma {:induction false} ReplaceEachAppend(s: string, a: seq<(string, string)>, b: seq<(string, string)>)
    requires forall k :: 0 <= k < |a| ==> |a[k].0| > 0
    requires forall k :: 0 <= k < |b| ==> |b[k].0| > 0
    ensures forall k :: 0 <= k < |a + b| ==> |(a + b)[k].0| > 0
    ensures ReplaceEach(s, a + b) == ReplaceEach(ReplaceEach(s, a), b)
    decreases |a|
  {
    assert forall k :: 0 <= k < |a + b| ==> (a + b)[k] == if k < |a| then a[k] else b[k - |a|];
    if |a| > 0 {
      assert (a + b)[1..] == a[1..] + b;
      ReplaceEachAppend(ReplaceAll(s, a[0].0, a[0].1), a[1..], b);
    } else {
      assert a + b == b;
    }
  }

  lemma ReplaceOneChar(c: char, pat: string, rep: string)
    requires |pat| > 0
    ensures ReplaceAll([c], pat, rep) == if pat == [c] then rep else [c]
  {
    if |pat| == 1 && pat != [c] {
      assert [c][..1] == [c];
    }
  }

  /** A one-character text that is no key is left as it is by the replacements. */
  lemma {:induction false} ReplaceEachMisses(c: char, table: seq<(string, string)>)
    requires Misses(c, table)
    ensures ReplaceEach([c], table) == [c]
    decreases |table|
  {
    if |table| > 0 {
      ReplaceOneChar(c, table[0].0, table[0].1);
      ReplaceEachMisses(c, table[1..]);
    }
  }

  /** Every key of the table is non-empty and none starts with `c`. */
  predicate Misses(c: char, table: seq<(string, string)>) {
    forall k :: 0 <= k < |table| ==> |table[k].0| > 0 && table[k].0[0] != c
  }

  /** The replacements turn the close cross into `×`. */
  lemma ReplacedCross()
    ensures Replaced("\U{2715}") == "\U{00D7}"
  {
    var cross, times := "\U{2715}", "\U{00D7}";
    PictographsMissCross();
    MarksTurnCross();
    RestMissTimes();
    var pm := Pictographs + Marks;
    ReplaceEachAppend(cross, Pictographs, Marks);
    assert ReplaceEach(cross, pm) == times;
    ReplaceEachAppend(cross, pm, Office);
    assert ReplaceEach(cross, pm + Office) == times;
    ReplaceEachAppend(cross, pm + Office, Plus);
    assert ReplaceEach(cross, pm + Office + Plus) == times;
    ReplaceEachAppend(cross, pm + Office + Plus, People);
  }

  lemma PictographsMissCross()
    ensures ReplaceEach("\U{2715}", Pictographs) == "\U{2715}"
    ensures Misses('\U{2715}', Pictographs)
  {
    assert Misses('\U{2715}', Pictographs);
    ReplaceEachMisses('\U{2715}', Pictographs);
  }

  lemma MarksTurnCross()
    ensures ReplaceEach("\U{2715}", Marks) == "\U{00D7}"
    ensures forall k :: 0 <= k < |Marks| ==> |Marks[k].0| > 0
  {
    assert Misses('\U{00D7}', Marks[1..]) && |Marks[0].0| > 0;
    ReplaceOneChar('\U{2715}', Marks[0].0, Marks[0].1);
    ReplaceEachMisses('\U{00D7}', Marks[1..]);
  }

  lemma RestMissTimes()
    ensures ReplaceEach("\U{00D7}", Office) == "\U{00D7}"
    ensures ReplaceEach("\U{00D7}", Plus) == "\U{00D7}"
    ensures ReplaceEach("\U{00D7}", People) == "\U{00D7}"
    ensures Misses('\U{00D7}', Office) && Misses('\U{00D7}', Plus) && Misses('\U{00D7}', People)
  {
    assert Misses('\U{00D7}', Office) && Misses('\U{00D7}', Plus) && Misses('\U{00D7}', People);
    ReplaceEachMisses('\U{00D7}', Office);
    ReplaceEachMisses('\U{00D7}', Plus);
    ReplaceEachMisses('\U{00D7}', People);
  }

  /** The cross lies in the fifth class, `×` in none. */
  lemma CrossClasses()
    ensures InAny('\U{2715}', EmojiRanges)
    ensures !InAny('\U{00D7}', EmojiRanges)
  {
    assert InRange('\U{2715}', EmojiRanges[4]);
    assert forall k :: 0 <= k < |EmojiRanges| ==> EmojiRanges[k].lo >= '\U{2600}';
  }

  /** The replacements run first: the close cross becomes `×` instead of being removed with its class. */
  lemma ReplacementsBeforeRanges()
    ensures InAny('\U{2715}', EmojiRanges)
    ensures RemoveAllEmoji("\U{2715}") == "\U{00D7}"
  {
    ReplacedCross();
    CrossClasses();
    RemoveRangesIsWithout("\U{00D7}", EmojiRanges);
    assert Without("\U{00D7}", EmojiRanges) == "\U{00D7}";
  }

  /** `process_template`: the new text when it differs from the old one, nothing to write otherwise. */
  function ProcessTemplate(content: string): (r: Option<string>)
    ensures r.Some? <==> RemoveAllEmoji(content) != content
    ensures r.Some? ==> r.value == RemoveAllEmoji(content)
  {
    var cleaned := RemoveAllEmoji(content);
    if cleaned != content then Some(cleaned) else None
  }
}

=== FILE: exporter.dfy ===
/**
 * The spreadsheet exporter: a 209-column header and one row of the same width
 * per organization, in input order. The numeric blocks are laid out family by
 * family, year by year, which puts every metric, tax, investment and export
 * value in the column the positional importer reads it from.
 */
module Exporter {
  import opened Wrappers
  import opened PyText
  import opened PyNum
  import opened Calendar
  import opened Cells
  import opened Coerce
  import opened Schema
  import opened ColumnMap
  import opened ImportV2

  /** The second of five concatenated blocks, cut out again. */
  lemma SecondBlock<T>(a: seq<T>, b: seq<T>, c: seq<T>, d: seq<T>, e: seq<T>)
    ensures (a + b + c + d + e)[|a|..|a| + |b|] == b
  {
    assert a + b + c + d + e == a + b + (c + d + e);
  }

  // ---------------------------------------------------------------- header

  /** The header of descriptive column `c`, for columns 0 to 46. */
  function FixedTitle(c: nat): string {
    match c
    case 0 => "№"
    case 1 => "ИНН"
    case 2 => "Наименование организации"
    case 3 => "Полное наименование организации"
    case 4 => "Статус СПАРК"
    case 5 => "Статус внутренний"
    case 6 => "Статус ИТОГ"
    case 7 => "Дата добавления в реестр"
    case 8 => "Юридический адрес"
    case 9 => "Адрес производства"
    case 10 => "Адрес дополнительной площадки"
    case 11 => "Основная отрасль"
    case 12 => "Подотрасль (Основная)"
    case 13 => "Дополнительная отрасль"
    case 14 => "Подотрасль (Дополнительная)"
    case 15 => "Отраслевые презентации"
    case 16 => "Основной ОКВЭД (СПАРК)"
    case 17 => "Вид деятельности по основному ОКВЭД (СПАРК)"
    case 18 => "Производственный ОКВЭД"
    case 19 => "Вид деятельности по производственному ОКВЭД"
    case 20 => "Общие сведения об организации"
    case 21 => "Размер предприятия (итог)"
    case 22 => "Размер предприятия (итог) 2022"
    case 23 => "Размер предприятия (по численности)"
    case 24 => "Размер предприятия (по численности) 2022"
    case 25 => "Размер предприятия (по выручке)"
    case 26 => "Размер предприятия (по выручке) 2022"
    case 27 => "Дата регистрации"
    case 28 => "Руководитель"
    case 29 => "Головная организация"
    case 30 => "ИНН головной организации"
    case 31 => "Вид отношения головной организации"
    case 32 => "Контактные данные руководства"
    case 33 => "Почта руководства"
    case 34 => "Контакт сотрудника организации"
    case 35 => "Номер телефона"
    case 36 => "Контактные данные ответственного по ЧС"
    case 37 => "Сайт"
    case 38 => "Электронная почта"
    case 39 => "Данные о мерах поддержки"
    case 40 => "Наличие особого статуса"
    case 41 => "Площадка итог"
    case 42 => "Получена поддержка от г. Москвы"
    case 43 => "Системообразующее предприятие"
    case 44 => "Статус МСП"
    case 45 => "То самое"
    case 46 => "Финансово-экономические показатели"
    case _ => ""
  }

  /** The header of column `175 + c`: the asset, product and additional columns 175 to 208. */
  function TrailingTitle(c: nat): string {
    match c
    case 0 => "Имущественно-земельный комплекс"
    case 1 => "Кадастровый номер ЗУ"
    case 2 => "Площадь ЗУ"
    case 3 => "Вид разрешенного использования ЗУ"
    case 4 => "Вид собственности ЗУ"
    case 5 => "Собственник ЗУ"
    case 6 => "Кадастровый номер ОКСа"
    case 7 => "Площадь ОКСов"
    case 8 => "Вид разрешенного использования ОКСов"
    case 9 => "Тип строения и цель использования"
    case 10 => "Вид собственности ОКСов"
    case 11 => "СобственникОКСов"
    case 12 => "Площадь производственных помещений, кв.м."
    case 13 => "Производимая продукция"
    case 14 => "Стандартизированная продукция"
    case 15 => "Название (виды производимой продукции)"
    case 16 => "Перечень производимой продукции по кодам ОКПД 2"
    case 17 => "Перечень производимой продукции по типам и сегментам"
    case 18 => "Каталог продукции"
    case 19 => "Наличие госзаказа"
    case 20 => "Уровень загрузки производственных мощностей"
    case 21 => "Наличие поставок продукции на экспорт"
    case 22 => "Объем экспорта (млн.руб.) за предыдущий календарный год"
    case 23 => "Перечень государств куда экспортируется продукция"
    case 24 => "Код ТН ВЭД ЕАЭС"
    case 25 => "Развитие Реестра"
    case 26 => "Отрасль промышленности по Спарк и Справочнику"
    case 27 => "Координаты юридического адреса"
    case 28 => "Координаты адреса производства"
    case 29 => "Координаты адреса дополнительной площадки"
    case 30 => "Координаты (широта)"
    case 31 => "Координаты (долгота)"
    case 32 => "Округ"
    case 33 => "Район"
    case _ => ""
  }

  function MetricLabel(k: MetricFamily): string {
    match k
    case Revenue => "Выручка предприятия, тыс. руб."
    case Profit => "Чистая прибыль (убыток),тыс. руб."
    case TotalEmployees => "Среднесписочная численность персонала (всего по компании), чел"
    case MoscowEmployees => "Среднесписочная численность персонала, работающего в Москве, чел"
    case TotalFot => "Фонд оплаты труда всех сотрудников организации, тыс. руб"
    case MoscowFot => "Фонд оплаты труда сотрудников, работающих в Москве, тыс. руб"
    case AvgSalaryTotal => "Средняя з.п. всех сотрудников организации, тыс.руб."
    case AvgSalaryMoscow => "Средняя з.п. сотрудников, работающих в Москве, тыс.руб."
  }

  function TaxLabel(k: TaxFamily): string {
    match k
    case TotalTaxes => "Налоги, уплаченные в бюджет Москвы (без акцизов), тыс.руб."
    case ProfitTax => "Налог на прибыль, тыс.руб."
    case PropertyTax => "Налог на имущество, тыс.руб."
    case LandTax => "Налог на землю, тыс.руб."
    case Ndfl => "НДФЛ, тыс.руб."
    case TransportTax => "Транспортный налог, тыс.руб."
    case OtherTaxes => "Прочие налоги"
    case Excise => "Акцизы, тыс. руб."
  }

  /** `f"{label} {year}"`. */
  function WithYear(title: string, y: int): string {
    title + " " + IntToString(y)
  }

  /** The header of a numeric column. */
  function PositionLabel(p: Position): string {
    match p
    case MetricCell(k, y) => WithYear(MetricLabel(k), y)
    case TaxCell(k, y) => WithYear(TaxLabel(k), y)
    case InvestmentCell(y) => "Инвестиции в Мск " + IntToString(y) + " тыс. руб."
    case ExportCell(y) => WithYear("Объем экспорта, тыс. руб.", y)
  }

  /** An organization's values at the numeric positions `ps`, in order. */
  function ValueCells(ms: map<int, Metrics>, ts: map<int, Taxes>, ps: seq<Position>): (r: seq<Cell>)
    ensures |r| == |ps|
    ensures forall i :: 0 <= i < |ps| ==> r[i] == NumericOut(ms, ts, ps[i])
  {
    if |ps| == 0 then [] else [NumericOut(ms, ts, ps[0])] + ValueCells(ms, ts, ps[1..])
  }

  /**
   * The header of column `c`: the descriptive titles, then one label per
   * numeric position in the order the exporter's loops append them, then the
   * asset, product and additional titles.
   */
  function HeaderText(c: nat): string
    requires c < 209
  {
    if c < MetricBase then FixedTitle(c)
    else if c < 175 then PositionLabel(NumericPositions()[c - MetricBase])
    else TrailingTitle(c - 175)
  }

  /** The header row. */
  function HeaderRow(): (r: Row)
    ensures |r| == 209
  {
    seq(209, c requires 0 <= c < 209 => Text(HeaderText(c)))
  }

  /** Each numeric column of the header is labelled with its family and year. */
  lemma HeaderLayout(p: Position)
    requires ValidPosition(p)
    ensures HeaderRow()[Column(p)] == Text(PositionLabel(p))
  {
    NumericPositionsAt(p);
  }

  // ---------------------------------------------------------------- rows

  /** `value or ""`. */
  function OrEmpty(v: Option<string>): Cell {
    Text(if v.Some? then v.value else "")
  }

  /** `record.value if record else ""` once the record exists: a NULL column is written as `None`. */
  function AsStored(v: Option<string>): Cell {
    if v.Some? then Text(v.value) else Empty
  }

  /** `value if value else ""` for a float column. */
  function FloatOrEmpty(v: Option<PyFloat>): Cell {
    if FloatTruthy(v) then Float(v.value) else Text("")
  }

  /** `value if value else ""` for an integer column. */
  function IntOrEmpty(v: Option<int>): Cell {
    if IntTruthy(v) then Int(v.value) else Text("")
  }

  /** `value.strftime("%d.%m.%Y") if value else ""`. */
  function DateOrEmpty(v: Option<PyDateTime>): Cell {
    if v.Some? then Text(FormatDayMonthYear(v.value)) else Text("")
  }

  function YesNo(b: bool): Cell {
    Text(if b then "Да" else "Нет")
  }

  function TextOf(o: Organization, f: OrgText): Option<string> {
    if f in o.text then Some(o.text[f]) else None
  }

  /**
   * `{r.year: r for r in records}` as the exporter builds it, iterating in
   * order: a later record of the same year replaces an earlier one.
   */
  function YearIndex<T>(s: seq<T>, year: T -> int): map<int, T>
    decreases |s|
  {
    if |s| == 0 then map[] else YearIndex(s[..|s| - 1], year)[year(s[|s| - 1]) := s[|s| - 1]]
  }

  /** The index has a key for exactly the years some record carries. */
  lemma {:induction false} YearIndexKeys<T>(s: seq<T>, year: T -> int, y: int)
    ensures y in YearIndex(s, year) <==> exists i :: 0 <= i < |s| && year(s[i]) == y
    decreases |s|
  {
    if |s| > 0 {
      var init := s[..|s| - 1];
      YearIndexKeys(init, year, y);
      if exists i :: 0 <= i < |s| && year(s[i]) == y {
        var i :| 0 <= i < |s| && year(s[i]) == y;
        if i < |s| - 1 {
          assert init[i] == s[i];
        }
      }
      if exists i :: 0 <= i < |init| && year(init[i]) == y {
        var i :| 0 <= i < |init| && year(init[i]) == y;
        assert s[i] == init[i];
      }
    }
  }

  /** The record the index keeps for a year is the last record of that year. */
  lemma {:induction false} YearIndexLastWins<T>(s: seq<T>, year: T -> int, i: nat)
    requires i < |s|
    requires forall j :: i < j < |s| ==> year(s[j]) != year(s[i])
    ensures year(s[i]) in YearIndex(s, year) && YearIndex(s, year)[year(s[i])] == s[i]
    decreases |s|
  {
    if i < |s| - 1 {
      var init := s[..|s| - 1];
      assert init[i] == s[i];
      forall j | i < j < |init|
        ensures year(init[j]) != year(init[i])
      {
        assert init[j] == s[j];
      }
      YearIndexLastWins(init, year, i);
    }
  }

  function MetricYear(m: Metrics): int { m.year }
  function TaxYear(t: Taxes): int { t.year }

  function MetricOut(m: Metrics, k: MetricFamily): Cell {
    match k
    case Revenue => FloatOrEmpty(m.revenue)
    case Profit => FloatOrEmpty(m.profit)
    case TotalEmployees => IntOrEmpty(m.totalEmployees)
    case MoscowEmployees => IntOrEmpty(m.moscowEmployees)
    case TotalFot => FloatOrEmpty(m.totalFot)
    case MoscowFot => FloatOrEmpty(m.moscowFot)
    case AvgSalaryTotal => FloatOrEmpty(m.avgSalaryTotal)
    case AvgSalaryMoscow => FloatOrEmpty(m.avgSalaryMoscow)
  }

  function TaxOut(t: Taxes, k: TaxFamily): Cell {
    match k
    case TotalTaxes => FloatOrEmpty(t.totalTaxesMoscow)
    case ProfitTax => FloatOrEmpty(t.profitTax)
    case PropertyTax => FloatOrEmpty(t.propertyTax)
    case LandTax => FloatOrEmpty(t.landTax)
    case Ndfl => FloatOrEmpty(t.ndfl)
    case TransportTax => FloatOrEmpty(t.transportTax)
    case OtherTaxes => FloatOrEmpty(t.otherTaxes)
    case Excise => FloatOrEmpty(t.excise)
  }

  /** The cell written at a numeric position; a year without a record is written as "". */
  function NumericOut(ms: map<int, Metrics>, ts: map<int, Taxes>, p: Position): Cell {
    match p
    case MetricCell(k, y) => if y in ms then MetricOut(ms[y], k) else Text("")
    case TaxCell(k, y) => if y in ts then TaxOut(ts[y], k) else Text("")
    case InvestmentCell(y) => if y in ms then FloatOrEmpty(ms[y].investments) else Text("")
    case ExportCell(y) => if y in ms then FloatOrEmpty(ms[y].exportVolume) else Text("")
  }

  /** Columns 0 to 7: the row number, INN, name, full name, the three statuses and the date added. */
  function IdentityCells(idx: nat, o: Organization): (r: seq<Cell>)
    ensures |r| == 8 && r[0] == Int(idx)
  {
    [Int(idx), Text(o.inn), OrEmpty(o.name),
     OrEmpty(TextOf(o, FullName)), OrEmpty(TextOf(o, StatusSpark)),
     OrEmpty(TextOf(o, StatusInternal)), OrEmpty(TextOf(o, StatusFinal)),
     DateOrEmpty(o.dateAdded)]
  }

  /** Columns 8 to 15: the three addresses, the four industries and the meta record's presentation links. */
  function AddressCells(o: Organization): (r: seq<Cell>)
    ensures |r| == 8
  {
    [OrEmpty(TextOf(o, LegalAddress)), OrEmpty(TextOf(o, ProductionAddress)),
     OrEmpty(TextOf(o, AdditionalAddress)),
     OrEmpty(TextOf(o, MainIndustry)), OrEmpty(TextOf(o, MainSubindustry)),
     OrEmpty(TextOf(o, ExtraIndustry)), OrEmpty(TextOf(o, ExtraSubindustry)),
     if |o.meta| > 0 then AsStored(o.meta[0].presentationLinks) else Text("")]
  }

  /** Columns 16 to 27: activity codes, company information, the size classes and the registration date. */
  function ProfileCells(o: Organization): (r: seq<Cell>)
    ensures |r| == 12
  {
    [OrEmpty(TextOf(o, MainOkved)), OrEmpty(TextOf(o, MainOkvedName)),
     OrEmpty(TextOf(o, ProdOkved)), OrEmpty(TextOf(o, ProdOkvedName)),
     OrEmpty(TextOf(o, CompanyInfo)), OrEmpty(TextOf(o, CompanySize)),
     OrEmpty(TextOf(o, CompanySize2022)), OrEmpty(TextOf(o, SizeByEmployees)),
     OrEmpty(TextOf(o, SizeByEmployees2022)), OrEmpty(TextOf(o, SizeByRevenue)),
     OrEmpty(TextOf(o, SizeByRevenue2022)),
     DateOrEmpty(o.registrationDate)]
  }

  /** Columns 28 to 41: management, parent organization, contacts, support and status. */
  function ContactCells(o: Organization): (r: seq<Cell>)
    ensures |r| == 14
  {
    [OrEmpty(TextOf(o, HeadName)), OrEmpty(TextOf(o, ParentOrgName)),
     OrEmpty(TextOf(o, ParentOrgInn)), OrEmpty(TextOf(o, ParentRelationType)),
     OrEmpty(TextOf(o, HeadContacts)), OrEmpty(TextOf(o, HeadEmail)),
     OrEmpty(TextOf(o, EmployeeContact)), OrEmpty(TextOf(o, Phone)),
     OrEmpty(TextOf(o, EmergencyContact)), OrEmpty(TextOf(o, Website)),
     OrEmpty(TextOf(o, Email)), OrEmpty(TextOf(o, SupportData)),
     OrEmpty(TextOf(o, SpecialStatus)), OrEmpty(TextOf(o, SiteFinal))]
  }

  /** Columns 42 to 46: the two flags as "Да"/"Нет", the SME status and two empty heading columns. */
  function FlagCells(o: Organization): (r: seq<Cell>)
    ensures |r| == 5
  {
    [YesNo(o.gotMoscowSupport), YesNo(o.isSystemCritical),
     OrEmpty(TextOf(o, MspStatus)), Text(""), Text("")]
  }

  /** Columns 0 to 46. */
  function FixedCells(idx: nat, o: Organization): (r: seq<Cell>)
    ensures |r| == 47 && r[0] == Int(idx)
  {
    IdentityCells(idx, o) + AddressCells(o) + ProfileCells(o) + ContactCells(o) + FlagCells(o)
  }

  /** Columns 175 to 187, from the first asset record. */
  function AssetCells(o: Organization): (r: seq<Cell>)
    ensures |r| == 13
  {
    if |o.assets| == 0 then
      [Text(""), Text(""), Text(""), Text(""), Text(""), Text(""), Text(""),
       Text(""), Text(""), Text(""), Text(""), Text(""), Text("")]
    else
      var a := o.assets[0];
      [AsStored(a.propertySummary), AsStored(a.cadastralNumberLand), FloatOrEmpty(a.landArea),
       AsStored(a.landUsage), AsStored(a.landOwnershipType), AsStored(a.landOwner),
       AsStored(a.cadastralNumberBuilding), FloatOrEmpty(a.buildingArea),
       AsStored(a.buildingUsage), AsStored(a.buildingType),
       AsStored(a.buildingOwnershipType), AsStored(a.buildingOwner),
       FloatOrEmpty(a.productionArea)]
  }

  /** Columns 188 to 199, from the first product record; column 188 is always "". */
  function ProductCells(o: Organization): (r: seq<Cell>)
    ensures |r| == 12
  {
    if |o.products| == 0 then
      [Text(""), Text(""), Text(""), Text(""), Text(""), Text(""),
       YesNo(false), Text(""), YesNo(false), Text(""), Text(""), Text("")]
    else
      var p := o.products[0];
      [Text(""), AsStored(p.standardizedProduct), AsStored(p.productName),
       AsStored(p.okpd2Codes), AsStored(p.productTypes), AsStored(p.productCatalog),
       YesNo(p.hasGovernmentOrders), OrEmpty(p.capacityUsage),
       YesNo(p.hasExport), FloatOrEmpty(p.exportVolumeLastYear),
       AsStored(p.exportCountries), AsStored(p.tnvedCode)]
  }

  /** `f"{spark or ''} / {directory or ''}"`. */
  function IndustryPair(m: Meta): string {
    (if m.industrySpark.Some? then m.industrySpark.value else "") + " / "
    + (if m.industryDirectory.Some? then m.industryDirectory.value else "")
  }

  /** Columns 200 to 208: meta, the three coordinate texts, latitude, longitude, district, region. */
  function AdditionalCells(o: Organization): (r: seq<Cell>)
    ensures |r| == 9
  {
    [if |o.meta| > 0 then AsStored(o.meta[0].registryDevelopment) else Text(""),
     if |o.meta| > 0 then Text(IndustryPair(o.meta[0])) else Text(""),
     OrEmpty(TextOf(o, LegalAddressCoords)), OrEmpty(TextOf(o, ProductionAddressCoords)),
     OrEmpty(TextOf(o, AdditionalAddressCoords)),
     FloatOrEmpty(o.coordinatesLat), FloatOrEmpty(o.coordinatesLon),
     OrEmpty(TextOf(o, District)), OrEmpty(TextOf(o, Region))]
  }

  /** The row of the organization at 1-based position `idx` of the export. */
  function ExportRow(idx: nat, o: Organization): (r: Row)
    ensures |r| == 209
  {
    var ms, ts := YearIndex(o.metrics, MetricYear), YearIndex(o.taxes, TaxYear);
    FixedCells(idx, o) + ValueCells(ms, ts, NumericPositions()) + AssetCells(o) + ProductCells(o) + AdditionalCells(o)
  }

  /** One row per organization in input order, numbered from 1. */
  function ExportRows(orgs: seq<Organization>): (r: seq<Row>)
    ensures |r| == |orgs|
    ensures forall i :: 0 <= i < |orgs| ==> r[i] == ExportRow(i + 1, orgs[i])
  {
    seq(|orgs|, i requires 0 <= i < |orgs| => ExportRow(i + 1, orgs[i]))
  }

  /** The sheet: the header, then the organizations' rows. */
  function ExportSheet(orgs: seq<Organization>): (r: seq<Row>)
    ensures |r| == |orgs| + 1 && r[0] == HeaderRow() && r[1..] == ExportRows(orgs)
  {
    [HeaderRow()] + ExportRows(orgs)
  }

  /** Every row is as wide as the header, whatever children the organization has. */
  lemma ExportRowWidth(idx: nat, o: Organization)
    ensures |ExportRow(idx, o)| == |HeaderRow()| == 209
    ensures ExportRow(idx, o)[0] == Int(idx)
  {
  }

  /** The numeric block of a row holds, at each position's offset, that position's value. */
  lemma ValueCellsAt(ms: map<int, Metrics>, ts: map<int, Taxes>, p: Position)
    requires ValidPosition(p)
    ensures Column(p) - MetricBase < |ValueCells(ms, ts, NumericPositions())|
    ensures ValueCells(ms, ts, NumericPositions())[Column(p) - MetricBase] == NumericOut(ms, ts, p)
  {
    NumericPositionsAt(p);
  }

  /** Each numeric value lands in the column `Column` assigns it, which is where the importer reads it. */
  lemma ExportRowNumeric(idx: nat, o: Organization, p: Position)
    requires ValidPosition(p)
    ensures ExportRow(idx, o)[Column(p)] == NumericOut(YearIndex(o.metrics, MetricYear), YearIndex(o.taxes, TaxYear), p)
  {
    ExportRowCarries(idx, o);
    CarriedCell(ExportRow(idx, o), YearIndex(o.metrics, MetricYear), YearIndex(o.taxes, TaxYear), p);
  }

  // ------------------------------------------------- reading an export back

  /** What survives a float column's export: the value when it is truthy. */
  function Shown(v: Option<PyFloat>): Option<PyFloat> {
    if FloatTruthy(v) then v else None
  }

  function ShownInt(v: Option<int>): Option<int> {
    if IntTruthy(v) then v else None
  }

  /** A falsy or missing value is written as "", which the importer reads as no value. */
  lemma FloatOrEmptyReadBack(v: Option<PyFloat>)
    ensures SafeFloat(FloatOrEmpty(v)) == Shown(v)
  {
  }

  lemma IntOrEmptyReadBack(v: Option<int>)
    ensures SafeInt(IntOrEmpty(v)) == ShownInt(v)
  {
    if IntTruthy(v) {
      SafeIntOfInt(v.value);
    }
  }

  /**
   * The metric year `y` as the exported sheet shows it: the truthy values of
   * the last record of that year, investments only from 2021, export only
   * from 2019; all empty when the organization has no record of that year.
   */
  function ShownMetrics(ms: map<int, Metrics>, y: int): Metrics {
    var m := if y in ms then ms[y] else Metrics(y, None, None, None, None, None, None, None, None, None, None);
    Metrics(y, Shown(m.revenue), Shown(m.profit), ShownInt(m.totalEmployees), ShownInt(m.moscowEmployees),
            Shown(m.totalFot), Shown(m.moscowFot), Shown(m.avgSalaryTotal), Shown(m.avgSalaryMoscow),
            if FirstInvestmentYear <= y then Shown(m.investments) else None,
            if FirstExportYear <= y then Shown(m.exportVolume) else None)
  }

  /** The tax year `y` as the exported sheet shows it. */
  function ShownTaxes(ts: map<int, Taxes>, y: int): Taxes {
    var t := if y in ts then ts[y] else Taxes(y, None, None, None, None, None, None, None, None);
    Taxes(y, Shown(t.totalTaxesMoscow), Shown(t.profitTax), Shown(t.propertyTax), Shown(t.landTax),
          Shown(t.ndfl), Shown(t.transportTax), Shown(t.otherTaxes), Shown(t.excise))
  }

  /** A row whose columns 47 to 174 are the numeric block the exporter writes for `ms` and `ts`. */
  predicate CarriesValues(row: Row, ms: map<int, Metrics>, ts: map<int, Taxes>) {
    |row| == 209 && row[MetricBase..175] == ValueCells(ms, ts, NumericPositions())
  }

  lemma ExportRowCarries(idx: nat, o: Organization)
    ensures CarriesValues(ExportRow(idx, o), YearIndex(o.metrics, MetricYear), YearIndex(o.taxes, TaxYear))
  {
    var ms, ts := YearIndex(o.metrics, MetricYear), YearIndex(o.taxes, TaxYear);
    SecondBlock(FixedCells(idx, o), ValueCells(ms, ts, NumericPositions()), AssetCells(o), ProductCells(o), AdditionalCells(o));
  }

  /** Such a row holds each position's value at that position's column. */
  lemma CarriedCell(row: Row, ms: map<int, Metrics>, ts: map<int, Taxes>, p: Position)
    requires CarriesValues(row, ms, ts) && ValidPosition(p)
    ensures row[Column(p)] == NumericOut(ms, ts, p)
  {
    ValueCellsAt(ms, ts, p);
    assert row[Column(p)] == row[MetricBase..175][Column(p) - MetricBase];
  }

  /** A float metric cell of a row carrying `ms` reads back as the shown value of its field. */
  lemma MetricFloatReadBack(row: Row, ms: map<int, Metrics>, ts: map<int, Taxes>, k: MetricFamily, y: int)
    requires CarriesValues(row, ms, ts) && FirstYear <= y <= LastMetricYear
    requires k != TotalEmployees && k != MoscowEmployees
    ensures SafeFloat(row[MetricColumn(k, y)]) == MetricValueFloat(ShownMetrics(ms, y), k)
  {
    CarriedCell(row, ms, ts, MetricCell(k, y));
    if y in ms {
      FloatOrEmptyReadBack(MetricValueFloat(ms[y], k));
    }
  }

  /** A head-count cell of a row carrying `ms` reads back as the shown value of its field. */
  lemma MetricIntReadBack(row: Row, ms: map<int, Metrics>, ts: map<int, Taxes>, k: MetricFamily, y: int)
    requires CarriesValues(row, ms, ts) && FirstYear <= y <= LastMetricYear
    requires k == TotalEmployees || k == MoscowEmployees
    ensures SafeInt(row[MetricColumn(k, y)]) == MetricValueInt(ShownMetrics(ms, y), k)
  {
    CarriedCell(row, ms, ts, MetricCell(k, y));
    if y in ms {
      IntOrEmptyReadBack(MetricValueInt(ms[y], k));
    }
  }

  /** The investment and export cells of a row carrying `ms`, read with the importer's year guards. */
  lemma GuardedReadBack(row: Row, ms: map<int, Metrics>, ts: map<int, Taxes>, y: int)
    requires CarriesValues(row, ms, ts) && FirstYear <= y <= LastMetricYear
    ensures Investment(row, y) == ShownMetrics(ms, y).investments
    ensures ExportVolume(row, y) == ShownMetrics(ms, y).exportVolume
  {
    if FirstInvestmentYear <= y {
      CarriedCell(row, ms, ts, InvestmentCell(y));
      if y in ms {
        FloatOrEmptyReadBack(ms[y].investments);
      }
    }
    if FirstExportYear <= y {
      CarriedCell(row, ms, ts, ExportCell(y));
      if y in ms {
        FloatOrEmptyReadBack(ms[y].exportVolume);
      }
    }
  }

  function MetricValueFloat(m: Metrics, k: MetricFamily): Option<PyFloat> {
    match k
    case Revenue => m.revenue
    case Profit => m.profit
    case TotalFot => m.totalFot
    case MoscowFot => m.moscowFot
    case AvgSalaryTotal => m.avgSalaryTotal
    case AvgSalaryMoscow => m.avgSalaryMoscow
    case _ => None
  }

  function MetricValueInt(m: Metrics, k: MetricFamily): Option<int> {
    match k
    case TotalEmployees => m.totalEmployees
    case MoscowEmployees => m.moscowEmployees
    case _ => None
  }

  /** The six money cells of metric year `y` read back as the year's shown values. */
  lemma MetricMoneyReadBack(row: Row, ms: map<int, Metrics>, ts: map<int, Taxes>, y: int)
    requires CarriesValues(row, ms, ts) && FirstYear <= y <= LastMetricYear
    ensures var m := ShownMetrics(ms, y);
      m.revenue == SafeFloat(row[MetricColumn(Revenue, y)])
      && m.profit == SafeFloat(row[MetricColumn(Profit, y)])
      && m.totalFot == SafeFloat(row[MetricColumn(TotalFot, y)])
      && m.moscowFot == SafeFloat(row[MetricColumn(MoscowFot, y)])
      && m.avgSalaryTotal == SafeFloat(row[MetricColumn(AvgSalaryTotal, y)])
      && m.avgSalaryMoscow == SafeFloat(row[MetricColumn(AvgSalaryMoscow, y)])
  {
    assert ShownMetrics(ms, y).revenue == SafeFloat(row[MetricColumn(Revenue, y)]) by {
      MetricFloatReadBack(row, ms, ts, Revenue, y);
    }
    assert ShownMetrics(ms, y).profit == SafeFloat(row[MetricColumn(Profit, y)]) by {
      MetricFloatReadBack(row, ms, ts, Profit, y);
    }
    assert ShownMetrics(ms, y).totalFot == SafeFloat(row[MetricColumn(TotalFot, y)]) by {
      MetricFloatReadBack(row, ms, ts, TotalFot, y);
    }
    assert ShownMetrics(ms, y).moscowFot == SafeFloat(row[MetricColumn(MoscowFot, y)]) by {
      MetricFloatReadBack(row, ms, ts, MoscowFot, y);
    }
    assert ShownMetrics(ms, y).avgSalaryTotal == SafeFloat(row[MetricColumn(AvgSalaryTotal, y)]) by {
      MetricFloatReadBack(row, ms, ts, AvgSalaryTotal, y);
    }
    assert ShownMetrics(ms, y).avgSalaryMoscow == SafeFloat(row[MetricColumn(AvgSalaryMoscow, y)]) by {
      MetricFloatReadBack(row, ms, ts, AvgSalaryMoscow, y);
    }
  }

  /** Reading the metric year `2017 + yi` of a row carrying `ms` gives that year as the export shows it. */
  lemma MetricYearReadBack(row: Row, ms: map<int, Metrics>, ts: map<int, Taxes>, yi: nat)
    requires CarriesValues(row, ms, ts) && yi < MetricYears
    ensures ReadMetricYear(row, yi) == Ok(ShownMetrics(ms, FirstYear + yi))
  {
    var y := FirstYear + yi;
    MetricMoneyReadBack(row, ms, ts, y);
    MetricIntReadBack(row, ms, ts, TotalEmployees, y);
    MetricIntReadBack(row, ms, ts, MoscowEmployees, y);
    GuardedReadBack(row, ms, ts, y);
    ReadMetricYearOf(row, yi, ShownMetrics(ms, y));
  }

  function TaxValue(t: Taxes, k: TaxFamily): Option<PyFloat> {
    match k
    case TotalTaxes => t.totalTaxesMoscow
    case ProfitTax => t.profitTax
    case PropertyTax => t.propertyTax
    case LandTax => t.landTax
    case Ndfl => t.ndfl
    case TransportTax => t.transportTax
    case OtherTaxes => t.otherTaxes
    case Excise => t.excise
  }

  /** A tax cell of a row carrying `ts` reads back as the shown value of its field. */
  lemma TaxReadBack(row: Row, ms: map<int, Metrics>, ts: map<int, Taxes>, k: TaxFamily, y: int)
    requires CarriesValues(row, ms, ts) && FirstYear <= y <= LastTaxYear
    ensures SafeFloat(row[TaxColumn(k, y)]) == TaxValue(ShownTaxes(ts, y), k)
  {
    CarriedCell(row, ms, ts, TaxCell(k, y));
    if y in ts {
      FloatOrEmptyReadBack(TaxValue(ts[y], k));
    }
  }

  /** The first four tax cells of year `y` read back as the year's shown values. */
  lemma TaxLowReadBack(row: Row, ms: map<int, Metrics>, ts: map<int, Taxes>, y: int)
    requires CarriesValues(row, ms, ts) && FirstYear <= y <= LastTaxYear
    ensures ShownTaxes(ts, y).totalTaxesMoscow == SafeFloat(row[TaxColumn(TotalTaxes, y)])
    ensures ShownTaxes(ts, y).profitTax == SafeFloat(row[TaxColumn(ProfitTax, y)])
    ensures ShownTaxes(ts, y).propertyTax == SafeFloat(row[TaxColumn(PropertyTax, y)])
    ensures ShownTaxes(ts, y).landTax == SafeFloat(row[TaxColumn(LandTax, y)])
  {
    assert ShownTaxes(ts, y).totalTaxesMoscow == SafeFloat(row[TaxColumn(TotalTaxes, y)]) by {
      TaxReadBack(row, ms, ts, TotalTaxes, y);
    }
    assert ShownTaxes(ts, y).profitTax == SafeFloat(row[TaxColumn(ProfitTax, y)]) by {
      TaxReadBack(row, ms, ts, ProfitTax, y);
    }
    assert ShownTaxes(ts, y).propertyTax == SafeFloat(row[TaxColumn(PropertyTax, y)]) by {
      TaxReadBack(row, ms, ts, PropertyTax, y);
    }
    assert ShownTaxes(ts, y).landTax == SafeFloat(row[TaxColumn(LandTax, y)]) by {
      TaxReadBack(row, ms, ts, LandTax, y);
    }
  }

  /** The last four tax cells of year `y` read back as the year's shown values. */
  lemma TaxHighReadBack(row: Row, ms: map<int, Metrics>, ts: map<int, Taxes>, y: int)
    requires CarriesValues(row, ms, ts) && FirstYear <= y <= LastTaxYear
    ensures ShownTaxes(ts, y).ndfl == SafeFloat(row[TaxColumn(Ndfl, y)])
    ensures ShownTaxes(ts, y).transportTax == SafeFloat(row[TaxColumn(TransportTax, y)])
    ensures ShownTaxes(ts, y).otherTaxes == SafeFloat(row[TaxColumn(OtherTaxes, y)])
    ensures ShownTaxes(ts, y).excise == SafeFloat(row[TaxColumn(Excise, y)])
  {
    assert ShownTaxes(ts, y).ndfl == SafeFloat(row[TaxColumn(Ndfl, y)]) by {
      TaxReadBack(row, ms, ts, Ndfl, y);
    }
    assert ShownTaxes(ts, y).transportTax == SafeFloat(row[TaxColumn(TransportTax, y)]) by {
      TaxReadBack(row, ms, ts, TransportTax, y);
    }
    assert ShownTaxes(ts, y).otherTaxes == SafeFloat(row[TaxColumn(OtherTaxes, y)]) by {
      TaxReadBack(row, ms, ts, OtherTaxes, y);
    }
    assert ShownTaxes(ts, y).excise == SafeFloat(row[TaxColumn(Excise, y)]) by {
      TaxReadBack(row, ms, ts, Excise, y);
    }
  }

  /** Reading the tax year `2017 + yi` of a row carrying `ts` gives that year as the export shows it. */
  lemma TaxYearReadBack(row: Row, ms: map<int, Metrics>, ts: map<int, Taxes>, yi: nat)
    requires CarriesValues(row, ms, ts) && yi < TaxYears
    ensures ReadTaxYear(row, yi) == Ok(ShownTaxes(ts, FirstYear + yi))
  {
    var y := FirstYear + yi;
    TaxLowReadBack(row, ms, ts, y);
    TaxHighReadBack(row, ms, ts, y);
    ReadTaxYearOf(row, yi, ShownTaxes(ts, y));
  }

  /** Reading the metric year `2017 + yi` of an exported row gives that year as the export shows it. */
  lemma ExportedMetricYear(idx: nat, o: Organization, yi: nat)
    requires yi < MetricYears
    ensures ReadMetricYear(ExportRow(idx, o), yi) == Ok(ShownMetrics(YearIndex(o.metrics, MetricYear), FirstYear + yi))
  {
    ExportRowCarries(idx, o);
    MetricYearReadBack(ExportRow(idx, o), YearIndex(o.metrics, MetricYear), YearIndex(o.taxes, TaxYear), yi);
  }

  /** Reading the tax year `2017 + yi` of an exported row gives that year as the export shows it. */
  lemma ExportedTaxYear(idx: nat, o: Organization, yi: nat)
    requires yi < TaxYears
    ensures ReadTaxYear(ExportRow(idx, o), yi) == Ok(ShownTaxes(YearIndex(o.taxes, TaxYear), FirstYear + yi))
  {
    ExportRowCarries(idx, o);
    TaxYearReadBack(ExportRow(idx, o), YearIndex(o.metrics, MetricYear), YearIndex(o.taxes, TaxYear), yi);
  }

  /** Where the product block and the meta pair sit in an exported row. */
  lemma TrailingBlocksAt(idx: nat, o: Organization)
    ensures |ExportRow(idx, o)| == 209
    ensures ExportRow(idx, o)[188] == ProductCells(o)[0] && ExportRow(idx, o)[190] == ProductCells(o)[2]
    ensures ExportRow(idx, o)[201] == AdditionalCells(o)[1]
  {
    var ms, ts := YearIndex(o.metrics, MetricYear), YearIndex(o.taxes, TaxYear);
    var head := FixedCells(idx, o) + ValueCells(ms, ts, NumericPositions()) + AssetCells(o);
    assert |head| == 188;
    assert ExportRow(idx, o) == head + ProductCells(o) + AdditionalCells(o);
  }

  /**
   * The product block does not line up with the importer's: column 188 is
   * always "", so the importer never reads a product name back, and the
   * name sits in column 190, where the importer reads product types.
   */
  lemma ProductNameNotReadBack(idx: nat, o: Organization)
    ensures ExportRow(idx, o)[188] == Text("")
    ensures DecodeProducts(ExportRow(idx, o)).productName.None?
    ensures |o.products| > 0 ==> ExportRow(idx, o)[190] == AsStored(o.products[0].productName)
  {
    TrailingBlocksAt(idx, o);
    BlankProductName(ExportRow(idx, o));
  }

  lemma BlankProductName(row: Row)
    requires |row| > 188 && row[188] == Text("")
    ensures DecodeProducts(row).productName.None?
  {
    SafeStrNoneIff(Text(""), 0);
  }

  /**
   * Column 201 holds "spark / directory", which the importer reads back as
   * the SPARK industry alone: a meta record with neither industry comes
   * back with the industry "/".
   */
  lemma IndustryPairReadBack(idx: nat, o: Organization)
    requires |o.meta| > 0 && o.meta[0].industrySpark.None? && o.meta[0].industryDirectory.None?
    ensures ExportRow(idx, o)[201] == Text(" / ")
    ensures DecodeMeta(ExportRow(idx, o)).industrySpark == Some("/")
  {
    TrailingBlocksAt(idx, o);
    assert IndustryPair(o.meta[0]) == " / ";
    BareIndustryPair(ExportRow(idx, o));
  }

  lemma BareIndustryPair(row: Row)
    requires |row| > 201 && row[201] == Text(" / ")
    ensures DecodeMeta(row).industrySpark == Some("/")
  {
    SafeStrOfText(" / ", 0, "/");
  }
}

=== FILE: fns.dfy ===
/**
 * The client of the Federal Tax Service registry API: the lookup of an
 * organization by INN, which keeps the first item of the `items` list, and the
 * normaliser that turns that item into the application's fields. The HTTP
 * request is not modelled: the lookup takes the decoded response body, or
 * `None` when the request failed, the status was an error or the body was
 * not JSON.
 */
module Fns {
  import opened Wrappers
  import opened PyErrors
  import opened PyText
  import opened PyValues

  const LegalEntity := "ЮЛ"
  const Entrepreneur := "ИП"
  const NonResident := "НР"
  const ActiveStatus := "Действующее"

  /** The address parts, in the order they are joined. */
  const AddressKeys: seq<string> := ["Индекс", "Регион", "Город", "Улица", "Дом", "Корпус", "Квартира"]

  /** What the normaliser extracts; the optional fields are left out of the dict when absent. */
  datatype Normalized = Normalized(
    inn: Value,
    ogrn: Value,
    kpp: Value,
    orgType: string,
    raw: Object,
    name: Value,
    fullName: Value,
    headName: Option<string>,
    legalAddress: Option<string>,
    status: Value,
    okved: Option<(Value, Value)>,
    registrationDate: Value)

  /** `a or b` */
  function Or(a: Value, b: Value): (r: Value)
    ensures Truthy(r) <==> Truthy(a) || Truthy(b)
    ensures Truthy(a) ==> r == a
  {
    if Truthy(a) then a else b
  }

  /** The section the data is read from and the organization type it stands for. */
  function Section(raw: Object): (r: (string, Value))
    ensures r.0 == LegalEntity || r.0 == Entrepreneur || r.0 == NonResident
    ensures r.0 == Entrepreneur <==> !Truthy(Get(raw, LegalEntity)) && Truthy(Get(raw, Entrepreneur))
    ensures r.0 == NonResident <==>
      !Truthy(Get(raw, LegalEntity)) && !Truthy(Get(raw, Entrepreneur)) && Truthy(Get(raw, NonResident))
    ensures Truthy(r.1) || r.1 == Dict(raw)
    ensures r.1 == Dict(raw) || r.1 == Get(raw, r.0)
  {
    if Truthy(Get(raw, LegalEntity)) then (LegalEntity, Get(raw, LegalEntity))
    else if Truthy(Get(raw, Entrepreneur)) then (Entrepreneur, Get(raw, Entrepreneur))
    else if Truthy(Get(raw, NonResident)) then (NonResident, Get(raw, NonResident))
    else (LegalEntity, Dict(raw))
  }

  /** With no section at all the whole payload is read as a legal entity. */
  lemma NoSectionIsLegalEntity(raw: Object)
    requires !Truthy(Get(raw, LegalEntity)) && !Truthy(Get(raw, Entrepreneur)) && !Truthy(Get(raw, NonResident))
    ensures Section(raw) == (LegalEntity, Dict(raw))
  {
  }

  /** `f"{d.get('Фамилия', '')} {d.get('Имя', '')} {d.get('Отчество', '')}".strip()` */
  function FullNameOf(fio: Object): (r: string)
    ensures |r| > 0 ==> !IsSpace(r[0]) && !IsSpace(r[|r| - 1])
  {
    Strip(StrOf(GetOr(fio, "Фамилия", Str(""))) + " "
      + StrOf(GetOr(fio, "Имя", Str(""))) + " "
      + StrOf(GetOr(fio, "Отчество", Str(""))))
  }

  /** `str(address[key])` for each key of `keys` whose value is truthy, in the order of `keys`. */
  function Parts(address: Object, keys: seq<string>): (r: seq<string>)
    ensures |r| <= |keys|
  {
    if |keys| == 0 then []
    else
      var v := Get(address, keys[0]);
      (if Truthy(v) then [StrOf(v)] else []) + Parts(address, keys[1..])
  }

  /** A part is kept exactly when its value is truthy; the parts keep the order of the keys. */
  lemma {:induction false} PartsKept(address: Object, keys: seq<string>)
    ensures Parts(address, keys) == [] <==> forall i :: 0 <= i < |keys| ==> !Truthy(Get(address, keys[i]))
    ensures forall p :: p in Parts(address, keys) ==>
      exists i :: 0 <= i < |keys| && Truthy(Get(address, keys[i])) && p == StrOf(Get(address, keys[i]))
    ensures forall i :: 0 <= i < |keys| && Truthy(Get(address, keys[i])) ==> StrOf(Get(address, keys[i])) in Parts(address, keys)
    decreases |keys|
  {
    PartsPositions(address, keys);
    if |keys| > 0 {
      PartsKept(address, keys[1..]);
      forall p | p in Parts(address, keys)
        ensures exists i :: 0 <= i < |keys| && Truthy(Get(address, keys[i])) && p == StrOf(Get(address, keys[i]))
      {
        if p !in Parts(address, keys[1..]) {
          assert Truthy(Get(address, keys[0])) && p == StrOf(Get(address, keys[0]));
        } else {
          var i :| 0 <= i < |keys[1..]| && Truthy(Get(address, keys[1..][i])) && p == StrOf(Get(address, keys[1..][i]));
          assert keys[1..][i] == keys[i + 1];
        }
      }
      if forall i :: 0 <= i < |keys| ==> !Truthy(Get(address, keys[i])) {
        assert !Truthy(Get(address, keys[0]));
        assert forall i :: 0 <= i < |keys[1..]| ==> keys[1..][i] == keys[i + 1];
      }
    }
  }

  /** How many of `keys` have a truthy value. */
  function TruthyCount(address: Object, keys: seq<string>): nat
    decreases |keys|
  {
    if |keys| == 0 then 0
    else (if Truthy(Get(address, keys[0])) then 1 else 0) + TruthyCount(address, keys[1..])
  }

  /**
   * The parts are the texts of the truthy components in key order: there are
   * as many parts as truthy components, and the component with `n` truthy
   * components before it is part `n`.
   */
  lemma {:induction false} PartsPositions(address: Object, keys: seq<string>)
    ensures |Parts(address, keys)| == TruthyCount(address, keys)
    ensures forall i :: 0 <= i < |keys| && Truthy(Get(address, keys[i])) ==>
      TruthyCount(address, keys[..i]) < |Parts(address, keys)|
      && Parts(address, keys)[TruthyCount(address, keys[..i])] == StrOf(Get(address, keys[i]))
    decreases |keys|
  {
    if |keys| > 0 {
      PartsPositions(address, keys[1..]);
      forall i | 0 <= i < |keys| && Truthy(Get(address, keys[i]))
        ensures TruthyCount(address, keys[..i]) < |Parts(address, keys)|
          && Parts(address, keys)[TruthyCount(address, keys[..i])] == StrOf(Get(address, keys[i]))
      {
        if i == 0 {
          assert keys[..0] == [];
        } else {
          assert keys[1..][i - 1] == keys[i];
          PrefixCount(address, keys, i);
        }
      }
    }
  }

  /** Counting a prefix: its first key, then the rest of it. */
  lemma PrefixCount(address: Object, keys: seq<string>, i: nat)
    requires 0 < i <= |keys|
    ensures TruthyCount(address, keys[..i])
      == (if Truthy(Get(address, keys[0])) then 1 else 0) + TruthyCount(address, keys[1..][..i - 1])
  {
    assert keys[..i][0] == keys[0];
    assert keys[..i][1..] == keys[1..][..i - 1];
  }

  /** The legal address: the truthy parts joined by ", ". */
  function AddressOf(address: Object): (r: string)
    ensures (forall i :: 0 <= i < |AddressKeys| ==> !Truthy(Get(address, AddressKeys[i]))) ==> r == ""
  {
    PartsKept(address, AddressKeys);
    Join(", ", Parts(address, AddressKeys))
  }

  /** Parts are joined in the fixed key order and falsy ones are skipped: a postcode and a city alone read "postcode, city". */
  lemma AddressSkipsMissing(address: Object, postcode: string, city: string)
    requires Get(address, "Индекс") == Str(postcode) && Get(address, "Город") == Str(city)
    requires postcode != "" && city != ""
    requires !Truthy(Get(address, "Регион")) && !Truthy(Get(address, "Улица")) && !Truthy(Get(address, "Дом"))
    requires !Truthy(Get(address, "Корпус")) && !Truthy(Get(address, "Квартира"))
    ensures AddressOf(address) == postcode + ", " + city
  {
    var k := AddressKeys;
    assert Parts(address, k[7..]) == [];
    assert k[6..][1..] == k[7..] && k[6..][0] == "Квартира";
    assert Parts(address, k[6..]) == [];
    assert k[5..][1..] == k[6..] && k[5..][0] == "Корпус";
    assert Parts(address, k[5..]) == [];
    assert k[4..][1..] == k[5..] && k[4..][0] == "Дом";
    assert Parts(address, k[4..]) == [];
    assert k[3..][1..] == k[4..] && k[3..][0] == "Улица";
    assert Parts(address, k[3..]) == [];
    assert k[2..][1..] == k[3..] && k[2..][0] == "Город";
    assert Parts(address, k[2..]) == [city];
    assert k[1..][1..] == k[2..] && k[1..][0] == "Регион";
    assert Parts(address, k[1..]) == [city];
    assert Parts(address, k) == [postcode, city];
    assert Join(", ", [postcode, city]) == postcode + ", " + Join(", ", [city]);
  }

  /**
   * `_normalize_fns_data`: fails with `AttributeError` when the section it
   * reads, or the name section of an entrepreneur, is not a dict.
   */
  function Normalize(raw: Object): (r: Result<Normalized, Exception>)
    ensures r.Err? <==>
      (!Section(raw).1.Dict?
       || (Section(raw).0 == Entrepreneur && !GetOr(Section(raw).1.entries, "ФИО", Dict([])).Dict?))
    ensures r.Err? ==> r.error.AttributeError?
    ensures r.Ok? ==> r.value.orgType == Section(raw).0 && r.value.raw == raw
  {
    var (orgType, section) := Section(raw);
    if !section.Dict? then Err(AttributeError("object has no attribute 'get'"))
    else
      var data := section.entries;
      var names: Result<(Value, Value, Option<string>), Exception> :=
        if orgType == Entrepreneur then
          var fio := GetOr(data, "ФИО", Dict([]));
          if !fio.Dict? then Err(AttributeError("object has no attribute 'get'"))
          else
            var n := FullNameOf(fio.entries);
            Ok((Str(n), Str("ИП " + n), Some(n)))
        else
          var short := GetOr(data, "НаимСокрЮЛ", Str(""));
          var full := GetOr(data, "НаимПолнЮЛ", Str(""));
          var head := GetOr(data, "Руководитель", Dict([]));
          var headFio := if head.Dict? then GetOr(head.entries, "ФИО", Dict([])) else Null;
          Ok((Or(short, full), Or(full, short), if headFio.Dict? then Some(FullNameOf(headFio.entries)) else None));
      var (name, fullName, headName) :- names;
      var address := GetOr(data, "Адрес", Dict([]));
      var status := GetOr(data, "Статус", Str(""));
      var okved := GetOr(data, "ОснВидДеят", Dict([]));
      Ok(Normalized(
        GetOr(data, "ИНН", Str("")),
        Or(GetOr(data, "ОГРН", Str("")), GetOr(data, "ОГРНИП", Str(""))),
        GetOr(data, "КПП", Str("")),
        orgType,
        raw,
        name,
        fullName,
        headName,
        if address.Dict? then Some(AddressOf(address.entries)) else None,
        if Truthy(status) then status else Str(ActiveStatus),
        if okved.Dict? then Some((GetOr(okved.entries, "Код", Str("")), GetOr(okved.entries, "Наим", Str("")))) else None,
        Or(GetOr(data, "ДатаРег", Str("")), GetOr(data, "ДатаОГРН", Str("")))))
  }

  /** An entrepreneur is named by the stripped full name; the full name adds the "ИП " prefix, the head is the person. */
  lemma EntrepreneurNames(raw: Object)
    requires Normalize(raw).Ok? && Normalize(raw).value.orgType == Entrepreneur
    ensures var n := Normalize(raw).value;
      n.name.Str? && n.fullName == Str("ИП " + n.name.s) && n.headName == Some(n.name.s)
      && n.name.s == FullNameOf(GetOr(Section(raw).1.entries, "ФИО", Dict([])).entries)
  {
  }

  /** An entrepreneur without a name section is named "", and the full name is "ИП " with its trailing space. */
  lemma EntrepreneurWithoutName(raw: Object)
    requires Section(raw).0 == Entrepreneur && Section(raw).1.Dict?
    requires !Has(Section(raw).1.entries, "ФИО")
    ensures Normalize(raw).Ok?
    ensures Normalize(raw).value.name == Str("") && Normalize(raw).value.fullName == Str("ИП ")
  {
    EmptyFullName();
    assert GetOr(Section(raw).1.entries, "ФИО", Dict([])) == Dict([]);
    EntrepreneurNames(raw);
    var n := Normalize(raw).value;
    assert n.name.s == "";
    assert "ИП " + n.name.s == "ИП ";
  }

  lemma EmptyFullName()
    ensures FullNameOf([]) == ""
  {
    var e: Object := [];
    assert FullNameOf(e) == Strip("  ");
    assert AllSpace("  ");
    StripEmptyIffAllSpace("  ");
  }

  /**
   * A legal entity is named by its short name, falling back to the full name,
   * and the full name the other way round; a head is named only when both
   * the head and the head's name are dicts.
   */
  lemma LegalEntityNames(raw: Object)
    requires Normalize(raw).Ok? && Normalize(raw).value.orgType != Entrepreneur
    ensures var n := Normalize(raw).value;
      var data := Section(raw).1.entries;
      var short := GetOr(data, "НаимСокрЮЛ", Str(""));
      var full := GetOr(data, "НаимПолнЮЛ", Str(""));
      (Truthy(short) ==> n.name == short) && (!Truthy(short) ==> n.name == full)
      && (Truthy(full) ==> n.fullName == full) && (!Truthy(full) ==> n.fullName == short)
      && (n.headName.Some? <==>
            GetOr(data, "Руководитель", Dict([])).Dict?
            && GetOr(GetOr(data, "Руководитель", Dict([])).entries, "ФИО", Dict([])).Dict?)
  {
  }

  /** The status is never empty: a missing or empty one reads 'Действующее'. */
  lemma StatusDefault(raw: Object)
    requires Normalize(raw).Ok?
    ensures Truthy(Normalize(raw).value.status)
    ensures !Truthy(GetOr(Section(raw).1.entries, "Статус", Str(""))) ==> Normalize(raw).value.status == Str(ActiveStatus)
  {
  }

  /** ОГРН falls back to ОГРНИП, and the registration date from ДатаРег to ДатаОГРН. */
  lemma Fallbacks(raw: Object)
    requires Normalize(raw).Ok?
    ensures var n := Normalize(raw).value;
      var data := Section(raw).1.entries;
      (!Truthy(GetOr(data, "ОГРН", Str(""))) ==> n.ogrn == GetOr(data, "ОГРНИП", Str("")))
      && (Truthy(GetOr(data, "ОГРН", Str(""))) ==> n.ogrn == GetOr(data, "ОГРН", Str("")))
      && (!Truthy(GetOr(data, "ДатаРег", Str(""))) ==> n.registrationDate == GetOr(data, "ДатаОГРН", Str("")))
      && (Truthy(GetOr(data, "ДатаРег", Str(""))) ==> n.registrationDate == GetOr(data, "ДатаРег", Str("")))
  {
  }

  /** The normalised dict, with the keys in the order the normaliser inserts them. */
  function AsDict(n: Normalized): (r: Object)
    ensures |r| >= 9
  {
    [("inn", n.inn), ("ogrn", n.ogrn), ("kpp", n.kpp), ("org_type", Str(n.orgType)), ("_raw_data", Dict(n.raw)),
     ("name", n.name), ("full_name", n.fullName)]
    + (if n.headName.Some? then [("head_name", Str(n.headName.value))] else [])
    + (if n.legalAddress.Some? then [("legal_address", Str(n.legalAddress.value))] else [])
    + [("status", n.status)]
    + (if n.okved.Some? then [("main_okved", n.okved.value.0), ("main_okved_name", n.okved.value.1)] else [])
    + [("registration_date", n.registrationDate)]
  }

  /**
   * `get_organization_by_inn` on the decoded body: `None` unless the body is
   * a dict with a non-empty `items` list whose first item normalises; every
   * exception on the way (a body of another shape, a first item that is not
   * a dict) is caught and read as `None`.
   */
  function OrganizationByInn(body: Option<Value>): (r: Option<Object>)
    ensures r.Some? ==> body.Some? && body.value.Dict?
    ensures r.Some? ==> Truthy(Get(body.value.entries, "items"))
  {
    match body
    case None => None
    case Some(data) =>
      if !data.Dict? || !Has(data.entries, "items") || !Truthy(Get(data.entries, "items")) then None
      else
        match Get(data.entries, "items")
        case List(items) =>
          (match items[0]
           case Dict(first) =>
             (match Normalize(first)
              case Ok(n) => Some(AsDict(n))
              case Err(_) => None)
           case _ => None)
        case _ => None
  }

  /** A body without items, or with an empty items list, finds nothing. */
  lemma NoItemsNothingFound(body: Object)
    requires !Has(body, "items") || Get(body, "items") == List([])
    ensures OrganizationByInn(Some(Dict(body))) == None
  {
  }

  /** What is found is the first item, normalised. */
  lemma FoundIsFirstItem(body: Object, first: Object, rest: seq<Value>)
    requires Get(body, "items") == List([Dict(first)] + rest)
    ensures OrganizationByInn(Some(Dict(body))) == if Normalize(first).Ok? then Some(AsDict(Normalize(first).value)) else None
  {
    HasIff(body, "items");
    var items := [Dict(first)] + rest;
    assert items[0] == Dict(first);
    assert Truthy(Get(body, "items"));
  }
}

=== FILE: import_v2.dfy ===
/**
 * The newer, position-based spreadsheet importer. Each data row is keyed by
 * the INN in column 1: an unknown INN creates an organization from the fixed
 * columns, a known INN keeps its descriptive columns and has its metric and
 * tax series replaced. Asset, product and meta records are replaced only when
 * the row carries their key columns. A row that raises is recorded and the
 * batch goes on; what the row wrote before raising stays written.
 */
module ImportV2 {
  import opened Wrappers
  import opened PyErrors
  import opened PyNum
  import opened Calendar
  import opened Cells
  import opened Coerce
  import opened Schema
  import opened ColumnMap
  import opened YearSeries

  /** `row[i]` without a guard: past the end of the row it raises `IndexError`. */
  function At(row: Row, i: nat): (r: Result<Cell, Exception>)
    ensures r.Ok? <==> i < |row|
    ensures r.Ok? ==> r.value == row[i]
    ensures r.Err? ==> r.error == IndexError
  {
    if i < |row| then Ok(row[i]) else Err(IndexError)
  }

  /** Python truthiness of an optional float column value. */
  predicate FloatTruthy(v: Option<PyFloat>) {
    v.Some? && !(v.value.Finite? && v.value.value.mant == 0)
  }

  predicate IntTruthy(v: Option<int>) {
    v.Some? && v.value != 0
  }

  /** The `any([...])` test that decides whether a metric year is stored. */
  predicate MetricsHasValue(m: Metrics) {
    FloatTruthy(m.revenue) || FloatTruthy(m.profit)
    || IntTruthy(m.totalEmployees) || IntTruthy(m.moscowEmployees)
    || FloatTruthy(m.totalFot) || FloatTruthy(m.moscowFot)
    || FloatTruthy(m.avgSalaryTotal) || FloatTruthy(m.avgSalaryMoscow)
    || FloatTruthy(m.investments) || FloatTruthy(m.exportVolume)
  }

  /** The `any([...])` test that decides whether a tax year is stored. */
  predicate TaxesHasValue(t: Taxes) {
    FloatTruthy(t.totalTaxesMoscow) || FloatTruthy(t.profitTax)
    || FloatTruthy(t.propertyTax) || FloatTruthy(t.landTax)
    || FloatTruthy(t.ndfl) || FloatTruthy(t.transportTax)
    || FloatTruthy(t.otherTaxes) || FloatTruthy(t.excise)
  }

  /** The guarded investment cell: only 2021 to 2023 have one. */
  function Investment(row: Row, y: int): (r: Option<PyFloat>)
    ensures !(FirstInvestmentYear <= y <= LastMetricYear) ==> r.None?
  {
    if FirstInvestmentYear <= y <= LastMetricYear then SafeFloat(CellAt(row, Column(InvestmentCell(y))))
    else None
  }

  /** The guarded export cell: only 2019 to 2023 have one. */
  function ExportVolume(row: Row, y: int): (r: Option<PyFloat>)
    ensures !(FirstExportYear <= y <= LastMetricYear) ==> r.None?
  {
    if FirstExportYear <= y <= LastMetricYear then SafeFloat(CellAt(row, Column(ExportCell(y))))
    else None
  }

  /** The cells at `cols`, read in order without a guard: the first column past the row's end raises `IndexError`. */
  function ReadCells(row: Row, cols: seq<nat>): (r: Result<seq<Cell>, Exception>)
    ensures r.Ok? <==> forall i :: 0 <= i < |cols| ==> cols[i] < |row|
    ensures r.Err? ==> r.error == IndexError
    ensures r.Ok? ==> |r.value| == |cols| && forall i :: 0 <= i < |cols| ==> r.value[i] == row[cols[i]]
  {
    if |cols| == 0 then Ok([])
    else
      var c :- At(row, cols[0]);
      var rest :- ReadCells(row, cols[1..]);
      assert forall i :: 1 <= i < |cols| ==> cols[i] == cols[1..][i - 1];
      Ok([c] + rest)
  }

  /** The eight columns of metric year `y`, in the order the loop reads them; the last is the largest. */
  function MetricYearColumns(y: int): (r: seq<nat>)
    requires FirstYear <= y <= LastMetricYear
    ensures |r| == 8 && r[7] == 96 + (y - FirstYear)
    ensures forall i :: 0 <= i < 8 ==> r[i] <= r[7]
  {
    [MetricColumn(Revenue, y), MetricColumn(Profit, y),
     MetricColumn(TotalEmployees, y), MetricColumn(MoscowEmployees, y),
     MetricColumn(TotalFot, y), MetricColumn(MoscowFot, y),
     MetricColumn(AvgSalaryTotal, y), MetricColumn(AvgSalaryMoscow, y)]
  }

  /** The eight columns of tax year `y`, in the order the loop reads them; the last is the largest. */
  function TaxYearColumns(y: int): (r: seq<nat>)
    requires FirstYear <= y <= LastTaxYear
    ensures |r| == 8 && r[7] == 159 + (y - FirstYear)
    ensures forall i :: 0 <= i < 8 ==> r[i] <= r[7]
  {
    [TaxColumn(TotalTaxes, y), TaxColumn(ProfitTax, y), TaxColumn(PropertyTax, y), TaxColumn(LandTax, y),
     TaxColumn(Ndfl, y), TaxColumn(TransportTax, y), TaxColumn(OtherTaxes, y), TaxColumn(Excise, y)]
  }

  /** The metric year `2017 + yi`, its eight cells read without a guard in family order. */
  function ReadMetricYear(row: Row, yi: nat): (r: Result<Metrics, Exception>)
    ensures r.Ok? <==> yi < 7 && 96 + yi < |row|
    ensures r.Err? ==> r.error == IndexError
    ensures r.Ok? ==> r.value.year == FirstYear + yi
  {
    if yi >= 7 then Err(IndexError)
    else
      var y := FirstYear + yi;
      var c :- ReadCells(row, MetricYearColumns(y));
      Ok(Metrics(y,
        SafeFloat(c[0]), SafeFloat(c[1]), SafeInt(c[2]), SafeInt(c[3]),
        SafeFloat(c[4]), SafeFloat(c[5]), SafeFloat(c[6]), SafeFloat(c[7]),
        Investment(row, y), ExportVolume(row, y)))
  }

  /** The tax year `2017 + yi`, its eight cells read without a guard in family order. */
  function ReadTaxYear(row: Row, yi: nat): (r: Result<Taxes, Exception>)
    ensures r.Ok? <==> yi < 8 && 159 + yi < |row|
    ensures r.Err? ==> r.error == IndexError
    ensures r.Ok? ==> r.value.year == FirstYear + yi
  {
    if yi >= 8 then Err(IndexError)
    else
      var y := FirstYear + yi;
      var c :- ReadCells(row, TaxYearColumns(y));
      Ok(Taxes(y,
        SafeFloat(c[0]), SafeFloat(c[1]), SafeFloat(c[2]), SafeFloat(c[3]),
        SafeFloat(c[4]), SafeFloat(c[5]), SafeFloat(c[6]), SafeFloat(c[7])))
  }

  /** `m` holds what the cells of metric year `2017 + yi` read as, on a row long enough to read them. */
  predicate MetricYearCells(row: Row, yi: nat, m: Metrics) {
    yi < 7 && 96 + yi < |row|
    && var y := FirstYear + yi;
    m.year == y
    && m.revenue == SafeFloat(row[MetricColumn(Revenue, y)])
    && m.profit == SafeFloat(row[MetricColumn(Profit, y)])
    && m.totalEmployees == SafeInt(row[MetricColumn(TotalEmployees, y)])
    && m.moscowEmployees == SafeInt(row[MetricColumn(MoscowEmployees, y)])
    && m.totalFot == SafeFloat(row[MetricColumn(TotalFot, y)])
    && m.moscowFot == SafeFloat(row[MetricColumn(MoscowFot, y)])
    && m.avgSalaryTotal == SafeFloat(row[MetricColumn(AvgSalaryTotal, y)])
    && m.avgSalaryMoscow == SafeFloat(row[MetricColumn(AvgSalaryMoscow, y)])
    && m.investments == Investment(row, y)
    && m.exportVolume == ExportVolume(row, y)
  }

  /** Where each field of a metric year comes from. */
  lemma ReadMetricYearFields(row: Row, yi: nat)
    requires yi < 7 && 96 + yi < |row|
    ensures MetricYearCells(row, yi, ReadMetricYear(row, yi).value)
  {
  }

  /** Conversely, the record of the year's cells is the one the read returns. */
  lemma ReadMetricYearOf(row: Row, yi: nat, m: Metrics)
    requires MetricYearCells(row, yi, m)
    ensures ReadMetricYear(row, yi) == Ok(m)
  {
    ReadMetricYearFields(row, yi);
  }

  /** `t` holds what the cells of tax year `2017 + yi` read as, on a row long enough to read them. */
  predicate TaxYearCells(row: Row, yi: nat, t: Taxes) {
    yi < 8 && 159 + yi < |row|
    && var y := FirstYear + yi;
    t.year == y
    && t.totalTaxesMoscow == SafeFloat(row[TaxColumn(TotalTaxes, y)])
    && t.profitTax == SafeFloat(row[TaxColumn(ProfitTax, y)])
    && t.propertyTax == SafeFloat(row[TaxColumn(PropertyTax, y)])
    && t.landTax == SafeFloat(row[TaxColumn(LandTax, y)])
    && t.ndfl == SafeFloat(row[TaxColumn(Ndfl, y)])
    && t.transportTax == SafeFloat(row[TaxColumn(TransportTax, y)])
    && t.otherTaxes == SafeFloat(row[TaxColumn(OtherTaxes, y)])
    && t.excise == SafeFloat(row[TaxColumn(Excise, y)])
  }

  /** Where each field of a tax year comes from. */
  lemma ReadTaxYearFields(row: Row, yi: nat)
    requires yi < 8 && 159 + yi < |row|
    ensures TaxYearCells(row, yi, ReadTaxYear(row, yi).value)
  {
  }

  lemma ReadTaxYearOf(row: Row, yi: nat, t: Taxes)
    requires TaxYearCells(row, yi, t)
    ensures ReadTaxYear(row, yi) == Ok(t)
  {
    ReadTaxYearFields(row, yi);
  }

  /** The metric loop runs over 2017 to 2023, the tax loop over 2017 to 2024. */
  const MetricYears: nat := 7
  const TaxYears: nat := 8

  function AddMetrics(acc: seq<Metrics>, row: Row): (seq<Metrics>, Option<Exception>) {
    AddYears(acc, yi => ReadMetricYear(row, yi), MetricsHasValue, 0, MetricYears)
  }

  function AddTaxes(acc: seq<Taxes>, row: Row): (seq<Taxes>, Option<Exception>) {
    AddYears(acc, yi => ReadTaxYear(row, yi), TaxesHasValue, 0, TaxYears)
  }

  /** Asset, product and meta blocks are replaced only when a key column is truthy. */
  predicate HasAssets(row: Row) {
    |row| > 175 && (Truthy(CellAt(row, 176)) || Truthy(CellAt(row, 181)))
  }

  predicate HasProducts(row: Row) {
    |row| > 188 && (Truthy(CellAt(row, 188)) || Truthy(CellAt(row, 190)))
  }

  predicate HasMeta(row: Row) {
    |row| > 200 && (Truthy(CellAt(row, 200)) || Truthy(CellAt(row, 201)))
  }

  function Str(row: Row, i: nat): Option<string> {
    SafeStr(CellAt(row, i), 0)
  }

  function Flt(row: Row, i: nat): Option<PyFloat> {
    SafeFloat(CellAt(row, i))
  }

  function DecodeAssets(row: Row): Assets {
    Assets(
      cadastralNumberLand := Str(row, 176), landArea := Flt(row, 177), landUsage := Str(row, 178),
      landOwnershipType := Str(row, 179), landOwner := Str(row, 180),
      cadastralNumberBuilding := Str(row, 181), buildingArea := Flt(row, 182),
      buildingUsage := Str(row, 183), buildingType := Str(row, 184), buildingPurpose := None,
      buildingOwnershipType := Str(row, 185), buildingOwner := Str(row, 186),
      productionArea := Flt(row, 187), propertySummary := Str(row, 175))
  }

  function DecodeProducts(row: Row): Products {
    Products(
      productName := Str(row, 188), standardizedProduct := Str(row, 189),
      okpd2Codes := Str(row, 191), productTypes := Str(row, 190), productCatalog := Str(row, 193),
      hasGovernmentOrders := SafeBool(CellAt(row, 194)), capacityUsage := Str(row, 195),
      hasExport := SafeBool(CellAt(row, 196)), exportVolumeLastYear := Flt(row, 197),
      exportCountries := Str(row, 198), tnvedCode := Str(row, 199))
  }

  function DecodeMeta(row: Row): Meta {
    Meta(industrySpark := Str(row, 201), industryDirectory := None, presentationLinks := None,
         registryDevelopment := Str(row, 200), otherNotes := None)
  }

  /** Delete the organization's records of a kind and add the row's one, or leave them. */
  function ReplaceBlocks(o: Organization, row: Row): (r: Organization)
    ensures r.Descriptive() == o.Descriptive()
    ensures r.metrics == o.metrics && r.taxes == o.taxes
    ensures r.assets == if HasAssets(row) then [DecodeAssets(row)] else o.assets
    ensures r.products == if HasProducts(row) then [DecodeProducts(row)] else o.products
    ensures r.meta == if HasMeta(row) then [DecodeMeta(row)] else o.meta
  {
    var o1 := if HasAssets(row) then o.(assets := [DecodeAssets(row)]) else o;
    var o2 := if HasProducts(row) then o1.(products := [DecodeProducts(row)]) else o1;
    if HasMeta(row) then o2.(meta := [DecodeMeta(row)]) else o2
  }

  /**
   * Everything after the organization is known: the two year loops, then the
   * three optional blocks. Returns the organization as far as it got and the
   * exception that stopped it, if any.
   */
  function WriteChildren(o: Organization, row: Row): (r: (Organization, Option<Exception>))
    ensures r.0.Descriptive() == o.Descriptive()
  {
    var (ms, e1) := AddMetrics(o.metrics, row);
    var o1 := o.(metrics := ms);
    if e1.Some? then (o1, e1)
    else
      var (ts, e2) := AddTaxes(o1.taxes, row);
      var o2 := o1.(taxes := ts);
      if e2.Some? then (o2, e2)
      else (ReplaceBlocks(o2, row), None)
  }

  /** The text columns a new organization takes from fixed positions, guarded past column 201. */
  const TextColumns: map<OrgText, nat> := map[
    FullName := 3, StatusSpark := 4, StatusInternal := 5, StatusFinal := 6,
    LegalAddress := 8, ProductionAddress := 9, AdditionalAddress := 10,
    MainIndustry := 11, MainSubindustry := 12, ExtraIndustry := 13, ExtraSubindustry := 14,
    MainOkved := 16, MainOkvedName := 17, ProdOkved := 18, ProdOkvedName := 19,
    CompanyInfo := 20, CompanySize := 21, CompanySize2022 := 22, SizeByEmployees := 23,
    SizeByEmployees2022 := 24, SizeByRevenue := 25, SizeByRevenue2022 := 26,
    HeadName := 28, ParentOrgName := 29, ParentOrgInn := 30, ParentRelationType := 31,
    HeadContacts := 32, HeadEmail := 33, EmployeeContact := 34, Phone := 35,
    EmergencyContact := 36, Website := 37, Email := 38, SupportData := 39,
    SpecialStatus := 40, SiteFinal := 41, MspStatus := 44,
    LegalAddressCoords := 202, ProductionAddressCoords := 203, AdditionalAddressCoords := 204,
    District := 207, Region := 208]

  /** The last column a new organization reads without a guard. */
  const LastFixedColumn := 44

  /**
   * The organization an unknown INN creates. Columns 2 to 44 are read without
   * a guard, so a row of 44 cells or fewer raises `IndexError`.
   */
  function NewOrganization(row: Row, inn: string): (r: Result<Organization, Exception>)
    ensures r.Ok? <==> |row| > LastFixedColumn
    ensures r.Err? ==> r.error == IndexError
    ensures r.Ok? ==> r.value.inn == inn && r.value.name == SafeStr(row[2], NameWidth)
    ensures r.Ok? ==> r.value.metrics == [] && r.value.taxes == [] && r.value.assets == []
                      && r.value.products == [] && r.value.meta == []
    ensures r.Ok? ==> forall f :: f in r.value.text <==> f in TextColumns && Str(row, TextColumns[f]).Some?
  {
    if |row| <= LastFixedColumn then Err(IndexError)
    else
      var text := map f | f in TextColumns && Str(row, TextColumns[f]).Some? :: Str(row, TextColumns[f]).value;
      Ok(Organization(
        inn := inn,
        name := SafeStr(row[2], NameWidth),
        text := text,
        dateAdded := SafeDate(row[7]),
        registrationDate := SafeDate(row[27]),
        gotMoscowSupport := SafeBool(row[42]),
        isSystemCritical := SafeBool(row[43]),
        coordinatesLat := Flt(row, 205),
        coordinatesLon := Flt(row, 206),
        metrics := [], taxes := [], assets := [], products := [], meta := []))
  }

  /** An entry of the error list: 1-based sheet row, INN and name as far as readable, `str(e)`. */
  datatype RowError = RowError(row: nat, inn: Option<string>, name: Option<string>, message: string)

  /** An entry of the organization list in the response. */
  datatype Detail = Detail(inn: string, name: string, isNew: bool)

  /** The counters and lists the loop keeps. */
  datatype Tally = Tally(
    created: nat, updated: nat, processed: nat, skipped: nat,
    errors: seq<RowError>, details: seq<Detail>)

  const EmptyTally := Tally(0, 0, 0, 0, [], [])
  const MaxDetails := 50
  const MaxErrorDetails := 20

  /** The `except` branch: record the row and go on. */
  function Fail(t: Tally, rowNumber: nat, row: Row, e: Exception): (r: Tally)
    ensures r == t.(errors := r.errors) && |r.errors| == |t.errors| + 1
  {
    var inn := if |row| > 1 then SafeStr(row[1], 0) else Some("Unknown");
    var name := if |row| > 2 then SafeStr(row[2], 0) else Some("Unknown");
    t.(errors := t.errors + [RowError(rowNumber, inn, name, e.Message())])
  }

  /**
   * The end of a row that went through: a detail entry while fewer than 50,
   * naming the organization (or "Без названия" when it has no name), and the count.
   */
  function Complete(t: Tally, o: Organization, isNew: bool): (r: Tally)
    ensures r == t.(processed := t.processed + 1, details := r.details)
    ensures |t.details| < MaxDetails ==> |r.details| == |t.details| + 1 && t.details <= r.details
    ensures |t.details| < MaxDetails ==> r.details[|t.details|].inn == o.inn && r.details[|t.details|].isNew == isNew
    ensures |t.details| < MaxDetails ==>
      r.details[|t.details|].name == (if o.name.None? || o.name.value == "" then "Без названия" else o.name.value)
    ensures |t.details| >= MaxDetails ==> r.details == t.details
  {
    var name := if o.name.Some? && o.name.value != "" then o.name.value else "Без названия";
    var details := if |t.details| < MaxDetails then t.details + [Detail(o.inn, name, isNew)] else t.details;
    t.(processed := t.processed + 1, details := details)
  }

  /**
   * How a row ended: skipped for want of an INN, raised (after bumping the new
   * or updated counter, or before either), or went through.
   */
  datatype Outcome =
    | Skipped
    | Raised(counted: Option<bool>, e: Exception)
    | Completed(o: Organization, isNew: bool)

  /** The store changes one data row makes, and how the row ended. */
  function Step(store: Store, row: Row): (r: (Store, Outcome))
  {
    if |row| <= 1 then (store, Raised(None, IndexError))
    else match SafeStr(row[1], 0)
      case None => (store, Skipped)
      case Some(inn) =>
        if inn in store then
          if |row| <= 2 then (store, Raised(Some(false), IndexError))
          else
            var (o, e) := WriteChildren(store[inn].(metrics := [], taxes := []), row);
            (store[inn := o], if e.Some? then Raised(Some(false), e.value) else Completed(o, false))
        else
          match NewOrganization(row, inn)
          case Err(e) => (store, Raised(None, e))
          case Ok(created) =>
            var (o, e) := WriteChildren(created, row);
            (store[inn := o], if e.Some? then Raised(Some(true), e.value) else Completed(o, true))
  }

  function Bump(t: Tally, isNew: bool): Tally {
    if isNew then t.(created := t.created + 1) else t.(updated := t.updated + 1)
  }

  /** The counters and lists after a row that ended as `out`. */
  function Record(t: Tally, rowNumber: nat, row: Row, out: Outcome): (r: Tally)
    ensures r.processed + r.skipped + |r.errors| == t.processed + t.skipped + |t.errors| + 1
    ensures t.created + t.updated <= r.created + r.updated <= t.created + t.updated + 1
    ensures r.processed > t.processed ==> r.created + r.updated == t.created + t.updated + 1
    ensures |t.details| <= |r.details| <= MaxDetails || r.details == t.details
  {
    match out
    case Skipped => t.(skipped := t.skipped + 1)
    case Raised(counted, e) =>
      Fail(if counted.Some? then Bump(t, counted.value) else t, rowNumber, row, e)
    case Completed(o, isNew) => Complete(Bump(t, isNew), o, isNew)
  }

  /** One data row (`rowNumber` is its 1-based sheet row). */
  function ProcessRow(store: Store, t: Tally, rowNumber: nat, row: Row): (r: (Store, Tally))
  {
    var (s, out) := Step(store, row);
    (s, Record(t, rowNumber, row, out))
  }

  /** The loop over the data rows, numbered from `rowNumber`. */
  function ProcessRows(store: Store, t: Tally, rows: seq<Row>, rowNumber: nat): (r: (Store, Tally))
    decreases |rows|
  {
    if |rows| == 0 then (store, t)
    else
      var (s1, t1) := ProcessRow(store, t, rowNumber, rows[0]);
      ProcessRows(s1, t1, rows[1..], rowNumber + 1)
  }

  /** The dictionary `process_excel_file` returns. */
  datatype Summary = Summary(
    organizationsNew: nat, organizationsUpdated: nat, organizationsCount: nat,
    rowsProcessed: nat, rowsSkipped: nat, errors: nat,
    errorDetails: seq<RowError>, details: seq<Detail>)

  /** Import the data rows of a sheet (the header row already dropped; the first data row is row 2). */
  function ProcessFile(store: Store, rows: seq<Row>): (r: (Store, Summary))
    ensures r.1.organizationsCount == r.1.organizationsNew + r.1.organizationsUpdated
    ensures r.1.rowsProcessed + r.1.rowsSkipped + r.1.errors == |rows|
    ensures r.1.rowsProcessed <= r.1.organizationsCount
    ensures |r.1.errorDetails| <= MaxErrorDetails && |r.1.details| <= MaxDetails
    ensures var t := ProcessRows(store, EmptyTally, rows, 2).1;
      r.1.errors == |t.errors|
      && |r.1.errorDetails| == (if |t.errors| <= MaxErrorDetails then |t.errors| else MaxErrorDetails)
      && r.1.errorDetails == t.errors[..|r.1.errorDetails|]
    ensures r.1.details == ProcessRows(store, EmptyTally, rows, 2).1.details
    ensures KeyedByInn(store) ==> Preserves(store, r.0)
  {
    var (s, t) := ProcessRows(store, EmptyTally, rows, 2);
    ProcessRowsCounts(store, EmptyTally, rows, 2);
    ProcessRowsStore(store, EmptyTally, rows, 2);
    var shown := if |t.errors| <= MaxErrorDetails then t.errors else t.errors[..MaxErrorDetails];
    (s, Summary(t.created, t.updated, t.created + t.updated, t.processed, t.skipped,
                |t.errors|, shown, t.details))
  }

  /** The tally invariants the loop keeps. */
  predicate TallyInvariant(t: Tally, rowsSeen: nat) {
    t.processed + t.skipped + |t.errors| == rowsSeen
    && t.processed <= t.created + t.updated
    && |t.details| <= MaxDetails
  }

  /** One row more: whatever its outcome, the counters account for it. */
  lemma RecordKeeps(t: Tally, rowNumber: nat, row: Row, out: Outcome)
    requires TallyInvariant(t, t.processed + t.skipped + |t.errors|)
    ensures var r := Record(t, rowNumber, row, out);
      TallyInvariant(r, t.processed + t.skipped + |t.errors| + 1)
  {
  }

  lemma {:induction false} ProcessRowsCounts(store: Store, t: Tally, rows: seq<Row>, rowNumber: nat)
    requires TallyInvariant(t, t.processed + t.skipped + |t.errors|)
    ensures var t' := ProcessRows(store, t, rows, rowNumber).1;
      TallyInvariant(t', t.processed + t.skipped + |t.errors| + |rows|)
    decreases |rows|
  {
    if |rows| > 0 {
      var (s1, out) := Step(store, rows[0]);
      var t1 := Record(t, rowNumber, rows[0], out);
      RecordKeeps(t, rowNumber, rows[0], out);
      ProcessRowsCounts(s1, t1, rows[1..], rowNumber + 1);
    }
  }

  /** How many metric years a row of this length reads before one raises: all seven from 103 cells on. */
  function MetricYearsRead(row: Row): (f: nat)
    ensures f <= 7
    ensures forall i :: 0 <= i < f ==> ReadMetricYear(row, i).Ok?
    ensures f == 7 || ReadMetricYear(row, f).Err?
  {
    if |row| >= 103 then 7 else if |row| <= 96 then 0 else |row| - 96
  }

  /** How many tax years a row of this length reads before one raises: all eight from 167 cells on. */
  function TaxYearsRead(row: Row): (f: nat)
    ensures f <= 8
    ensures forall i :: 0 <= i < f ==> ReadTaxYear(row, i).Ok?
    ensures f == 8 || ReadTaxYear(row, f).Err?
  {
    if |row| >= 167 then 8 else if |row| <= 159 then 0 else |row| - 159
  }

  /** The metric records a row yields: the years it could read that hold a value. */
  function RowMetrics(row: Row): seq<Metrics> {
    Kept(ReadAll(yi => ReadMetricYear(row, yi), 0, MetricYearsRead(row)), MetricsHasValue)
  }

  function RowTaxes(row: Row): seq<Taxes> {
    Kept(ReadAll(yi => ReadTaxYear(row, yi), 0, TaxYearsRead(row)), TaxesHasValue)
  }

  lemma AddMetricsResult(acc: seq<Metrics>, row: Row)
    ensures AddMetrics(acc, row).0 == acc + RowMetrics(row)
    ensures AddMetrics(acc, row).1 == if |row| >= 103 then None else Some(IndexError)
  {
    var read := yi => ReadMetricYear(row, yi);
    AddYearsUpTo(acc, read, MetricsHasValue, 0, MetricYearsRead(row), MetricYears);
  }

  lemma AddTaxesResult(acc: seq<Taxes>, row: Row)
    ensures AddTaxes(acc, row).0 == acc + RowTaxes(row)
    ensures AddTaxes(acc, row).1 == if |row| >= 167 then None else Some(IndexError)
  {
    var read := yi => ReadTaxYear(row, yi);
    var f := TaxYearsRead(row);
    forall i | 0 <= i < f
      ensures read(i).Ok?
    {
      assert read(i) == ReadTaxYear(row, i);
    }
    assert f < 8 ==> read(f) == Err(IndexError);
    AddYearsUpTo(acc, read, TaxesHasValue, 0, f, TaxYears);
  }

  /**
   * What writing the children leaves behind, including on a row too short to
   * finish: the metric series is the row's, the tax series is the row's or
   * empty when the metric loop raised, and the other blocks change only on a
   * completed row that carries them.
   */
  lemma WriteChildrenResult(o: Organization, row: Row)
    requires o.metrics == [] && o.taxes == []
    ensures var (r, e) := WriteChildren(o, row);
      r.metrics == RowMetrics(row)
      && r.taxes == (if |row| >= 103 then RowTaxes(row) else [])
      && (e.None? <==> |row| >= 167)
      && (e.Some? ==> e.value == IndexError)
      && (e.Some? ==> r.assets == o.assets && r.products == o.products && r.meta == o.meta)
      && (e.None? ==> r == ReplaceBlocks(o.(metrics := RowMetrics(row), taxes := RowTaxes(row)), row))
  {
    AddMetricsResult([], row);
    AddTaxesResult([], row);
    assert [] + RowMetrics(row) == RowMetrics(row);
    assert [] + RowTaxes(row) == RowTaxes(row);
  }

  /** The INN a row is filed under, when column 1 exists and reads as text. */
  function RowInn(row: Row): (r: Option<string>)
    ensures r.Some? <==> |row| > 1 && SafeStr(row[1], 0).Some?
  {
    if |row| <= 1 then None else SafeStr(row[1], 0)
  }

  /**
   * A row that went through while fewer than 50 details are held adds the
   * entry of its own INN, flagged new exactly when the INN was not stored.
   */
  lemma ProcessRowDetail(store: Store, t: Tally, rowNumber: nat, row: Row, inn: string)
    requires RowInn(row) == Some(inn) && KeyedByInn(store) && |t.details| < MaxDetails
    ensures var t' := ProcessRow(store, t, rowNumber, row).1;
      t'.processed == t.processed + 1 ==>
        |t'.details| == |t.details| + 1 && t'.details[|t.details|].inn == inn
        && t'.details[|t.details|].isNew == (inn !in store)
  {
    StepCompletesOwn(store, row, inn);
    RecordDetail(t, rowNumber, row, Step(store, row).1, inn, inn !in store);
  }

  /** If `out` says the row went through, it names the organization of `inn` and the flag `isNew`. */
  predicate CompletesAs(out: Outcome, inn: string, isNew: bool) {
    out.Completed? ==> out.o.inn == inn && out.isNew == isNew
  }

  lemma StepCompletesOwn(store: Store, row: Row, inn: string)
    requires RowInn(row) == Some(inn) && KeyedByInn(store)
    ensures CompletesAs(Step(store, row).1, inn, inn !in store)
  {
    if inn in store {
      if |row| > 2 {
        assert WriteChildren(store[inn].(metrics := [], taxes := []), row).0.inn == store[inn].inn by {
          assert WriteChildren(store[inn].(metrics := [], taxes := []), row).0.Descriptive()
            == store[inn].(metrics := [], taxes := []).Descriptive();
        }
      }
    } else if NewOrganization(row, inn).Ok? {
      var created := NewOrganization(row, inn).value;
      assert WriteChildren(created, row).0.inn == inn by {
        assert WriteChildren(created, row).0.Descriptive() == created.Descriptive();
      }
    }
  }

  lemma RecordDetail(t: Tally, rowNumber: nat, row: Row, out: Outcome, inn: string, isNew: bool)
    requires CompletesAs(out, inn, isNew) && |t.details| < MaxDetails
    ensures var t' := Record(t, rowNumber, row, out);
      t'.processed == t.processed + 1 ==>
        |t'.details| == |t.details| + 1 && t'.details[|t.details|].inn == inn
        && t'.details[|t.details|].isNew == isNew
  {
    if out.Completed? {
      assert Bump(t, out.isNew).details == t.details;
    }
  }

  /** A row without a readable INN changes nothing and is skipped, or raises before any write. */
  lemma StepWithoutInn(store: Store, row: Row)
    requires RowInn(row).None?
    ensures Step(store, row).0 == store
    ensures Step(store, row).1 == (if |row| <= 1 then Raised(None, IndexError) else Skipped)
  {
  }

  /** A known INN: the organization filed under it is replaced by one with the same own columns. */
  lemma StepKnown(store: Store, row: Row, inn: string) returns (o: Organization)
    requires RowInn(row) == Some(inn) && inn in store
    ensures Step(store, row).0 == store[inn := o]
    ensures o.Descriptive() == store[inn].Descriptive()
  {
    if |row| <= 2 {
      o := store[inn];
      assert store[inn := o] == store;
    } else {
      o := WriteChildren(store[inn].(metrics := [], taxes := []), row).0;
    }
  }

  /** An unknown INN: either nothing is written, or one organization carrying that INN is filed under it. */
  lemma StepUnknown(store: Store, row: Row, inn: string) returns (w: Option<Organization>)
    requires RowInn(row) == Some(inn) && inn !in store
    ensures w.None? ==> Step(store, row) == (store, Raised(None, IndexError))
    ensures w.Some? ==> Step(store, row).0 == store[inn := w.value] && w.value.inn == inn
  {
    w := match NewOrganization(row, inn)
      case Err(_) => None
      case Ok(created) => Some(WriteChildren(created, row).0);
  }

  /** Every organization stays filed under its INN, no INN disappears, and no organization's own columns change. */
  ghost predicate Preserves(store: Store, s: Store) {
    KeyedByInn(s) && store.Keys <= s.Keys
    && forall k :: k in store ==> s[k].Descriptive() == store[k].Descriptive()
  }

  /** Nothing but the organization under `inn` (if any) differs from `store`. */
  ghost predicate OnlyAt(store: Store, s: Store, inn: Option<string>) {
    forall k :: k in s && inn != Some(k) ==> k in store && s[k] == store[k]
  }

  lemma PreservesTransitive(a: Store, b: Store, c: Store)
    requires Preserves(a, b) && Preserves(b, c)
    ensures Preserves(a, c)
  {
  }

  /** Filing an organization under its own INN, keeping the own columns of one already there. */
  lemma FileUnder(store: Store, inn: string, o: Organization)
    requires KeyedByInn(store) && o.inn == inn
    requires inn in store ==> o.Descriptive() == store[inn].Descriptive()
    ensures Preserves(store, store[inn := o])
    ensures OnlyAt(store, store[inn := o], Some(inn))
  {
  }

  /**
   * A row never touches any organization but the one its INN names, never
   * changes an existing organization's own columns, and keeps every
   * organization filed under its own INN.
   */
  lemma StepStore(store: Store, row: Row)
    requires KeyedByInn(store)
    ensures Preserves(store, Step(store, row).0)
    ensures OnlyAt(store, Step(store, row).0, RowInn(row))
  {
    match RowInn(row)
    case None =>
      StepWithoutInn(store, row);
    case Some(inn) =>
      if inn in store {
        var o := StepKnown(store, row, inn);
        assert o.inn == inn by {
          assert o.Descriptive().inn == store[inn].Descriptive().inn;
        }
        FileUnder(store, inn, o);
      } else {
        var w := StepUnknown(store, row, inn);
        if w.Some? {
          FileUnder(store, inn, w.value);
        }
      }
  }

  /**
   * A known INN has its metric and tax series replaced by the row's, even when
   * the row is too short to finish (nothing is rolled back): a row of 97 to 102
   * cells still leaves the organization with no tax records at all.
   */
  lemma UpdateReplacesSeries(store: Store, row: Row, inn: string)
    requires |row| > 2 && SafeStr(row[1], 0) == Some(inn) && inn in store
    ensures var (s, out) := Step(store, row);
      s[inn].metrics == RowMetrics(row)
      && s[inn].taxes == (if |row| >= 103 then RowTaxes(row) else [])
      && (out.Completed? <==> |row| >= 167)
      && (!out.Completed? ==> out == Raised(Some(false), IndexError))
  {
    WriteChildrenResult(store[inn].(metrics := [], taxes := []), row);
  }

  /** A short row against a known INN: the old tax records are gone and an error is recorded. */
  lemma ShortRowLosesTaxes(store: Store, row: Row, inn: string)
    requires 2 < |row| < 103 && SafeStr(row[1], 0) == Some(inn) && inn in store
    ensures Step(store, row).0[inn].taxes == []
    ensures Step(store, row).1 == Raised(Some(false), IndexError)
  {
    UpdateReplacesSeries(store, row, inn);
  }

  /** A metric year is stored exactly when it holds a truthy value. */
  lemma MetricYearStoredIff(row: Row, yi: nat)
    requires yi < MetricYearsRead(row)
    ensures ReadMetricYear(row, yi).value in RowMetrics(row) <==> MetricsHasValue(ReadMetricYear(row, yi).value)
  {
    var all := ReadAll(yi => ReadMetricYear(row, yi), 0, MetricYearsRead(row));
    KeptMembers(all, MetricsHasValue);
    assert all[yi] == ReadMetricYear(row, yi).value;
  }

  lemma TaxYearStoredIff(row: Row, yi: nat)
    requires yi < TaxYearsRead(row)
    ensures ReadTaxYear(row, yi).value in RowTaxes(row) <==> TaxesHasValue(ReadTaxYear(row, yi).value)
  {
    var all := ReadAll(yi => ReadTaxYear(row, yi), 0, TaxYearsRead(row));
    KeptMembers(all, TaxesHasValue);
    assert all[yi] == ReadTaxYear(row, yi).value;
  }

  /** Every stored metric record is one of the row's years and holds a value. */
  lemma RowMetricsAreRead(row: Row, m: Metrics)
    requires m in RowMetrics(row)
    ensures MetricsHasValue(m)
    ensures exists yi :: 0 <= yi < MetricYearsRead(row) && ReadMetricYear(row, yi) == Ok(m)
  {
    var all := ReadAll(yi => ReadMetricYear(row, yi), 0, MetricYearsRead(row));
    KeptMembers(all, MetricsHasValue);
    var i :| 0 <= i < |all| && all[i] == m;
    assert ReadMetricYear(row, i) == Ok(m);
  }

  /** The first metric year's revenue sits in column 47 and its head count in column 61. */
  lemma FirstYearMetricCells(row: Row)
    requires |row| > 96 && row[47] == Int(645670) && row[61] == Int(223)
    ensures ReadMetricYear(row, 0).Ok?
    ensures ReadMetricYear(row, 0).value.year == 2017
    ensures ReadMetricYear(row, 0).value.revenue == Some(Finite(FromInt(645670)))
    ensures ReadMetricYear(row, 0).value.totalEmployees == Some(223)
    ensures ReadMetricYear(row, 0).value in RowMetrics(row)
  {
    FirstYearColumns();
    SafeIntOfInt(223);
    MetricYearStoredIff(row, 0);
  }

  /**
   * An unknown INN on a row of 44 cells or fewer raises before anything is
   * stored; on a longer row the organization is stored with the row's series,
   * even when a year loop then raises.
   */
  lemma CreateStores(store: Store, row: Row, inn: string)
    requires |row| > 1 && SafeStr(row[1], 0) == Some(inn) && inn !in store
    ensures |row| <= LastFixedColumn ==> Step(store, row) == (store, Raised(None, IndexError))
    ensures |row| > LastFixedColumn ==>
      var (s, out) := Step(store, row);
      inn in s && s[inn].Descriptive() == NewOrganization(row, inn).value
      && s[inn].metrics == RowMetrics(row)
      && s[inn].taxes == (if |row| >= 103 then RowTaxes(row) else [])
      && (out.Completed? <==> |row| >= 167)
      && (!out.Completed? ==> out == Raised(Some(true), IndexError))
  {
    if |row| > LastFixedColumn {
      WriteChildrenResult(NewOrganization(row, inn).value, row);
    }
  }

  /** Over a whole sheet: every organization stays filed under its INN and keeps its own columns. */
  lemma {:induction false} ProcessRowsStore(store: Store, t: Tally, rows: seq<Row>, rowNumber: nat)
    ensures KeyedByInn(store) ==> Preserves(store, ProcessRows(store, t, rows, rowNumber).0)
    decreases |rows|
  {
    if |rows| > 0 && KeyedByInn(store) {
      var (s1, t1) := ProcessRow(store, t, rowNumber, rows[0]);
      StepStore(store, rows[0]);
      ProcessRowsStore(s1, t1, rows[1..], rowNumber + 1);
      PreservesTransitive(store, s1, ProcessRows(s1, t1, rows[1..], rowNumber + 1).0);
    }
  }
}

=== FILE: legacy_coerce.dfy ===
/**
 * The cell conversions of the older, header-driven importer (`parse_float`,
 * `parse_int`, `parse_bool`, `parse_date`), and how they compare with the
 * newer importer's `safe_*` helpers: the numeric ones agree, `parse_bool`
 * does not strip, and `parse_date` knows a single layout.
 */
module LegacyCoerce {
  import opened Wrappers
  import opened PyErrors
  import opened PyText
  import opened PyNum
  import opened Calendar
  import opened Cells
  import Coerce

  /** `parse_float(value)`: `float(value)`, with `None`, `''` and every failure read as `None`. */
  function ParseFloat(c: Cell): (r: Option<PyFloat>)
    ensures IsBlank(c) || c.Date? ==> r.None?
    ensures c.Text? && AllSpace(c.s) ==> r.None?
    ensures c.Float? ==> r == Some(c.x)
  {
    match c
    case Empty => None
    case Text(s) => if s == "" then None else ParsePyFloat(s)
    case Int(n) => Some(Finite(FromInt(n)))
    case Float(x) => Some(x)
    case Bool(b) => Some(Finite(FromInt(if b then 1 else 0)))
    case Date(_) => None
  }

  /**
   * `parse_float` and the newer importer's `safe_float` read every cell alike:
   * the extra whitespace-only guard of `safe_float` is one `float()` already
   * enforces.
   */
  lemma ParseFloatAgrees(c: Cell)
    ensures ParseFloat(c) == Coerce.SafeFloat(c)
  {
    if c.Text? {
      PyText.StripEmptyIffAllSpace(c.s);
    }
  }

  /** A parsed value put back into a cell: `None` is an empty cell, a float a float cell. */
  function FloatCell(v: Option<PyFloat>): (r: Cell)
    ensures v.None? <==> r == Empty
    ensures v.Some? ==> r == Float(v.value)
  {
    match v
    case None => Empty
    case Some(x) => Float(x)
  }

  /** Parsing what `parse_float` returned gives the same answer again. */
  lemma ParseFloatIdempotent(c: Cell)
    ensures ParseFloat(FloatCell(ParseFloat(c))) == ParseFloat(c)
  {
  }

  /**
   * `parse_int(value)` as written: `int(float(value))` with `ValueError` and
   * `TypeError` read as `None`; an infinite value raises `OverflowError`,
   * which the function lets through.
   */
  function ParseIntAsWritten(c: Cell): (r: Result<Option<int>, Exception>)
    ensures r.Err? <==> ParseFloat(c).Some? && ParseFloat(c).value.Infinity?
    ensures r.Err? ==> r.error.OverflowError?
  {
    match ParseFloat(c)
    case None => Ok(None)
    case Some(x) =>
      match FloatToInt(x)
      case Ok(i) => Ok(Some(i))
      case Err(e) => if e.OverflowError? then Err(e) else Ok(None)
  }

  /** The text "inf" in a numeric column makes `parse_int` raise; the corrected reading gives `None`. */
  lemma ParseIntRaisesOnInfinity(t: string)
    requires t == "inf"
    ensures ParseIntAsWritten(Text(t)).Err?
    ensures ParseInt(Text(t)) == None
  {
    SpecialRepr(t, false, t);
  }

  /** `parse_int(value)` as its docstring promises: truncation of a finite number, `None` otherwise. */
  function ParseInt(c: Cell): (r: Option<int>)
    ensures r.Some? <==> ParseFloat(c).Some? && ParseFloat(c).value.Finite?
    ensures r.Some? ==> r.value == Trunc(ParseFloat(c).value.value)
  {
    match ParseFloat(c)
    case Some(Finite(d)) => Some(Trunc(d))
    case _ => None
  }

  /** Both importers read whole numbers alike, as written and as corrected. */
  lemma ParseIntAgrees(c: Cell)
    ensures ParseIntAsWritten(c) == Coerce.SafeIntAsWritten(c)
    ensures ParseInt(c) == Coerce.SafeInt(c)
  {
    ParseFloatAgrees(c);
  }

  /** `parse_bool(value)`: a bool as is, text by the true-word list after lower-casing only. */
  function ParseBool(c: Cell): (r: bool)
    ensures c.Bool? ==> r == c.b
    ensures !c.Bool? && !c.Text? ==> !r
    ensures r && c.Text? ==> Lower(c.s) in Coerce.TrueWords
  {
    match c
    case Bool(b) => b
    case Text(s) => Lower(s) in Coerce.TrueWords
    case _ => false
  }

  /** No true word starts or ends with whitespace, so stripping leaves it alone. */
  lemma TrueWordsUnstripped(w: string)
    requires w in Coerce.TrueWords
    ensures Strip(w) == w
  {
    assert |w| > 0 && !IsSpace(w[0]) && !IsSpace(w[|w| - 1]);
    StripNoEdgeSpace(w);
  }

  /** Whatever `parse_bool` reads as true, `safe_bool` does too. */
  lemma ParseBoolImpliesSafeBool(c: Cell)
    ensures ParseBool(c) ==> Coerce.SafeBool(c)
  {
    if c.Text? && ParseBool(c) {
      TrueWordsUnstripped(Lower(c.s));
    }
  }

  /** The converse fails: a leading space hides the word from `parse_bool` but not from `safe_bool`. */
  lemma ParseBoolDoesNotStrip(s: string)
    requires s == " да"
    ensures Coerce.SafeBool(Text(s)) && !ParseBool(Text(s))
  {
    LeadingSpaceWord(s);
    assert s !in Coerce.TrueWords;
  }

  lemma LeadingSpaceWord(s: string)
    requires s == " да"
    ensures Lower(s) == s && Strip(s) == "да"
  {
    LowerUnchanged(s);
    assert s == [' '] + "да";
    StripLeadingSpace("да");
  }

  lemma LowerUnchanged(s: string)
    requires s == " да"
    ensures Lower(s) == s
  {
    assert Lower(s)[0] == s[0] && Lower(s)[1] == s[1] && Lower(s)[2] == s[2];
  }

  /** One space before a word with no edge whitespace is all `strip` removes. */
  lemma StripLeadingSpace(w: string)
    requires |w| > 0 && !IsSpace(w[0]) && !IsSpace(w[|w| - 1])
    ensures Strip([' '] + w) == w
  {
    assert ([' '] + w)[1..] == w;
    StripNoEdgeSpace(w);
  }

  /** `parse_date(value)`: a datetime as is, otherwise `str(value)` read as `%Y-%m-%d`, unstripped. */
  function ParseDate(c: Cell): (r: Option<PyDateTime>)
    ensures c.Date? ==> r == Some(c.t)
    ensures IsBlank(c) ==> r.None?
    ensures r.Some? && !c.Date? ==> Strptime(PyStr(c), YearDashMonthDashDay) == Some(r.value)
  {
    if IsBlank(c) then None
    else if c.Date? then Some(c.t)
    else Strptime(PyStr(c), YearDashMonthDashDay)
  }

  /** A text `%Y-%m-%d` accepts starts with the year's digit and ends with the day's. */
  lemma StrptimeEdges(s: string)
    requires Strptime(s, YearDashMonthDashDay).Some?
    ensures |s| > 0 && !IsSpace(s[0]) && !IsSpace(s[|s| - 1])
  {
    var fields := SplitFields(s, '-').value;
    assert s == fields.0 + ['-'] + fields.1 + ['-'] + fields.2;
    assert YearField(fields.0).Some?;
    assert s[0] == fields.0[0];
    var d := fields.2;
    assert DayField(d).Some?;
    assert s[|s| - 1] == d[|d| - 1];
  }

  /** Whatever date `parse_date` reads, `safe_date` reads the same from that cell. */
  lemma ParseDateNarrower(c: Cell)
    requires ParseDate(c).Some?
    ensures Coerce.SafeDate(c) == ParseDate(c)
  {
    if !c.Date? {
      var s := PyStr(c);
      StrptimeEdges(s);
      StripNoEdgeSpace(s);
      Coerce.SafeDateAnyLayout(c, YearDashMonthDashDay);
    }
  }

  /** The exporter's day-first layout is lost on the older importer. */
  lemma ParseDateRejectsDayFirst(t: PyDateTime)
    ensures ParseDate(Text(FormatDayMonthYear(t))) == None
    ensures Coerce.SafeDate(Text(FormatDayMonthYear(t))).Some?
  {
    var s := FormatDayMonthYear(t);
    forall j | 0 <= j < |s|
      ensures s[j] !in {'-'}
    {
      FormatCharacters(t, j);
    }
    FirstIndexOfAbsent(s, {'-'});
    Coerce.SafeDateReadsExport(t);
  }

  /** `strftime('%d.%m.%Y')` writes only digits and dots. */
  lemma FormatCharacters(t: PyDateTime, j: int)
    requires 0 <= j < 10
    ensures FormatDayMonthYear(t)[j] != '-'
  {
    var s := FormatDayMonthYear(t);
    assert s == Pad2(t.day) + "." + Pad2(t.month) + "." + Pad4(t.year);
    if j >= 6 {
      assert s[j] == Pad4(t.year)[j - 6];
    }
  }
}

=== FILE: legacy_import.dfy ===
/**
 * The older, header-driven importer (`process_excel_file` of the first
 * processor). Every row becomes a dict keyed by the header row; the INN
 * decides between updating an existing organization and creating one; every
 * processed row then ADDS child records (years with revenue, profit or a
 * head count; years with total, profit or property tax; one asset record
 * when a cadastral number is present; one product record when a product is
 * named; one meta record always), and nothing is ever deleted. Missing-data
 * tallies, per-organization details and readable error lines are collected.
 */
module LegacyImport {
  import opened Wrappers
  import opened PyErrors
  import opened PyText
  import PyNum
  import opened Calendar
  import opened Cells
  import opened Schema
  import opened RowDict
  import opened LegacyCoerce
  import opened YearSeries
  import ImportV2

  const FirstLegacyYear := 2017
  const MetricYearCount := 7
  const TaxYearCount := 8

  /** The yearly metric headers, aliases included. */
  datatype MetricHeader =
    | RevenueOf | ProfitOf | TotalEmployeesOf | MoscowEmployeesOf | TotalFotOf
    | MoscowFotOf | MoscowFotAlt | MoscowFotAltDot
    | AvgSalaryTotalOf | AvgSalaryMoscowOf | AvgSalaryMoscowAlt
    | InvestmentsOf | ExportVolumeOf

  /** The yearly tax headers, aliases included. */
  datatype TaxHeader =
    | TotalTaxesOf | ProfitTaxOf | PropertyTaxOf | LandTaxOf | LandTaxAlt
    | NdflOf | TransportTaxOf | OtherTaxesOf | ExciseOf

  datatype AssetHeader =
    | LandCadastre | LandArea | LandUsage | LandOwnership | LandOwner
    | BuildingCadastre | BuildingArea | BuildingUsage | BuildingType | BuildingPurpose
    | BuildingOwnership | BuildingOwner | ProductionAreaSqm | ProductionArea | PropertySummary

  datatype ProductHeader =
    | ProductName | StandardizedProduct | ProductKinds | Okpd2Codes | ProductTypes | ProductCatalog
    | GovernmentOrders | GovernmentOrdersSpaced | CapacityUsage
    | ExportSupplies | ExportSuppliesTrailing | ExportVolumeLastYear
    | ExportCountries | ExportCountriesTrailing | TnvedCode

  datatype MetaHeader = IndustrySpark | IndustryPresentations | PresentationLinks | RegistryDevelopment | OtherNotes

  /** Every header the older importer looks up. */
  datatype Header =
    | InnHeader | NameHeader | TextHeader(field: OrgText)
    | DateAddedHeader | RegistrationDateHeader | MoscowSupportHeader | SystemCriticalHeader
    | LatitudeHeader | LongitudeHeader
    | MetricYear(metric: MetricHeader, year: int)
    | TaxYear(tax: TaxHeader, year: int)
    | AssetField(asset: AssetHeader)
    | ProductField(product: ProductHeader)
    | MetaField(meta: MetaHeader)

  /**
   * The header texts of the older sheet layout. The reading functions take the
   * layout as a parameter; the batch uses this one.
   */
  function OlderLayout(k: Header): string {
    match k
    case InnHeader => "ИНН"
    case NameHeader => "Наименование организации"
    case TextHeader(f) => TextHeaderText(f)
    case DateAddedHeader => "Дата добавления в реестр"
    case RegistrationDateHeader => "Дата регистрации"
    case MoscowSupportHeader => "Получена поддержка от г. Москвы"
    case SystemCriticalHeader => "Системообразующее предприятие"
    case LatitudeHeader => "Координаты (широта)"
    case LongitudeHeader => "Координаты (долгота)"
    case MetricYear(m, y) => MetricHeaderText(m, YearText(y))
    case TaxYear(t, y) => TaxHeaderText(t, YearText(y))
    case AssetField(a) => AssetHeaderText(a)
    case ProductField(p) => ProductHeaderText(p)
    case MetaField(m) => MetaHeaderText(m)
  }

  /** `f'{year}'` */
  function YearText(y: int): string {
    IntToString(y)
  }

  function MetricHeaderText(m: MetricHeader, yt: string): string {
    match m
    case RevenueOf => "Выручка предприятия, тыс. руб. " + yt
    case ProfitOf => "Чистая прибыль (убыток),тыс. руб. " + yt
    case TotalEmployeesOf => "Среднесписочная численность персонала (всего по компании), чел " + yt
    case MoscowEmployeesOf => "Среднесписочная численность персонала, работающего в Москве, чел " + yt
    case TotalFotOf => "Фонд оплаты труда всех сотрудников организации, тыс. руб " + yt
    case MoscowFotOf => "Фонд оплаты труда сотрудников, работающих в Москве, тыс. руб " + yt
    case MoscowFotAlt => "Фонд оплаты труда сотрудников, работающего в Москве, тыс. руб " + yt
    case MoscowFotAltDot => "Фонд оплаты труда сотрудников, работающего в Москве, тыс. руб. " + yt
    case AvgSalaryTotalOf => "Средняя з.п. всех сотрудников организации, тыс.руб. " + yt
    case AvgSalaryMoscowOf => "Средняя з.п. сотрудников, работающих в Москве, тыс.руб. " + yt
    case AvgSalaryMoscowAlt => "Средняя з.п. сотрудников, работающих в Москве, тыс.руb. " + yt
    case InvestmentsOf => "Инвестиции в Мск " + yt + " тыс. руб."
    case ExportVolumeOf => "Объем экспорта, тыс. руб. " + yt
  }

  function TaxHeaderText(t: TaxHeader, yt: string): string {
    match t
    case TotalTaxesOf => "Налоги, уплаченные в бюджет Москвы (без акцизов), тыс.руб. " + yt
    case ProfitTaxOf => "Налог на прибыль, тыс.руб. " + yt
    case PropertyTaxOf => "Налог на имущество, тыс.руб. " + yt
    case LandTaxOf => "Налог на землю, тыс.руб. " + yt
    case LandTaxAlt => "Налог на землю, тыс.руb. " + yt
    case NdflOf => "НДФЛ, тыс.руб. " + yt
    case TransportTaxOf => "Транспортный налог, тыс.руб. " + yt
    case OtherTaxesOf => "Прочие налоги " + yt
    case ExciseOf => "Акцизы, тыс. руб. " + yt
  }

  function AssetHeaderText(a: AssetHeader): string {
    match a
    case LandCadastre => "Кадастровый номер ЗУ"
    case LandArea => "Площадь ЗУ"
    case LandUsage => "Вид разрешенного использования ЗУ"
    case LandOwnership => "Вид собственности ЗУ"
    case LandOwner => "Собственник ЗУ"
    case BuildingCadastre => "Кадастровый номер ОКСа"
    case BuildingArea => "Площадь ОКСов"
    case BuildingUsage => "Вид разрешенного использования ОКСов"
    case BuildingType => "Тип строения и цель использования"
    case BuildingPurpose => "Назначение ОКСов"
    case BuildingOwnership => "Вид собственности ОКСов"
    case BuildingOwner => "СобственникОКСов"
    case ProductionAreaSqm => "Площадь производственных помещений, кв.м."
    case ProductionArea => "Площадь производственных помещений"
    case PropertySummary => "Имущественно-земельный комплекс"
  }

  function ProductHeaderText(p: ProductHeader): string {
    match p
    case ProductName => "Производимая продукция"
    case StandardizedProduct => "Стандартизированная продукция"
    case ProductKinds => "Название (виды производимой продукции)"
    case Okpd2Codes => "Перечень производимой продукции по кодам ОКПД 2"
    case ProductTypes => "Перечень производимой продукции по типам и сегментам"
    case ProductCatalog => "Каталог продукции"
    case GovernmentOrders => "Наличие госзаказа"
    case GovernmentOrdersSpaced => "Наличие  госзаказа"
    case CapacityUsage => "Уровень загрузки производственных мощностей"
    case ExportSupplies => "Наличие поставок продукции на экспорт"
    case ExportSuppliesTrailing => "Наличие поставок продукции на экспорт "
    case ExportVolumeLastYear => "Объем экспорта (млн.руб.) за предыдущий календарный год"
    case ExportCountries => "Перечень государств куда экспортируется продукция"
    case ExportCountriesTrailing => "Перечень государств куда экспортируется продукция "
    case TnvedCode => "Код ТН ВЭД ЕАЭС"
  }

  function MetaHeaderText(m: MetaHeader): string {
    match m
    case IndustrySpark => "Отрасль промышленности по Спарк и Справочнику"
    case IndustryPresentations => "Отраслевые презентации"
    case PresentationLinks => "Ссылки на презентации"
    case RegistryDevelopment => "Развитие Реестра"
    case OtherNotes => "Дополнительные примечания"
  }

  /** The header each text column of a new organization is read from. */
  function TextHeaderText(f: OrgText): string {
    match f
    case FullName => "Полное наименование организации"
    case StatusSpark => "Статус СПАРК"
    case StatusInternal => "Статус внутренний"
    case StatusFinal => "Статус ИТОГ"
    case LegalAddress => "Юридический адрес"
    case ProductionAddress => "Адрес производства"
    case AdditionalAddress => "Адрес дополнительной площадки"
    case MainIndustry => "Основная отрасль"
    case MainSubindustry => "Подотрасль (Основная)"
    case ExtraIndustry => "Дополнительная отрасль"
    case ExtraSubindustry => "Подотрасль (Дополнительная)"
    case MainOkved => "Основной ОКВЭД (СПАРК)"
    case MainOkvedName => "Вид деятельности по основному ОКВЭД (СПАРК)"
    case ProdOkved => "Производственный ОКВЭД"
    case ProdOkvedName => "Вид деятельности по производственному ОКВЭД"
    case CompanyInfo => "Общие сведения об организации"
    case CompanySize => "Размер предприятия (итог)"
    case CompanySize2022 => "Размер предприятия (итог) 2022"
    case SizeByEmployees => "Размер предприятия (по численности)"
    case SizeByEmployees2022 => "Размер предприятия (по численности) 2022"
    case SizeByRevenue => "Размер предприятия (по выручке)"
    case SizeByRevenue2022 => "Размер предприятия (по выручке) 2022"
    case HeadName => "Руководитель"
    case ParentOrgName => "Головная организация"
    case ParentOrgInn => "ИНН головной организации"
    case ParentRelationType => "Вид отношения головной организации"
    case HeadContacts => "Контактные данные руководства"
    case HeadEmail => "Почта руководства"
    case EmployeeContact => "Контакт сотрудника организации"
    case Phone => "Номер телефона"
    case EmergencyContact => "Контактные данные ответственного по ЧС"
    case Website => "Сайт"
    case Email => "Электронная почта"
    case SupportData => "Данные о мерах поддержки"
    case SpecialStatus => "Наличие особого статуса"
    case SiteFinal => "Площадка итог"
    case MspStatus => "Статус МСП"
    case LegalAddressCoords => "Координаты юридического адреса"
    case ProductionAddressCoords => "Координаты адреса производства"
    case AdditionalAddressCoords => "Координаты адреса дополнительной площадки"
    case District => "Округ"
    case Region => "Район"
  }

  /** Every text column of the table. */
  const TextFields: set<OrgText> := {
    FullName, StatusSpark, StatusInternal, StatusFinal, LegalAddress, ProductionAddress, AdditionalAddress,
    MainIndustry, MainSubindustry, ExtraIndustry, ExtraSubindustry, MainOkved, MainOkvedName, ProdOkved,
    ProdOkvedName, CompanyInfo, CompanySize, CompanySize2022, SizeByEmployees, SizeByEmployees2022,
    SizeByRevenue, SizeByRevenue2022, HeadName, ParentOrgName, ParentOrgInn, ParentRelationType,
    HeadContacts, HeadEmail, EmployeeContact, Phone, EmergencyContact, Website, Email, SupportData,
    SpecialStatus, SiteFinal, MspStatus, LegalAddressCoords, ProductionAddressCoords,
    AdditionalAddressCoords, District, Region}

  /** The new organization's text columns are read from every text column of the table. */
  lemma TextFieldsCoverTable(f: OrgText)
    ensures f in TextFields
  {
  }

  /** A header layout: the text each looked-up header has in the sheet. */
  type Layout = Header -> string

  /**
   * What the reading functions see of a row: the cell under each header,
   * `None` when no column carries it.
   */
  type RowView = Header -> Option<Cell>

  /** `data.get(header)` for the headers of a layout. */
  function View(d: Dict, layout: Layout): (at: RowView)
    ensures forall k :: at(k) == Get(d, layout(k))
  {
    k => Get(d, layout(k))
  }

  /** `data.get(header)`: `None` when the header is absent. */
  function Field(at: RowView, k: Header): (c: Cell)
    ensures at(k).None? ==> c == Empty
    ensures at(k).Some? ==> c == at(k).value
  {
    match at(k)
    case Some(c) => c
    case None => Empty
  }

  /** `data.get(header, default)` */
  function FieldOr(at: RowView, k: Header, default: Cell): (c: Cell)
    ensures at(k).None? ==> c == default
    ensures at(k).Some? ==> c == at(k).value
  {
    match at(k)
    case Some(c) => c
    case None => default
  }

  /**
   * What a text column holds once a raw value is assigned to it: NULL for
   * `None`, the value's text otherwise (an empty string stays an empty string).
   */
  function Stored(c: Cell): (r: Option<string>)
    ensures r.None? <==> c == Empty
    ensures c.Text? ==> r == Some(c.s)
  {
    if c == Empty then None else Some(PyStr(c))
  }

  /** `f'{value}'`: how a raw value prints inside a message. */
  function Shown(c: Cell): (r: string)
    ensures c.Text? ==> r == c.s
    ensures c == Empty ==> r == "None"
  {
    if c == Empty then "None" else PyStr(c)
  }

  /** The type name Python reports for a value. */
  function TypeName(c: Cell): string {
    match c
    case Empty => "NoneType"
    case Text(_) => "str"
    case Int(_) => "int"
    case Float(_) => "float"
    case Bool(_) => "bool"
    case Date(_) => "datetime.datetime"
  }

  /** `value[:n]`: text is cut to `n` characters; any other value raises `TypeError`. */
  function Slice(c: Cell, n: nat): (r: Result<string, Exception>)
    ensures r.Ok? <==> c.Text?
    ensures r.Ok? ==> |r.value| <= n && |r.value| <= |c.s| && r.value == c.s[..|r.value|]
    ensures r.Ok? && |c.s| <= n ==> r.value == c.s
    ensures r.Err? ==> r.error.TypeError?
  {
    match c
    case Text(s) => Ok(Take(s, n))
    case _ => Err(TypeError("'" + TypeName(c) + "' object is not subscriptable"))
  }

  /** `parse_float(a or parse_float(b))`: the two-header alias chain as written. */
  function Alias2(a: Cell, b: Cell): Option<PyNum.PyFloat> {
    ParseFloat(Or(a, FloatCell(ParseFloat(b))))
  }

  /** `parse_float(a or parse_float(b or parse_float(c)))`: the three-header chain as written. */
  function Alias3(a: Cell, b: Cell, c: Cell): Option<PyNum.PyFloat> {
    ParseFloat(Or(a, FloatCell(ParseFloat(Or(b, FloatCell(ParseFloat(c)))))))
  }

  /**
   * The nested chains read the first truthy raw value among the aliases (the
   * last one when none is truthy): a later alias is consulted only when every
   * earlier one is falsy, and a truthy earlier value that does not parse
   * hides the later ones.
   */
  lemma AliasChains(a: Cell, b: Cell, c: Cell)
    ensures Alias2(a, b) == ParseFloat(Or(a, b))
    ensures Alias3(a, b, c) == ParseFloat(Or(Or(a, b), c))
    ensures Truthy(a) ==> Alias2(a, b) == ParseFloat(a) && Alias3(a, b, c) == ParseFloat(a)
    ensures !Truthy(a) && Truthy(b) ==> Alias3(a, b, c) == ParseFloat(b)
    ensures !Truthy(a) && !Truthy(b) ==> Alias3(a, b, c) == ParseFloat(c)
  {
    ParseFloatIdempotent(b);
    ParseFloatIdempotent(c);
    ParseFloatIdempotent(Or(b, FloatCell(ParseFloat(c))));
  }

  /** One metric year read from the row (`year` suffixed to each header). */
  function ReadMetrics(at: RowView, y: int): (m: Metrics)
    ensures m.year == y
    ensures y < 2021 ==> m.investments.None?
    ensures y < 2019 ==> m.exportVolume.None?
  {
    Metrics(
      year := y,
      revenue := ParseFloat(Field(at, MetricYear(RevenueOf, y))),
      profit := ParseFloat(Field(at, MetricYear(ProfitOf, y))),
      totalEmployees := ParseInt(Field(at, MetricYear(TotalEmployeesOf, y))),
      moscowEmployees := ParseInt(Field(at, MetricYear(MoscowEmployeesOf, y))),
      totalFot := ParseFloat(Field(at, MetricYear(TotalFotOf, y))),
      moscowFot := Alias3(Field(at, MetricYear(MoscowFotOf, y)), Field(at, MetricYear(MoscowFotAlt, y)), Field(at, MetricYear(MoscowFotAltDot, y))),
      avgSalaryTotal := ParseFloat(Field(at, MetricYear(AvgSalaryTotalOf, y))),
      avgSalaryMoscow := Alias2(Field(at, MetricYear(AvgSalaryMoscowOf, y)), Field(at, MetricYear(AvgSalaryMoscowAlt, y))),
      investments := if y >= 2021 then ParseFloat(Field(at, MetricYear(InvestmentsOf, y))) else None,
      exportVolume := if y >= 2019 then ParseFloat(Field(at, MetricYear(ExportVolumeOf, y))) else None)
  }

  /** One tax year read from the row. */
  function ReadTaxes(at: RowView, y: int): (t: Taxes)
    ensures t.year == y
  {
    Taxes(
      year := y,
      totalTaxesMoscow := ParseFloat(Field(at, TaxYear(TotalTaxesOf, y))),
      profitTax := ParseFloat(Field(at, TaxYear(ProfitTaxOf, y))),
      propertyTax := ParseFloat(Field(at, TaxYear(PropertyTaxOf, y))),
      landTax := Alias2(Field(at, TaxYear(LandTaxOf, y)), Field(at, TaxYear(LandTaxAlt, y))),
      ndfl := ParseFloat(Field(at, TaxYear(NdflOf, y))),
      transportTax := ParseFloat(Field(at, TaxYear(TransportTaxOf, y))),
      otherTaxes := ParseFloat(Field(at, TaxYear(OtherTaxesOf, y))),
      excise := ParseFloat(Field(at, TaxYear(ExciseOf, y))))
  }

  /** A metric year is stored only when revenue, profit or the total head count is truthy. */
  predicate MetricKept(m: Metrics) {
    ImportV2.FloatTruthy(m.revenue) || ImportV2.FloatTruthy(m.profit) || ImportV2.IntTruthy(m.totalEmployees)
  }

  /** A tax year is stored only when the total, the profit tax or the property tax is truthy. */
  predicate TaxKept(t: Taxes) {
    ImportV2.FloatTruthy(t.totalTaxesMoscow) || ImportV2.FloatTruthy(t.profitTax) || ImportV2.FloatTruthy(t.propertyTax)
  }

  /** These rules are narrower than the newer importer's "any value" rules. */
  lemma KeptRulesNarrower(m: Metrics, t: Taxes)
    ensures MetricKept(m) ==> ImportV2.MetricsHasValue(m)
    ensures TaxKept(t) ==> ImportV2.TaxesHasValue(t)
  {
  }

  /** A year with only a Moscow head count or only a land tax is kept by the newer importer alone. */
  lemma NarrowerRulesDropYears(m: Metrics, t: Taxes)
    requires m.revenue.None? && m.profit.None? && m.totalEmployees.None? && m.moscowEmployees == Some(5)
    requires t.totalTaxesMoscow.None? && t.profitTax.None? && t.propertyTax.None?
    requires t.landTax == Some(PyNum.Finite(PyNum.Decimal(3, 0)))
    ensures !MetricKept(m) && ImportV2.MetricsHasValue(m)
    ensures !TaxKept(t) && ImportV2.TaxesHasValue(t)
  {
  }

  /** `[read(y) for y in range(lo, lo + n)]` */
  function Years<T>(read: int -> T, lo: int, n: nat): (r: seq<T>)
    ensures |r| == n
    ensures forall i :: 0 <= i < n ==> r[i] == read(lo + i)
  {
    seq(n, i => read(lo + i))
  }

  /** The years 2017 to 2023, read in order. */
  function MetricYears(at: RowView): seq<Metrics> {
    Years(y => ReadMetrics(at, y), FirstLegacyYear, MetricYearCount)
  }

  /** The years 2017 to 2024, read in order. */
  function TaxYears(at: RowView): seq<Taxes> {
    Years(y => ReadTaxes(at, y), FirstLegacyYear, TaxYearCount)
  }

  /** The metric records a row adds. */
  function RowMetrics(at: RowView): seq<Metrics> {
    Kept(MetricYears(at), MetricKept)
  }

  /** The tax records a row adds. */
  function RowTaxes(at: RowView): seq<Taxes> {
    Kept(TaxYears(at), TaxKept)
  }

  /** A year of the range is kept exactly when `keep` accepts its record. */
  lemma YearKeptIff<T>(read: int -> T, keep: T -> bool, lo: int, n: nat, y: int)
    requires lo <= y < lo + n
    ensures read(y) in Kept(Years(read, lo, n), keep) <==> keep(read(y))
  {
    KeptMembers(Years(read, lo, n), keep);
    assert Years(read, lo, n)[y - lo] == read(y);
  }

  /** Whatever is kept is the record of some year of the range, and `keep` accepts it. */
  lemma KeptYearRead<T>(read: int -> T, keep: T -> bool, lo: int, n: nat, x: T) returns (y: int)
    requires x in Kept(Years(read, lo, n), keep)
    ensures lo <= y < lo + n && x == read(y) && keep(x)
  {
    KeptMembers(Years(read, lo, n), keep);
    var i :| 0 <= i < n && Years(read, lo, n)[i] == x;
    y := lo + i;
  }

  /** The records `keep` accepts are none exactly when it rejects every one. */
  lemma KeptEmptyIff<T>(s: seq<T>, keep: T -> bool)
    ensures Kept(s, keep) == [] <==> forall i :: 0 <= i < |s| ==> !keep(s[i])
  {
    KeptMembers(s, keep);
    if Kept(s, keep) != [] {
      assert Kept(s, keep)[0] in Kept(s, keep);
    }
  }

  /** A year from 2017 to 2023 is added exactly when its record passes the rule. */
  lemma MetricYearStoredIff(at: RowView, y: int)
    requires FirstLegacyYear <= y < FirstLegacyYear + MetricYearCount
    ensures ReadMetrics(at, y) in RowMetrics(at) <==> MetricKept(ReadMetrics(at, y))
  {
    YearKeptIff(y => ReadMetrics(at, y), MetricKept, FirstLegacyYear, MetricYearCount, y);
  }

  /** Every metric record added is the row's reading of its own year, which lies in 2017 to 2023. */
  lemma MetricRecordsRead(at: RowView, m: Metrics)
    requires m in RowMetrics(at)
    ensures FirstLegacyYear <= m.year < FirstLegacyYear + MetricYearCount
    ensures MetricKept(m) && m == ReadMetrics(at, m.year)
  {
    var y := KeptYearRead(y => ReadMetrics(at, y), MetricKept, FirstLegacyYear, MetricYearCount, m);
  }

  /** A row adds no metric record exactly when no year from 2017 to 2023 passes the rule. */
  lemma NoMetricsIff(at: RowView)
    ensures RowMetrics(at) == [] <==> forall i :: 0 <= i < MetricYearCount ==> !MetricKept(MetricYears(at)[i])
  {
    KeptEmptyIff(MetricYears(at), MetricKept);
  }


  /** A year from 2017 to 2024 is added exactly when its record passes the rule. */
  lemma TaxYearStoredIff(at: RowView, y: int)
    requires FirstLegacyYear <= y < FirstLegacyYear + TaxYearCount
    ensures ReadTaxes(at, y) in RowTaxes(at) <==> TaxKept(ReadTaxes(at, y))
  {
    YearKeptIff(y => ReadTaxes(at, y), TaxKept, FirstLegacyYear, TaxYearCount, y);
  }

  /** Every tax record added is the row's reading of its own year, which lies in 2017 to 2024. */
  lemma TaxRecordsRead(at: RowView, t: Taxes)
    requires t in RowTaxes(at)
    ensures FirstLegacyYear <= t.year < FirstLegacyYear + TaxYearCount
    ensures TaxKept(t) && t == ReadTaxes(at, t.year)
  {
    var y := KeptYearRead(y => ReadTaxes(at, y), TaxKept, FirstLegacyYear, TaxYearCount, t);
  }

  /** A row adds no tax record exactly when no year from 2017 to 2024 passes the rule. */
  lemma NoTaxesIff(at: RowView)
    ensures RowTaxes(at) == [] <==> forall i :: 0 <= i < TaxYearCount ==> !TaxKept(TaxYears(at)[i])
  {
    KeptEmptyIff(TaxYears(at), TaxKept);
  }


  function ReadAssets(at: RowView): (a: Assets)
    ensures a.cadastralNumberLand == Stored(Field(at, AssetField(LandCadastre)))
    ensures a.cadastralNumberBuilding == Stored(Field(at, AssetField(BuildingCadastre)))
  {
    Assets(
      cadastralNumberLand := Stored(Field(at, AssetField(LandCadastre))),
      landArea := ParseFloat(Field(at, AssetField(LandArea))),
      landUsage := Stored(Field(at, AssetField(LandUsage))),
      landOwnershipType := Stored(Field(at, AssetField(LandOwnership))),
      landOwner := Stored(Field(at, AssetField(LandOwner))),
      cadastralNumberBuilding := Stored(Field(at, AssetField(BuildingCadastre))),
      buildingArea := ParseFloat(Field(at, AssetField(BuildingArea))),
      buildingUsage := Stored(Field(at, AssetField(BuildingUsage))),
      buildingType := Stored(Field(at, AssetField(BuildingType))),
      buildingPurpose := Stored(Field(at, AssetField(BuildingPurpose))),
      buildingOwnershipType := Stored(Field(at, AssetField(BuildingOwnership))),
      buildingOwner := Stored(Field(at, AssetField(BuildingOwner))),
      productionArea := ParseFloat(Or(Field(at, AssetField(ProductionAreaSqm)), Field(at, AssetField(ProductionArea)))),
      propertySummary := Stored(Field(at, AssetField(PropertySummary))))
  }

  /** The asset record is added when either cadastral number is truthy. */
  predicate AssetsKept(at: RowView) {
    Truthy(Field(at, AssetField(LandCadastre))) || Truthy(Field(at, AssetField(BuildingCadastre)))
  }

  /** An added asset record carries at least one cadastral number. */
  lemma KeptAssetsHaveCadastre(at: RowView)
    requires AssetsKept(at)
    ensures ReadAssets(at).cadastralNumberLand.Some? || ReadAssets(at).cadastralNumberBuilding.Some?
  {
  }

  function ReadProducts(at: RowView): (p: Products)
    ensures p.productName == Stored(Field(at, ProductField(ProductName)))
  {
    Products(
      productName := Stored(Field(at, ProductField(ProductName))),
      standardizedProduct := Stored(Or(Field(at, ProductField(StandardizedProduct)), Field(at, ProductField(ProductKinds)))),
      okpd2Codes := Stored(Field(at, ProductField(Okpd2Codes))),
      productTypes := Stored(Field(at, ProductField(ProductTypes))),
      productCatalog := Stored(Field(at, ProductField(ProductCatalog))),
      hasGovernmentOrders := ParseBool(Or(Field(at, ProductField(GovernmentOrders)), Field(at, ProductField(GovernmentOrdersSpaced)))),
      capacityUsage := Stored(Field(at, ProductField(CapacityUsage))),
      hasExport := ParseBool(Or(Field(at, ProductField(ExportSupplies)), Field(at, ProductField(ExportSuppliesTrailing)))),
      exportVolumeLastYear := ParseFloat(Field(at, ProductField(ExportVolumeLastYear))),
      exportCountries := Stored(Or(Field(at, ProductField(ExportCountries)), Field(at, ProductField(ExportCountriesTrailing)))),
      tnvedCode := Stored(Field(at, ProductField(TnvedCode))))
  }

  /** The product record is added when a product is named. */
  predicate ProductsKept(at: RowView) {
    Truthy(Field(at, ProductField(ProductName)))
  }

  function ReadMeta(at: RowView): Meta {
    Meta(
      industrySpark := Stored(Field(at, MetaField(IndustrySpark))),
      industryDirectory := Stored(Field(at, MetaField(IndustryPresentations))),
      presentationLinks := Stored(Field(at, MetaField(PresentationLinks))),
      registryDevelopment := Stored(Field(at, MetaField(RegistryDevelopment))),
      otherNotes := Stored(Field(at, MetaField(OtherNotes))))
  }

  /** The children one processed row adds to its organization, after the ones it already has. */
  function Attach(o: Organization, at: RowView): (r: Organization)
    ensures r.Descriptive() == o.Descriptive()
    ensures Grows(o, r)
    ensures |r.meta| == |o.meta| + 1
    ensures |r.assets| == |o.assets| + (if AssetsKept(at) then 1 else 0)
    ensures |r.products| == |o.products| + (if ProductsKept(at) then 1 else 0)
  {
    o.(metrics := o.metrics + RowMetrics(at),
       taxes := o.taxes + RowTaxes(at),
       assets := o.assets + (if AssetsKept(at) then [ReadAssets(at)] else []),
       products := o.products + (if ProductsKept(at) then [ReadProducts(at)] else []),
       meta := o.meta + [ReadMeta(at)])
  }

  /** The metric and tax records a row attaches are exactly those its years read and keep. */
  lemma AttachYears(o: Organization, at: RowView, m: Metrics, t: Taxes)
    ensures m in Attach(o, at).metrics <==>
      m in o.metrics || (FirstLegacyYear <= m.year < FirstLegacyYear + MetricYearCount
                         && m == ReadMetrics(at, m.year) && MetricKept(m))
    ensures t in Attach(o, at).taxes <==>
      t in o.taxes || (FirstLegacyYear <= t.year < FirstLegacyYear + TaxYearCount
                       && t == ReadTaxes(at, t.year) && TaxKept(t))
  {
    if m in RowMetrics(at) {
      MetricRecordsRead(at, m);
    }
    if FirstLegacyYear <= m.year < FirstLegacyYear + MetricYearCount {
      MetricYearStoredIff(at, m.year);
    }
    if t in RowTaxes(at) {
      TaxRecordsRead(at, t);
    }
    if FirstLegacyYear <= t.year < FirstLegacyYear + TaxYearCount {
      TaxYearStoredIff(at, t.year);
    }
  }

  /**
   * `b` is `a` with children added: the same descriptive columns, and each
   * child list of `a` a prefix of `b`'s.
   */
  predicate Grows(a: Organization, b: Organization) {
    b.Descriptive() == a.Descriptive()
    && a.metrics <= b.metrics && a.taxes <= b.taxes && a.assets <= b.assets
    && a.products <= b.products && a.meta <= b.meta
  }

  lemma GrowsTransitive(a: Organization, b: Organization, c: Organization)
    requires Grows(a, b) && Grows(b, c)
    ensures Grows(a, c)
  {
  }

  /**
   * A new organization from the row: the name is cut to 500 characters (an
   * absent name header gives the empty name; a present non-text value, `None`
   * included, raises `TypeError`), every text column holds its raw value.
   */
  function NewOrganization(at: RowView, inn: string): (r: Result<Organization, Exception>)
    ensures r.Err? <==> at(NameHeader).Some? && !at(NameHeader).value.Text?
    ensures r.Err? ==> r.error.TypeError?
    ensures r.Ok? ==> r.value.inn == inn && r.value.name.Some? && |r.value.name.value| <= NameWidth
    ensures r.Ok? ==> r.value.metrics == [] && r.value.taxes == [] && r.value.assets == []
                      && r.value.products == [] && r.value.meta == []
    ensures r.Ok? ==> forall f :: f in r.value.text <==> f in TextFields && Field(at, TextHeader(f)) != Empty
    ensures r.Ok? ==> forall f :: f in r.value.text ==> r.value.text[f] == PyStr(Field(at, TextHeader(f)))
  {
    match Slice(FieldOr(at, NameHeader, Text("")), NameWidth)
    case Err(e) => Err(e)
    case Ok(name) =>
      var text := map f | f in TextFields && Field(at, TextHeader(f)) != Empty :: PyStr(Field(at, TextHeader(f)));
      Ok(Organization(
        inn := inn,
        name := Some(name),
        text := text,
        dateAdded := ParseDate(Field(at, DateAddedHeader)),
        registrationDate := ParseDate(Field(at, RegistrationDateHeader)),
        gotMoscowSupport := ParseBool(Field(at, MoscowSupportHeader)),
        isSystemCritical := ParseBool(Field(at, SystemCriticalHeader)),
        coordinatesLat := ParseFloat(Field(at, LatitudeHeader)),
        coordinatesLon := ParseFloat(Field(at, LongitudeHeader)),
        metrics := [], taxes := [], assets := [], products := [], meta := []))
  }

  /** The six missing-data counters. */
  datatype Missing = Missing(contacts: nat, coordinates: nat, metrics: nat, taxes: nat, assets: nat, products: nat)

  /** Any of the phone, e-mail and site cells is truthy. */
  predicate HasContacts(at: RowView) {
    Truthy(Field(at, TextHeader(Phone))) || Truthy(Field(at, TextHeader(Email)))
    || Truthy(Field(at, TextHeader(Website)))
  }

  /** Either coordinate cell is truthy. */
  predicate HasCoordinates(at: RowView) {
    Truthy(Field(at, LatitudeHeader)) || Truthy(Field(at, LongitudeHeader))
  }

  function Bump(n: nat, missing: bool): (r: nat)
    ensures r == n + 1 <==> missing
    ensures r == n || r == n + 1
  {
    if missing then n + 1 else n
  }

  /** The counters after one organization's row: each counts the rows lacking its kind of data. */
  function CountMissing(m: Missing, at: RowView): (r: Missing)
    ensures r.contacts == m.contacts + 1 <==> !HasContacts(at)
    ensures r.coordinates == m.coordinates + 1 <==> !HasCoordinates(at)
    ensures r.metrics == m.metrics + 1 <==> RowMetrics(at) == []
    ensures r.taxes == m.taxes + 1 <==> RowTaxes(at) == []
    ensures r.assets == m.assets + 1 <==> !AssetsKept(at)
    ensures r.products == m.products + 1 <==> !ProductsKept(at)
    ensures BumpedOnce(m, r)
  {
    Missing(
      contacts := Bump(m.contacts, !HasContacts(at)),
      coordinates := Bump(m.coordinates, !HasCoordinates(at)),
      metrics := Bump(m.metrics, RowMetrics(at) == []),
      taxes := Bump(m.taxes, RowTaxes(at) == []),
      assets := Bump(m.assets, !AssetsKept(at)),
      products := Bump(m.products, !ProductsKept(at)))
  }

  /** Each counter of `b` is the one of `a` or one more. */
  predicate BumpedOnce(a: Missing, b: Missing) {
    (b.contacts == a.contacts || b.contacts == a.contacts + 1)
    && (b.coordinates == a.coordinates || b.coordinates == a.coordinates + 1)
    && (b.metrics == a.metrics || b.metrics == a.metrics + 1)
    && (b.taxes == a.taxes || b.taxes == a.taxes + 1)
    && (b.assets == a.assets || b.assets == a.assets + 1)
    && (b.products == a.products || b.products == a.products + 1)
  }

  /** Every counter is at most `n`. */
  predicate MissingAtMost(m: Missing, n: nat) {
    m.contacts <= n && m.coordinates <= n && m.metrics <= n && m.taxes <= n && m.assets <= n && m.products <= n
  }

  /** One entry of the per-organization details. */
  datatype Detail = Detail(
    name: string,
    inn: string,
    emptyFields: nat,
    totalFields: nat,
    emptyFieldsList: seq<Cell>,
    missingContacts: bool,
    missingCoordinates: bool,
    isNew: bool)

  /** How a failed row is reported, by the first rule its message matches. */
  datatype ErrorKind = DataType | MissingLink | Duplicate | MissingField | Other {
    function Label(): string {
      match this
      case DataType => "ОШИБКА ТИПА ДАННЫХ"
      case MissingLink => "ОШИБКА СВЯЗИ"
      case Duplicate => "ДУБЛИКАТ"
      case MissingField => "ОТСУТСТВУЕТ ОБЯЗАТЕЛЬНОЕ ПОЛЕ"
      case Other => "ОШИБКА"
    }
  }

  const IntegerSyntax := "invalid input syntax for type integer"

  /**
   * The rule a message matches first: the integer-syntax text as written,
   * the others in the lower-cased message, in this order.
   */
  function Kind(msg: string): (k: ErrorKind)
    ensures k == DataType <==> Contains(msg, IntegerSyntax)
    ensures k == MissingLink <==> !Contains(msg, IntegerSyntax) && Contains(Lower(msg), "foreign key constraint")
    ensures k == Duplicate <==>
      (!Contains(msg, IntegerSyntax) && !Contains(Lower(msg), "foreign key constraint")
       && (Contains(Lower(msg), "unique constraint") || Contains(Lower(msg), "duplicate key")))
    ensures k == Other ==> !Contains(msg, IntegerSyntax) && !Contains(Lower(msg), "not-null constraint")
  {
    var low := Lower(msg);
    if Contains(msg, IntegerSyntax) then DataType
    else if Contains(low, "foreign key constraint") then MissingLink
    else if Contains(low, "unique constraint") || Contains(low, "duplicate key") then Duplicate
    else if Contains(low, "not-null constraint") then MissingField
    else Other
  }

  /** The description that goes with the kind; `inn` is the raw INN as printed. */
  function Description(msg: string, inn: string): (desc: string)
    ensures Kind(msg) == Other ==> |desc| <= 150 && StartsWith(msg, desc)
  {
    var low := Lower(msg);
    match Kind(msg)
    case DataType =>
      if Contains(msg, "industry_spark") then "Столбец 'Отрасль промышленности по Спарк и Справочнику' - ожидается число, получен текст"
      else if Contains(msg, "registry_development") then "Столбец 'Развитие Реестра' - ожидается число, получен текст"
      else "В числовой столбец попало текстовое значение"
    case MissingLink => "Отсутствует связанная запись в базе данных"
    case Duplicate =>
      if Contains(low, "inn") then "Столбец 'ИНН' - ИНН " + inn + " уже существует в базе данных"
      else "Попытка добавить дублирующуюся запись"
    case MissingField =>
      if Contains(low, "inn") then "Столбец 'ИНН' - не заполнено"
      else if Contains(low, "name") || Contains(low, "наименование") then "Столбец 'Наименование организации' - не заполнено"
      else "Не заполнено обязательное поле"
    case Other => Take(msg, 150)
  }

  /** `type | name (ИНН: inn) | Строка Excel: row | description` */
  function ErrorLine(msg: string, name: Cell, inn: Cell, rowIndex: int): (line: string)
    ensures StartsWith(line, Kind(msg).Label() + " | " + Shown(name) + " (ИНН: " + Shown(inn) + ") | Строка Excel: ")
    ensures EndsWith(line, " | " + Description(msg, Shown(inn)))
    ensures var head := Kind(msg).Label() + " | " + Shown(name) + " (ИНН: " + Shown(inn) + ") | Строка Excel: ";
      var tail := " | " + Description(msg, Shown(inn));
      |line| == |head| + |IntToString(rowIndex)| + |tail| && line[|head|..|line| - |tail|] == IntToString(rowIndex)
  {
    var head := Kind(msg).Label() + " | " + Shown(name) + " (ИНН: " + Shown(inn) + ") | Строка Excel: ";
    var tail := " | " + Description(msg, Shown(inn));
    var line := head + IntToString(rowIndex) + tail;
    assert line[..|head|] == head;
    assert line[|line| - |tail|..] == tail;
    assert line[|head|..|line| - |tail|] == IntToString(rowIndex);
    line
  }

  /** A row that raised, kept until the report is written. */
  datatype RowError = RowError(message: string, name: Cell, inn: Cell, rowIndex: int) {
    /** The report line. */
    function Line(): string {
      ErrorLine(message, name, inn, rowIndex)
    }
  }

  /** The running totals of a batch. */
  datatype Tally = Tally(
    created: nat,
    updated: nat,
    processed: nat,
    skipped: nat,
    errors: seq<RowError>,
    missing: Missing,
    details: seq<Detail>)

  const EmptyTally := Tally(0, 0, 0, 0, [], Missing(0, 0, 0, 0, 0, 0), [])

  /** The INN a row is filed under, or `None` when the row is skipped as empty. */
  function RowInn(at: RowView): (r: Option<string>)
    ensures r.Some? <==> Truthy(Field(at, InnHeader)) && Strip(PyStr(Field(at, InnHeader))) != ""
    ensures r.Some? ==> r.value == Strip(PyStr(Field(at, InnHeader)))
  {
    var c := Field(at, InnHeader);
    if !Truthy(c) then None
    else
      var inn := Strip(PyStr(c));
      if inn == "" then None else Some(inn)
  }

  /** A row that raised: reported with the name and INN as found (or placeholders), and counted as skipped. */
  function Fail(t: Tally, at: RowView, e: Exception, rowIndex: int): (r: Tally)
    ensures r.skipped == t.skipped + 1 && |r.errors| == |t.errors| + 1 && r.errors[..|t.errors|] == t.errors
    ensures r.errors[|t.errors|].message == e.Message() && r.errors[|t.errors|].rowIndex == rowIndex
    ensures r.created == t.created && r.updated == t.updated && r.processed == t.processed
    ensures r.missing == t.missing && r.details == t.details
  {
    var line := RowError(e.Message(), FieldOr(at, NameHeader, Text("Не указано")),
                          FieldOr(at, InnHeader, Text("Не указан")), rowIndex);
    t.(skipped := t.skipped + 1, errors := t.errors + [line])
  }

  /**
   * The end of a row whose organization was found or created: the counters
   * and then the details entry, whose name (cut to 100 characters) can still
   * raise `TypeError`; what the row staged stays staged either way.
   */
  function Finish(t: Tally, d: Dict, at: RowView, inn: string, isNew: bool, rowIndex: int): (r: Tally)
    ensures r.missing == CountMissing(t.missing, at)
    ensures r.created == t.created && r.updated == t.updated
    ensures r.processed + r.skipped == t.processed + t.skipped + 1
    ensures |r.details| == |t.details| + (r.processed - t.processed) && t.details <= r.details
    ensures |r.errors| == |t.errors| + (r.skipped - t.skipped) && t.errors <= r.errors
    ensures r.processed == t.processed + 1 <==> Field(at, NameHeader).Text? || at(NameHeader).None?
    ensures r.processed == t.processed + 1 ==> r.details[|t.details|].isNew == isNew && r.details[|t.details|].inn == inn
  {
    var t1 := t.(missing := CountMissing(t.missing, at));
    match Slice(FieldOr(at, NameHeader, Text("Без названия")), 100)
    case Err(e) => Fail(t1, at, e, rowIndex)
    case Ok(name) =>
      var empties := EmptyKeys(d);
      var detail := Detail(name, inn, |empties|, |d|, empties, !HasContacts(at), !HasCoordinates(at), isNew);
      t1.(processed := t1.processed + 1, details := t1.details + [detail])
  }

  /**
   * The details flag as written: `org.id and organizations_new >
   * organizations_updated`, the id being a positive key, compares the
   * batch's two running counts instead of asking about this row.
   */
  function IsNewAsWritten(created: nat, updated: nat): bool {
    created > updated
  }

  /** Which `is_new` flag a details entry carries. */
  datatype FlagRule =
    | CounterComparison  // as written: the batch has so far created more organizations than it updated
    | OwnRow             // as meant: this row created its organization

  /** The flag of a row that created (`created`) or found its organization, with `t` counting the row. */
  function Flag(rule: FlagRule, t: Tally, created: bool): bool {
    match rule
    case CounterComparison => IsNewAsWritten(t.created, t.updated)
    case OwnRow => created
  }

  /**
   * As written, a row's entry says new exactly when, counting the row, more
   * organizations were created than updated.
   */
  lemma StepFlagsCounts(store: Store, t: Tally, d: Dict, at: RowView, rowIndex: int, inn: string)
    requires RowInn(at) == Some(inn)
    ensures var t' := StepOn(store, t, d, at, rowIndex, CounterComparison).1;
      t'.processed == t.processed + 1 ==> t'.details[|t.details|].isNew == (t'.created > t'.updated)
  {
    if inn in store {
      UpdateFlags(store, t, d, at, rowIndex, CounterComparison, inn);
    } else if NewOrganization(at, inn).Ok? {
      CreateFlags(store, t, d, at, rowIndex, CounterComparison, inn, NewOrganization(at, inn).value);
    }
  }

  /** If `t2` holds the row's entry after those of `t`, that entry is flagged `isNew`. */
  predicate Flagged(t: Tally, t2: Tally, isNew: bool) {
    t2.processed == t.processed + 1 ==> |t2.details| > |t.details| && t2.details[|t.details|].isNew == isNew
  }

  lemma UpdateFlags(store: Store, t: Tally, d: Dict, at: RowView, rowIndex: int, rule: FlagRule, inn: string)
    requires inn in store
    ensures var t' := Update(store, t, d, at, rowIndex, rule, inn).1; Flagged(t, t', Flag(rule, t', false))
  {
  }

  lemma CreateFlags(store: Store, t: Tally, d: Dict, at: RowView, rowIndex: int, rule: FlagRule, inn: string, o: Organization)
    ensures var t' := Create(store, t, d, at, rowIndex, rule, inn, o).1; Flagged(t, t', Flag(rule, t', true))
  {
  }

  /**
   * The flag as the details list means it: a row's entry says new exactly
   * when the row's INN was not in the store before the row.
   */
  lemma StepFlagsNew(store: Store, t: Tally, d: Dict, at: RowView, rowIndex: int, inn: string)
    requires RowInn(at) == Some(inn)
    ensures var t' := StepOn(store, t, d, at, rowIndex, OwnRow).1;
      t'.processed == t.processed + 1 ==> t'.details[|t.details|].isNew == (inn !in store)
  {
  }

  /** The name cell is absent or text, so neither creating the organization nor its details entry raises. */
  predicate NameIsText(at: RowView) {
    at(NameHeader).None? || at(NameHeader).value.Text?
  }

  /**
   * `t2` counts one more creation (`created`) or update than `t` and holds one
   * details entry more, for `inn`, flagged by the rule.
   */
  predicate Entered(t: Tally, t2: Tally, inn: string, created: bool, rule: FlagRule) {
    (if created then t2.created == t.created + 1 && t2.updated == t.updated
     else t2.created == t.created && t2.updated == t.updated + 1)
    && AddsDetail(t, t2, inn, Flag(rule, t2, created))
  }

  /** A stored INN with a text or absent name: the update is counted and the row's entry added. */
  lemma UpdateAdds(store: Store, t: Tally, d: Dict, at: RowView, rowIndex: int, rule: FlagRule, inn: string)
    requires inn in store && NameIsText(at)
    ensures Entered(t, Update(store, t, d, at, rowIndex, rule, inn).1, inn, false, rule)
  {
    var t1 := t.(updated := t.updated + 1);
    FinishAppends(t1, d, at, inn, Flag(rule, t1, false), rowIndex);
  }

  lemma UpdateKeys(store: Store, t: Tally, d: Dict, at: RowView, rowIndex: int, rule: FlagRule, inn: string)
    requires inn in store
    ensures Update(store, t, d, at, rowIndex, rule, inn).0.Keys == store.Keys
  {
  }

  /** A new INN with a text or absent name: the creation is counted and the row's entry added. */
  lemma CreateAdds(store: Store, t: Tally, d: Dict, at: RowView, rowIndex: int, rule: FlagRule, inn: string, o: Organization)
    requires NameIsText(at)
    ensures Entered(t, Create(store, t, d, at, rowIndex, rule, inn, o).1, inn, true, rule)
  {
    var t1 := t.(created := t.created + 1);
    FinishAppends(t1, d, at, inn, Flag(rule, t1, true), rowIndex);
  }

  lemma CreateKeys(store: Store, t: Tally, d: Dict, at: RowView, rowIndex: int, rule: FlagRule, inn: string, o: Organization)
    ensures Create(store, t, d, at, rowIndex, rule, inn, o).0.Keys == store.Keys + {inn}
  {
  }

  /** The row's INN reads as `inn` and its name is text or absent: the row reaches its details entry. */
  predicate Enters(at: RowView, inn: string) {
    RowInn(at) == Some(inn) && NameIsText(at)
  }

  /** Such a row counts its creation or update and adds its entry. */
  lemma StepOnEnters(store: Store, t: Tally, d: Dict, at: RowView, rowIndex: int, rule: FlagRule, inn: string)
    requires Enters(at, inn)
    ensures Entered(t, StepOn(store, t, d, at, rowIndex, rule).1, inn, inn !in store, rule)
  {
    if inn in store {
      UpdateAdds(store, t, d, at, rowIndex, rule, inn);
    } else {
      CreateAdds(store, t, d, at, rowIndex, rule, inn, NewOrganization(at, inn).value);
    }
  }

  /** ... and files an organization under its INN. */
  lemma StepOnKeys(store: Store, t: Tally, d: Dict, at: RowView, rowIndex: int, rule: FlagRule, inn: string)
    requires Enters(at, inn)
    ensures StepOn(store, t, d, at, rowIndex, rule).0.Keys == store.Keys + {inn}
  {
    if inn in store {
      UpdateKeys(store, t, d, at, rowIndex, rule, inn);
    } else {
      CreateKeys(store, t, d, at, rowIndex, rule, inn, NewOrganization(at, inn).value);
    }
  }

  /** With a text or absent name, finishing a row adds its details entry and keeps the two counts. */
  lemma FinishAppends(t: Tally, d: Dict, at: RowView, inn: string, isNew: bool, rowIndex: int)
    requires NameIsText(at)
    ensures var r := Finish(t, d, at, inn, isNew, rowIndex);
      r.created == t.created && r.updated == t.updated && AddsDetail(t, r, inn, isNew)
  {
  }

  /** `t2` holds one details entry more than `t`, for `inn` and flagged `isNew`. */
  predicate AddsDetail(t: Tally, t2: Tally, inn: string, isNew: bool) {
    |t2.details| == |t.details| + 1 && t2.details[|t.details|].inn == inn && t2.details[|t.details|].isNew == isNew
  }

  /** How the older layout sees a data row. */
  function ViewOf(headers: seq<Cell>, row: Row): RowView {
    View(DictOf(headers, row), OlderLayout)
  }

  /**
   * Rows creating A, creating B and then updating A: the third entry is
   * flagged new by the code as written (two creations against one update)
   * and not new by the flag as meant.
   */
  lemma {:induction false} UpdateAfterTwoCreations(store: Store, headers: seq<Cell>, rows: seq<Row>, a: string, b: string, rule: FlagRule)
    requires |rows| == 3 && a != b && a !in store && b !in store
    requires Enters(ViewOf(headers, rows[0]), a) && Enters(ViewOf(headers, rows[1]), b) && Enters(ViewOf(headers, rows[2]), a)
    ensures var t := ProcessRows(store, EmptyTally, OlderLayout, headers, rows, 2, rule).1;
      |t.details| == 3 && t.details[2].inn == a && t.details[2].isNew == (rule == CounterComparison)
  {
    var s1, t1 := StepRow(store, EmptyTally, headers, rows[0], 2, rule, a);
    var s2, t2 := StepRow(s1, t1, headers, rows[1], 3, rule, b);
    var s3, t3 := StepRow(s2, t2, headers, rows[2], 4, rule, a);
    ProcessRowsFirst(store, EmptyTally, OlderLayout, headers, rows, 2, rule);
    ProcessRowsFirst(s1, t1, OlderLayout, headers, rows[1..], 3, rule);
    ProcessRowsFirst(s2, t2, OlderLayout, headers, rows[1..][1..], 4, rule);
    assert rows[1..][0] == rows[1] && rows[1..][1..][0] == rows[2] && rows[1..][1..][1..] == [];
  }

  /** One data row of the older layout that reaches its details entry. */
  lemma StepRow(store: Store, t: Tally, headers: seq<Cell>, row: Row, rowIndex: int, rule: FlagRule, inn: string)
    returns (s: Store, t': Tally)
    requires Enters(ViewOf(headers, row), inn)
    ensures (s, t') == Step(store, t, OlderLayout, headers, row, rowIndex, rule)
    ensures s.Keys == store.Keys + {inn} && Entered(t, t', inn, inn !in store, rule)
  {
    var d := DictOf(headers, row);
    s, t' := StepOn(store, t, d, ViewOf(headers, row), rowIndex, rule).0, StepOn(store, t, d, ViewOf(headers, row), rowIndex, rule).1;
    StepOnEnters(store, t, d, ViewOf(headers, row), rowIndex, rule, inn);
    StepOnKeys(store, t, d, ViewOf(headers, row), rowIndex, rule, inn);
  }

  /** The batch takes its first row and goes on with the rest. */
  lemma ProcessRowsFirst(store: Store, t: Tally, layout: Layout, headers: seq<Cell>, rows: seq<Row>, rowIndex: int, rule: FlagRule)
    requires |rows| > 0
    ensures var r := Step(store, t, layout, headers, rows[0], rowIndex, rule);
      ProcessRows(store, t, layout, headers, rows, rowIndex, rule) == ProcessRows(r.0, r.1, layout, headers, rows[1..], rowIndex + 1, rule)
  {
  }

  /** One row of the sheet (`rowIndex` is its 1-based sheet row). */
  function Step(store: Store, t: Tally, layout: Layout, headers: seq<Cell>, row: Row, rowIndex: int, rule: FlagRule): (r: (Store, Tally))
  {
    var d := DictOf(headers, row);
    StepOn(store, t, d, View(d, layout), rowIndex, rule)
  }

  /** One row, read into `d` and seen through `at`. */
  function StepOn(store: Store, t: Tally, d: Dict, at: RowView, rowIndex: int, rule: FlagRule): (r: (Store, Tally))
  {
    match RowInn(at)
    case None => (store, t.(skipped := t.skipped + 1))
    case Some(inn) =>
      if inn in store then Update(store, t, d, at, rowIndex, rule, inn)
      else
        match NewOrganization(at, inn)
        case Err(e) => (store, Fail(t, at, e, rowIndex))
        case Ok(o) => Create(store, t, d, at, rowIndex, rule, inn, o)
  }

  /** A row for a stored INN: the row's children are attached to it and the update is counted. */
  function Update(store: Store, t: Tally, d: Dict, at: RowView, rowIndex: int, rule: FlagRule, inn: string): (r: (Store, Tally))
    requires inn in store
  {
    var t1 := t.(updated := t.updated + 1);
    (store[inn := Attach(store[inn], at)], Finish(t1, d, at, inn, Flag(rule, t1, false), rowIndex))
  }

  /** A row for a new INN: the created organization `o` is stored with the row's children and counted. */
  function Create(store: Store, t: Tally, d: Dict, at: RowView, rowIndex: int, rule: FlagRule, inn: string, o: Organization): (r: (Store, Tally))
  {
    var t1 := t.(created := t.created + 1);
    (store[inn := Attach(o, at)], Finish(t1, d, at, inn, Flag(rule, t1, true), rowIndex))
  }

  /** The rows from `rowIndex` on, in order. */
  function ProcessRows(store: Store, t: Tally, layout: Layout, headers: seq<Cell>, rows: seq<Row>, rowIndex: int, rule: FlagRule): (r: (Store, Tally))
    decreases |rows|
  {
    if |rows| == 0 then (store, t)
    else
      var (s1, t1) := Step(store, t, layout, headers, rows[0], rowIndex, rule);
      ProcessRows(s1, t1, layout, headers, rows[1..], rowIndex + 1, rule)
  }

  /**
   * The totals after `rows` rows: every row is processed or skipped, each
   * processed row has its details entry, each error skipped its row, each
   * found or created organization ends processed or reported, and each
   * missing-data counter counts some of those organizations.
   */
  predicate Consistent(t: Tally, rows: nat) {
    t.processed + t.skipped == rows
    && |t.details| == t.processed
    && |t.errors| <= t.skipped
    && t.processed <= t.created + t.updated
    && t.created + t.updated <= t.processed + |t.errors|
    && MissingAtMost(t.missing, t.created + t.updated)
  }

  lemma StepConsistent(store: Store, t: Tally, layout: Layout, headers: seq<Cell>, row: Row, rowIndex: int, rule: FlagRule, n: nat)
    requires Consistent(t, n)
    ensures Consistent(Step(store, t, layout, headers, row, rowIndex, rule).1, n + 1)
  {
    var d := DictOf(headers, row);
    StepOnConsistent(store, t, d, View(d, layout), rowIndex, rule, n);
  }

  lemma StepOnConsistent(store: Store, t: Tally, d: Dict, at: RowView, rowIndex: int, rule: FlagRule, n: nat)
    requires Consistent(t, n)
    ensures Consistent(StepOn(store, t, d, at, rowIndex, rule).1, n + 1)
  {
    match RowInn(at)
    case None =>
    case Some(inn) =>
      if inn in store {
        var t1 := t.(updated := t.updated + 1);
        FinishConsistent(t, t1, d, at, inn, Flag(rule, t1, false), rowIndex, n);
      } else {
        NewRowConsistent(store, t, d, at, inn, rowIndex, rule, n);
      }
  }

  lemma NewRowConsistent(store: Store, t: Tally, d: Dict, at: RowView, inn: string, rowIndex: int, rule: FlagRule, n: nat)
    requires Consistent(t, n) && RowInn(at) == Some(inn) && inn !in store
    ensures Consistent(StepOn(store, t, d, at, rowIndex, rule).1, n + 1)
  {
    match NewOrganization(at, inn)
    case Err(e) =>
    case Ok(o) =>
      var t1 := t.(created := t.created + 1);
      FinishConsistent(t, t1, d, at, inn, Flag(rule, t1, true), rowIndex, n);
  }

  /** A row whose organization was found or created ends consistent, whether its details entry succeeds or fails. */
  lemma FinishConsistent(t0: Tally, t: Tally, d: Dict, at: RowView, inn: string, isNew: bool, rowIndex: int, n: nat)
    requires Consistent(t0, n)
    requires t.created + t.updated == t0.created + t0.updated + 1
    requires t.processed == t0.processed && t.skipped == t0.skipped && t.errors == t0.errors
    requires t.details == t0.details && t.missing == t0.missing
    ensures Consistent(Finish(t, d, at, inn, isNew, rowIndex), n + 1)
  {
    var r := Finish(t, d, at, inn, isNew, rowIndex);
    assert BumpedOnce(t.missing, r.missing);
  }

  lemma {:induction false} ProcessRowsConsistent(store: Store, t: Tally, layout: Layout, headers: seq<Cell>, rows: seq<Row>, rowIndex: int, rule: FlagRule, n: nat)
    requires Consistent(t, n)
    ensures Consistent(ProcessRows(store, t, layout, headers, rows, rowIndex, rule).1, n + |rows|)
    decreases |rows|
  {
    if |rows| > 0 {
      StepConsistent(store, t, layout, headers, rows[0], rowIndex, rule, n);
      var (s1, t1) := Step(store, t, layout, headers, rows[0], rowIndex, rule);
      ProcessRowsConsistent(s1, t1, layout, headers, rows[1..], rowIndex + 1, rule, n + 1);
    }
  }

  /** Every organization of `s` is still in `s2`, with its descriptive columns unchanged and children only added. */
  predicate StoreGrows(s: Store, s2: Store) {
    forall k :: k in s ==> k in s2 && Grows(s[k], s2[k])
  }

  lemma StoreGrowsTransitive(s1: Store, s2: Store, s3: Store)
    requires StoreGrows(s1, s2) && StoreGrows(s2, s3)
    ensures StoreGrows(s1, s3)
  {
    forall k | k in s1
      ensures k in s3 && Grows(s1[k], s3[k])
    {
      GrowsTransitive(s1[k], s2[k], s3[k]);
    }
  }

  /**
   * A row keeps the store keyed by INN, changes no existing organization's
   * own columns, and adds at most the organization of its own INN.
   */
  lemma StepStore(store: Store, t: Tally, layout: Layout, headers: seq<Cell>, row: Row, rowIndex: int, rule: FlagRule)
    requires KeyedByInn(store)
    ensures var s2 := Step(store, t, layout, headers, row, rowIndex, rule).0;
      KeyedByInn(s2) && StoreGrows(store, s2)
      && forall k :: k in s2 && k !in store ==> RowInn(View(DictOf(headers, row), layout)) == Some(k)
  {
    var d := DictOf(headers, row);
    var at := View(d, layout);
    match RowInn(at)
    case None =>
    case Some(inn) =>
      if inn in store {
        StepOnExistingStore(store, t, d, at, inn, rowIndex, rule);
      } else {
        StepOnNewStore(store, t, d, at, inn, rowIndex, rule);
      }
  }

  lemma StepOnExistingStore(store: Store, t: Tally, d: Dict, at: RowView, inn: string, rowIndex: int, rule: FlagRule)
    requires KeyedByInn(store) && RowInn(at) == Some(inn) && inn in store
    ensures var s2 := StepOn(store, t, d, at, rowIndex, rule).0;
      KeyedByInn(s2) && StoreGrows(store, s2) && s2.Keys == store.Keys
  {
    PutGrown(store, inn, Attach(store[inn], at));
  }

  lemma StepOnNewStore(store: Store, t: Tally, d: Dict, at: RowView, inn: string, rowIndex: int, rule: FlagRule)
    requires KeyedByInn(store) && RowInn(at) == Some(inn) && inn !in store
    ensures var s2 := StepOn(store, t, d, at, rowIndex, rule).0;
      KeyedByInn(s2) && StoreGrows(store, s2) && s2.Keys <= store.Keys + {inn}
  {
    match NewOrganization(at, inn)
    case Err(e) =>
    case Ok(o) => PutNew(store, inn, Attach(o, at));
  }

  /** Replacing an organization by a grown copy of it. */
  lemma PutGrown(store: Store, inn: string, o: Organization)
    requires KeyedByInn(store) && inn in store && Grows(store[inn], o)
    ensures KeyedByInn(store[inn := o]) && StoreGrows(store, store[inn := o]) && store[inn := o].Keys == store.Keys
  {
  }

  /** Adding an organization under its own, new INN. */
  lemma PutNew(store: Store, inn: string, o: Organization)
    requires KeyedByInn(store) && inn !in store && o.inn == inn
    ensures KeyedByInn(store[inn := o]) && StoreGrows(store, store[inn := o])
    ensures forall k :: k in store[inn := o] && k !in store ==> k == inn
  {
  }

  lemma {:induction false} ProcessRowsStore(store: Store, t: Tally, layout: Layout, headers: seq<Cell>, rows: seq<Row>, rowIndex: int, rule: FlagRule)
    requires KeyedByInn(store)
    ensures var s2 := ProcessRows(store, t, layout, headers, rows, rowIndex, rule).0;
      KeyedByInn(s2) && StoreGrows(store, s2)
    decreases |rows|
  {
    if |rows| > 0 {
      StepStore(store, t, layout, headers, rows[0], rowIndex, rule);
      var (s1, t1) := Step(store, t, layout, headers, rows[0], rowIndex, rule);
      ProcessRowsStore(s1, t1, layout, headers, rows[1..], rowIndex + 1, rule);
      StoreGrowsTransitive(store, s1, ProcessRows(s1, t1, layout, headers, rows[1..], rowIndex + 1, rule).0);
    }
  }

  /** A row without an INN changes nothing but the skipped count. */
  lemma StepSkipsBlankInn(store: Store, t: Tally, d: Dict, at: RowView, rowIndex: int, rule: FlagRule)
    requires RowInn(at).None?
    ensures StepOn(store, t, d, at, rowIndex, rule) == (store, t.(skipped := t.skipped + 1))
  {
  }

  /** A header is read from the last column carrying its text, among the columns the row reaches. */
  lemma ViewReadsLastColumn(headers: seq<Cell>, row: Row, layout: Layout, k: Header)
    ensures var n := if |headers| <= |row| then |headers| else |row|;
      View(DictOf(headers, row), layout)(k) ==
        match LastHeader(headers, layout(k), n)
        case Some(j) => Some(row[j])
        case None => None
  {
    GetDictOf(headers, row, layout(k));
  }

  /** What the batch returns. */
  datatype Summary = Summary(
    organizationsCount: nat,
    created: nat,
    updated: nat,
    processed: nat,
    skipped: nat,
    errorCount: nat,
    errorDetails: seq<string>,
    missing: Missing,
    details: seq<Detail>)

  const MaxErrorLines := 10
  const MaxDetails := 50

  /** The report lines of the given errors, in order. */
  function Lines(es: seq<RowError>): (r: seq<string>)
    ensures |r| == |es|
    ensures forall i :: 0 <= i < |es| ==> r[i] == es[i].Line()
  {
    seq(|es|, i requires 0 <= i < |es| => es[i].Line())
  }

  function Summarize(t: Tally): (r: Summary)
    ensures r.organizationsCount == r.created + r.updated && r.errorCount == |t.errors|
    ensures |r.errorDetails| == if |t.errors| <= MaxErrorLines then |t.errors| else MaxErrorLines
    ensures forall i :: 0 <= i < |r.errorDetails| ==> r.errorDetails[i] == t.errors[i].Line()
    ensures |r.details| == if |t.details| <= MaxDetails then |t.details| else MaxDetails
    ensures r.details == t.details[..|r.details|]
  {
    Summary(
      organizationsCount := t.created + t.updated,
      created := t.created,
      updated := t.updated,
      processed := t.processed,
      skipped := t.skipped,
      errorCount := |t.errors|,
      errorDetails := Lines(if |t.errors| <= MaxErrorLines then t.errors else t.errors[..MaxErrorLines]),
      missing := t.missing,
      details := if |t.details| <= MaxDetails then t.details else t.details[..MaxDetails])
  }


  /**
   * The file: the header row, then the data rows numbered from sheet row 2,
   * in the older layout. Every data row is processed or skipped, and the
   * store keeps every organization it had, changing none of their columns.
   */
  function ProcessFile(store: Store, headers: seq<Cell>, rows: seq<Row>): (r: (Store, Summary))
    requires KeyedByInn(store)
    ensures r.1.processed + r.1.skipped == |rows|
    ensures r.1.processed <= r.1.organizationsCount <= r.1.processed + r.1.errorCount
    ensures r.1.errorCount <= r.1.skipped
    ensures MissingAtMost(r.1.missing, r.1.organizationsCount)
    ensures KeyedByInn(r.0) && StoreGrows(store, r.0)
  {
    ProcessRowsConsistent(store, EmptyTally, OlderLayout, headers, rows, 2, CounterComparison, 0);
    ProcessRowsStore(store, EmptyTally, OlderLayout, headers, rows, 2, CounterComparison);
    var (s, t) := ProcessRows(store, EmptyTally, OlderLayout, headers, rows, 2, CounterComparison);
    (s, Summarize(t))
  }
}

=== FILE: py_values.dfy ===
/**
 * The Python values the request handlers work on: what `json.loads` builds
 * from a request or an API response (None, bools, ints, floats, strings,
 * lists, and dicts with string keys kept in insertion order), plus the
 * datetimes the ORM hands back for date columns. Also the few built-ins the
 * handlers apply to them: truthiness, `dict.get`, `float()`, `int()`,
 * `str()` and `==`.
 */
module PyValues {
  import opened Wrappers
  import opened PyErrors
  import opened PyText
  import opened PyNum
  import opened Calendar

  datatype Value =
    | Null
    | Flag(b: bool)
    | Whole(i: int)
    | Real(x: PyFloat)
    | Str(s: string)
    | List(items: seq<Value>)
    | Dict(entries: seq<(string, Value)>)
    | When(t: PyDateTime)

  /** A dict's entries in insertion order; `json.loads` never repeats a key. */
  type Object = seq<(string, Value)>

  /** `bool(v)` */
  predicate Truthy(v: Value) {
    match v
    case Null => false
    case Flag(b) => b
    case Whole(i) => i != 0
    case Real(x) => !(x.Finite? && x.value.mant == 0)
    case Str(s) => |s| > 0
    case List(xs) => |xs| > 0
    case Dict(es) => |es| > 0
    case When(_) => true
  }

  /** The position of key `k` among the entries from `from` on. */
  function FindFrom(d: Object, k: string, from: nat): (r: Option<nat>)
    requires from <= |d|
    ensures r.Some? ==> from <= r.value < |d| && d[r.value].0 == k
    ensures r.None? ==> forall i :: from <= i < |d| ==> d[i].0 != k
    decreases |d| - from
  {
    if from == |d| then None
    else if d[from].0 == k then Some(from)
    else FindFrom(d, k, from + 1)
  }

  /** `k in d` */
  predicate Has(d: Object, k: string) {
    FindFrom(d, k, 0).Some?
  }

  /** `k in d` holds exactly when some entry carries the key. */
  lemma HasIff(d: Object, k: string)
    ensures Has(d, k) <==> exists i :: 0 <= i < |d| && d[i].0 == k
  {
  }

  /** `d.get(k, default)`: a key present with the value `None` gives `None`, not the default. */
  function GetOr(d: Object, k: string, default: Value): (r: Value)
    ensures !Has(d, k) ==> r == default
    ensures Has(d, k) ==> exists i :: 0 <= i < |d| && d[i] == (k, r)
  {
    match FindFrom(d, k, 0)
    case Some(i) => d[i].1
    case None => default
  }

  /** `d.get(k)` */
  function Get(d: Object, k: string): Value {
    GetOr(d, k, Null)
  }

  /** `float(v)`; every failure is a `ValueError` or a `TypeError` (an int past the double range, which raises OverflowError, is not modelled). */
  function FloatOf(v: Value): (r: Result<PyFloat, Exception>)
    ensures r.Err? ==> r.error.ValueError? || r.error.TypeError?
    ensures r.Err? <==> !(v.Flag? || v.Whole? || v.Real? || (v.Str? && ParsePyFloat(v.s).Some?))
    ensures v.Real? ==> r == Ok(v.x)
    ensures v.Whole? ==> r == Ok(Finite(FromInt(v.i)))
  {
    match v
    case Flag(b) => Ok(Finite(FromInt(if b then 1 else 0)))
    case Whole(i) => Ok(Finite(FromInt(i)))
    case Real(x) => Ok(x)
    case Str(s) =>
      (match ParsePyFloat(s)
       case Some(x) => Ok(x)
       case None => Err(ValueError("could not convert string to float")))
    case _ => Err(TypeError("float() argument must be a string or a real number"))
  }

  /** `int(v)`: text must be an integer literal, a float is truncated, an infinity or NaN raises. */
  function IntOf(v: Value): (r: Result<int, Exception>)
    ensures v.Whole? ==> r == Ok(v.i)
    ensures v.Real? ==> r == FloatToInt(v.x)
    ensures v.Null? || v.List? || v.Dict? || v.When? ==> r.Err? && r.error.TypeError?
  {
    match v
    case Flag(b) => Ok(if b then 1 else 0)
    case Whole(i) => Ok(i)
    case Real(x) => FloatToInt(x)
    case Str(s) =>
      (match ParseInt(s)
       case Some(n) => Ok(n)
       case None => Err(ValueError("invalid literal for int() with base 10")))
    case _ => Err(TypeError("int() argument must be a string, a bytes-like object or a real number"))
  }

  /** `x * 1000` on a float: exact on the decimal value, infinities and NaN stay as they are. */
  function Thousandfold(x: PyFloat): (r: PyFloat)
    ensures r.Finite? <==> x.Finite?
    ensures x.Finite? ==> r.value == Normalize(x.value.mant, x.value.exp + 3)
    ensures !x.Finite? ==> r == x
  {
    match x
    case Finite(d) =>
      NormalizeShift(d.mant, d.exp + 3, 3);
      assert Scale(d.mant, 1) == d.mant * 10;
      assert Scale(d.mant, 2) == d.mant * 100;
      assert Scale(d.mant, 3) == d.mant * 1000;
      Finite(Normalize(d.mant * 1000, d.exp))
    case _ => x
  }

  /**
   * `str(v)`; inside a list or a dict each element is shown by `repr`, where
   * text is put between single quotes.
   */
  function StrOf(v: Value): (r: string)
    ensures v.Str? ==> r == v.s
    decreases v, 1
  {
    match v
    case Null => "None"
    case Flag(b) => if b then "True" else "False"
    case Whole(i) => IntToString(i)
    case Real(x) => PyFloatRepr(x)
    case Str(s) => s
    case List(xs) => "[" + Reprs(v, xs) + "]"
    case Dict(es) => "{" + EntryReprs(v, es) + "}"
    case When(t) => DateTimeStr(t)
  }

  function Repr(v: Value): string
    decreases v, 2
  {
    if v.Str? then "'" + v.s + "'" else StrOf(v)
  }

  function Reprs(whole: Value, xs: seq<Value>): string
    requires forall x :: x in xs ==> x < whole
    decreases whole, 0, |xs|
  {
    if |xs| == 0 then ""
    else
      assert xs[0] in xs;
      assert forall x :: x in xs[1..] ==> x in xs;
      Repr(xs[0]) + (if |xs| == 1 then "" else ", " + Reprs(whole, xs[1..]))
  }

  function EntryReprs(whole: Value, es: Object): string
    requires forall e :: e in es ==> e.1 < whole
    decreases whole, 0, |es|
  {
    if |es| == 0 then ""
    else
      assert es[0] in es;
      assert forall e :: e in es[1..] ==> e in es;
      "'" + es[0].0 + "': " + Repr(es[0].1) + (if |es| == 1 then "" else ", " + EntryReprs(whole, es[1..]))
  }

  /**
   * `a == b`: numbers compare by value across bool, int and float, NaN equals
   * nothing; other values by structure. Python also compares list elements
   * numerically (`[1] == [1.0]`) and dicts without regard to order; the model
   * does not, which matters only if FNS sent a list or a dict in a mapped field.
   */
  predicate Equal(a: Value, b: Value) {
    if Number(a).Some? && Number(b).Some? then
      Number(a) == Number(b) && Number(a).value != NaN
    else a == b && Number(a).None?
  }

  /** The number a bool, int or float stands for. */
  function Number(v: Value): (r: Option<PyFloat>)
    ensures r.Some? <==> v.Flag? || v.Whole? || v.Real?
  {
    match v
    case Flag(b) => Some(Finite(FromInt(if b then 1 else 0)))
    case Whole(i) => Some(Finite(FromInt(i)))
    case Real(x) => Some(Canon(x))
    case _ => None
  }

  /** Text equals only the same text. */
  lemma EqualStr(a: Value, s: string)
    ensures Equal(a, Str(s)) <==> a == Str(s)
  {
  }

  lemma EqualSymmetric(a: Value, b: Value)
    ensures Equal(a, b) <==> Equal(b, a)
  {
  }
}

=== FILE: pyerrors.dfy ===
/** The Python exceptions the modelled code raises or reports, with the text `str(e)` gives. */
module PyErrors {
  datatype Exception =
    | IndexError
    | OverflowError(message: string)
    | ValueError(message: string)
    | TypeError(message: string)
    | AttributeError(message: string)
  {
    /** `str(e)` */
    function Message(): (r: string)
      ensures IndexError? ==> r == "tuple index out of range"
      ensures !IndexError? ==> r == message
    {
      match this
      case IndexError => "tuple index out of range"
      case OverflowError(m) => m
      case ValueError(m) => m
      case TypeError(m) => m
      case AttributeError(m) => m
    }
  }

  /** `row[i]` on a row tuple that is too short. */
  const TupleIndex: Exception := IndexError
}

=== FILE: pynum.dfy ===
/**
 * Python's numeric conversions that the importers rely on: `float(s)` and
 * `int(s)` on text, `int(x)` on a float (truncation toward zero) and `repr`
 * of a float (what `str(x)` prints).
 *
 * A Python float is modelled by the decimal its shortest `repr` spells:
 * `Decimal(mant, exp)` stands for `mant * 10^exp`; infinities and NaN have
 * their own constructors. Binary rounding and the range of a double are not
 * modelled.
 */
module PyNum {
  import opened PyErrors
  import opened Wrappers
  import opened PyText

  datatype Decimal = Decimal(mant: int, exp: int) {
    /** Python truthiness of a float: everything but zero. */
    predicate IsNonZero() { mant != 0 }

    predicate IsNonNegative() { mant >= 0 }

    /** The one representation of its value: no trailing zero in the mantissa, and 0 as `0e0`. */
    predicate Canonical() { if mant == 0 then exp == 0 else mant % 10 != 0 }
  }

  /** The canonical decimal of `mant * 10^exp`. */
  function Normalize(mant: int, exp: int): (r: Decimal)
    ensures r.Canonical()
    ensures (r.mant == 0) == (mant == 0)
    ensures (r.mant > 0) == (mant > 0)
    decreases if mant < 0 then -mant else mant
  {
    if mant == 0 then Decimal(0, 0)
    else if mant % 10 == 0 then Normalize(mant / 10, exp + 1)
    else Decimal(mant, exp)
  }

  /** `float(i)` for a Python `int`. */
  function FromInt(i: int): (r: Decimal)
    ensures r.Canonical()
  {
    Normalize(i, 0)
  }

  /** `Normalize` keeps the value: it only moves trailing zeros of the mantissa into the exponent. */
  lemma {:induction false} NormalizeValue(m: int, e: int)
    ensures Normalize(m, e).exp >= e || m == 0
    ensures m != 0 ==> Scale(Normalize(m, e).mant, Normalize(m, e).exp - e) == m
    decreases if m < 0 then -m else m
  {
    if m != 0 && m % 10 == 0 {
      NormalizeValue(m / 10, e + 1);
      var r := Normalize(m / 10, e + 1);
      ScaleStep(r.mant, r.exp - e);
    }
  }

  /** `m * 10^k`, by repeated multiplication by ten. */
  function Scale(m: int, k: nat): int {
    if k == 0 then m else 10 * Scale(m, k - 1)
  }

  lemma {:induction false} ScaleStep(m: int, k: nat)
    requires k > 0
    ensures Scale(m, k) == Scale(10 * m, k - 1)
    decreases k
  {
    if k > 1 {
      ScaleStep(m, k - 1);
    }
  }

  lemma {:induction false} ScaleZero(k: nat)
    ensures Scale(0, k) == 0
  {
    if k > 0 {
      ScaleZero(k - 1);
    }
  }

  lemma {:induction false} ScaleNegate(m: int, k: nat)
    ensures Scale(-m, k) == -Scale(m, k)
  {
    if k > 0 {
      ScaleNegate(m, k - 1);
    }
  }

  /** `int(float(i)) == i` for a Python `int`. */
  lemma TruncFromInt(i: int)
    ensures Trunc(FromInt(i)) == i
  {
    NormalizeValue(i, 0);
  }

  lemma NormalizeCanonical(d: Decimal)
    requires d.Canonical()
    ensures Normalize(d.mant, d.exp) == d
  {
  }

  /** Appending `k` zero digits and lowering the exponent by `k` does not change the value. */
  lemma {:induction false} NormalizeShift(m: int, e: int, k: nat)
    ensures Normalize(Scale(m, k), e - k) == Normalize(m, e)
    decreases k
  {
    if k > 0 && m != 0 {
      var p := Scale(m, k - 1);
      NormalizeShift(m, e, k - 1);
      ScaleNonZero(m, k - 1);
      assert (10 * p) % 10 == 0;
      assert (10 * p) / 10 == p;
    } else if k > 0 {
      ScaleZero(k);
    }
  }

  lemma {:induction false} ScaleNonZero(m: int, k: nat)
    requires m != 0
    ensures Scale(m, k) != 0
  {
    if k > 0 {
      ScaleNonZero(m, k - 1);
    }
  }

  /** An optional leading '+' or '-': whether it was '-', and the rest of the text. */
  function SplitSign(t: string): (r: (bool, string))
    ensures r.1 == t || (|t| > 0 && r.1 == t[1..] && t[0] in {'+', '-'})
    ensures r.0 <==> |t| > 0 && t[0] == '-'
  {
    if |t| > 0 && (t[0] == '+' || t[0] == '-') then (t[0] == '-', t[1..]) else (false, t)
  }

  /** `digits [ '.' [digits] ]` or `'.' digits`: the mantissa `float()` accepts, as (digits, places). */
  function ParseMantissa(s: string): (r: Option<(nat, nat)>)
    ensures r.Some? ==> exists i :: 0 <= i < |s| && IsAsciiDigit(s[i])
  {
    match FirstIndex(s, {'.'})
    case None =>
      if |s| > 0 && AllDigits(s) then Some((DigitsValue(s), 0)) else None
    case Some(p) =>
      var ip := s[..p];
      var fp := s[p + 1..];
      if AllDigits(ip) && AllDigits(fp) && |ip| + |fp| > 0 then
        assert |ip| > 0 ==> s[0] == ip[0];
        assert |ip| == 0 ==> s[p + 1] == fp[0];
        assert AllDigits(ip + fp);
        Some((DigitsValue(ip + fp), |fp|))
      else None
  }

  /** `[sign] digits`: the exponent after 'e' or 'E'. */
  function ParseExponent(s: string): (r: Option<int>)
  {
    var (neg, ds) := SplitSign(s);
    if |ds| > 0 && AllDigits(ds) then
      var v: int := DigitsValue(ds);
      Some(if neg then -v else v)
    else None
  }

  /** An unsigned decimal: a mantissa, optionally followed by 'e' or 'E' and an exponent. */
  function ParseUnsigned(body: string): (r: Option<(nat, int)>)
    ensures r.Some? ==> exists i :: 0 <= i < |body| && IsAsciiDigit(body[i])
  {
    match FirstIndex(body, {'e', 'E'})
    case None =>
      var (m, places) :- ParseMantissa(body);
      var pl: int := places;
      Some((m, -pl))
    case Some(p) =>
      var (m, places) :- ParseMantissa(body[..p]);
      var e :- ParseExponent(body[p + 1..]);
      DigitInPrefix(body, p);
      Some((m, e - places))
  }

  lemma DigitInPrefix(body: string, p: nat)
    requires p <= |body|
    requires exists i :: 0 <= i < |body[..p]| && IsAsciiDigit(body[..p][i])
    ensures exists i :: 0 <= i < |body| && IsAsciiDigit(body[i])
  {
    var i :| 0 <= i < |body[..p]| && IsAsciiDigit(body[..p][i]);
    assert body[i] == body[..p][i];
  }

  /**
   * `float(s)` on text: surrounding whitespace is ignored, then an optional
   * sign, a decimal mantissa and an optional exponent. `None` stands for the
   * `ValueError` Python raises.
   */
  function ParseFloat(s: string): (r: Option<Decimal>)
    ensures AllSpace(s) ==> r.None?
    ensures r.Some? ==> r.value.Canonical()
    ensures r.Some? ==> exists i :: 0 <= i < |s| && IsAsciiDigit(s[i])
  {
    if AllSpace(s) then None
    else
      var t := Strip(s);
      var (neg, body) := SplitSign(t);
      var u :- ParseUnsigned(body);
      DigitInStripped(s, t, neg, body);
      var m: int := u.0;
      Some(Normalize(if neg then -m else m, u.1))
  }

  lemma DigitInStripped(s: string, t: string, neg: bool, body: string)
    requires t == Strip(s) && (neg, body) == SplitSign(t)
    requires exists i :: 0 <= i < |body| && IsAsciiDigit(body[i])
    ensures exists i :: 0 <= i < |s| && IsAsciiDigit(s[i])
  {
    var i :| 0 <= i < |body| && IsAsciiDigit(body[i]);
    var j := if body == t then i else i + 1;
    assert t[j] == body[i];
    var l := LStrip(s);
    assert t == l[..|t|];
    assert l == s[|s| - |l|..];
    assert s[|s| - |l| + j] == t[j];
  }

  /** `int(s)` on text: whitespace, an optional sign, and digits with single underscores between them. */
  function ParseInt(s: string): (r: Option<int>)
    ensures AllSpace(s) ==> r.None?
  {
    var (neg, body) := SplitSign(Strip(s));
    if WellFormedDigitGroups(body) then
      var v: int := DigitsValue(RemoveUnderscores(body));
      Some(if neg then -v else v)
    else None
  }

  /** Digits, where each underscore sits between two digits. */
  predicate WellFormedDigitGroups(s: string) {
    |s| > 0 && IsAsciiDigit(s[0]) && IsAsciiDigit(s[|s| - 1])
    && (forall i :: 0 <= i < |s| ==> IsAsciiDigit(s[i]) || s[i] == '_')
    && NoDoubleUnderscore(s)
  }

  /** No two adjacent underscores. */
  predicate NoDoubleUnderscore(s: string) {
    |s| < 2 || (!(s[0] == '_' && s[1] == '_') && NoDoubleUnderscore(s[1..]))
  }

  lemma {:induction false} DigitsHaveNoUnderscore(s: string)
    requires AllDigits(s)
    ensures NoDoubleUnderscore(s)
    decreases |s|
  {
    if |s| >= 2 {
      DigitsHaveNoUnderscore(s[1..]);
    }
  }

  function RemoveUnderscores(s: string): (r: string)
    requires forall i :: 0 <= i < |s| ==> IsAsciiDigit(s[i]) || s[i] == '_'
    ensures AllDigits(r)
    ensures AllDigits(s) ==> r == s
  {
    if |s| == 0 then ""
    else if s[0] == '_' then RemoveUnderscores(s[1..])
    else [s[0]] + RemoveUnderscores(s[1..])
  }

  /** `int(x)` on a float: the integer part, truncated toward zero. */
  function Trunc(d: Decimal): int {
    if d.exp >= 0 then Scale(d.mant, d.exp)
    else
      var p := Power10(-d.exp);
      if d.mant >= 0 then d.mant / p else -((-d.mant) / p)
  }

  /** A non-negative float truncates to the largest integer not above it. */
  lemma TruncNonNegative(d: Decimal)
    requires d.exp < 0 && d.mant >= 0
    ensures 0 <= Trunc(d) * Power10(-d.exp) <= d.mant < (Trunc(d) + 1) * Power10(-d.exp)
  {
    DivBounds(d.mant, Power10(-d.exp));
  }

  /** A negative float truncates to the smallest integer not below it. */
  lemma TruncNegative(d: Decimal)
    requires d.exp < 0 && d.mant < 0
    ensures (Trunc(d) - 1) * Power10(-d.exp) < d.mant <= Trunc(d) * Power10(-d.exp) <= 0
  {
    var p := Power10(-d.exp);
    var q := (-d.mant) / p;
    DivBounds(-d.mant, p);
    assert Trunc(d) == -q;
    assert (-q - 1) * p == -((q + 1) * p) && (-q) * p == -(q * p);
  }

  lemma DivBounds(m: int, p: int)
    requires m >= 0 && p > 0
    ensures 0 <= (m / p) * p <= m < (m / p + 1) * p
  {
    var q, rem := m / p, m % p;
    assert m == q * p + rem;
    assert (q + 1) * p == q * p + p;
  }

  /**
   * `repr` of a positive float whose significant digits are `ds` (no
   * trailing zero) and whose decimal point sits `decpt` digits from the left:
   * fixed notation when `-4 < decpt <= 16`, else scientific notation with an
   * exponent of at least two digits.
   */
  function ReprDigits(ds: string, decpt: int): string
    requires |ds| > 0
  {
    if -4 < decpt <= 16 then
      if decpt <= 0 then FixedPoint("0", Zeros(-decpt) + ds)
      else if decpt >= |ds| then FixedPoint(ds + Zeros(decpt - |ds|), "0")
      else FixedPoint(ds[..decpt], ds[decpt..])
    else
      Scientific(SciMantissa(ds), SciExponent(decpt - 1))
  }

  /** Scientific notation: a mantissa, 'e', and an exponent. */
  function Scientific(mt: string, es: string): string {
    mt + "e" + es
  }

  /** Fixed notation: integer digits, a point, fraction digits. */
  function FixedPoint(ip: string, fp: string): string {
    ip + "." + fp
  }

  /** `repr(x)`, which is also `str(x)`, of a float. */
  function FloatRepr(d: Decimal): (r: string)
    ensures |r| > 0
  {
    var c := Normalize(d.mant, d.exp);
    if c.mant == 0 then "0.0" else SignedRepr(c)
  }

  /** `repr` of a non-zero float: its sign, then its digits in fixed or scientific notation. */
  function SignedRepr(c: Decimal): (r: string)
    ensures |r| > 0
  {
    ReprSign(c) + ReprDigits(MantissaDigits(c), |MantissaDigits(c)| + c.exp)
  }

  function ReprSign(c: Decimal): string {
    if c.mant < 0 then "-" else ""
  }

  /** The decimal digits of the mantissa's magnitude. */
  function MantissaDigits(c: Decimal): (r: string)
    ensures |r| > 0 && AllDigits(r)
  {
    NatToString(Magnitude(c))
  }

  /** A text with no whitespace at either end and no leading sign parses as its unsigned body, signed. */
  lemma ParseSignedBody(sign: string, body: string)
    requires sign == "" || sign == "-"
    requires |body| > 0 && !IsSpace(body[0]) && !IsSpace(body[|body| - 1]) && body[0] !in {'+', '-'}
    ensures ParseFloat(sign + body) ==
      match ParseUnsigned(body)
      case None => None
      case Some(u) => Some(Normalize(if sign == "-" then -(u.0 as int) else u.0, u.1))
  {
    var s := sign + body;
    assert s[|s| - 1] == body[|body| - 1];
    assert !IsSpace(s[0]) by {
      if sign == "" { assert s[0] == body[0]; }
    }
    StripNoEdgeSpace(s);
    assert !AllSpace(s);
    assert SplitSign(s) == (sign == "-", body) by {
      if sign == "" { assert s == body; } else { assert s[1..] == body; }
    }
  }

  lemma NoMarkerInDigits(ds: string, cs: set<char>)
    requires AllDigits(ds) && forall c :: c in cs ==> !IsAsciiDigit(c)
    ensures FirstIndex(ds, cs) == None
  {
    FirstIndexOfAbsent(ds, cs);
  }

  /** `ip + "." + fp` with digit runs on both sides. */
  lemma ParseMantissaPoint(ip: string, fp: string)
    requires AllDigits(ip) && AllDigits(fp) && |ip| + |fp| > 0
    ensures ParseMantissa(ip + "." + fp) == Some((DigitsValue(ip + fp), |fp|))
  {
    var s := ip + "." + fp;
    FirstIndexAfter(ip, '.', fp, {'.'});
    assert s[..|ip|] == ip && s[|ip| + 1..] == fp;
  }

  lemma ParseMantissaDigits(ds: string)
    requires AllDigits(ds) && |ds| > 0
    ensures ParseMantissa(ds) == Some((DigitsValue(ds), 0))
  {
    NoMarkerInDigits(ds, {'.'});
  }

  /** Digits, '.' and digits: no exponent marker. */
  lemma NoExpInPoint(ip: string, fp: string)
    requires AllDigits(ip) && AllDigits(fp)
    ensures FirstIndex(ip + "." + fp, {'e', 'E'}) == None
  {
    var s := ip + "." + fp;
    forall j | 0 <= j < |s| ensures s[j] !in {'e', 'E'} {
      if j < |ip| { assert s[j] == ip[j]; }
      else if j > |ip| { assert s[j] == fp[j - |ip| - 1]; }
    }
    FirstIndexOfAbsent(s, {'e', 'E'});
  }

  lemma ParseUnsignedPoint(ip: string, fp: string)
    requires AllDigits(ip) && AllDigits(fp) && |ip| + |fp| > 0
    ensures ParseUnsigned(FixedPoint(ip, fp)) == Some((DigitsValue(ip + fp), -|fp|))
  {
    NoExpInPoint(ip, fp);
    ParseMantissaPoint(ip, fp);
  }

  /** Scientific notation reads back as its mantissa's digits scaled by the exponent less the mantissa's places. */
  lemma SciReadsBack(mt: string, es: string, m: nat, places: nat, e: int, x: int)
    requires forall j :: 0 <= j < |mt| ==> mt[j] !in {'e', 'E'}
    requires ParseMantissa(mt) == Some((m, places)) && ParseExponent(es) == Some(e)
    requires x == e - places
    ensures ParseUnsigned(Scientific(mt, es)) == Some((m, x))
  {
    CutAtFirst(mt, 'e', es, {'e', 'E'});
  }

  lemma ParseExponentPadded(neg: bool, v: nat)
    ensures ParseExponent((if neg then "-" else "+") + PadNat(v, 2)) == Some(if neg then -(v as int) else v)
  {
    var s := (if neg then "-" else "+") + PadNat(v, 2);
    assert s[1..] == PadNat(v, 2);
  }

  lemma {:induction false} DigitsWithZerosAfter(ds: string, k: nat)
    requires AllDigits(ds)
    ensures AllDigits(ds + Zeros(k)) && DigitsValue(ds + Zeros(k)) == Scale(DigitsValue(ds), k)
    decreases k
  {
    if k > 0 {
      DigitsWithZerosAfter(ds, k - 1);
      var s := ds + Zeros(k);
      assert s[..|s| - 1] == ds + Zeros(k - 1);
    } else {
      assert ds + Zeros(k) == ds;
    }
  }

  /** Both ends of a `repr` body are digits. */
  predicate DigitEnds(body: string) {
    |body| > 0 && IsAsciiDigit(body[0]) && IsAsciiDigit(body[|body| - 1])
  }

  /** Fixed notation begins with its first integer digit and ends with its last fraction digit. */
  lemma PointEnds(ip: string, fp: string)
    requires |ip| > 0 && |fp| > 0 && IsAsciiDigit(ip[0]) && IsAsciiDigit(fp[|fp| - 1])
    ensures DigitEnds(FixedPoint(ip, fp))
  {
    var body := FixedPoint(ip, fp);
    assert body[0] == ip[0] && body[|body| - 1] == fp[|fp| - 1];
  }

  /** `0.000ddd` spells the digits `ds` moved `k` places right of the point. */
  lemma LeadingZerosValue(k: nat, ds: string)
    requires |ds| > 0 && AllDigits(ds)
    ensures AllDigits(Zeros(k) + ds) && AllDigits("0" + (Zeros(k) + ds))
    ensures DigitsValue("0" + (Zeros(k) + ds)) == DigitsValue(ds)
  {
    ZerosValue(k, ds);
    OneZeroValue(Zeros(k) + ds);
  }

  lemma OneZeroValue(t: string)
    requires AllDigits(t)
    ensures AllDigits("0" + t) && DigitsValue("0" + t) == DigitsValue(t)
  {
    assert Zeros(1) == "0";
    ZerosValue(1, t);
  }

  /** `ddd000.0` spells the digits `ds` followed by `z + 1` zeros, one place right of the point. */
  lemma TrailingZerosValue(ds: string, z: nat)
    requires AllDigits(ds)
    ensures AllDigits(ds + Zeros(z)) && AllDigits((ds + Zeros(z)) + "0")
    ensures DigitsValue((ds + Zeros(z)) + "0") == Scale(DigitsValue(ds), z + 1)
  {
    ZerosGrow(z);
    assert (ds + Zeros(z)) + "0" == ds + Zeros(z + 1);
    DigitsWithZerosAfter(ds, z);
    DigitsWithZerosAfter(ds, z + 1);
  }

  /** `dd.ddd` keeps the digits of `ds` in order. */
  lemma SplitDigitsValue(ds: string, decpt: int)
    requires AllDigits(ds) && 0 < decpt < |ds|
    ensures AllDigits(ds[..decpt]) && AllDigits(ds[decpt..])
    ensures DigitsValue(ds[..decpt] + ds[decpt..]) == DigitsValue(ds)
  {
    var a, b := ds[..decpt], ds[decpt..];
    assert a + b == ds;
    assert AllDigits(a) by {
      forall j | 0 <= j < |a| ensures IsAsciiDigit(a[j]) { assert a[j] == ds[j]; }
    }
    assert AllDigits(b) by {
      forall j | 0 <= j < |b| ensures IsAsciiDigit(b[j]) { assert b[j] == ds[decpt + j]; }
    }
  }

  /** The mantissa of scientific notation: `d` or `d.ddd`. */
  function SciMantissa(ds: string): string
    requires |ds| > 0
  {
    if |ds| == 1 then ds else ds[..1] + "." + ds[1..]
  }

  lemma SciMantissaParses(ds: string)
    requires |ds| > 0 && AllDigits(ds)
    ensures forall j :: 0 <= j < |SciMantissa(ds)| ==> SciMantissa(ds)[j] !in {'e', 'E'}
    ensures ParseMantissa(SciMantissa(ds)) == Some((DigitsValue(ds), |ds| - 1))
    ensures SciMantissa(ds)[0] == ds[0]
  {
    if |ds| == 1 {
      ParseMantissaDigits(ds);
    } else {
      assert ds[..1] + ds[1..] == ds;
      ParseMantissaPoint(ds[..1], ds[1..]);
      NoExpInPoint(ds[..1], ds[1..]);
    }
  }

  /** The exponent of scientific notation: a sign and at least two digits. */
  function SciExponent(e: int): string {
    (if e < 0 then "-" else "+") + PadNat(if e < 0 then -e else e, 2)
  }

  lemma SciExponentParses(e: int)
    ensures ParseExponent(SciExponent(e)) == Some(e)
    ensures |SciExponent(e)| > 0 && IsAsciiDigit(SciExponent(e)[|SciExponent(e)| - 1])
  {
    ParseExponentPadded(e < 0, if e < 0 then -e else e);
    var pd := PadNat(if e < 0 then -e else e, 2);
    assert SciExponent(e)[|SciExponent(e)| - 1] == pd[|pd| - 1];
  }

  /** Scientific notation begins with the mantissa's first digit and ends with the exponent's last. */
  lemma SciEnds(mt: string, es: string)
    requires |mt| > 0 && IsAsciiDigit(mt[0]) && |es| > 0 && IsAsciiDigit(es[|es| - 1])
    ensures DigitEnds(Scientific(mt, es))
  {
    var body := Scientific(mt, es);
    assert body[0] == mt[0];
    assert body[|body| - 1] == es[|es| - 1];
  }

  lemma ReprBodyLeading(ds: string, exp: int, body: string)
    requires |ds| > 0 && AllDigits(ds) && -4 < |ds| + exp <= 0
    requires body == FixedPoint("0", Zeros(-(|ds| + exp)) + ds)
    ensures DigitEnds(body)
    ensures ParseUnsigned(body) == Some((DigitsValue(ds), exp))
  {
    var k := -(|ds| + exp);
    var fp := Zeros(k) + ds;
    LeadingZerosValue(k, ds);
    PointEnds("0", fp);
    ParseUnsignedPoint("0", fp);
    var v: nat, e: int := DigitsValue("0" + fp), -|fp|;
    assert ParseUnsigned(body) == Some((v, e));
    assert v == DigitsValue(ds) && e == exp;
  }

  lemma ReprBodyTrailing(ds: string, exp: int)
    requires |ds| > 0 && AllDigits(ds) && |ds| <= |ds| + exp <= 16
    ensures DigitEnds(ReprDigits(ds, |ds| + exp))
    ensures ParseUnsigned(ReprDigits(ds, |ds| + exp)) == Some((Scale(DigitsValue(ds), exp + 1), -1))
  {
    var ip := ds + Zeros(exp);
    assert ReprDigits(ds, |ds| + exp) == FixedPoint(ip, "0");
    TrailingZerosValue(ds, exp);
    PointEnds(ip, "0");
    ParseUnsignedPoint(ip, "0");
    assert -|"0"| == -1;
  }

  lemma ReprBodySplit(ds: string, exp: int)
    requires |ds| > 0 && AllDigits(ds) && 0 < |ds| + exp < |ds| && |ds| + exp <= 16
    ensures DigitEnds(ReprDigits(ds, |ds| + exp))
    ensures ParseUnsigned(ReprDigits(ds, |ds| + exp)) == Some((DigitsValue(ds), exp))
  {
    var decpt := |ds| + exp;
    assert ReprDigits(ds, decpt) == FixedPoint(ds[..decpt], ds[decpt..]);
    SplitDigitsValue(ds, decpt);
    PointEnds(ds[..decpt], ds[decpt..]);
    ParseUnsignedPoint(ds[..decpt], ds[decpt..]);
    assert -|ds[decpt..]| == exp;
  }

  lemma ReprBodyScientific(ds: string, exp: int)
    requires |ds| > 0 && AllDigits(ds)
    ensures DigitEnds(Scientific(SciMantissa(ds), SciExponent(|ds| + exp - 1)))
    ensures ParseUnsigned(Scientific(SciMantissa(ds), SciExponent(|ds| + exp - 1))) == Some((DigitsValue(ds), exp))
  {
    var e := |ds| + exp - 1;
    var mt, es := SciMantissa(ds), SciExponent(e);
    SciExponentParses(e);
    SciMantissaParses(ds);
    SciEnds(mt, es);
    SciReadsBack(mt, es, DigitsValue(ds), |ds| - 1, e, exp);
  }

  /** The unsigned part of `repr` reads back as the same digits, possibly scaled by a power of ten. */
  lemma ReprBody(ds: string, exp: int) returns (v: nat, e: int, k: nat)
    requires |ds| > 0 && AllDigits(ds)
    ensures DigitEnds(ReprDigits(ds, |ds| + exp))
    ensures ParseUnsigned(ReprDigits(ds, |ds| + exp)) == Some((v, e))
    ensures v == Scale(DigitsValue(ds), k) && e == exp - k
  {
    var decpt := |ds| + exp;
    v, e, k := DigitsValue(ds), exp, 0;
    if -4 < decpt <= 0 {
      ReprBodyLeading(ds, exp, ReprDigits(ds, decpt));
    } else if |ds| <= decpt <= 16 {
      ReprBodyTrailing(ds, exp);
      v, e, k := Scale(DigitsValue(ds), exp + 1), -1, exp + 1;
    } else if 0 < decpt < |ds| && decpt <= 16 {
      ReprBodySplit(ds, exp);
    } else {
      assert ReprDigits(ds, decpt) == Scientific(SciMantissa(ds), SciExponent(decpt - 1));
      ReprBodyScientific(ds, exp);
    }
  }

  /** A signed `repr` text whose unsigned part parses reads back as the signed value. */
  lemma ParseSignedRepr(sign: string, body: string, text: string, v: nat, e: int)
    requires text == sign + body && (sign == "" || sign == "-")
    requires DigitEnds(body) && ParseUnsigned(body) == Some((v, e))
    ensures ParseFloat(text) == Some(Normalize(if sign == "-" then -(v as int) else v, e))
  {
    ParseSignedBody(sign, body);
  }

  lemma ZeroRepr()
    ensures ParseFloat("0.0") == Some(Decimal(0, 0))
  {
    ParseUnsignedPoint("0", "0");
    assert "0.0" == FixedPoint("0", "0");
    ParseSignedBody("", "0.0");
    assert "" + "0.0" == "0.0";
  }

  /** The magnitude of a float's mantissa. */
  function Magnitude(c: Decimal): nat {
    if c.mant < 0 then -c.mant else c.mant
  }

  /** The signed `repr` text reads back as the magnitude scaled by `10^k`, with the exponent lowered by `k`. */
  lemma SignedReprParses(c: Decimal) returns (v: nat, e: int, k: nat)
    requires c.mant != 0
    ensures ParseFloat(SignedRepr(c)) == Some(Normalize(if c.mant < 0 then -(v as int) else v, e))
    ensures v == Scale(Magnitude(c), k) && e == c.exp - k
  {
    var ds := MantissaDigits(c);
    NatToStringRoundTrip(Magnitude(c));
    v, e, k := ReprBody(ds, c.exp);
    ParseSignedRepr(ReprSign(c), ReprDigits(ds, |ds| + c.exp), SignedRepr(c), v, e);
  }

  /** Re-applying the sign to the scaled magnitude and normalising gives back a canonical float. */
  lemma SignedScaleNormalizes(c: Decimal, v: nat, e: int, k: nat)
    requires c.Canonical() && c.mant != 0
    requires v == Scale(Magnitude(c), k) && e == c.exp - k
    ensures Normalize(if c.mant < 0 then -(v as int) else v, e) == c
  {
    if c.mant < 0 {
      ScaleNegate(Magnitude(c), k);
      assert -(Magnitude(c) as int) == c.mant;
    }
    NormalizeShiftCanonical(c, k);
  }

  lemma SignedReprRoundTrip(c: Decimal)
    requires c.Canonical() && c.mant != 0
    ensures ParseFloat(SignedRepr(c)) == Some(c)
  {
    var v, e, k := SignedReprParses(c);
    SignedScaleNormalizes(c, v, e, k);
  }

  lemma NormalizeShiftCanonical(c: Decimal, k: nat)
    requires c.Canonical()
    ensures Normalize(Scale(c.mant, k), c.exp - k) == c
  {
    NormalizeShift(c.mant, c.exp, k);
    NormalizeCanonical(c);
  }

  /** `float(repr(x)) == x`: the text `str` prints for a float reads back as the same float. */
  lemma FloatReprRoundTrip(d: Decimal)
    ensures ParseFloat(FloatRepr(d)) == Some(Normalize(d.mant, d.exp))
  {
    var c := Normalize(d.mant, d.exp);
    if c.mant == 0 {
      ZeroRepr();
    } else {
      SignedReprRoundTrip(c);
    }
  }

  /** An optional '-' followed by plain digits reads back as their signed value. */
  lemma ParseIntDigits(sign: string, ds: string, text: string)
    requires sign == "" || sign == "-"
    requires text == sign + ds && |ds| > 0 && AllDigits(ds)
    ensures ParseInt(text) == Some(if sign == "-" then -(DigitsValue(ds) as int) else DigitsValue(ds))
  {
    SignedDigitsSplit(sign, ds, text);
    DigitsWellFormed(ds);
  }

  /** A digit run is a well-formed `int` body with nothing to remove. */
  lemma DigitsWellFormed(ds: string)
    requires |ds| > 0 && AllDigits(ds)
    ensures WellFormedDigitGroups(ds) && RemoveUnderscores(ds) == ds
  {
    DigitsHaveNoUnderscore(ds);
  }

  /** An optional minus sign before digits: nothing to strip, and the sign splits off. */
  lemma SignedDigitsSplit(sign: string, ds: string, text: string)
    requires sign == "" || sign == "-"
    requires text == sign + ds && |ds| > 0 && AllDigits(ds)
    ensures SplitSign(Strip(text)) == (sign == "-", ds)
  {
    if sign == "" {
      assert text == ds;
      StripNoEdgeSpace(ds);
    } else {
      assert text[0] == '-' && text[1..] == ds && text[|text| - 1] == ds[|ds| - 1];
      StripNoEdgeSpace(text);
    }
  }

  /** `int(str(i)) == i` for a Python `int`. */
  lemma ParseIntRoundTrip(i: int)
    ensures ParseInt(IntToString(i)) == Some(i)
  {
    var n: nat := if i < 0 then -i else i;
    NatToStringRoundTrip(n);
    if i < 0 {
      ParseIntDigits("-", NatToString(n), IntToString(i));
    } else {
      ParseIntDigits("", NatToString(n), IntToString(i));
    }
  }

  /** A Python float: a finite value, an infinity, or NaN. */
  datatype PyFloat = Finite(value: Decimal) | Infinity(negative: bool) | NaN

  /**
   * `float(s)` on text, including the special spellings it accepts after an
   * optional sign, in any letter case: `inf`, `infinity` and `nan`.
   */
  function ParsePyFloat(s: string): (r: Option<PyFloat>)
    ensures AllSpace(s) ==> r.None?
    ensures r.Some? && r.value.Finite? ==> r.value.value.Canonical()
  {
    match ParseFloat(s)
    case Some(d) => Some(Finite(d))
    case None =>
      var (neg, word) := SplitSign(Strip(s));
      var w := Lower(word);
      if w == "inf" || w == "infinity" then Some(Infinity(neg))
      else if w == "nan" then Some(NaN)
      else None
  }

  /** `repr(x)` */
  function PyFloatRepr(x: PyFloat): (r: string)
    ensures |r| > 0
  {
    match x
    case Finite(d) => FloatRepr(d)
    case Infinity(neg) => if neg then "-inf" else "inf"
    case NaN => "nan"
  }

  /** The float a value stands for once Python has stored it: finite values in canonical form. */
  function Canon(x: PyFloat): PyFloat {
    if x.Finite? then Finite(Normalize(x.value.mant, x.value.exp)) else x
  }

  lemma NoDigitNoFloat(s: string)
    requires forall i :: 0 <= i < |s| ==> !IsAsciiDigit(s[i])
    ensures ParseFloat(s) == None
  {
  }

  lemma LowerWord(w: string)
    requires w == "inf" || w == "nan"
    ensures Lower(w) == w
  {
    assert Lower(w)[0] == w[0] && Lower(w)[1] == w[1] && Lower(w)[2] == w[2];
  }

  lemma SpecialRepr(t: string, neg: bool, word: string)
    requires word == "inf" || word == "nan"
    requires t == if neg then "-" + word else word
    ensures ParsePyFloat(t) == Some(if word == "nan" then NaN else Infinity(neg))
  {
    SpecialWordSplit(t, neg, word);
    NoDigitNoFloat(t);
    LowerWord(word);
  }

  lemma SpecialWordSplit(t: string, neg: bool, word: string)
    requires word == "inf" || word == "nan"
    requires t == if neg then "-" + word else word
    ensures SplitSign(Strip(t)) == (neg, word)
  {
    assert !IsSpace(t[0]) && !IsSpace(t[|t| - 1]);
    StripNoEdgeSpace(t);
  }

  lemma FiniteReprRoundTrip(d: Decimal)
    ensures ParsePyFloat(FloatRepr(d)) == Some(Finite(Normalize(d.mant, d.exp)))
  {
    FloatReprRoundTrip(d);
  }

  /** `float(repr(x))` gives `x` back, infinities and NaN included. */
  lemma PyFloatReprRoundTrip(x: PyFloat)
    ensures ParsePyFloat(PyFloatRepr(x)) == Some(Canon(x))
  {
    match x
    case Finite(d) =>
      FiniteReprRoundTrip(d);
    case Infinity(neg) =>
      SpecialRepr(PyFloatRepr(x), neg, "inf");
    case NaN =>
      SpecialRepr("nan", false, "nan");
  }

  /** `int(x)` on a float: infinities raise `OverflowError`, NaN raises `ValueError`. */
  function FloatToInt(x: PyFloat): (r: Result<int, Exception>)
    ensures r.Err? <==> !x.Finite?
    ensures r.Err? ==> (r.error.OverflowError? <==> x.Infinity?)
  {
    match x
    case Finite(d) => Ok(Trunc(d))
    case Infinity(_) => Err(OverflowError("cannot convert float infinity to integer"))
    case NaN => Err(ValueError("cannot convert float NaN to integer"))
  }
}

=== FILE: pytext.dfy ===
/**
 * Python's `str` operations the core relies on: `isspace`/`strip`, `lower`,
 * `str(int)`, substring search, `replace`, `join` and slicing.
 *
 * Strings are `seq<char>` with one `char` per Unicode scalar value, which is
 * how Python counts `len(s)`.
 */
module PyText {
  import opened Wrappers

  /** `c.isspace()`: the characters Python treats as whitespace (also what `\s` matches). */
  predicate IsSpace(c: char) {
    ('\U{0009}' <= c <= '\U{000D}') || ('\U{001C}' <= c <= '\U{0020}')
    || c == '\U{0085}' || c == '\U{00A0}' || c == '\U{1680}'
    || ('\U{2000}' <= c <= '\U{200A}') || c == '\U{2028}' || c == '\U{2029}'
    || c == '\U{202F}' || c == '\U{205F}' || c == '\U{3000}'
  }

  predicate IsAsciiDigit(c: char) { '0' <= c <= '9' }

  predicate AllDigits(s: string) { forall i :: 0 <= i < |s| ==> IsAsciiDigit(s[i]) }

  /** `s.lstrip()` */
  function LStrip(s: string): (r: string)
    ensures |r| <= |s| && r == s[|s| - |r|..]
    ensures |r| > 0 ==> !IsSpace(r[0])
    ensures forall i :: 0 <= i < |s| - |r| ==> IsSpace(s[i])
  {
    if |s| > 0 && IsSpace(s[0]) then LStrip(s[1..]) else s
  }

  /** `s.rstrip()` */
  function RStrip(s: string): (r: string)
    ensures |r| <= |s| && r == s[..|r|]
    ensures |r| > 0 ==> !IsSpace(r[|r| - 1])
    ensures forall i :: |r| <= i < |s| ==> IsSpace(s[i])
  {
    if |s| > 0 && IsSpace(s[|s| - 1]) then RStrip(s[..|s| - 1]) else s
  }

  /** `s.strip()`: the longest infix that neither starts nor ends with whitespace. */
  function Strip(s: string): (r: string)
    ensures |r| <= |s|
    ensures |r| > 0 ==> !IsSpace(r[0]) && !IsSpace(r[|r| - 1])
  {
    RStrip(LStrip(s))
  }

  /** Every character of `s` is whitespace (so `s.strip() == ""`). */
  predicate AllSpace(s: string) { forall i :: 0 <= i < |s| ==> IsSpace(s[i]) }

  lemma {:induction false} StripEmptyIffAllSpace(s: string)
    ensures Strip(s) == "" <==> AllSpace(s)
  {
    var l := LStrip(s);
    if Strip(s) == "" {
      // RStrip(l) is empty, so l is all whitespace; LStrip leaves no leading space, so l is empty
      if |l| > 0 {
        assert false;
      }
    } else {
      var r := Strip(s);
      assert !IsSpace(r[0]);
      assert r[0] == l[0];
      assert l[0] == s[|s| - |l|];
    }
  }

  lemma StripNoEdgeSpace(s: string)
    requires |s| > 0 ==> !IsSpace(s[0]) && !IsSpace(s[|s| - 1])
    ensures Strip(s) == s
  {
  }

  /** `c.lower()` for ASCII and the basic Cyrillic block; every other character is left as is. */
  function LowerChar(c: char): (r: char)
    ensures ('A' <= c <= 'Z') ==> 'a' <= r <= 'z'
    ensures !('A' <= c <= 'Z') && !('\U{0400}' <= c <= '\U{042F}') ==> r == c
  {
    if 'A' <= c <= 'Z' then (c as int + 32) as char
    else if '\U{0410}' <= c <= '\U{042F}' then (c as int + 32) as char
    else if '\U{0400}' <= c <= '\U{040F}' then (c as int + 80) as char
    else c
  }

  /** `s.lower()` */
  function Lower(s: string): (r: string)
    ensures |r| == |s|
    ensures forall i :: 0 <= i < |s| ==> r[i] == LowerChar(s[i])
  {
    seq(|s|, i requires 0 <= i < |s| => LowerChar(s[i]))
  }

  function DigitChar(d: nat): (c: char)
    requires d < 10
    ensures IsAsciiDigit(c) && c as int - '0' as int == d
  {
    ('0' as int + d) as char
  }

  /** `str(n)` for a natural number: its decimal digits, without leading zeros. */
  function NatToString(n: nat): (r: string)
    ensures |r| > 0 && AllDigits(r)
    ensures |r| > 1 ==> r[0] != '0'
    decreases n
  {
    if n < 10 then [DigitChar(n)] else NatToString(n / 10) + [DigitChar(n % 10)]
  }

  /** `str(i)` for a Python `int`. */
  function IntToString(i: int): (r: string)
    ensures |r| > 0
    ensures i >= 0 ==> AllDigits(r)
    ensures i < 0 ==> r[0] == '-' && AllDigits(r[1..])
  {
    if i < 0 then "-" + NatToString(-i) else NatToString(i)
  }

  /** The value of a run of ASCII digits (leading zeros allowed). */
  function DigitsValue(s: string): nat
    requires AllDigits(s)
  {
    if |s| == 0 then 0 else 10 * DigitsValue(s[..|s| - 1]) + (s[|s| - 1] as int - '0' as int)
  }

  /** The value of a concatenation of digit runs: the left run shifted by the right run's length. */
  lemma {:induction false} DigitsValueAppend(a: string, b: string, p: nat)
    requires AllDigits(a) && AllDigits(b)
    requires p == Power10(|b|)
    ensures AllDigits(a + b) && DigitsValue(a + b) == DigitsValue(a) * p + DigitsValue(b)
    decreases |b|
  {
    if |b| > 0 {
      var ab, b' := a + b, b[..|b| - 1];
      var q, d := Power10(|b| - 1), b[|b| - 1] as int - '0' as int;
      assert ab[..|ab| - 1] == a + b';
      DigitsValueAppend(a, b', q);
      var va, vb := DigitsValue(a), DigitsValue(b');
      assert DigitsValue(b) == 10 * vb + d;
      assert DigitsValue(ab) == 10 * (va * q + vb) + d;
      assert 10 * (va * q) == va * (10 * q);
    } else {
      assert a + b == a;
    }
  }

  function Power10(n: nat): (r: nat)
    ensures r >= 1
  {
    if n == 0 then 1 else 10 * Power10(n - 1)
  }

  lemma {:induction false} NatToStringRoundTrip(n: nat)
    ensures DigitsValue(NatToString(n)) == n
    decreases n
  {
    if n >= 10 {
      var r := NatToString(n);
      assert r[..|r| - 1] == NatToString(n / 10);
      NatToStringRoundTrip(n / 10);
    }
  }

  /** `n` rendered with at least `width` digits, zero-padded on the left (`%0<width>d`). */
  function PadNat(n: nat, width: nat): (r: string)
    ensures AllDigits(r) && |r| >= width
    ensures DigitsValue(r) == n
  {
    var d := NatToString(n);
    NatToStringRoundTrip(n);
    if |d| >= width then d else ZerosValue(width - |d|, d); Zeros(width - |d|) + d
  }

  function Zeros(k: nat): (r: string)
    ensures |r| == k && AllDigits(r)
    ensures forall i :: 0 <= i < k ==> r[i] == '0'
  {
    if k == 0 then "" else "0" + Zeros(k - 1)
  }

  /** One more zero, at either end. */
  lemma ZerosGrow(k: nat)
    ensures Zeros(k + 1) == Zeros(k) + "0" == "0" + Zeros(k)
  {
  }

  lemma {:induction false} ZerosValue(k: nat, d: string)
    requires AllDigits(d)
    ensures AllDigits(Zeros(k) + d) && DigitsValue(Zeros(k) + d) == DigitsValue(d)
    decreases |d|
  {
    if |d| == 0 {
      assert Zeros(k) + d == Zeros(k);
      ZerosValueAlone(k);
    } else {
      var s := Zeros(k) + d;
      assert s[..|s| - 1] == Zeros(k) + d[..|d| - 1];
      ZerosValue(k, d[..|d| - 1]);
    }
  }

  lemma {:induction false} ZerosValueAlone(k: nat)
    ensures DigitsValue(Zeros(k)) == 0
  {
    if k > 0 {
      assert Zeros(k)[..k - 1] == Zeros(k - 1);
      ZerosValueAlone(k - 1);
    }
  }

  /** `t` occurs in `s` starting at index `i`. */
  predicate OccursAt(s: string, t: string, i: int) {
    0 <= i <= |s| - |t| && s[i..i + |t|] == t
  }

  /** `t in s` */
  predicate Contains(s: string, t: string) {
    exists i :: 0 <= i <= |s| - |t| && OccursAt(s, t, i)
  }

  predicate StartsWith(s: string, p: string) { |p| <= |s| && s[..|p|] == p }

  predicate EndsWith(s: string, p: string) { |p| <= |s| && s[|s| - |p|..] == p }

  lemma ContainsAt(s: string, t: string, i: int)
    requires OccursAt(s, t, i)
    ensures Contains(s, t)
  {
  }

  lemma {:induction false} ContainsInExtension(a: string, s: string, b: string, t: string)
    requires Contains(s, t)
    ensures Contains(a + s + b, t)
  {
    var i :| 0 <= i <= |s| - |t| && OccursAt(s, t, i);
    assert (a + s + b)[|a| + i..|a| + i + |t|] == t;
    assert OccursAt(a + s + b, t, |a| + i);
  }

  /** Containment is transitive. */
  lemma ContainsTransitive(s: string, t: string, u: string)
    requires Contains(s, t) && Contains(t, u)
    ensures Contains(s, u)
  {
    var i :| 0 <= i <= |s| - |t| && OccursAt(s, t, i);
    var j :| 0 <= j <= |t| - |u| && OccursAt(t, u, j);
    forall k | 0 <= k < |u| ensures s[i + j + k] == u[k] {
      assert u[k] == t[j..j + |u|][k] == t[j + k];
      assert t[j + k] == s[i..i + |t|][j + k];
    }
    assert s[i + j..i + j + |u|] == u;
    assert OccursAt(s, u, i + j);
  }

  /** `s.replace(pat, rep)`: every non-overlapping occurrence, scanning left to right. */
  function ReplaceAll(s: string, pat: string, rep: string): string
    requires |pat| > 0
    decreases |s|
  {
    if |s| < |pat| then s
    else if s[..|pat|] == pat then rep + ReplaceAll(s[|pat|..], pat, rep)
    else [s[0]] + ReplaceAll(s[1..], pat, rep)
  }

  lemma {:induction false} ReplaceAllAbsent(s: string, pat: string, rep: string)
    requires |pat| > 0 && !Contains(s, pat)
    ensures ReplaceAll(s, pat, rep) == s
    decreases |s|
  {
    if |s| >= |pat| {
      assert !OccursAt(s, pat, 0);
      assert s[0..|pat|] == s[..|pat|];
      if s[1..] != [] {
        if Contains(s[1..], pat) {
          var i :| 0 <= i <= |s[1..]| - |pat| && OccursAt(s[1..], pat, i);
          assert s[i + 1..i + 1 + |pat|] == pat;
          assert OccursAt(s, pat, i + 1);
        }
      }
      ReplaceAllAbsent(s[1..], pat, rep);
    }
  }

  lemma {:induction false} ReplaceAllIntroduces(s: string, pat: string, rep: string)
    requires |pat| > 0 && Contains(s, pat)
    ensures Contains(ReplaceAll(s, pat, rep), rep)
    decreases |s|
  {
    if s[..|pat|] == pat {
      ContainsInExtension([], rep, ReplaceAll(s[|pat|..], pat, rep), rep) by {
        ContainsAt(rep, rep, 0);
      }
      assert [] + rep + ReplaceAll(s[|pat|..], pat, rep) == rep + ReplaceAll(s[|pat|..], pat, rep);
    } else {
      var i :| 0 <= i <= |s| - |pat| && OccursAt(s, pat, i);
      assert i != 0;
      assert s[1..][i - 1..i - 1 + |pat|] == pat;
      assert OccursAt(s[1..], pat, i - 1);
      ReplaceAllIntroduces(s[1..], pat, rep);
      ContainsInExtension([s[0]], ReplaceAll(s[1..], pat, rep), [], rep);
      assert [s[0]] + ReplaceAll(s[1..], pat, rep) + [] == [s[0]] + ReplaceAll(s[1..], pat, rep);
    }
  }

  /** Replacing by the empty text never lengthens, and shortens whenever the pattern occurs. */
  lemma {:induction false} ReplaceAllDeletes(s: string, pat: string)
    requires |pat| > 0
    ensures |ReplaceAll(s, pat, "")| <= |s|
    ensures Contains(s, pat) ==> |ReplaceAll(s, pat, "")| < |s|
    decreases |s|
  {
    if |s| >= |pat| {
      if s[..|pat|] == pat {
        ReplaceAllDeletes(s[|pat|..], pat);
      } else {
        ReplaceAllDeletes(s[1..], pat);
        if Contains(s, pat) {
          var i :| 0 <= i <= |s| - |pat| && OccursAt(s, pat, i);
          assert i != 0;
          assert s[1..][i - 1..i - 1 + |pat|] == pat;
          assert OccursAt(s[1..], pat, i - 1);
        }
      }
    }
  }

  /** `sep.join(parts)` */
  function Join(sep: string, parts: seq<string>): string {
    if |parts| == 0 then ""
    else if |parts| == 1 then parts[0]
    else parts[0] + sep + Join(sep, parts[1..])
  }

  /** `s[:n]` */
  function Take(s: string, n: nat): (r: string)
    ensures |r| == if |s| <= n then |s| else n
    ensures r == s[..|r|]
  {
    if |s| <= n then s else s[..n]
  }

  /** The position of the first character of `s` that lies in `cs`. */
  function FirstIndex(s: string, cs: set<char>): (r: Option<nat>)
    ensures r.Some? ==> r.value < |s| && s[r.value] in cs
  {
    if |s| == 0 then None
    else if s[0] in cs then Some(0)
    else match FirstIndex(s[1..], cs)
      case None => None
      case Some(k) => Some(k + 1)
  }

  lemma {:induction false} FirstIndexOfAbsent(s: string, cs: set<char>)
    requires forall j :: 0 <= j < |s| ==> s[j] !in cs
    ensures FirstIndex(s, cs) == None
    decreases |s|
  {
    if |s| > 0 {
      FirstIndexOfAbsent(s[1..], cs);
    }
  }

  lemma {:induction false} FirstIndexAfter(a: string, c: char, b: string, cs: set<char>)
    requires c in cs && forall j :: 0 <= j < |a| ==> a[j] !in cs
    ensures FirstIndex(a + [c] + b, cs) == Some(|a|)
    decreases |a|
  {
    if |a| > 0 {
      assert (a + [c] + b)[1..] == a[1..] + [c] + b;
      FirstIndexAfter(a[1..], c, b, cs);
    }
  }

  /** Cutting `a + [c] + b` at its first character from `cs`, when that is the `c`, gives back `a` and `b`. */
  lemma CutAtFirst(a: string, c: char, b: string, cs: set<char>)
    requires c in cs && forall j :: 0 <= j < |a| ==> a[j] !in cs
    ensures FirstIndex(a + [c] + b, cs) == Some(|a|)
    ensures (a + [c] + b)[..|a|] == a && (a + [c] + b)[|a| + 1..] == b
  {
    FirstIndexAfter(a, c, b, cs);
  }

  lemma {:induction false} FirstIndexNoneAt(s: string, cs: set<char>, j: int)
    requires FirstIndex(s, cs) == None && 0 <= j < |s|
    ensures s[j] !in cs
    decreases j
  {
    if j > 0 {
      assert s[j] == s[1..][j - 1];
      FirstIndexNoneAt(s[1..], cs, j - 1);
    }
  }
}

=== FILE: rewrite.dfy ===
/**
 * `re.sub` for the fixed patterns of the template scripts. A pattern is
 * given as a matcher: at a position it either fails or says where its
 * match ends and what replaces it. The substitution scans left to right,
 * takes the leftmost match, continues after it, and copies every other
 * character. None of the patterns here can match the empty text, so a
 * matcher's answer is used only when it ends after the position it starts
 * at.
 */
module Rewrite {
  import opened Wrappers
  import opened PyText

  type Matcher = (string, nat) -> Option<(nat, string)>

  /** The matcher has a non-empty match starting at `i`. */
  predicate MatchesAt(m: Matcher, s: string, i: nat) {
    i < |s| && m(s, i).Some? && i < m(s, i).value.0 <= |s|
  }

  /** The substitution from position `i` on. */
  function SubFrom(m: Matcher, s: string, i: nat): string
    requires i <= |s|
    decreases |s| - i
  {
    if i == |s| then ""
    else if MatchesAt(m, s, i) then m(s, i).value.1 + SubFrom(m, s, m(s, i).value.0)
    else [s[i]] + SubFrom(m, s, i + 1)
  }

  /** `re.sub(pattern, replacement, s)` */
  function Sub(m: Matcher, s: string): string {
    SubFrom(m, s, 0)
  }

  /** A stretch with no match is copied as it is. */
  lemma {:induction false} SubSkips(m: Matcher, s: string, i: nat, k: nat)
    requires i <= k <= |s|
    requires forall j :: i <= j < k ==> !MatchesAt(m, s, j)
    ensures SubFrom(m, s, i) == s[i..k] + SubFrom(m, s, k)
    decreases k - i
  {
    if i < k {
      assert !MatchesAt(m, s, i);
      assert SubFrom(m, s, i) == [s[i]] + SubFrom(m, s, i + 1);
      SubSkips(m, s, i + 1, k);
      assert s[i..k] == [s[i]] + s[i + 1..k];
    } else {
      assert s[i..k] == [];
    }
  }

  /** A match is replaced and the scan goes on after it. */
  lemma SubTakes(m: Matcher, s: string, i: nat)
    requires MatchesAt(m, s, i)
    ensures SubFrom(m, s, i) == m(s, i).value.1 + SubFrom(m, s, m(s, i).value.0)
  {
  }

  /** A text in which the pattern never matches is left alone. */
  lemma SubNoMatch(m: Matcher, s: string)
    requires forall k :: 0 <= k < |s| ==> !MatchesAt(m, s, k)
    ensures Sub(m, s) == s
  {
    SubSkips(m, s, 0, |s|);
    assert s[0..|s|] == s;
  }

  /** Every match of the pattern needs `key` somewhere in the text. */
  ghost predicate KeyedBy(m: Matcher, key: string) {
    forall s: string, i: nat :: MatchesAt(m, s, i) ==> Contains(s, key)
  }

  /** A text lacking the key of a pattern is left alone by it. */
  lemma SubWithoutKey(m: Matcher, key: string, s: string)
    requires KeyedBy(m, key) && !Contains(s, key)
    ensures Sub(m, s) == s
  {
    SubNoMatch(m, s);
  }

  /** The first position at or after `i` that is not whitespace (`\s*`, greedy). */
  function SkipSpace(s: string, i: nat): (j: nat)
    requires i <= |s|
    ensures i <= j <= |s|
    ensures forall k :: i <= k < j ==> IsSpace(s[k])
    ensures j < |s| ==> !IsSpace(s[j])
    decreases |s| - i
  {
    if i == |s| || !IsSpace(s[i]) then i else SkipSpace(s, i + 1)
  }

  /** The first position at or after `i` that is not an ASCII digit (`\d*`, greedy). */
  function SkipDigits(s: string, i: nat): (j: nat)
    requires i <= |s|
    ensures i <= j <= |s|
    ensures forall k :: i <= k < j ==> IsAsciiDigit(s[k])
    ensures j < |s| ==> !IsAsciiDigit(s[j])
    decreases |s| - i
  {
    if i == |s| || !IsAsciiDigit(s[i]) then i else SkipDigits(s, i + 1)
  }

  /** The first occurrence of `c` at or after `i`, or the end of the text (`[^c]*`, greedy). */
  function NextOf(s: string, c: char, i: nat): (j: nat)
    requires i <= |s|
    ensures i <= j <= |s|
    ensures forall k :: i <= k < j ==> s[k] != c
    ensures j < |s| ==> s[j] == c
    decreases |s| - i
  {
    if i == |s| || s[i] == c then i else NextOf(s, c, i + 1)
  }

  /** Whitespace from `i` up to a non-space character at `j`: the greedy skip stops exactly there. */
  lemma {:induction false} SkipSpaceLands(s: string, i: nat, j: nat)
    requires i <= j <= |s| && (forall k :: i <= k < j ==> IsSpace(s[k])) && (j < |s| ==> !IsSpace(s[j]))
    ensures SkipSpace(s, i) == j
    decreases j - i
  {
    if i < j {
      SkipSpaceLands(s, i + 1, j);
    }
  }

  lemma {:induction false} SkipDigitsLands(s: string, i: nat, j: nat)
    requires i <= j <= |s| && (forall k :: i <= k < j ==> IsAsciiDigit(s[k])) && (j < |s| ==> !IsAsciiDigit(s[j]))
    ensures SkipDigits(s, i) == j
    decreases j - i
  {
    if i < j {
      SkipDigitsLands(s, i + 1, j);
    }
  }

  lemma {:induction false} NextOfLands(s: string, c: char, i: nat, j: nat)
    requires i <= j <= |s| && (forall k :: i <= k < j ==> s[k] != c) && (j < |s| ==> s[j] == c)
    ensures NextOf(s, c, i) == j
    decreases j - i
  {
    if i < j {
      NextOfLands(s, c, i + 1, j);
    }
  }

  /** `t` appears at `i` of `s`, with ASCII and basic Cyrillic letter case aside. */
  predicate OccursAtIgnoringCase(s: string, t: string, i: nat) {
    i + |t| <= |s| && forall k :: 0 <= k < |t| ==> LowerChar(s[i + k]) == LowerChar(t[k])
  }
}

=== FILE: row_dict.dfy ===
/**
 * `dict(zip(headers, row))`: how the older importer turns a sheet row into a
 * mapping from header to cell. A Python dict keeps its keys in insertion
 * order; inserting a key equal to one already present replaces that entry's
 * value and keeps the first key object, so with a repeated header the later
 * column wins.
 */
module RowDict {
  import opened Wrappers
  import opened PyText
  import opened PyNum
  import opened Cells

  /** The entries of a dict, in insertion order. */
  type Dict = seq<(Cell, Cell)>

  /**
   * The number a numeric cell stands for when Python compares it with another
   * number: `True == 1 == 1.0`, integers and floats compare by exact value.
   */
  function NumericKey(c: Cell): (r: Option<PyFloat>)
    ensures r.Some? <==> c.Int? || c.Float? || c.Bool?
  {
    match c
    case Int(n) => Some(Finite(FromInt(n)))
    case Bool(b) => Some(Finite(FromInt(if b then 1 else 0)))
    case Float(x) => Some(Canon(x))
    case _ => None
  }

  /**
   * Key equality of two header values in a dict: `None` only equals `None`,
   * text only equal text, datetimes only equal datetimes, and numbers compare
   * by value, NaN equalling nothing (each NaN header is a distinct object).
   */
  predicate SameKey(a: Cell, b: Cell) {
    match (a, b)
    case (Empty, Empty) => true
    case (Text(s), Text(t)) => s == t
    case (Date(t), Date(u)) => t == u
    case _ => NumericKey(a).Some? && NumericKey(a) == NumericKey(b) && NumericKey(a).value != NaN
  }

  /** A text key is equal only to the same text. */
  lemma SameTextKey(a: Cell, k: string)
    ensures SameKey(a, Text(k)) <==> a == Text(k)
  {
  }

  lemma SameKeySymmetric(a: Cell, b: Cell)
    ensures SameKey(a, b) <==> SameKey(b, a)
  {
  }

  /** A `True` header and a `1` header are the same key; the later column's value is kept. */
  lemma BoolEqualsOne()
    ensures SameKey(Bool(true), Int(1)) && SameKey(Int(1), Float(Finite(Decimal(1, 0))))
    ensures !SameKey(Text("1"), Int(1))
  {
  }

  /** The first entry at or after `from` whose key equals `k`. */
  function FindFrom(d: Dict, k: Cell, from: nat): (r: Option<nat>)
    requires from <= |d|
    ensures r.Some? ==> from <= r.value < |d| && SameKey(d[r.value].0, k)
    ensures r.Some? ==> forall i :: from <= i < r.value ==> !SameKey(d[i].0, k)
    ensures r.None? ==> forall i :: from <= i < |d| ==> !SameKey(d[i].0, k)
    decreases |d| - from
  {
    if from == |d| then None
    else if SameKey(d[from].0, k) then Some(from)
    else FindFrom(d, k, from + 1)
  }

  /** The entry holding key `k`, if any. */
  function IndexOf(d: Dict, k: Cell): (r: Option<nat>)
    ensures r.Some? ==> r.value < |d| && SameKey(d[r.value].0, k)
    ensures r.Some? ==> forall i :: 0 <= i < r.value ==> !SameKey(d[i].0, k)
    ensures r.None? ==> forall i :: 0 <= i < |d| ==> !SameKey(d[i].0, k)
  {
    FindFrom(d, k, 0)
  }

  /** The first matching entry is the only answer `IndexOf` can give. */
  lemma IndexOfIs(d: Dict, k: Cell, r: Option<nat>)
    requires r.Some? ==> r.value < |d| && SameKey(d[r.value].0, k)
    requires r.Some? ==> forall i :: 0 <= i < r.value ==> !SameKey(d[i].0, k)
    requires r.None? ==> forall i :: 0 <= i < |d| ==> !SameKey(d[i].0, k)
    ensures IndexOf(d, k) == r
  {
  }

  /** `d[k] = v` */
  function Insert(d: Dict, k: Cell, v: Cell): (r: Dict)
    ensures |r| == |d| || |r| == |d| + 1
  {
    match IndexOf(d, k)
    case Some(i) => d[i := (d[i].0, v)]
    case None => d + [(k, v)]
  }

  /** `d.get(k)` for a text key: the value stored under it, if any. */
  function Get(d: Dict, k: string): Option<Cell> {
    match IndexOf(d, Text(k))
    case Some(i) => Some(d[i].1)
    case None => None
  }

  /** A text key is found exactly when some entry has it, and what is found is that entry's value. */
  lemma GetFinds(d: Dict, k: string)
    ensures Get(d, k).Some? <==> exists i :: 0 <= i < |d| && d[i].0 == Text(k)
    ensures Get(d, k).Some? ==> exists i :: 0 <= i < |d| && d[i] == (Text(k), Get(d, k).value)
  {
    match IndexOf(d, Text(k))
    case Some(i) =>
      SameTextKey(d[i].0, k);
      assert d[i] == (Text(k), Get(d, k).value);
    case None =>
      forall i | 0 <= i < |d|
        ensures d[i].0 != Text(k)
      {
        SameTextKey(d[i].0, k);
      }
  }

  /** After `d[key] = v`, reading text `k` gives `v` when `key` is that text, and the old value otherwise. */
  lemma {:induction false} GetInsert(d: Dict, key: Cell, v: Cell, k: string)
    ensures Get(Insert(d, key, v), k) == if key == Text(k) then Some(v) else Get(d, k)
  {
    var e := Insert(d, key, v);
    var t := Text(k);
    match IndexOf(d, key)
    case Some(i) =>
      assert forall j :: 0 <= j < |e| ==> e[j].0 == d[j].0;
      IndexOfIs(e, t, IndexOf(d, t));
      if key == t {
        IndexOfIs(d, t, Some(i));
      } else if IndexOf(d, t) == Some(i) {
        SameTextKey(d[i].0, k);
        SameKeySymmetric(d[i].0, key);
        SameTextKey(key, k);
      }
    case None =>
      if key == t {
        IndexOfIs(e, t, Some(|d|));
        IndexOfIs(d, t, None);
      } else {
        SameTextKey(key, k);
        IndexOfIs(e, t, IndexOf(d, t));
      }
  }

  /** The dict built from the first `n` header/cell pairs. */
  function ZipPrefix(headers: seq<Cell>, row: Row, n: nat): (r: Dict)
    requires n <= |headers| && n <= |row|
    ensures |r| <= n
  {
    if n == 0 then [] else Insert(ZipPrefix(headers, row, n - 1), headers[n - 1], row[n - 1])
  }

  /** `dict(zip(headers, row))`: `zip` stops at the shorter sequence. */
  function DictOf(headers: seq<Cell>, row: Row): (r: Dict)
    ensures |r| <= |headers| && |r| <= |row|
  {
    ZipPrefix(headers, row, if |headers| <= |row| then |headers| else |row|)
  }

  /** The last of the first `n` headers equal to the text `k`. */
  function LastHeader(headers: seq<Cell>, k: string, n: nat): (r: Option<nat>)
    requires n <= |headers|
    ensures r.Some? ==> r.value < n && headers[r.value] == Text(k)
    ensures r.Some? ==> forall j :: r.value < j < n ==> headers[j] != Text(k)
    ensures r.None? ==> forall j :: 0 <= j < n ==> headers[j] != Text(k)
  {
    if n == 0 then None
    else if headers[n - 1] == Text(k) then Some(n - 1)
    else LastHeader(headers, k, n - 1)
  }

  lemma {:induction false} GetZipPrefix(headers: seq<Cell>, row: Row, n: nat, k: string)
    requires n <= |headers| && n <= |row|
    ensures Get(ZipPrefix(headers, row, n), k) ==
      match LastHeader(headers, k, n)
      case Some(j) => Some(row[j])
      case None => None
  {
    if n > 0 {
      GetZipPrefix(headers, row, n - 1, k);
      GetInsert(ZipPrefix(headers, row, n - 1), headers[n - 1], row[n - 1], k);
    }
  }

  /**
   * Reading a header from the row's dict gives the cell under the LAST column
   * carrying that header, among the columns both the header row and the row
   * reach; a header no such column carries is absent.
   */
  lemma GetDictOf(headers: seq<Cell>, row: Row, k: string)
    ensures var n := if |headers| <= |row| then |headers| else |row|;
      Get(DictOf(headers, row), k) ==
        match LastHeader(headers, k, n)
        case Some(j) => Some(row[j])
        case None => None
  {
    GetZipPrefix(headers, row, if |headers| <= |row| then |headers| else |row|, k);
  }

  /** With a repeated header, the value read is the one from the later column. */
  lemma LaterDuplicateWins(headers: seq<Cell>, row: Row, k: string, i: nat, j: nat)
    requires i < j < |headers| && j < |row|
    requires headers[i] == Text(k) && headers[j] == Text(k)
    requires forall l :: j < l < |headers| && l < |row| ==> headers[l] != Text(k)
    ensures Get(DictOf(headers, row), k) == Some(row[j])
  {
    GetDictOf(headers, row, k);
  }

  /** `data.get(k)`: the cell under header `k`, `None` when there is none. */
  function Value(d: Dict, k: string): Cell {
    match Get(d, k)
    case Some(c) => c
    case None => Empty
  }

  /** `data.get(k, default)` */
  function ValueOr(d: Dict, k: string, default: Cell): Cell {
    match Get(d, k)
    case Some(c) => c
    case None => default
  }

  /** `a or b` on two cell values: the first when it is truthy, else the second. */
  function Or(a: Cell, b: Cell): (r: Cell)
    ensures Truthy(r) <==> Truthy(a) || Truthy(b)
    ensures r == a || r == b
  {
    if Truthy(a) then a else b
  }

  /** `or` is associative, so a chain of alias lookups has one meaning however it is grouped. */
  lemma OrAssociative(a: Cell, b: Cell, c: Cell)
    ensures Or(Or(a, b), c) == Or(a, Or(b, c))
  {
  }

  /** A value the importer counts as empty: `None`, or text that strips to nothing. */
  predicate EmptyValue(c: Cell) {
    c == Empty || (c.Text? && Strip(c.s) == "")
  }

  /** The keys whose value is empty, in the dict's order. */
  function EmptyKeys(d: Dict): (r: seq<Cell>)
    ensures |r| <= |d|
  {
    if |d| == 0 then []
    else (if EmptyValue(d[0].1) then [d[0].0] else []) + EmptyKeys(d[1..])
  }

  /** The empty-field list names exactly the keys whose value is empty. */
  lemma {:induction false} EmptyKeysMembers(d: Dict, k: Cell)
    ensures k in EmptyKeys(d) <==> exists i :: 0 <= i < |d| && d[i].0 == k && EmptyValue(d[i].1)
    decreases |d|
  {
    if |d| > 0 {
      EmptyKeysMembers(d[1..], k);
      if exists i :: 0 <= i < |d| && d[i].0 == k && EmptyValue(d[i].1) {
        var i :| 0 <= i < |d| && d[i].0 == k && EmptyValue(d[i].1);
        if i > 0 {
          assert d[1..][i - 1] == d[i];
        }
      }
      if exists i :: 0 <= i < |d[1..]| && d[1..][i].0 == k && EmptyValue(d[1..][i].1) {
        var i :| 0 <= i < |d[1..]| && d[1..][i].0 == k && EmptyValue(d[1..][i].1);
        assert d[i + 1] == d[1..][i];
      }
    }
  }
}

=== FILE: schema.dfy ===
/**
 * The database records: an organization keyed by its INN, owning five kinds
 * of child records. Ownership is structural here (children live inside their
 * organization), which is what the ON DELETE CASCADE foreign keys and the
 * delete-orphan relationships guarantee of the tables.
 */
module Schema {
  import opened Wrappers
  import opened PyNum
  import opened Calendar

  /** The organization's optional text columns, in table order. */
  datatype OrgText =
    | FullName | StatusSpark | StatusInternal | StatusFinal
    | LegalAddress | ProductionAddress | AdditionalAddress
    | MainIndustry | MainSubindustry | ExtraIndustry | ExtraSubindustry
    | MainOkved | MainOkvedName | ProdOkved | ProdOkvedName
    | CompanyInfo | CompanySize | CompanySize2022 | SizeByEmployees | SizeByEmployees2022
    | SizeByRevenue | SizeByRevenue2022
    | HeadName | ParentOrgName | ParentOrgInn | ParentRelationType
    | HeadContacts | HeadEmail | EmployeeContact | Phone | EmergencyContact
    | Website | Email | SupportData | SpecialStatus | SiteFinal | MspStatus
    | LegalAddressCoords | ProductionAddressCoords | AdditionalAddressCoords
    | District | Region

  /** The declared `String(n)` width of a text column; `None` for unbounded `Text` columns. */
  function TextWidth(f: OrgText): (r: Option<nat>)
    ensures r.None? <==> f == CompanyInfo || f == SupportData
    ensures r.Some? ==> 12 <= r.value <= 1000
  {
    match f
    case FullName => Some(1000)
    case StatusSpark => Some(200)
    case StatusInternal => Some(200)
    case StatusFinal => Some(200)
    case LegalAddress => Some(1000)
    case ProductionAddress => Some(1000)
    case AdditionalAddress => Some(1000)
    case MainIndustry => Some(200)
    case MainSubindustry => Some(200)
    case ExtraIndustry => Some(200)
    case ExtraSubindustry => Some(200)
    case MainOkved => Some(100)
    case MainOkvedName => Some(200)
    case ProdOkved => Some(100)
    case ProdOkvedName => Some(200)
    case CompanyInfo => None
    case CompanySize => Some(100)
    case CompanySize2022 => Some(100)
    case SizeByEmployees => Some(100)
    case SizeByEmployees2022 => Some(100)
    case SizeByRevenue => Some(100)
    case SizeByRevenue2022 => Some(100)
    case HeadName => Some(200)
    case ParentOrgName => Some(500)
    case ParentOrgInn => Some(12)
    case ParentRelationType => Some(200)
    case HeadContacts => Some(500)
    case HeadEmail => Some(200)
    case EmployeeContact => Some(500)
    case Phone => Some(100)
    case EmergencyContact => Some(500)
    case Website => Some(300)
    case Email => Some(200)
    case SupportData => None
    case SpecialStatus => Some(200)
    case SiteFinal => Some(200)
    case MspStatus => Some(100)
    case LegalAddressCoords => Some(200)
    case ProductionAddressCoords => Some(200)
    case AdditionalAddressCoords => Some(200)
    case District => Some(200)
    case Region => Some(200)
  }

  const InnWidth := 12
  const NameWidth := 500

  /** One year of financial figures; several may share a year (the year index is not unique). */
  datatype Metrics = Metrics(
    year: int,
    revenue: Option<PyFloat>,
    profit: Option<PyFloat>,
    totalEmployees: Option<int>,
    moscowEmployees: Option<int>,
    totalFot: Option<PyFloat>,
    moscowFot: Option<PyFloat>,
    avgSalaryTotal: Option<PyFloat>,
    avgSalaryMoscow: Option<PyFloat>,
    investments: Option<PyFloat>,
    exportVolume: Option<PyFloat>)

  /** One year of taxes paid to Moscow: eight amounts. */
  datatype Taxes = Taxes(
    year: int,
    totalTaxesMoscow: Option<PyFloat>,
    profitTax: Option<PyFloat>,
    propertyTax: Option<PyFloat>,
    landTax: Option<PyFloat>,
    ndfl: Option<PyFloat>,
    transportTax: Option<PyFloat>,
    otherTaxes: Option<PyFloat>,
    excise: Option<PyFloat>)

  datatype Assets = Assets(
    cadastralNumberLand: Option<string>,
    landArea: Option<PyFloat>,
    landUsage: Option<string>,
    landOwnershipType: Option<string>,
    landOwner: Option<string>,
    cadastralNumberBuilding: Option<string>,
    buildingArea: Option<PyFloat>,
    buildingUsage: Option<string>,
    buildingType: Option<string>,
    buildingPurpose: Option<string>,
    buildingOwnershipType: Option<string>,
    buildingOwner: Option<string>,
    productionArea: Option<PyFloat>,
    propertySummary: Option<string>)

  datatype Products = Products(
    productName: Option<string>,
    standardizedProduct: Option<string>,
    okpd2Codes: Option<string>,
    productTypes: Option<string>,
    productCatalog: Option<string>,
    hasGovernmentOrders: bool,
    capacityUsage: Option<string>,
    hasExport: bool,
    exportVolumeLastYear: Option<PyFloat>,
    exportCountries: Option<string>,
    tnvedCode: Option<string>)

  datatype Meta = Meta(
    industrySpark: Option<string>,
    industryDirectory: Option<string>,
    presentationLinks: Option<string>,
    registryDevelopment: Option<string>,
    otherNotes: Option<string>)

  /** An organization with the children it owns. A text column absent from `text` is NULL. */
  datatype Organization = Organization(
    inn: string,
    name: Option<string>,
    text: map<OrgText, string>,
    dateAdded: Option<PyDateTime>,
    registrationDate: Option<PyDateTime>,
    gotMoscowSupport: bool,
    isSystemCritical: bool,
    coordinatesLat: Option<PyFloat>,
    coordinatesLon: Option<PyFloat>,
    metrics: seq<Metrics>,
    taxes: seq<Taxes>,
    assets: seq<Assets>,
    products: seq<Products>,
    meta: seq<Meta>)
  {
    /** The organization's own columns, without its children. */
    function Descriptive(): Organization {
      this.(metrics := [], taxes := [], assets := [], products := [], meta := [])
    }
  }

  /** The table, keyed by the unique INN. */
  type Store = map<string, Organization>

  predicate KeyedByInn(s: Store) {
    forall k :: k in s ==> s[k].inn == k
  }

  /** An `Integer` column holds a signed 32-bit value. */
  predicate IsInt32(n: int) { -0x8000_0000 <= n < 0x8000_0000 }

  predicate FitsOpt(v: Option<string>, w: nat) { v.None? || |v.value| <= w }

  predicate MetricsStorable(m: Metrics) {
    IsInt32(m.year)
    && (m.totalEmployees.None? || IsInt32(m.totalEmployees.value))
    && (m.moscowEmployees.None? || IsInt32(m.moscowEmployees.value))
  }

  /**
   * What the table accepts: a non-null INN and name within their widths, text
   * within each column's width, employee counts and years in range.
   */
  predicate Storable(o: Organization) {
    |o.inn| <= InnWidth
    && o.name.Some? && |o.name.value| <= NameWidth
    && (forall f :: f in o.text && TextWidth(f).Some? ==> |o.text[f]| <= TextWidth(f).value)
    && (forall m :: m in o.metrics ==> MetricsStorable(m))
    && (forall t :: t in o.taxes ==> IsInt32(t.year))
  }
}

=== FILE: series.dfy ===
/**
 * The year loops of the newer importer: read each year of a series in turn,
 * keep the record when it holds a value, and stop at the first read that
 * raises. Whatever was kept before the failure stays kept.
 */
module YearSeries {
  import opened Wrappers
  import opened PyErrors

  /** The records of `s` that `keep` accepts, in order. */
  function Kept<T>(s: seq<T>, keep: T -> bool): (r: seq<T>)
    ensures |r| <= |s|
  {
    if |s| == 0 then [] else (if keep(s[0]) then [s[0]] else []) + Kept(s[1..], keep)
  }

  /** What `Kept` keeps: every element it returns is accepted, and it drops only rejected ones. */
  lemma {:induction false} KeptMembers<T>(s: seq<T>, keep: T -> bool)
    ensures forall x :: x in Kept(s, keep) ==> x in s && keep(x)
    ensures forall i :: 0 <= i < |s| && keep(s[i]) ==> s[i] in Kept(s, keep)
    decreases |s|
  {
    if |s| > 0 {
      KeptMembers(s[1..], keep);
      forall i | 0 <= i < |s| && keep(s[i])
        ensures s[i] in Kept(s, keep)
      {
        if i > 0 {
          assert s[i] == s[1..][i - 1];
        }
      }
    }
  }

  lemma {:induction false} KeptAppend<T>(a: seq<T>, b: seq<T>, keep: T -> bool)
    ensures Kept(a + b, keep) == Kept(a, keep) + Kept(b, keep)
    decreases |a|
  {
    if |a| == 0 {
      assert a + b == b;
    } else {
      var head := if keep(a[0]) then [a[0]] else [];
      assert (a + b)[0] == a[0];
      assert (a + b)[1..] == a[1..] + b;
      assert Kept(a + b, keep) == head + Kept(a[1..] + b, keep);
      KeptAppend(a[1..], b, keep);
      assert Kept(a, keep) == head + Kept(a[1..], keep);
      assert head + (Kept(a[1..], keep) + Kept(b, keep)) == (head + Kept(a[1..], keep)) + Kept(b, keep);
    }
  }

  /** The records read for years `lo` up to (not including) `hi`, all of which read without error. */
  function ReadAll<T>(read: nat -> Result<T, Exception>, lo: nat, hi: nat): (r: seq<T>)
    requires lo <= hi
    requires forall i :: lo <= i < hi ==> read(i).Ok?
    ensures |r| == hi - lo
    ensures forall i :: 0 <= i < |r| ==> r[i] == read(lo + i).value
    decreases hi - lo
  {
    if lo == hi then [] else [read(lo).value] + ReadAll(read, lo + 1, hi)
  }

  /**
   * The loop over years `yi` to `n - 1`: each year's record is added to `acc`
   * when `keep` accepts it; the first read that raises ends the loop with its
   * exception, keeping what was added so far.
   */
  function AddYears<T>(acc: seq<T>, read: nat -> Result<T, Exception>, keep: T -> bool, yi: nat, n: nat)
    : (r: (seq<T>, Option<Exception>))
    ensures r.1.Some? <==> exists i :: yi <= i < n && read(i).Err?
    decreases n - yi
  {
    if yi >= n then (acc, None)
    else match read(yi)
      case Err(e) => (acc, Some(e))
      case Ok(x) =>
        var r := AddYears(if keep(x) then acc + [x] else acc, read, keep, yi + 1, n);
        assert r.1.Some? ==> exists i :: yi <= i < n && read(i).Err?;
        r
  }

  /**
   * Up to the first failing year `f` (or `n` when none fails), the loop adds
   * exactly the kept records of the years it read, after what was there.
   */
  lemma {:induction false} AddYearsUpTo<T>(acc: seq<T>, read: nat -> Result<T, Exception>, keep: T -> bool,
                                          yi: nat, f: nat, n: nat)
    requires yi <= f <= n
    requires forall i :: yi <= i < f ==> read(i).Ok?
    requires f == n || read(f).Err?
    ensures AddYears(acc, read, keep, yi, n).0 == acc + Kept(ReadAll(read, yi, f), keep)
    ensures AddYears(acc, read, keep, yi, n).1 == if f == n then None else Some(read(f).error)
    decreases n - yi
  {
    if yi == f {
      assert ReadAll(read, yi, f) == [];
      assert acc + [] == acc;
    } else {
      var x := read(yi).value;
      var acc' := if keep(x) then acc + [x] else acc;
      AddYearsUpTo(acc', read, keep, yi + 1, f, n);
      assert ReadAll(read, yi, f) == [x] + ReadAll(read, yi + 1, f);
      KeptAppend([x], ReadAll(read, yi + 1, f), keep);
      assert Kept([x], keep) == if keep(x) then [x] else [] by {
        assert [x][1..] == [];
      }
    }
  }
}

=== FILE: style_cleanup.dfy ===
/**
 * The style clean-up of the templates, four substitutions in a row:
 * `border-radius` declarations go together with the whitespace around
 * them, a linear-gradient background becomes the solid accent colour,
 * `transform: translateY…` declarations go, and a box shadow of the form
 * `0 Npx Mpx …;` becomes one fixed light shadow. The landing page is
 * skipped; any other template is written back only when the text changed.
 */
module StyleCleanup {
  import opened Wrappers
  import opened PyText
  import opened Rewrite

  const RadiusProperty := "border-radius:"
  const BackgroundProperty := "background:"
  const GradientFunction := "linear-gradient("
  const SolidBackground := "background: var(--accent-dark);"
  const TransformProperty := "transform:"
  const TranslateFunction := "translateY"
  const ShadowProperty := "box-shadow:"
  const PlainShadow := "box-shadow: 0 1px 3px rgba(0, 0, 0, 0.1);"
  const SkippedTemplate := "index.html"

  /** Past a value that stops at `r`: over a `;` there, then over whitespace (`;?\s*\n?`). */
  function Past(s: string, r: nat): (e: nat)
    requires r <= |s|
    ensures r <= e <= |s|
  {
    SkipSpace(s, if r < |s| && s[r] == ';' then r + 1 else r)
  }

  /** `\s*border-radius:\s*[^;]+;?\s*\n?`, replaced by nothing. */
  function RadiusAt(s: string, i: nat): (r: Option<(nat, string)>)
    ensures r.Some? ==> i <= |s| && OccursAt(s, RadiusProperty, SkipSpace(s, i))
    ensures r.Some? ==> r.value.1 == "" && SkipSpace(s, i) + |RadiusProperty| < r.value.0 <= |s|
  {
    if i <= |s| && OccursAt(s, RadiusProperty, SkipSpace(s, i)) then
      var q := SkipSpace(s, i) + |RadiusProperty|;
      if q < |s| && s[q] != ';' then Some((Past(s, NextOf(s, ';', q)), "")) else None
    else None
  }

  /** `background:\s*linear-gradient\([^)]+\);?`, replaced by the solid accent background. */
  function GradientAt(s: string, i: nat): (r: Option<(nat, string)>)
    ensures r.Some? ==> (OccursAt(s, BackgroundProperty, i)
                         && OccursAt(s, GradientFunction, SkipSpace(s, i + |BackgroundProperty|)))
    ensures r.Some? ==> r.value.1 == SolidBackground && i < r.value.0 <= |s|
  {
    if OccursAt(s, BackgroundProperty, i) && OccursAt(s, GradientFunction, SkipSpace(s, i + |BackgroundProperty|)) then
      var q := SkipSpace(s, i + |BackgroundProperty|) + |GradientFunction|;
      if q < |s| && s[q] != ')' then
        var c := NextOf(s, ')', q);
        if c < |s| then Some((if c + 1 < |s| && s[c + 1] == ';' then c + 2 else c + 1, SolidBackground))
        else None
      else None
    else None
  }

  /** `\s*transform:\s*translateY[^;]+;?\s*\n?`, replaced by nothing. */
  function TranslateAt(s: string, i: nat): (r: Option<(nat, string)>)
    ensures r.Some? ==> i <= |s| && OccursAt(s, TransformProperty, SkipSpace(s, i))
    ensures r.Some? ==> r.value.1 == "" && i < r.value.0 <= |s|
  {
    if i <= |s| && OccursAt(s, TransformProperty, SkipSpace(s, i)) then
      TranslateValue(s, SkipSpace(s, SkipSpace(s, i) + |TransformProperty|))
    else None
  }

  /** The value from `k` on: `translateY`, then at least one character other than `;`, up to the first `;`. */
  function TranslateValue(s: string, k: nat): (r: Option<(nat, string)>)
    requires k <= |s|
    ensures r.Some? ==> r.value.1 == "" && k < r.value.0 <= |s|
  {
    if OccursAt(s, TranslateFunction, k) && k + |TranslateFunction| < |s| && s[k + |TranslateFunction|] != ';' then
      Some((Past(s, NextOf(s, ';', k + |TranslateFunction|)), ""))
    else None
  }

  /** `\s+\d+px`: where a length after at least one whitespace character ends. */
  function LengthAt(s: string, i: nat): (r: Option<nat>)
    requires i <= |s|
    ensures r.Some? ==> i + 3 < r.value <= |s|
  {
    var k := SkipSpace(s, i);
    var d := SkipDigits(s, k);
    if i < k < d && OccursAt(s, "px", d) then Some(d + 2) else None
  }

  /** `box-shadow:\s*0\s+\d+px\s+\d+px[^;]+;`, replaced by the fixed shadow. */
  function ShadowAt(s: string, i: nat): (r: Option<(nat, string)>)
    ensures r.Some? ==> OccursAt(s, ShadowProperty, i)
    ensures r.Some? ==> r.value.1 == PlainShadow && i < r.value.0 <= |s| && s[r.value.0 - 1] == ';'
  {
    if OccursAt(s, ShadowProperty, i) then
      match ShadowEnd(s, SkipSpace(s, i + |ShadowProperty|))
      case Some(e) => Some((e, PlainShadow))
      case None => None
    else None
  }

  /** The shadow's value from `j` on: `0`, two lengths, then at least one character other than `;` and a `;`. */
  function ShadowEnd(s: string, j: nat): (r: Option<nat>)
    requires j <= |s|
    ensures r.Some? ==> j < r.value <= |s| && s[r.value - 1] == ';'
  {
    if j < |s| && s[j] == '0' then
      match LengthAt(s, j + 1)
      case None => None
      case Some(x) =>
        match LengthAt(s, x)
        case None => None
        case Some(q) => ShadowRest(s, q)
    else None
  }

  /** What the pattern's `[^;]+;` decides on from `q` on. */
  function ShadowRest(s: string, q: nat): (r: Option<nat>)
    requires q <= |s|
    ensures r.Some? ==> q < r.value <= |s| && s[r.value - 1] == ';'
  {
    if q < |s| && s[q] != ';' && NextOf(s, ';', q) < |s| then Some(NextOf(s, ';', q) + 1) else None
  }

  lemma MatchersKeyed()
    ensures KeyedBy(RadiusAt, RadiusProperty) && KeyedBy(GradientAt, GradientFunction)
    ensures KeyedBy(TranslateAt, TransformProperty) && KeyedBy(ShadowAt, ShadowProperty)
  {
    forall s: string, i: nat | MatchesAt(RadiusAt, s, i) ensures Contains(s, RadiusProperty) {
      ContainsAt(s, RadiusProperty, SkipSpace(s, i));
    }
    forall s: string, i: nat | MatchesAt(GradientAt, s, i) ensures Contains(s, GradientFunction) {
      ContainsAt(s, GradientFunction, SkipSpace(s, i + |BackgroundProperty|));
    }
    forall s: string, i: nat | MatchesAt(TranslateAt, s, i) ensures Contains(s, TransformProperty) {
      ContainsAt(s, TransformProperty, SkipSpace(s, i));
    }
    forall s: string, i: nat | MatchesAt(ShadowAt, s, i) ensures Contains(s, ShadowProperty) {
      ContainsAt(s, ShadowProperty, i);
    }
  }

  /** `clean_styles` */
  function CleanStyles(content: string): string {
    Sub(ShadowAt, Sub(TranslateAt, Sub(GradientAt, Sub(RadiusAt, content))))
  }

  /** A template naming none of the four declarations is left alone. */
  lemma CleanStylesNeedsKeys(content: string)
    requires !Contains(content, RadiusProperty) && !Contains(content, GradientFunction)
    requires !Contains(content, TransformProperty) && !Contains(content, ShadowProperty)
    ensures CleanStyles(content) == content
  {
    MatchersKeyed();
    SubWithoutKey(RadiusAt, RadiusProperty, content);
    SubWithoutKey(GradientAt, GradientFunction, content);
    SubWithoutKey(TranslateAt, TransformProperty, content);
    SubWithoutKey(ShadowAt, ShadowProperty, content);
  }

  /**
   * A `border-radius` declaration is removed together with the whitespace
   * before it, the `;` if there is one, and all whitespace after it,
   * newlines included. The value runs to the first `;` (or the end of the
   * text), so a value missing its `;` takes the following declaration with
   * it.
   */
  lemma RadiusRemoved(s: string, i: nat, j: nat, r: nat)
    requires OccursAt(s, RadiusProperty, j) && i <= j && (forall k :: i <= k < j ==> IsSpace(s[k]))
    requires j + |RadiusProperty| < r <= |s| && (r < |s| ==> s[r] == ';')
    requires forall k :: j + |RadiusProperty| <= k < r ==> s[k] != ';'
    ensures SubFrom(RadiusAt, s, i) == SubFrom(RadiusAt, s, Past(s, r))
  {
    SkipSpaceLands(s, i, j);
    NextOfLands(s, ';', j + |RadiusProperty|, r);
    assert RadiusAt(s, i) == Some((Past(s, r), ""));
    SubTakes(RadiusAt, s, i);
  }

  /** `border-radius:` with nothing before the `;` is not a match and stays. */
  lemma EmptyRadiusKept(s: string, i: nat)
    requires i <= |s| && OccursAt(s, RadiusProperty, SkipSpace(s, i))
    requires SkipSpace(s, i) + |RadiusProperty| == |s| || s[SkipSpace(s, i) + |RadiusProperty|] == ';'
    ensures !MatchesAt(RadiusAt, s, i)
  {
  }

  /**
   * A linear-gradient background becomes the solid accent background. The
   * arguments end at the first `)`, so one that holds a colour function
   * leaves the rest of the gradient behind.
   */
  lemma GradientReplaced(s: string, i: nat, j: nat, c: nat)
    requires OccursAt(s, BackgroundProperty, i) && OccursAt(s, GradientFunction, j)
    requires i + |BackgroundProperty| <= j && (forall k :: i + |BackgroundProperty| <= k < j ==> IsSpace(s[k]))
    requires j + |GradientFunction| < c < |s| && s[c] == ')'
    requires forall k :: j + |GradientFunction| <= k < c ==> s[k] != ')'
    ensures SubFrom(GradientAt, s, i)
         == SolidBackground + SubFrom(GradientAt, s, if c + 1 < |s| && s[c + 1] == ';' then c + 2 else c + 1)
  {
    GradientMatches(s, i, j, c);
    SubTakes(GradientAt, s, i);
  }

  lemma GradientMatches(s: string, i: nat, j: nat, c: nat)
    requires OccursAt(s, BackgroundProperty, i) && OccursAt(s, GradientFunction, j)
    requires i + |BackgroundProperty| <= j && (forall k :: i + |BackgroundProperty| <= k < j ==> IsSpace(s[k]))
    requires j + |GradientFunction| < c < |s| && s[c] == ')'
    requires forall k :: j + |GradientFunction| <= k < c ==> s[k] != ')'
    ensures GradientAt(s, i) == Some((if c + 1 < |s| && s[c + 1] == ';' then c + 2 else c + 1, SolidBackground))
  {
    assert !IsSpace(s[j]) by { assert s[j] == s[j..j + |GradientFunction|][0]; }
    SkipSpaceLands(s, i + |BackgroundProperty|, j);
    NextOfLands(s, ')', j + |GradientFunction|, c);
  }

  /** A gradient with no closing `)` is not a match. */
  lemma UnclosedGradientKept(s: string, i: nat, j: nat)
    requires OccursAt(s, BackgroundProperty, i) && j == SkipSpace(s, i + |BackgroundProperty|)
    requires OccursAt(s, GradientFunction, j)
    requires forall k :: j + |GradientFunction| <= k < |s| ==> s[k] != ')'
    ensures !MatchesAt(GradientAt, s, i)
  {
    NextOfLands(s, ')', j + |GradientFunction|, |s|);
  }

  /** A `transform: translateY…` declaration goes like a border radius, with the whitespace around it. */
  lemma TranslateRemoved(s: string, i: nat, j: nat, k: nat, r: nat)
    requires OccursAt(s, TransformProperty, j) && OccursAt(s, TranslateFunction, k)
    requires i <= j && (forall x :: i <= x < j ==> IsSpace(s[x]))
    requires j + |TransformProperty| <= k && (forall x :: j + |TransformProperty| <= x < k ==> IsSpace(s[x]))
    requires k + |TranslateFunction| < r <= |s| && (r < |s| ==> s[r] == ';')
    requires forall x :: k + |TranslateFunction| <= x < r ==> s[x] != ';'
    ensures TranslateAt(s, i) == Some((Past(s, r), "")) && MatchesAt(TranslateAt, s, i)
  {
    assert !IsSpace(s[j]) by { assert s[j] == s[j..j + |TransformProperty|][0]; }
    assert !IsSpace(s[k]) by { assert s[k] == s[k..k + |TranslateFunction|][0]; }
    SkipSpaceLands(s, i, j);
    SkipSpaceLands(s, j + |TransformProperty|, k);
    NextOfLands(s, ';', k + |TranslateFunction|, r);
    TranslateSteps(s, i, j, k, r);
  }

  lemma TranslateSteps(s: string, i: nat, j: nat, k: nat, r: nat)
    requires i <= j <= |s| && SkipSpace(s, i) == j && OccursAt(s, TransformProperty, j)
    requires SkipSpace(s, j + |TransformProperty|) == k && OccursAt(s, TranslateFunction, k)
    requires k + |TranslateFunction| < r <= |s| && s[k + |TranslateFunction|] != ';'
    requires NextOf(s, ';', k + |TranslateFunction|) == r
    ensures TranslateAt(s, i) == Some((Past(s, r), ""))
  {
    assert TranslateValue(s, k) == Some((Past(s, r), ""));
  }

  /** Whitespace, digits and `px` from `i` on: a length as the shadow pattern reads it. */
  predicate LengthBetween(s: string, i: nat, k: nat, d: nat) {
    i < k < d && OccursAt(s, "px", d)
    && (forall x :: i <= x < k ==> IsSpace(s[x])) && (forall x :: k <= x < d ==> IsAsciiDigit(s[x]))
  }

  lemma LengthLands(s: string, i: nat, k: nat, d: nat)
    requires LengthBetween(s, i, k, d)
    ensures LengthAt(s, i) == Some(d + 2)
  {
    assert IsAsciiDigit(s[k]);
    assert !IsSpace(s[k]);
    SkipSpaceLands(s, i, k);
    assert s[d..d + 2] == "px";
    assert s[d] == s[d..d + 2][0] == 'p';
    SkipDigitsLands(s, k, d);
  }

  /** Once the `0` and both lengths are found, what follows them alone decides the match. */
  lemma ShadowSteps(s: string, i: nat, j: nat, x: nat, q: nat)
    requires OccursAt(s, ShadowProperty, i) && SkipSpace(s, i + |ShadowProperty|) == j
    requires j < |s| && s[j] == '0' && LengthAt(s, j + 1) == Some(x) && LengthAt(s, x) == Some(q)
    ensures ShadowRest(s, q).Some? ==> ShadowAt(s, i) == Some((ShadowRest(s, q).value, PlainShadow))
    ensures ShadowRest(s, q).None? ==> ShadowAt(s, i).None?
  {
  }

  /**
   * `box-shadow:` then `0`, two lengths in pixels, something other than
   * `;`, and a `;` becomes the fixed shadow; the shadow's own colour and
   * any further values go with it.
   */
  lemma ShadowNormalised(s: string, i: nat, j: nat, x: nat, q: nat, c: nat)
    requires OccursAt(s, ShadowProperty, i) && SkipSpace(s, i + |ShadowProperty|) == j
    requires j < |s| && s[j] == '0' && LengthAt(s, j + 1) == Some(x) && LengthAt(s, x) == Some(q)
    requires q < c < |s| && s[c] == ';' && forall y :: q <= y < c ==> s[y] != ';'
    ensures MatchesAt(ShadowAt, s, i) && ShadowAt(s, i) == Some((c + 1, PlainShadow))
  {
    ShadowSteps(s, i, j, x, q);
    NextOfLands(s, ';', q, c);
    assert ShadowRest(s, q) == Some(c + 1);
  }

  /** A shadow with nothing between its second length and the `;` is not a match. */
  lemma BareShadowKept(s: string, i: nat, j: nat, x: nat, q: nat)
    requires OccursAt(s, ShadowProperty, i) && SkipSpace(s, i + |ShadowProperty|) == j
    requires j < |s| && s[j] == '0' && LengthAt(s, j + 1) == Some(x) && LengthAt(s, x) == Some(q)
    requires q == |s| || s[q] == ';'
    ensures !MatchesAt(ShadowAt, s, i)
  {
    ShadowSteps(s, i, j, x, q);
  }

  /** `process_template` as the script drives it: the landing page is never touched, other pages are written only when changed. */
  function CleanTemplate(name: string, content: string): (r: Option<string>)
    ensures name == SkippedTemplate ==> r.None?
    ensures name != SkippedTemplate ==> (r.Some? <==> CleanStyles(content) != content)
    ensures r.Some? ==> r.value == CleanStyles(content)
  {
    if name == SkippedTemplate then None
    else
      var cleaned := CleanStyles(content);
      if cleaned != content then Some(cleaned) else None
  }
}

=== FILE: template_update.dfy ===
/**
 * The template refresh: fourteen emoji, each followed by a space, are
 * deleted, and the shared stylesheet link is added after the title of a
 * page that has a head section but no link yet. The style patterns the
 * script also declares are never applied. A template is written back only
 * when the text changed.
 */
module TemplateUpdate {
  import opened Wrappers
  import opened PyText

  /** The deleted keys, in the table's order: each is an emoji and one space. */
  const EmojiKeys: seq<string> := [
    "\U{1F4CA} ", "\U{1F4E4} ", "\U{1F4CB} ", "\U{1F3E0} ", "\U{270F}\U{FE0F} ", "\U{1F3ED} ", "\U{2705} ",
    "\U{274C} ", "\U{1F4C1} ", "\U{1F4BC} ", "\U{1F4C8} ", "\U{1F4B0} ", "\U{1F465} ", "\U{1F31F} "]

  /** `s.replace(key, '')` for each key in turn. */
  function DeleteKeys(s: string, keys: seq<string>): (r: string)
    requires forall k :: 0 <= k < |keys| ==> |keys[k]| > 0
    ensures |r| <= |s|
    decreases |keys|
  {
    if |keys| == 0 then s
    else
      ReplaceAllDeletes(s, keys[0]);
      DeleteKeys(ReplaceAll(s, keys[0], ""), keys[1..])
  }

  /** Some key occurs in the text. */
  predicate AnyOccurs(s: string, keys: seq<string>) {
    exists k :: 0 <= k < |keys| && Contains(s, keys[k])
  }

  /** The deletion leaves the text as it is exactly when no key occurs in it. */
  lemma {:induction false} DeleteKeysUnchangedIff(s: string, keys: seq<string>)
    requires forall k :: 0 <= k < |keys| ==> |keys[k]| > 0
    ensures DeleteKeys(s, keys) == s <==> !AnyOccurs(s, keys)
    decreases |keys|
  {
    if |keys| > 0 {
      var t := ReplaceAll(s, keys[0], "");
      ReplaceAllDeletes(s, keys[0]);
      if Contains(s, keys[0]) {
        assert |DeleteKeys(s, keys)| < |s|;
      } else {
        ReplaceAllAbsent(s, keys[0], "");
        DeleteKeysUnchangedIff(s, keys[1..]);
        assert AnyOccurs(s, keys[1..]) <==> AnyOccurs(s, keys) by {
          if AnyOccurs(s, keys[1..]) {
            var k :| 0 <= k < |keys[1..]| && Contains(s, keys[1..][k]);
            assert keys[k + 1] == keys[1..][k];
          }
          if AnyOccurs(s, keys) {
            var k :| 0 <= k < |keys| && Contains(s, keys[k]);
            assert k != 0;
            assert keys[1..][k - 1] == keys[k];
          }
        }
      }
    }
  }

  /** Every key is non-empty, starts at or above U+2705 and ends in a space. */
  lemma KeysShape()
    ensures forall k :: 0 <= k < |EmojiKeys| ==> |EmojiKeys[k]| > 1
    ensures forall k :: 0 <= k < |EmojiKeys| ==> EmojiKeys[k][0] >= '\U{2705}' && EmojiKeys[k][|EmojiKeys[k]| - 1] == ' '
  {
  }

  /** The emoji deletion of the refresh. */
  function DeleteEmoji(s: string): string {
    KeysShape();
    DeleteKeys(s, EmojiKeys)
  }

  /** Keys ending in a character the text lacks leave it unchanged. */
  lemma NoKeyEndsInside(s: string, keys: seq<string>, last: char)
    requires forall k :: 0 <= k < |keys| ==> |keys[k]| > 0 && keys[k][|keys[k]| - 1] == last
    requires forall i :: 0 <= i < |s| ==> s[i] != last
    ensures DeleteKeys(s, keys) == s
  {
    forall k, i | 0 <= k < |keys| && 0 <= i <= |s| - |keys[k]| ensures !OccursAt(s, keys[k], i) {
      assert s[i..i + |keys[k]|][|keys[k]| - 1] == s[i + |keys[k]| - 1];
    }
    DeleteKeysUnchangedIff(s, keys);
  }

  /** Keys starting at or above `bound` leave a text written below it unchanged. */
  lemma NoKeyStartsInside(s: string, keys: seq<string>, bound: char)
    requires forall k :: 0 <= k < |keys| ==> |keys[k]| > 0 && keys[k][0] >= bound
    requires forall i :: 0 <= i < |s| ==> s[i] < bound
    ensures DeleteKeys(s, keys) == s
  {
    forall k, i | 0 <= k < |keys| && 0 <= i <= |s| - |keys[k]| ensures !OccursAt(s, keys[k], i) {
      assert s[i..i + |keys[k]|][0] == s[i];
    }
    DeleteKeysUnchangedIff(s, keys);
  }

  /** An emoji that no space follows stays: a text without spaces loses nothing. */
  lemma EmojiWithoutSpaceKept(s: string)
    requires forall i :: 0 <= i < |s| ==> s[i] != ' '
    ensures DeleteEmoji(s) == s
  {
    KeysShape();
    NoKeyEndsInside(s, EmojiKeys, ' ');
  }

  /** Text written below U+2000 (Latin, Cyrillic, CSS) holds no key. */
  lemma PlainTextHoldsNoKey(s: string)
    requires forall i :: 0 <= i < |s| ==> s[i] < '\U{2000}'
    ensures DeleteEmoji(s) == s
  {
    KeysShape();
    NoKeyStartsInside(s, EmojiKeys, '\U{2000}');
  }

  const Head := "<head>"
  const TitleClose := "</title>"
  const Stylesheet := "/static/css/main.css"
  /** The closing title tag followed by the link, on its own indented line. */
  const LinkedTitle := TitleClose + "\n    <link rel=\"stylesheet\" href=\"" + Stylesheet + "\">"

  lemma LinkedTitleNamesStylesheet()
    ensures Contains(LinkedTitle, Stylesheet)
  {
    ContainsAt(Stylesheet, Stylesheet, 0);
    ContainsInExtension(TitleClose + "\n    <link rel=\"stylesheet\" href=\"", Stylesheet, "\">", Stylesheet);
  }

  /** The link insertion: every `</title>` gains the link, when the page has a head and no link yet. */
  function InsertLink(s: string): string {
    if Contains(s, Head) && !Contains(s, Stylesheet) then ReplaceAll(s, TitleClose, LinkedTitle) else s
  }

  /** After the insertion the page names the stylesheet exactly when it did before or it has both a head and a title to attach to. */
  lemma InsertLinkNamesStylesheet(s: string)
    ensures Contains(InsertLink(s), Stylesheet) <==> Contains(s, Stylesheet) || (Contains(s, Head) && Contains(s, TitleClose))
  {
    if Contains(s, Head) && !Contains(s, Stylesheet) {
      if Contains(s, TitleClose) {
        ReplaceAllIntroduces(s, TitleClose, LinkedTitle);
        LinkedTitleNamesStylesheet();
        ContainsTransitive(ReplaceAll(s, TitleClose, LinkedTitle), LinkedTitle, Stylesheet);
      } else {
        ReplaceAllAbsent(s, TitleClose, LinkedTitle);
      }
    }
  }

  /** A second insertion adds nothing. */
  lemma InsertLinkIdempotent(s: string)
    ensures InsertLink(InsertLink(s)) == InsertLink(s)
  {
    if Contains(s, Head) && !Contains(s, Stylesheet) {
      if Contains(s, TitleClose) {
        InsertLinkNamesStylesheet(s);
      } else {
        ReplaceAllAbsent(s, TitleClose, LinkedTitle);
      }
    }
  }

  /** The refreshed text: the emoji deleted first, then the link inserted. */
  function Updated(content: string): string {
    InsertLink(DeleteEmoji(content))
  }

  /** `update_template`: the new text when it differs from the old one, nothing to write otherwise. */
  function UpdateTemplate(content: string): (r: Option<string>)
    ensures r.Some? <==> Updated(content) != content
    ensures r.Some? ==> r.value == Updated(content)
  {
    var updated := Updated(content);
    if updated != content then Some(updated) else None
  }

  /**
   * Only emoji and the link are touched: a page in plain text with no title
   * to attach a link to is left alone, border radii and gradients included.
   */
  lemma StylesLeftAlone(content: string)
    requires forall i :: 0 <= i < |content| ==> content[i] < '\U{2000}'
    requires !Contains(content, TitleClose)
    ensures UpdateTemplate(content).None?
  {
    PlainTextHoldsNoKey(content);
    if Contains(content, Head) && !Contains(content, Stylesheet) {
      ReplaceAllAbsent(content, TitleClose, LinkedTitle);
    }
  }

  /** After a refresh, another link pass adds nothing: the link is never inserted twice. */
  lemma UpdateLinksOnce(content: string)
    ensures InsertLink(Updated(content)) == Updated(content)
  {
    var d := DeleteEmoji(content);
    InsertLinkIdempotent(d);
  }
}

=== FILE: upload.dfy ===
/**
 * The spreadsheet upload endpoint: the extension check made before anything
 * is read, and the translation of a processing failure into a message for
 * the user. Saving the upload and running the importer are outside the
 * model: their outcome is a parameter, the result or the text of the
 * exception they raised.
 */
module Upload {
  import opened Wrappers
  import opened PyText

  const IntegerSyntax := "invalid input syntax for type integer"
  const ForeignKey := "foreign key constraint"
  const UniqueConstraint := "unique constraint"
  const DuplicateKey := "duplicate key"
  const NotNull := "not-null constraint"
  const NoSuchFile := "no such file"
  const CannotOpen := "cannot open"

  const RulePrefix := "ОШИБКА: "
  const NumericColumnText := RulePrefix + "В числовую колонку попало текстовое значение. Проверьте колонки с числовыми данными (отрасль, реестр и др.)"
  const IntegrityText := RulePrefix + "Нарушена целостность базы данных"
  const DuplicateInnText := RulePrefix + "Некоторые ИНН уже существуют в базе"
  const MissingFieldText := RulePrefix + "Отсутствует ИНН или Название у одного или нескольких предприятий"
  const UnreadableText := RulePrefix + "Не удалось открыть Excel файл. Убедитесь, что файл не поврежден"
  const FallbackPrefix := "ОШИБКА ОБРАБОТКИ: "
  const ExcerptLength := 200

  /** The message of the first rule that matches; the first rule reads the text as is, the others lower-cased. */
  function Classify(msg: string): (r: string)
    ensures Contains(msg, IntegerSyntax) ==> r == NumericColumnText
    ensures !Contains(msg, IntegerSyntax) && Contains(Lower(msg), ForeignKey) ==> r == IntegrityText
    ensures (!Contains(msg, IntegerSyntax) && !Contains(Lower(msg), ForeignKey)
      && (Contains(Lower(msg), UniqueConstraint) || Contains(Lower(msg), DuplicateKey))) ==> r == DuplicateInnText
    ensures (!Contains(msg, IntegerSyntax) && !Contains(Lower(msg), ForeignKey)
      && !Contains(Lower(msg), UniqueConstraint) && !Contains(Lower(msg), DuplicateKey)
      && Contains(Lower(msg), NotNull)) ==> r == MissingFieldText
    ensures NoRule(msg) ==> r == FallbackPrefix + Take(msg, ExcerptLength)
  {
    var lower := Lower(msg);
    if Contains(msg, IntegerSyntax) then NumericColumnText
    else if Contains(lower, ForeignKey) then IntegrityText
    else if Contains(lower, UniqueConstraint) || Contains(lower, DuplicateKey) then DuplicateInnText
    else if Contains(lower, NotNull) then MissingFieldText
    else if Contains(lower, NoSuchFile) || Contains(lower, CannotOpen) then UnreadableText
    else FallbackPrefix + Take(msg, ExcerptLength)
  }

  /** No rule matches the message. */
  predicate NoRule(msg: string) {
    !Contains(msg, IntegerSyntax)
    && !Contains(Lower(msg), ForeignKey)
    && !Contains(Lower(msg), UniqueConstraint) && !Contains(Lower(msg), DuplicateKey)
    && !Contains(Lower(msg), NotNull)
    && !Contains(Lower(msg), NoSuchFile) && !Contains(Lower(msg), CannotOpen)
  }

  /** The five fixed messages. */
  const RuleTexts: set<string> := {NumericColumnText, IntegrityText, DuplicateInnText, MissingFieldText, UnreadableText}

  /**
   * A message is one of the five fixed texts when a rule matches, and
   * otherwise the fallback prefix with at most 200 characters of the error.
   */
  lemma ClassifyCases(msg: string)
    ensures !NoRule(msg) <==> Classify(msg) in RuleTexts
    ensures NoRule(msg) ==>
      (StartsWith(Classify(msg), FallbackPrefix)
       && |Classify(msg)| <= |FallbackPrefix| + ExcerptLength
       && Classify(msg)[|FallbackPrefix|..] == msg[..|Classify(msg)| - |FallbackPrefix|])
  {
    if NoRule(msg) {
      var r := Classify(msg);
      assert r[..|FallbackPrefix|] == FallbackPrefix;
      FallbackIsNoRuleText(Take(msg, ExcerptLength));
    }
  }

  /** A fallback message is never one of the fixed texts: they differ from it at the seventh character. */
  lemma FallbackIsNoRuleText(excerpt: string)
    ensures FallbackPrefix + excerpt !in RuleTexts
  {
    assert (FallbackPrefix + excerpt)[6] == ' ';
    forall rest: string ensures (RulePrefix + rest)[6] == ':' {
    }
  }

  /** The rules are tried in order: a message naming both a duplicate key and a missing value reports the duplicate. */
  lemma DuplicateBeforeNotNull()
    ensures Classify("duplicate key; not-null constraint") == DuplicateInnText
  {
    var m := "duplicate key; not-null constraint";
    assert Lower(m) == m;
    assert OccursAt(Lower(m), DuplicateKey, 0);
    assert !Contains(Lower(m), ForeignKey) by {
      forall i | 0 <= i <= |m| - |ForeignKey| ensures !OccursAt(m, ForeignKey, i) {
        assert m[i..i + |ForeignKey|][0] == m[i];
      }
    }
  }

  /** Only the integer rule is case-sensitive: an upper-case foreign-key message still matches its rule. */
  lemma ForeignKeyIgnoresCase()
    ensures Classify("FOREIGN KEY CONSTRAINT") == IntegrityText
  {
    var m := "FOREIGN KEY CONSTRAINT";
    assert Lower(m) == ForeignKey;
    assert OccursAt(Lower(m), ForeignKey, 0);
  }

  /** The extensions the endpoint accepts, compared case-sensitively. */
  predicate Accepted(filename: string) {
    EndsWith(filename, ".xlsx") || EndsWith(filename, ".xls")
  }

  /** Why an upload failed: the status and the detail of the `HTTPException`. */
  datatype Failure = Failure(status: nat, detail: string)

  /**
   * `upload_file`: `processed` is what saving and importing the file gave,
   * the importer's result or the text of the exception raised on the way.
   */
  function UploadFile<T>(filename: string, processed: Result<T, string>): (r: Result<T, Failure>)
    ensures !Accepted(filename) ==> r == Err(Failure(400, "Only .xlsx and .xls files are allowed"))
    ensures Accepted(filename) && processed.Ok? ==> r == Ok(processed.value)
    ensures Accepted(filename) && processed.Err? ==> r == Err(Failure(500, Classify(processed.error)))
  {
    if !Accepted(filename) then Err(Failure(400, "Only .xlsx and .xls files are allowed"))
    else
      match processed
      case Ok(result) => Ok(result)
      case Err(message) => Err(Failure(500, Classify(message)))
  }

  /** The extension check comes first: a rejected name is answered the same whatever processing would have done. */
  lemma RejectedBeforeProcessing<T>(filename: string, a: Result<T, string>, b: Result<T, string>)
    requires !Accepted(filename)
    ensures UploadFile(filename, a) == UploadFile(filename, b)
    ensures UploadFile(filename, a).Err? && UploadFile(filename, a).error.status == 400
  {
  }

  /** Upper-case extensions are rejected; a name ending in `.xls` or `.xlsx` is not. */
  lemma ExtensionCase()
    ensures !Accepted("REPORT.XLSX")
    ensures Accepted("report.xlsx") && Accepted("report.xls")
  {
    assert "REPORT.XLSX"[6..] != ".xlsx" by { assert "REPORT.XLSX"[6..][1] == 'X'; }
    assert "REPORT.XLSX"[7..] != ".xls" by { assert "REPORT.XLSX"[7..][0] == 'X'; }
    assert "report.xlsx"[6..] == ".xlsx";
    assert "report.xls"[6..] == ".xls";
  }
}

=== FILE: validation.dfy ===
/**
 * The request bodies the API accepts for organizations and their yearly
 * metrics: the length bounds of each text field, the INN validator, and the
 * numeric bounds of a metrics record. Every field is checked and every
 * failing field reported, in declaration order; a field's own checks stop at
 * its first failure, and the INN validator runs only once the INN's length
 * bounds hold.
 */
module Validation {
  import opened Wrappers
  import opened PyText
  import opened PyNum
  import Schema

  /** Why one field was rejected. */
  datatype Violation =
    | Missing
    | TooShort(min: nat)
    | TooLong(max: nat)
    | Invalid(message: string)
    | Below(bound: int)
    | Above(bound: int)

  datatype FieldName =
    | NameField | InnField | AddressField | IndustryField | SubIndustryField
    | StatusField | EmailField | PhoneField
    | YearField | RevenueField | ExportVolumeField | InvestmentsField
    | PayrollFundField | AverageSalaryField | EmployeesCountField

  datatype FieldError = FieldError(field: FieldName, violation: Violation)

  const NameMin := 1
  const NameMax := 500
  const InnMin := 10
  const InnMax := 12
  const AddressMax := 1000
  const IndustryMax := 200
  const StatusMax := 100
  const EmailMax := 200
  const PhoneMax := 100
  const YearMin := 2000
  const YearMax := 2100

  const DigitsMessage := "INN must contain only digits"
  const LengthMessage := "INN must be 10 or 12 digits long"

  /** `min_length`/`max_length`: at most one violation, the short one first. */
  function Length(s: string, min: nat, max: nat): (r: Option<Violation>)
    ensures r.None? <==> min <= |s| <= max
    ensures r == Some(TooShort(min)) <==> |s| < min
  {
    if |s| < min then Some(TooShort(min))
    else if |s| > max then Some(TooLong(max))
    else None
  }

  /** `str.isdigit()`: non-empty, every character a digit. */
  predicate IsDigitString(v: string) {
    |v| > 0 && AllDigits(v)
  }

  /**
   * `validate_inn`: only digits, and ten or twelve of them; an accepted INN
   * comes back unchanged.
   */
  function ValidateInn(v: string): (r: Result<string, string>)
    ensures r.Ok? <==> AllDigits(v) && (|v| == 10 || |v| == 12)
    ensures r.Ok? ==> r.value == v
    ensures r.Err? ==> (r.error == DigitsMessage <==> !IsDigitString(v))
    ensures r.Err? ==> r.error == DigitsMessage || r.error == LengthMessage
  {
    if !IsDigitString(v) then Err(DigitsMessage)
    else if |v| != 10 && |v| != 12 then Err(LengthMessage)
    else Ok(v)
  }

  /** A field that must be present, with length bounds. */
  function Required(f: FieldName, v: Option<string>, min: nat, max: nat): (r: seq<FieldError>)
    ensures r == [] <==> v.Some? && min <= |v.value| <= max
    ensures |r| <= 1 && forall e :: e in r ==> e.field == f
  {
    match v
    case None => [FieldError(f, Missing)]
    case Some(s) =>
      match Length(s, min, max)
      case Some(x) => [FieldError(f, x)]
      case None => []
  }

  /** An optional field: `None` passes, text must respect the bounds. */
  function Optional(f: FieldName, v: Option<string>, min: nat, max: nat): (r: seq<FieldError>)
    ensures r == [] <==> v.None? || min <= |v.value| <= max
    ensures |r| <= 1 && forall e :: e in r ==> e.field == f
  {
    match v
    case None => []
    case Some(s) =>
      match Length(s, min, max)
      case Some(x) => [FieldError(f, x)]
      case None => []
  }

  /** The INN field: required, 10 to 12 characters, then the validator. */
  function InnErrors(v: Option<string>): (r: seq<FieldError>)
    ensures |r| <= 1 && forall e :: e in r ==> e.field == InnField
  {
    match v
    case None => [FieldError(InnField, Missing)]
    case Some(s) =>
      match Length(s, InnMin, InnMax)
      case Some(x) => [FieldError(InnField, x)]
      case None =>
        match ValidateInn(s)
        case Err(m) => [FieldError(InnField, Invalid(m))]
        case Ok(_) => []
  }

  /** An INN field passes exactly when it is ten or twelve digits. */
  lemma InnAccepted(v: Option<string>)
    ensures InnErrors(v) == [] <==> v.Some? && AllDigits(v.value) && (|v.value| == 10 || |v.value| == 12)
  {
  }

  /** Eleven digits meet the field's length bounds and fail only the validator's length rule. */
  lemma ElevenDigitsRejected(v: string)
    requires |v| == 11 && AllDigits(v)
    ensures Length(v, InnMin, InnMax).None?
    ensures InnErrors(Some(v)) == [FieldError(InnField, Invalid(LengthMessage))]
  {
  }

  /** A letter in a well-sized INN is reported by the validator's digit rule. */
  lemma LetterRejected(v: string, i: nat)
    requires 10 <= |v| <= 12 && i < |v| && !IsAsciiDigit(v[i])
    ensures InnErrors(Some(v)) == [FieldError(InnField, Invalid(DigitsMessage))]
  {
  }

  /** A body creating an organization; `None` is an absent or null field. */
  datatype OrganizationInput = OrganizationInput(
    name: Option<string>,
    inn: Option<string>,
    address: Option<string>,
    industry: Option<string>,
    subIndustry: Option<string>,
    status: Option<string>,
    email: Option<string>,
    phone: Option<string>)

  /** Every field's errors, in declaration order. */
  function CreateErrors(o: OrganizationInput): (r: seq<FieldError>)
    ensures |r| <= 8
  {
    Required(NameField, o.name, NameMin, NameMax)
    + InnErrors(o.inn)
    + Optional(AddressField, o.address, 0, AddressMax)
    + Optional(IndustryField, o.industry, 0, IndustryMax)
    + Optional(SubIndustryField, o.subIndustry, 0, IndustryMax)
    + Optional(StatusField, o.status, 0, StatusMax)
    + Optional(EmailField, o.email, 0, EmailMax)
    + Optional(PhoneField, o.phone, 0, PhoneMax)
  }

  /** What an accepted organization body satisfies. */
  predicate CreateBounds(o: OrganizationInput) {
    o.name.Some? && 1 <= |o.name.value| <= 500
    && o.inn.Some? && AllDigits(o.inn.value) && (|o.inn.value| == 10 || |o.inn.value| == 12)
    && (o.address.None? || |o.address.value| <= 1000)
    && (o.industry.None? || |o.industry.value| <= 200)
    && (o.subIndustry.None? || |o.subIndustry.value| <= 200)
    && (o.status.None? || |o.status.value| <= 100)
    && (o.email.None? || |o.email.value| <= 200)
    && (o.phone.None? || |o.phone.value| <= 100)
  }

  /** A body is accepted exactly when every bound holds. */
  lemma CreateAcceptedIff(o: OrganizationInput)
    ensures CreateErrors(o) == [] <==> CreateBounds(o)
  {
    InnAccepted(o.inn);
  }

  /** An accepted body fits the organization table's name and INN columns. */
  lemma AcceptedFitsColumns(o: OrganizationInput)
    requires CreateErrors(o) == []
    ensures |o.name.value| <= Schema.NameWidth && |o.inn.value| <= Schema.InnWidth
  {
    CreateAcceptedIff(o);
  }

  /** A body updating an organization: every field optional. */
  datatype OrganizationUpdate = OrganizationUpdate(
    name: Option<string>,
    address: Option<string>,
    industry: Option<string>,
    subIndustry: Option<string>,
    status: Option<string>,
    email: Option<string>,
    phone: Option<string>)

  function UpdateErrors(u: OrganizationUpdate): (r: seq<FieldError>)
    ensures |r| <= 7
  {
    Optional(NameField, u.name, NameMin, NameMax)
    + Optional(AddressField, u.address, 0, AddressMax)
    + Optional(IndustryField, u.industry, 0, IndustryMax)
    + Optional(SubIndustryField, u.subIndustry, 0, IndustryMax)
    + Optional(StatusField, u.status, 0, StatusMax)
    + Optional(EmailField, u.email, 0, EmailMax)
    + Optional(PhoneField, u.phone, 0, PhoneMax)
  }

  /**
   * An update is accepted exactly when each present field respects its
   * bound; a present name still needs a character, and an empty body is
   * accepted.
   */
  lemma UpdateAcceptedIff(u: OrganizationUpdate)
    ensures UpdateErrors(u) == [] <==>
      (u.name.None? || 1 <= |u.name.value| <= 500)
      && (u.address.None? || |u.address.value| <= 1000)
      && (u.industry.None? || |u.industry.value| <= 200)
      && (u.subIndustry.None? || |u.subIndustry.value| <= 200)
      && (u.status.None? || |u.status.value| <= 100)
      && (u.email.None? || |u.email.value| <= 200)
      && (u.phone.None? || |u.phone.value| <= 100)
    ensures UpdateErrors(OrganizationUpdate(None, None, None, None, None, None, None)) == []
    ensures UpdateErrors(u.(name := Some(""))) != []
  {
  }

  /** A body with yearly metrics. */
  datatype MetricsInput = MetricsInput(
    year: Option<int>,
    revenue: Option<PyFloat>,
    exportVolume: Option<PyFloat>,
    investments: Option<PyFloat>,
    payrollFund: Option<PyFloat>,
    averageSalary: Option<PyFloat>,
    employeesCount: Option<int>)

  /** `x >= 0` on a float: infinity by its sign, NaN never. */
  predicate AtLeastZero(x: PyFloat) {
    match x
    case Finite(d) => d.mant >= 0
    case Infinity(neg) => !neg
    case NaN => false
  }

  /** An optional amount: `None` passes, a value must be at least zero. */
  function Amount(f: FieldName, v: Option<PyFloat>): (r: seq<FieldError>)
    ensures r == [] <==> v.None? || AtLeastZero(v.value)
    ensures |r| <= 1
  {
    if v.Some? && !AtLeastZero(v.value) then [FieldError(f, Below(0))] else []
  }

  /** The required year, from 2000 to 2100. */
  function YearErrors(y: Option<int>): (r: seq<FieldError>)
    ensures r == [] <==> y.Some? && YearMin <= y.value <= YearMax
    ensures |r| <= 1
  {
    match y
    case None => [FieldError(YearField, Missing)]
    case Some(n) =>
      if n < YearMin then [FieldError(YearField, Below(YearMin))]
      else if n > YearMax then [FieldError(YearField, Above(YearMax))]
      else []
  }

  function MetricsErrors(m: MetricsInput): (r: seq<FieldError>)
    ensures |r| <= 7
  {
    YearErrors(m.year)
    + Amount(RevenueField, m.revenue)
    + Amount(ExportVolumeField, m.exportVolume)
    + Amount(InvestmentsField, m.investments)
    + Amount(PayrollFundField, m.payrollFund)
    + Amount(AverageSalaryField, m.averageSalary)
    + (if m.employeesCount.Some? && m.employeesCount.value < 0 then [FieldError(EmployeesCountField, Below(0))] else [])
  }

  /** A metrics body is accepted exactly when the year is in range and no amount is negative or NaN. */
  lemma MetricsAcceptedIff(m: MetricsInput)
    ensures MetricsErrors(m) == [] <==>
      m.year.Some? && 2000 <= m.year.value <= 2100
      && (m.revenue.None? || AtLeastZero(m.revenue.value))
      && (m.exportVolume.None? || AtLeastZero(m.exportVolume.value))
      && (m.investments.None? || AtLeastZero(m.investments.value))
      && (m.payrollFund.None? || AtLeastZero(m.payrollFund.value))
      && (m.averageSalary.None? || AtLeastZero(m.averageSalary.value))
      && (m.employeesCount.None? || m.employeesCount.value >= 0)
  {
  }

  /** Positive infinity passes the bound, NaN and negative values do not. */
  lemma AmountEdges()
    ensures Amount(RevenueField, Some(Infinity(false))) == []
    ensures Amount(RevenueField, Some(NaN)) != []
    ensures Amount(RevenueField, Some(Finite(Decimal(-1, 0)))) != []
    ensures Amount(RevenueField, Some(Finite(Decimal(0, 0)))) == []
  {
  }
}

=== FILE: wrappers.dfy ===
/** Failure-compatible optional and result types shared by every module. */
module Wrappers {

  /** A value that may be absent: Python's `None` versus a typed value. */
  datatype Option<+T> = None | Some(value: T) {
    predicate IsFailure() { None? }

    function PropagateFailure<U>(): Option<U>
      requires None?
    {
      None
    }

    function Extract(): T
      requires Some?
    {
      value
    }

    function GetOr(default: T): T {
      match this
      case Some(v) => v
      case None => default
    }
  }

  /** The outcome of an operation that can raise: a value, or the error it raised. */
  datatype Result<+R, +E> = Ok(value: R) | Err(error: E) {
    predicate IsFailure() { Err? }

    function PropagateFailure<U>(): Result<U, E>
      requires Err?
    {
      Err(error)
    }

    function Extract(): R
      requires Ok?
    {
      value
    }
  }
}
